=== FILE: README.md ===
# moar-sugar in Dafny

A model of the core of moar-sugar, a Java toolkit of "sugar" helpers, with
proofs about it. Its centre is the `moar.awake` row-mapping layer: a row
interface is backed by a proxy that keeps the values loaded from the
database (the baseline) and the values the program has set since (the
current map). Repositories and sessions turn such rows into the text of
SELECT, INSERT, UPSERT, UPDATE and DELETE statements and bind their
parameters. Around that layer the model covers:

- the SQL script reader of the migration driver;
- the retry, `require` and `has` helpers of `Sugar` and `Exceptional`;
- the string, address, property, mapper and thread-statistics utilities;
- the polyline decoder and bounding box of the geo service;
- the URI label, the WS-Security SOAP envelope, and the `moar-json`
  command-line rewriter.

Each Dafny module follows one part of the program:

| module | file | models |
|---|---|---|
| `JavaLang`, `JString` | javalang.dfy, jstring.dfy | nullable references, the exceptions the library raises, `long` wrap-around and truncating division, and the `java.lang.String` operations it uses |
| `Naming`, `Sorting` | naming.dfy, sorting.dfy | the camelCase / snake_case conversions of the row proxy, and the `String.compareTo` order with the sort the proxy applies |
| `RowProxy` | proxy.dfy | `WokePrivateProxy`: the row schema, the baseline and current maps, columns, dirtiness and table names |
| `SqlText` | sqltext.dfy | `buildColumnsSql`, `expandColumnSplat`, `mapResultRow`, the session's `buildSql` and the result-row getter |
| `InsertStatement` | insert.dfy | the INSERT / UPSERT text, bind order, generated keys and error mapping |
| `Repository` | repository.dfy | the insert reentrancy guard and pending key, find SQL, the iterator's table dispatch and cursor cleanup |
| `Session`, `TxSession` | session.dfy, txsession.dfy | `WokeSessionBase` update / delete / reset and `WokeMappableRow.get`; `WokeTxSession` and `runWokeTransaction` |
| `Cursors` | cursors.dfy | the `use` / `wake` list collectors, `use(Class)` and `findOrDefine` |
| `StatementReader` | statementreader.dfy | the driver's script preprocessing and `readStatement` |
| `Sugar`, `Exceptional` | sugar.dfy | the control-flow helpers of `moar.sugar.Sugar` and `moar.Exceptional` |
| `StringUtil`, `UsPostal`, `PropertyAccess`, `ValueMapper`, `ThreadTracking` | stringutil.dfy, postal.dfy, propertyaccessor.dfy, mapper.dfy, tracker.dfy | `MoarStringUtil`, `UsPostalAddress`, `PropertyAccessor`, `Mapper`, and the thread tracker, activity and report |
| `Polyline`, `UriUtil`, `Wsse`, `MoarJson` | polyline.dfy, uriutil.dfy, wsse.dfy, moarjson.dfy | `GeoServiceC`, `UriUtil`, `WsseRequest` and `cli/moar-json.js` |

How the program's runtime is represented:

- A Java call that can throw yields an `Outcome` (a value or an exception).
- JDBC is not executed. Every statement becomes a trace of its SQL text and
  bound parameters. Affected-row counts, result rows and driver failures
  come from an oracle the caller passes in.
- The order in which a hash map enumerates its keys is an explicit
  parameter, and the properties say what does not depend on it.
- Reflection and dynamic proxies become an explicit row schema: the
  interface's simple name, its method names and its identity kind.

`Waker.java` repeats the builders of `WokeRepository.java` almost line by
line. The rows below cite `WokeRepository.java`. The one difference in
the modelled behaviour is when generated keys are read back: at
src/main/java/moar/awake/Waker.java:313 an upsert of any row with an
identity reads them, while `WokeRepository` does so only for an
auto-increment identity. `InsertStatement.GeneratedKeyFlavours` states both
rules.

Where the documentation and the code disagree, the model follows the code.
`MoarStringUtil.replaceChars` is documented as replacing the characters the
matcher rejects with a blank. The code instead drops them and never writes
the replacement, so `cleanWithOnly` and `cleanWithOnlyAscii` return the
accepted characters alone. "## Findings" records this, and the documented
behaviour is modelled beside it (`StringUtil.ReplaceCharsIntended`).

## Model

| member | source | states |
|---|---|---|
| `Cursors.Cap` | src/main/java/moar/awake/InterfaceUtil.java:66 | the size check follows the first add, so at least one row is taken and otherwise as many as the limit |
| `Cursors.Leading` | src/main/java/moar/awake/InterfaceUtil.java:64-65 | the rows before the cursor's first failure, in cursor order |
| `Cursors.Use` | src/main/java/moar/awake/InterfaceUtil.java:62-71 | `use(iter, limit)` yields the first rows in cursor order, stopping once the size reaches the limit; a failing `next` or `get` fails the call |
| `Cursors.EmptyCursor` | src/main/java/moar/awake/WakeUtil.java:37-46 | an iterator with no rows yields an empty list |
| `Cursors.SmallLimitTakesOne` | src/main/java/moar/awake/InterfaceUtil.java:62-71 | with a limit of one or less, a cursor with a row yields exactly that first row |
| `Cursors.DrainedMonotone` | src/main/java/moar/awake/Waker.java:211-220 | raising the limit only ever lengthens the list, which keeps its front |
| `Cursors.UseAll` | src/main/java/moar/awake/WakeUtil.java:29-35 | `use(iter)` drains without a practical limit and then closes the cursor; a failing close replaces the result |
| `Cursors.DrainsShortCursor` | src/main/java/moar/awake/InterfaceUtil.java:62-71 | a cursor without failures shorter than the limit is drained completely |
| `Cursors.UseClass` | src/main/java/moar/awake/WakeUtil.java:17-23 | `use(clz[, tableName])` yields a repository carrying exactly that interface and table-name override |
| `Cursors.RepoTable` | src/main/java/moar/awake/WakeUtil.java:21-23 | the repository's statements name the override when given and otherwise the name derived from the interface |
| `Cursors.FindOrDefine` | src/main/java/moar/awake/InterfaceUtil.java:29-36 | a null id fails the `require` of `id(Long)` |
| `Cursors.FindOrDefineResult` | src/main/java/moar/awake/InterfaceUtil.java:29-36 | the query is asked for a blank row carrying just the id; the first row found is returned, a new row when none is found, and a failing query as a runtime exception |
| `Polyline.Group` | src/main/java/moar/geo/GeoServiceC.java:44-49 | a group read from an index ends after it and within the text; running off the end is an index-out-of-bounds failure |
| `Polyline.ReadValue` | src/main/java/moar/geo/GeoServiceC.java:44-49 | the chunk loop with its running shift gives the group's value and the index after it |
| `Polyline.DecodeFrom` | src/main/java/moar/geo/GeoServiceC.java:43-68 | decoding fails only by running off the end of the text |
| `Polyline.DecodePoly` | src/main/java/moar/geo/GeoServiceC.java:38-71 | the decoder's loop yields what the recursive reading of latitude and longitude groups yields; an empty text yields no points |
| `Polyline.DecodeOne` | src/main/java/moar/geo/GeoServiceC.java:43-67 | one pass of the outer loop adds the two zigzag-decoded deltas to the running sums and emits that point |
| `Polyline.ZigZagRoundTrip` | src/main/java/moar/geo/GeoServiceC.java:50 | the zigzag decoding `(r & 1) != 0 ? ~(r >> 1) : r >> 1` undoes the zigzag encoding of every integer |
| `Polyline.GroupOfChunks` | src/main/java/moar/geo/GeoServiceC.java:44-49 | the five-bit chunks of a value, continuation bits set on all but the last, read back as that value |
| `Polyline.DecodeEncoded` | src/main/java/moar/geo/GeoServiceC.java:38-71 | decoding the encoding of any list of points, delta by delta, gives back that list |
| `Polyline.HalfPairFails` | src/main/java/moar/geo/GeoServiceC.java:53-59 | a text that ends after a latitude fails when the longitude is read |
| `Polyline.NorthEast` | src/main/java/moar/geo/GeoServiceC.java:129-134 | each coordinate is the larger of the two |
| `Polyline.SouthWest` | src/main/java/moar/geo/GeoServiceC.java:149-154 | each coordinate is the smaller of the two |
| `Polyline.GetBounds` | src/main/java/moar/geo/GeoServiceC.java:119-127 | fails exactly on an empty list, with index-out-of-bounds |
| `Polyline.FoldBounds` | src/main/java/moar/geo/GeoServiceC.java:122-125 | the folded box only grows, holds every point, and each side comes from the start or from a point |
| `Polyline.BoundsEnclose` | src/main/java/moar/geo/GeoServiceC.java:119-127 | the bounds of a non-empty list hold every point and each side touches one: the smallest enclosing box |
| `UriUtil.HostPart` | src/main/java/moar/UriUtil.java:12-16 | succeeds exactly when the host has a dot; the part kept has no dot |
| `UriUtil.PathTail` | src/main/java/moar/UriUtil.java:17 | succeeds exactly when the path has a slash; the tail starts with the last slash, has no other, and ends the path |
| `UriUtil.ShortUriDesc` | src/main/java/moar/UriUtil.java:9-18 | a null host or path fails with a `NullPointerException`, a host without a dot or a path without a slash fails with index-out-of-bounds; otherwise the host part followed by the path's tail |
| `UriUtil.LastAfter` | src/main/java/moar/UriUtil.java:12-17 | the last occurrence of a character is the one followed by a part without it |
| `UriUtil.HostOfLabels` | src/main/java/moar/UriUtil.java:12-16 | a host with two or more dots gives its second-last label |
| `UriUtil.HostOfOneDot` | src/main/java/moar/UriUtil.java:12-16 | a host with a single dot gives the label before it |
| `UriUtil.TailOfSegments` | src/main/java/moar/UriUtil.java:17 | the tail of a path is its last segment with the slash in front |
| `UriUtil.LabelAndSegment` | src/main/java/moar/UriUtil.java:9-18 | the description is the host's second-last label followed by a slash and the path's last segment |
| `UriUtil.Joined` | src/main/java/moar/UriUtil.java:9-18 | the description joins the host part and the path tail |
| `UriUtil.Example` | src/main/java/moar/UriUtil.java:9-18 | an illustration of LabelAndSegment: host `a.b.com` with path `/x/y` is described as `b/y` |
| `InsertStatement.AssignmentTextIsJoin` | src/main/java/moar/awake/WokeRepository.java:323-329 | the upsert's assignment loop writes `col=?` per column joined by newline-comma-space, with one more separator in front after the identity's assignment |
| `InsertStatement.CountPlaceholders` | src/main/java/moar/awake/WokeRepository.java:305-313 | the VALUES list has one placeholder for the identity when there is one, and one per column but never fewer than one |
| `InsertStatement.CountAssignments` | src/main/java/moar/awake/WokeRepository.java:323-329 | the assignment loop writes one placeholder per column |
| `InsertStatement.CountInsertText` | src/main/java/moar/awake/WokeRepository.java:300-313 | the insert part of the statement holds the identity's placeholder plus one per column, at least one |
| `InsertStatement.CountUpsertClause` | src/main/java/moar/awake/WokeRepository.java:314-330 | the `on duplicate key update` clause holds one placeholder per column |
| `InsertStatement.InsertSql` | src/main/java/moar/awake/WokeRepository.java:300-330 | the insert statement, followed for an upsert by the `on duplicate key update` clause; CountInsertSql and ParamsMatchPlaceholders state that each of its placeholders gets one bound value |
| `InsertStatement.CountInsertSql` | src/main/java/moar/awake/WokeRepository.java:300-330 | a statement has one placeholder per value bound, and one too many when the row has no columns |
| `InsertStatement.DbValues` | src/main/java/moar/awake/WokeRepository.java:643-645 | the values bound for the columns are their `getDbValue`s, in column order |
| `InsertStatement.InsertParams` | src/main/java/moar/awake/WokeRepository.java:632-651 | `setObjects` binds as many values as the statement names target columns |
| `InsertStatement.ParamBindsTarget` | src/main/java/moar/awake/WokeRepository.java:632-651 | each bound value belongs to the column its placeholder stands for: the identity from the column map, every other column through `getDbValue` |
| `InsertStatement.IdParamIsIdValue` | src/main/java/moar/awake/WokeRepository.java:638-642 | the identity bound from the column map under the quoted `id` is the row's own identity value |
| `InsertStatement.ColumnsFree` | src/main/java/moar/awake/WokeRepository.java:296 | the column names of a row interface with plain names hold no `?` |
| `InsertStatement.TableOf` | src/main/java/moar/awake/WokeRepository.java:299 | the repository's own table name wins over the proxy's; without either the name is derived from the interface |
| `InsertStatement.TableFree` | src/main/java/moar/awake/WokeRepository.java:299 | the table named holds no `?` when the override holds none and the names are plain |
| `InsertStatement.ParamsMatchPlaceholders` | src/main/java/moar/awake/WokeRepository.java:292-336 | for a row with at least one column, every placeholder gets exactly one bound value |
| `InsertStatement.GeneratedKeyFlavours` | src/main/java/moar/awake/Waker.java:313 | `Waker` reads generated keys back for every identity upsert, the repository only for auto-increment ones; they differ exactly for the other identity kinds |
| `InsertStatement.InsertFailure` | src/main/java/moar/awake/WokeRepository.java:351-357 | every failure is reported as a runtime exception |
| `InsertStatement.OnlyRollbackRetried` | src/main/java/moar/awake/WokeRepository.java:351-357 | exactly a transaction rollback is reported as retryable, and exactly a syntax error as "bad sql syntax on upsert" |
| `InsertStatement.Entries` | src/main/java/moar/awake/WokeRepository.java:346-347 | `set(map)` is fed the column map's entries in its iteration order |
| `InsertStatement.Execute` | src/main/java/moar/awake/WokeRepository.java:339-357 | a failing update fails with its reported failure; without a key to read the row comes back unchanged |
| `InsertStatement.CountSwallowed` | src/main/java/moar/awake/WokeRepository.java:340-341 | the affected-row count never changes the outcome |
| `InsertStatement.GeneratedKeyStored` | src/main/java/moar/awake/WokeRepository.java:342-349 | a generated key read back becomes the row's identity, and the row is clean afterwards |
| `ValueMapper.DefineMapper` | src/main/java/moar/sugar/Mapper.java:17-19 | a new mapper reads the given map and holds no value |
| `ValueMapper.Change` | src/main/java/moar/sugar/Mapper.java:43-55 | the value becomes `to` exactly when it equals `from`, null matching null; the map is untouched |
| `ValueMapper.ChangeIdempotent` | src/main/java/moar/sugar/Mapper.java:43-55 | applying the same change twice is applying it once |
| `ValueMapper.Lookup` | src/main/java/moar/sugar/Mapper.java:59 | an entry is found exactly when the key is in the map, and it is the map's value |
| `ValueMapper.Copy` | src/main/java/moar/sugar/Mapper.java:57-61 | the receiver and the returned mapper agree; the value is the key's entry, or null when the key is absent |
| `ValueMapper.DateApply` | src/main/java/moar/sugar/Mapper.java:63-67 | the function's failure is the call's failure; otherwise the value is the date the function gives, or null |
| `ValueMapper.AddHours` | src/main/java/moar/sugar/Mapper.java:30-36 | succeeds exactly when the value is null or a date; anything else fails the cast |
| `ValueMapper.AddHoursCompose` | src/main/java/moar/sugar/Mapper.java:30-36 | shifting by a then by b hours is shifting by a + b, and shifting by zero changes nothing |
| `ValueMapper.AsText` | src/main/java/moar/sugar/Mapper.java:84 | the string cast fails exactly on a non-string value and otherwise gives the value's text or null |
| `ValueMapper.StringApply` | src/main/java/moar/sugar/Mapper.java:82-86 | a non-string value fails the cast; otherwise the function sees the text or null and its result becomes the value |
| `ValueMapper.CaseKeepsWhitespace` | src/main/java/moar/sugar/Mapper.java:38-41 | case conversion leaves whitespace alone and never creates or removes it |
| `ValueMapper.CapitalizeFully` | src/main/java/moar/sugar/Mapper.java:38-41 | null stays null; otherwise each word's first letter is upper-cased and every other letter lower-cased |
| `ValueMapper.CapitalizeStep` | src/main/java/moar/sugar/Mapper.java:38-41 | one step of the walk: after whitespace the next character is title-cased, elsewhere it stays lower-cased |
| `ValueMapper.CapitalizedIdempotent` | src/main/java/moar/sugar/Mapper.java:38-41 | capitalizing a capitalized text changes nothing |
| `ValueMapper.CapitalizeValue` | src/main/java/moar/sugar/Mapper.java:38-41 | a non-string value fails the cast, null is kept, and a text is replaced by its capitalized form |
| `ValueMapper.SimpleDateFormat` | src/main/java/moar/sugar/Mapper.java:69-80 | the value becomes a date exactly when it was a non-empty text the parser accepts; every other outcome is null |
| `ValueMapper.SimpleDateFormatTwice` | src/main/java/moar/sugar/Mapper.java:69-80 | parsing an already parsed value gives null, since a date is not a string |
| `ValueMapper.RunKeepsMap` | src/main/java/moar/sugar/Mapper.java:94-97 | no pipeline of mapper steps changes the map, and one ending in a copy holds that key's entry |
| `ValueMapper.To` | src/main/java/moar/sugar/Mapper.java:88-92 | `to(consumer)` hands the consumer the current value unchecked; Copy, Change and the other steps state what that value is |
| `ValueMapper.GetMap` | src/main/java/moar/sugar/Mapper.java:94-97 | the map the mapper reads; RunKeepsMap states that no pipeline of steps changes it |
| `Naming.LowerCamel` | src/main/java/moar/awake/WokePrivateProxy.java:124 | UPPER_CAMEL to LOWER_CAMEL lower-cases the first character only and keeps the length and the rest |
| `Naming.SnakeTail` | src/main/java/moar/awake/WokePrivateProxy.java:29 | after the first character every capital becomes `_` plus its lower-case form: no capital is left and the text grows by one character per capital |
| `Naming.Snake` | src/main/java/moar/awake/WokePrivateProxy.java:28-30 | the LOWER_UNDERSCORE form has no capital, is empty exactly when the name is, and starts with the name's first character lower-cased |
| `Naming.PropertyName` | src/main/java/moar/awake/WokePrivateProxy.java:120-125 | a `get`/`set` prefix is dropped (three characters shorter), any other name keeps its length, and the property never starts with a capital |
| `Naming.QuotedIsNotId` | src/main/java/moar/awake/WokePrivateProxy.java:28-30 | a column name carries the quote at both ends, so it is never the bare word `id` |
| `Naming.CamelLoop` | src/main/java/moar/awake/WokePrivateProxy.java:44-61 | the `fromDbName` character loop drops every underscore and every quote and never lengthens the key |
| `Naming.ColumnRoundTrip` | src/main/java/moar/awake/WokePrivateProxy.java:42-66 | `fromDbName(toDbName(p))` gives back every property name without underscores or quote characters, for a quote that is not a letter or `_` |
| `Naming.SnakeTailOfCamelLoop` | src/main/java/moar/awake/WokePrivateProxy.java:47-61 | on a body without capitals or quotes whose every `_` precedes a lower-case letter, re-snaking the camel loop's output gives the body back |
| `Naming.PropertyRoundTrip` | src/main/java/moar/awake/WokePrivateProxy.java:28-30 | `toDbName(fromDbName(column))` gives back every well-formed quoted snake_case column |
| `Naming.NotAccessorName` | src/main/java/moar/awake/WokePrivateProxy.java:121 | a name that does not open with a lower-case letter never has the `get`/`set` prefix |
| `Naming.CamelLoopDropsQuote` | src/main/java/moar/awake/WokePrivateProxy.java:48-49 | a trailing quote character contributes nothing to the property name |
| `Naming.SnakeIsIdOnlyForId` | src/main/java/moar/awake/WokePrivateProxy.java:103-106 | the snake form of a property is `id` exactly when the property is `id`, so only the identity property maps to the identity column |
| `Sorting.LessIsUnitOrder` | src/main/java/moar/awake/WokePrivateProxy.java:90 | the order used for sorting is exactly `compareTo`'s order: lexicographic on the UTF-16 code units of the two strings, a proper prefix first, so a supplementary character sorts between the high surrogates and U+E000 |
| `Sorting.UnitLessFirst` | src/main/java/moar/awake/WokePrivateProxy.java:90 | two different characters compare by their UTF-16 encodings as by their code-unit rank, whatever text follows them |
| `Sorting.UnitLessPrefix` | src/main/java/moar/awake/WokePrivateProxy.java:90 | a shared leading run of code units does not decide `compareTo` |
| `Sorting.Utf16` | src/main/java/moar/awake/WokePrivateProxy.java:90 | a character below U+10000 is one code unit outside the surrogate range; any other is a high surrogate and a low surrogate that decode back to it |
| `Sorting.LessTransitive` | src/main/java/moar/awake/WokePrivateProxy.java:90 | the `compareTo` order on strings is transitive |
| `Sorting.LessTotal` | src/main/java/moar/awake/WokePrivateProxy.java:90 | any two different strings are ordered one way or the other |
| `Sorting.Insert` | src/main/java/moar/awake/WokePrivateProxy.java:84-86 | adding a column to a sorted list without repeats keeps it sorted without repeats and adds exactly that column |
| `Sorting.SortStrings` | src/main/java/moar/awake/WokePrivateProxy.java:90 | the sorted list is strictly ascending and holds exactly the input's elements |
| `Sorting.Dedupe` | src/main/java/moar/awake/WokePrivateProxy.java:84 | the `contains` test keeps each element once and loses none |
| `Sorting.StrictlySortedUnique` | src/main/java/moar/awake/WokePrivateProxy.java:90 | two strictly ascending lists with the same elements are equal, so the sorted column list does not depend on method order |
| `JavaLang.AsRuntime` | src/main/java/moar/Exceptional.java:38-43 | a runtime exception passes through unchanged; anything else is wrapped in a `RuntimeException` whose cause it is |
| `UsPostal.IsOneOfMembership` | src/main/java/moar/sugar/UsPostalAddress.java:6-11 | the loop answers true exactly when one of the words equals the state ignoring case |
| `UsPostal.TwoWordStateMembership` | src/main/java/moar/sugar/UsPostalAddress.java:4-12 | a state is a two-word state exactly when it equals, ignoring case, one of Carolina, Dakota, Hampshire, Island, Jersey, Mexico, Virginia, York |
| `UsPostal.ZipLength` | src/main/java/moar/sugar/UsPostalAddress.java:23 | the text ends in a five-digit or ZIP+4 code of that length, or no suffix is such a code |
| `UsPostal.Line1Step` | src/main/java/moar/sugar/UsPostalAddress.java:30-36 | without a street number nothing is consumed; the text left is one line; the corrected step never fails |
| `UsPostal.StreetLineThenRest` | src/main/java/moar/sugar/UsPostalAddress.java:30-36 | with a comma after the street line, line 1 is the text before the comma and parsing stops or goes on with the trimmed rest |
| `UsPostal.CodeTail` | src/main/java/moar/sugar/UsPostalAddress.java:40-45 | after a state code the city is the text before the code's spaces, commas removed and trimmed, and line 1 is kept |
| `UsPostal.StateAndZip` | src/main/java/moar/sugar/UsPostalAddress.java:67-80 | the state, when set, is one non-empty word without spaces; line 1 and city are kept; a ZIP is set only with a state |
| `UsPostal.TwoWord` | src/main/java/moar/sugar/UsPostalAddress.java:52-63 | a state that is not a two-word state is kept with the text unchanged |
| `UsPostal.VirginiaNeedsWest` | src/main/java/moar/sugar/UsPostalAddress.java:52-63 | a two-word state absorbs the word before it exactly when it is not Virginia or that word is West |
| `UsPostal.ZipTail` | src/main/java/moar/sugar/UsPostalAddress.java:46-66 | a trailing ZIP with no code: the ZIP is the trimmed text after the last space, and state and city are both set |
| `UsPostal.ParseRest` | src/main/java/moar/sugar/UsPostalAddress.java:38-80 | the rest of the parse never touches line 1 |
| `UsPostal.ParseWith` | src/main/java/moar/sugar/UsPostalAddress.java:20-81 | a bare ZIP sets only the ZIP; otherwise line 1 is set exactly when the text starts with optional digits and a space |
| `UsPostal.ParseAsWritten` | src/main/java/moar/sugar/UsPostalAddress.java:20-81 | the constructor as written; StreetLineWithoutComma and MainStreetAlone state that a street line without a comma fails with index-out-of-bounds |
| `UsPostal.Parse` | src/main/java/moar/sugar/UsPostalAddress.java:20-81 | the constructor with line 1 allowed to be the whole text; MainStreetAlone and CityCodeZip give its results, and ParseRest states that nothing after line 1 changes it |
| `UsPostal.StreetLineWithoutComma` | src/main/java/moar/sugar/UsPostalAddress.java:30-32 | a street line with no comma throws index-out-of-bounds as written; corrected it becomes line 1 alone |
| `UsPostal.MainStreetAlone` | src/main/java/moar/sugar/UsPostalAddress.java:30-32 | `123 Main St` fails as written and parses to line 1 `123 Main St` corrected |
| `UsPostal.NoCodeNoZip` | src/main/java/moar/sugar/UsPostalAddress.java:40-67 | a text without a street number ending in neither a digit nor a capital has no city when its length is taken and fails with a `NullPointerException` |
| `UsPostal.CityCodeZip` | src/main/java/moar/sugar/UsPostalAddress.java:38-80 | `city CC 12345` parses to exactly that city, state code and ZIP |
| `PropertyAccess.WithFetch` | src/main/java/moar/sugar/PropertyAccessor.java:35-38 | the accessor keeps the base name and the fetch function it was given |
| `PropertyAccess.ForBase` | src/main/java/moar/sugar/PropertyAccessor.java:31-33 | a base name alone gives an accessor whose fetch finds nothing |
| `PropertyAccess.Plain` | src/main/java/moar/sugar/PropertyAccessor.java:19-21 | the no-argument accessor has the empty base name and a fetch that finds nothing |
| `PropertyAccess.ForClass` | src/main/java/moar/sugar/PropertyAccessor.java:23-29 | the base name is the class name; the fetch is the given one, or one that finds nothing |
| `PropertyAccess.Key` | src/main/java/moar/sugar/PropertyAccessor.java:77 | the key is the base name, a dot, and the property name |
| `PropertyAccess.EnvName` | src/main/java/moar/sugar/PropertyAccessor.java:56-58 | the environment name has the key's length, no dot, every dot an underscore and every other character upper-cased |
| `PropertyAccess.GetString` | src/main/java/moar/sugar/PropertyAccessor.java:76-92 | a present default always yields a value |
| `PropertyAccess.GetStringOrNull` | src/main/java/moar/sugar/PropertyAccessor.java:72-74 | without a default a value comes only from the system property, the fetch or the environment |
| `PropertyAccess.GetStringPrecedence` | src/main/java/moar/sugar/PropertyAccessor.java:76-92 | the answer is the first present among the system property, the fetched value, the environment value and the default, in that order |
| `PropertyAccess.DefaultWhenUnset` | src/main/java/moar/sugar/PropertyAccessor.java:76-92 | with no property and no environment value, the plain accessor answers the default |
| `PropertyAccess.BooleanRoundTrip` | src/main/java/moar/sugar/PropertyAccessor.java:40-42 | a printed boolean parses back to itself |
| `PropertyAccess.BooleanDefault` | src/main/java/moar/sugar/PropertyAccessor.java:40-42 | a boolean set nowhere is its default |
| `PropertyAccess.GetBoolean` | src/main/java/moar/sugar/PropertyAccessor.java:40-42 | `getBoolean` parses the string setting with the default printed as its fallback; BooleanDefault and BooleanRoundTrip state that a boolean set nowhere is its default |
| `PropertyAccess.Decimal` | src/main/java/moar/sugar/PropertyAccessor.java:60-70 | the printed digits of a number are non-empty decimal digits with no leading zero |
| `PropertyAccess.ParseIntegral` | src/main/java/moar/sugar/PropertyAccessor.java:60-70 | a parsed number lies in the type's range; any failure is a number-format exception |
| `PropertyAccess.DecimalValue` | src/main/java/moar/sugar/PropertyAccessor.java:60-70 | the printed digits of a number read back as that number |
| `PropertyAccess.IntegerRoundTrip` | src/main/java/moar/sugar/PropertyAccessor.java:60-70 | printing a number in range and parsing it back gives the number |
| `PropertyAccess.ParseDigits` | src/main/java/moar/sugar/PropertyAccessor.java:60-70 | a digit string in range parses to its value, and with a minus sign to its negation |
| `PropertyAccess.NumericDefault` | src/main/java/moar/sugar/PropertyAccessor.java:60-70 | an integer or long set nowhere is its default when the default is in range |
| `PropertyAccess.GetInteger` | src/main/java/moar/sugar/PropertyAccessor.java:60-62 | `getInteger` parses the string setting within the int range; NumericDefault and PropertyOverridesDefault state the default and the override |
| `PropertyAccess.GetLong` | src/main/java/moar/sugar/PropertyAccessor.java:64-70 | `getLong` parses the string setting within the long range, an int default widened first; NumericDefault and PropertyOverridesDefault state the default and the override |
| `PropertyAccess.PropertyOverridesDefault` | src/main/java/moar/sugar/PropertyAccessor.java:60-92 | a system property holding a number overrides any default for both the integer and the long getter |
| `RowProxy.NewProxy` | src/main/java/moar/awake/WokePrivateProxy.java:32-40 | a fresh proxy has two empty maps, the backquote as quote string and no table name |
| `RowProxy.ColumnList` | src/main/java/moar/awake/WokePrivateProxy.java:79-89 | a column is listed exactly when some getter or setter selected by `includeId` maps to it |
| `RowProxy.GetColumns` | src/main/java/moar/awake/WokePrivateProxy.java:77-92 | the columns are strictly ascending and are exactly the quoted snake_case names of the selected accessors |
| `RowProxy.IdColumnListed` | src/main/java/moar/awake/WokePrivateProxy.java:82 | the identity column is listed if and only if `includeId` holds and the interface has an `id` accessor |
| `RowProxy.ColumnIsIdOnlyForId` | src/main/java/moar/awake/WokePrivateProxy.java:82-83 | only an accessor of the `id` property contributes the identity column |
| `RowProxy.DeclaredIdListedIffIncluded` | src/main/java/moar/awake/WokePrivateProxy.java:77-92 | for an interface that declares the identity, `id` is among the columns exactly when they are asked for with it |
| `RowProxy.DbValue` | src/main/java/moar/awake/WokePrivateProxy.java:97-100 | a `Date` is handed to JDBC as a `Timestamp` of the same instant; every other value as it is |
| `RowProxy.GetDbValue` | src/main/java/moar/awake/WokePrivateProxy.java:94-101 | the column's value is null exactly when its property has no current value; otherwise it is that value converted for JDBC |
| `RowProxy.DbValueOfColumn` | src/main/java/moar/awake/WokePrivateProxy.java:94-96 | the column of a property yields that property's current value |
| `RowProxy.IdColumn` | src/main/java/moar/awake/WokePrivateProxy.java:103-106 | the identity column is the column name of the `id` property under the current quote |
| `RowProxy.IsDbDirty` | src/main/java/moar/awake/WokePrivateProxy.java:224-235 | the reference test, the null test and the current value's `equals`; DbDirtyIsDifference and JavaEqualsCases state when a column is dirty |
| `RowProxy.DbDirtyIsDifference` | src/main/java/moar/awake/WokePrivateProxy.java:224-235 | the reference test, the null test and the current value's `equals` make a column dirty exactly when its current and loaded values differ, except that a current `Date` is clean against a loaded `Timestamp` with the same milliseconds |
| `RowProxy.JavaEqualsCases` | src/main/java/moar/awake/WokePrivateProxy.java:232 | `equals` is value equality, except that a `Date` equals a `Timestamp` of the same milliseconds while the `Timestamp` does not equal the `Date` |
| `RowProxy.AnyDirty` | src/main/java/moar/awake/WokePrivateProxy.java:239-244 | the scan answers true exactly when some listed column is dirty |
| `RowProxy.IsDirty` | src/main/java/moar/awake/WokePrivateProxy.java:237-245 | a row is dirty exactly when some column, the identity included, is dirty |
| `RowProxy.CleanWhenSynced` | src/main/java/moar/awake/WokePrivateProxy.java:224-245 | a row whose current map equals its loaded map is not dirty |
| `RowProxy.Reset` | src/main/java/moar/awake/WokePrivateProxy.java:251-256 | after `reset()` the current values are the loaded ones, nothing else changes, and the row is not dirty |
| `RowProxy.SetLoopKeepsAgreement` | src/main/java/moar/awake/WokePrivateProxy.java:261-270 | every loaded entry is also a current entry with the same value, through every step of the loop |
| `RowProxy.SetLoopSyncs` | src/main/java/moar/awake/WokePrivateProxy.java:261-270 | from equal maps, a row without nulls leaves the two maps equal |
| `RowProxy.Set` | src/main/java/moar/awake/WokePrivateProxy.java:258-271 | `set(dbMap)` keeps class, quote and table name, and leaves every loaded value also current |
| `RowProxy.SetLeavesClean` | src/main/java/moar/awake/WokePrivateProxy.java:258-271 | after loading a row without nulls the two maps are equal and the row is not dirty |
| `RowProxy.SetStoresColumn` | src/main/java/moar/awake/WokePrivateProxy.java:262-268 | a non-null column value is found under its property afterwards unless a later column maps to the same property |
| `RowProxy.SetLoopPreservesUntouched` | src/main/java/moar/awake/WokePrivateProxy.java:261-270 | a property no column maps to keeps its current value |
| `RowProxy.SetPropertyAsWritten` | src/main/java/moar/awake/WokePrivateProxy.java:277-283 | a value is stored under the property name; a null removes the raw setter name, which is never a key |
| `RowProxy.NullSetKeepsValue` | src/main/java/moar/awake/WokePrivateProxy.java:278-279 | `setName(null)` on a row holding `Rex` leaves `getName()` answering `Rex` |
| `RowProxy.SetProperty` | src/main/java/moar/awake/WokePrivateProxy.java:277-283 | with a null clearing the property, every other property keeps its value and nothing else changes |
| `RowProxy.GetProperty` | src/main/java/moar/awake/WokePrivateProxy.java:116-118 | the getter reads the current value under the method's property name; GetAfterSet states that it returns what the matching setter stored |
| `RowProxy.GetAfterSet` | src/main/java/moar/awake/WokePrivateProxy.java:154-158 | the getter returns what the matching setter stored, null included |
| `RowProxy.DerivedTableName` | src/main/java/moar/awake/WokePrivateProxy.java:129-133 | a trailing `Row` is dropped from the interface name before it is snake-cased and quoted |
| `RowProxy.GetTableName` | src/main/java/moar/awake/WokePrivateProxy.java:127-136 | an override or cached name is returned with the proxy unchanged; otherwise the derived name is returned and cached |
| `RowProxy.TableNameCached` | src/main/java/moar/awake/WokePrivateProxy.java:128-135 | a second call returns the first answer and changes nothing, even after the quote string changed |
| `RowProxy.SetTableName` | src/main/java/moar/awake/WokePrivateProxy.java:285-287 | after `setTableName(t)` the table name is `t`; the values are untouched |
| `RowProxy.DbLoop` | src/main/java/moar/awake/WokePrivateProxy.java:70-73 | the keys of `get()` are the column names of the current properties |
| `RowProxy.DbKeysMembers` | src/main/java/moar/awake/WokePrivateProxy.java:71 | a key is a column name exactly when it is the column of some current property |
| `RowProxy.DbView` | src/main/java/moar/awake/WokePrivateProxy.java:68-75 | `get()` has a key for each current property's column and no other |
| `RowProxy.DbLoopLookup` | src/main/java/moar/awake/WokePrivateProxy.java:70-73 | when no other property shares its column, a property's value is found under its column |
| `RowProxy.DbViewLookup` | src/main/java/moar/awake/WokePrivateProxy.java:68-75 | with codable property names every current value is found under its column |
| `Repository.Where` | src/main/java/moar/awake/WokeRepository.java:685-688 | `where(r)` makes the callback the pending key and leaves the in-insert flag alone |
| `Repository.SessionInsertRow` | src/main/java/moar/awake/WokeRepository.java:459-473 | a nested insert fails with "reentry"; otherwise the pending key, then the updater, is applied before storing; either way the key is reset to the no-op and the flag ends as it began |
| `Repository.InsertWith` | src/main/java/moar/awake/WokeRepository.java:580-582 | `insert(updater)` stores a new row with the pending key and the updater applied |
| `Repository.InsertRow` | src/main/java/moar/awake/WokeRepository.java:585-587 | `insert(row)` stores the row as given |
| `Repository.KeyUsedOnce` | src/main/java/moar/awake/WokeRepository.java:459-473 | a pending key is used by the next insert only |
| `Repository.InsertRowIgnoresKey` | src/main/java/moar/awake/WokeRepository.java:252-255 | inserting a given row is the same whatever key is pending |
| `Repository.NestedInsertRefused` | src/main/java/moar/awake/WokeRepository.java:461-463 | an insert while another is under way fails with "reentry" and leaves the flag up |
| `Repository.FilterRow` | src/main/java/moar/awake/WokeRepository.java:443-448 | the filter row is the blank row with the pending key applied; before any key is set, calling it throws a `NullPointerException` |
| `Repository.Conditions` | src/main/java/moar/awake/WokeRepository.java:491-496 | one `key = ?` condition per key, in key order |
| `Repository.WhereTextIsJoin` | src/main/java/moar/awake/WokeRepository.java:490-496 | the condition loop writes the conditions joined by ` and ` |
| `Repository.FindSql` | src/main/java/moar/awake/WokeRepository.java:487-499 | the find statement is a select that ends with `where `, one `key = ?` condition per key joined by ` and `, and the `order by` clause when an ordering is given |
| `Repository.FirstConditionsJoined` | src/main/java/moar/awake/WokeRepository.java:489-495 | the condition loop started at the first key writes the conditions joined by ` and `, and nothing for no keys |
| `Repository.FindParams` | src/main/java/moar/awake/WokeRepository.java:653-658 | the find parameters are the map's values in the same key order |
| `Repository.CountWhere` | src/main/java/moar/awake/WokeRepository.java:490-496 | the conditions hold one placeholder per key |
| `Repository.FindParamsMatchConditions` | src/main/java/moar/awake/WokeRepository.java:489-502 | there are as many condition placeholders as parameters bound |
| `Repository.EmptyFilterBareWhere` | src/main/java/moar/awake/WokeRepository.java:489-496 | a filter row without values leaves a bare `where ` at the end of the statement |
| `Repository.FirstFound` | src/main/java/moar/awake/WokeRepository.java:540-545 | `find()` answers null exactly for no rows, and otherwise the first row |
| `Repository.IteratorTableish` | src/main/java/moar/awake/WokeRepository.java:363-373 | a select becomes a derived table named after the interface; a call is kept as it is |
| `Repository.DoIteratorSql` | src/main/java/moar/awake/WokeRepository.java:380-386 | a call is prepared as given |
| `Repository.CallIsNoSelect` | src/main/java/moar/awake/WokeRepository.java:363-364 | a text starting with `call` is never taken for a select |
| `Repository.WhereFilterSql` | src/main/java/moar/awake/WokeRepository.java:369-386 | a `where ` filter selects the row's columns from the table aliased by the interface name, with the filter kept verbatim |
| `Repository.WhereSuffix` | src/main/java/moar/awake/WokeRepository.java:370-372 | the wrapper adds no `[` of its own, so the `[*]` it puts in is the only one |
| `Repository.WhereTableAsWritten` | src/main/java/moar/awake/WokeRepository.java:369-370 | the `where` filter's table taken from a blank row; WhereIgnoresOverride states that the override is ignored |
| `Repository.WhereIgnoresOverride` | src/main/java/moar/awake/WokeRepository.java:369-370 | a repository for `PetRow` with the table `pets` still filters the table `pet` |
| `Repository.WhereTable` | src/main/java/moar/awake/WokeRepository.java:369-370 | with the override honoured, the filter reads the repository's own table |
| `Repository.Acquired` | src/main/java/moar/awake/WokeRepository.java:377-402 | opening a cursor always acquires the connection hold |
| `Repository.OpenCursorAsWritten` | src/main/java/moar/awake/WokeRepository.java:387-402 | a failed prepare releases the hold; a failed bind releases the statement, then the hold |
| `Repository.FailedQueryLeaks` | src/main/java/moar/awake/WokeRepository.java:402 | a failing `executeQuery` leaves the hold it acquired unreleased |
| `Repository.OpenCursor` | src/main/java/moar/awake/WokeRepository.java:387-402 | the cursor opens exactly when prepare, bind and query succeed, and a failed query is reported through `require` |
| `Repository.Reversed` | src/main/java/moar/awake/WokeRepository.java:406-410 | reversal keeps the length |
| `Repository.CloseCursor` | src/main/java/moar/awake/WokeRepository.java:405-410 | `close()` releases the result set, the statement and the hold, the hold last; CursorReleasesAll states that this is the reverse of the order of acquisition |
| `Repository.CursorReleasesAll` | src/main/java/moar/awake/WokeRepository.java:374-410 | every resource acquired is released exactly once, last acquired first, by the failing open or by the cursor's `close()`; the failure reaches the caller as a runtime exception |
| `Repository.ReleasedOnce` | src/main/java/moar/awake/WokeRepository.java:406-410 | nothing is released twice |
| `Repository.OpeningAgreesUnlessQueryFails` | src/main/java/moar/awake/WokeRepository.java:387-402 | the corrected opening differs from the code as written only when the query fails |
| `Session.Checked` | src/main/java/moar/awake/WokeSessionBase.java:187-194 | a statement succeeds exactly when the database answers with an accepted count; an unaccepted count fails the inner `require` |
| `Session.RunFrom` | src/main/java/moar/awake/WokeSessionBase.java:160-197 | the statements are issued in order up to the first failure, which ends the operation with that failure |
| `Session.RunAll` | src/main/java/moar/awake/WokeSessionBase.java:160-197 | an operation succeeds exactly when every statement does, and then has issued them all; a failure is the first failing statement's |
| `Session.DirtyColumns` | src/main/java/moar/awake/WokeSessionBase.java:170-171 | a column is kept exactly when it is listed and dirty |
| `Session.DirtyColumnsSorted` | src/main/java/moar/awake/WokeSessionBase.java:170-171 | the dirty columns keep the sorted order of the listed columns |
| `Session.AssignLoopParams` | src/main/java/moar/awake/WokeSessionBase.java:170-180 | the SET loop binds the dirty columns' values in column order |
| `Session.AssignLoopIsJoin` | src/main/java/moar/awake/WokeSessionBase.java:170-180 | the SET loop writes one `col=?` per dirty column, joined by `, ` |
| `Session.UpdateColumns` | src/main/java/moar/awake/WokeSessionBase.java:168-170 | the columns `update` considers are in strictly ascending order |
| `Session.UpdateStatement` | src/main/java/moar/awake/WokeSessionBase.java:163-184 | the statement starts with `update`, the table and `set`, ends with `where <id>=?`, and binds the identity value last |
| `Session.UpdateParams` | src/main/java/moar/awake/WokeSessionBase.java:170-184 | the parameters are the dirty columns' values in column order, then the identity value |
| `Session.UpdateShape` | src/main/java/moar/awake/WokeSessionBase.java:163-182 | the statement is the head, the SET list of dirty columns and the identity condition |
| `Session.AssignPlaceholders` | src/main/java/moar/awake/WokeSessionBase.java:170-180 | the SET list has one placeholder per dirty column |
| `Session.UpdatePlaceholders` | src/main/java/moar/awake/WokeSessionBase.java:160-193 | every placeholder of the statement has exactly one parameter |
| `Session.UpdateSqlPlaceholders` | src/main/java/moar/awake/WokeSessionBase.java:160-193 | the statement text holds one placeholder per dirty column and one for the identity |
| `Session.CleanLoop` | src/main/java/moar/awake/WokeSessionBase.java:170-180 | over clean columns the SET loop writes and binds nothing |
| `Session.NothingDirtyStillIssued` | src/main/java/moar/awake/WokeSessionBase.java:170-193 | with nothing dirty the SET list is empty, only the identity is bound, and the statement is still issued |
| `Session.UpdateStatements` | src/main/java/moar/awake/WokeSessionBase.java:161-197 | one statement per row, in order |
| `Session.Update` | src/main/java/moar/awake/WokeSessionBase.java:160-198 | `update(rows…)` succeeds exactly when every statement changes exactly one row, and issues one statement per row up to the first failure |
| `Session.Renamed` | src/main/java/moar/awake/WokeSessionBase.java:202-203 | every row gets the given table-name override |
| `Session.UpdateIn` | src/main/java/moar/awake/WokeSessionBase.java:200-206 | every statement of `update(tableish, rows…)` names the given table |
| `Session.DeleteStatement` | src/main/java/moar/awake/WokeSessionBase.java:43-51 | the delete statement ends with the identity condition and binds only the identity value |
| `Session.Present` | src/main/java/moar/awake/WokeSessionBase.java:40-41 | the rows that are not null, in order |
| `Session.Delete` | src/main/java/moar/awake/WokeSessionBase.java:36-59 | a null array issues nothing; otherwise one statement per non-null row, succeeding exactly when each deletes zero or one row |
| `Session.DeleteSkipsNulls` | src/main/java/moar/awake/WokeSessionBase.java:41 | a null element issues nothing |
| `Session.ResetAll` | src/main/java/moar/awake/WokeSessionBase.java:153-158 | every object is back to its loaded state and not dirty |
| `Session.ResetAllIdempotent` | src/main/java/moar/awake/WokeSessionBase.java:153-158 | resetting twice is resetting once |
| `Session.FirstOfClass` | src/main/java/moar/awake/WokeMappableRow.java:23-30 | the position of the first object whose interface is exactly the class, or none when no object matches |
| `Session.RowGet` | src/main/java/moar/awake/WokeMappableRow.java:23-30 | `get(clz)` returns one of the row's own objects of that interface, and null exactly when there is none |
| `Session.RowGetIsExact` | src/main/java/moar/awake/WokeMappableRow.java:25 | matching is by the exact interface, not a related one |
| `SqlText.Entities` | src/main/java/moar/awake/WokeRepository.java:61-66 | each row proxy contributes its alias, quote, identity flag and column list, in order |
| `SqlText.EntityOfColumns` | src/main/java/moar/awake/WokeRepository.java:66 | the listed columns are distinct and never the bare `id` |
| `SqlText.ColumnText` | src/main/java/moar/awake/WokeRepository.java:67-77 | modes 0, 1 and 2 give a column's text; any other mode fails with "Mode not supported" |
| `SqlText.IdText` | src/main/java/moar/awake/WokeRepository.java:80-100 | the identity entry is defined for exactly the three modes; an entity without identity gets a `null ... id` placeholder |
| `SqlText.ColumnsLoop` | src/main/java/moar/awake/WokeRepository.java:67-79 | the column loop can only fail on a column, and only with the mode error |
| `SqlText.BuildColumnsSql` | src/main/java/moar/awake/WokeRepository.java:54-104 | the column list fails exactly when there is an entity and the mode is unsupported; with no entity it is a lone newline |
| `SqlText.BuildSelect` | src/main/java/moar/awake/WokeRepository.java:106-109 | the select is `select` and a newline in front of the column list, failing when the list does |
| `SqlText.EntityItems` | src/main/java/moar/awake/WokeRepository.java:67-100 | an entity's block lists one item per column, then its identity entry |
| `SqlText.Blocks` | src/main/java/moar/awake/WokeRepository.java:56-101 | there is one block per entity, in order |
| `SqlText.ColumnsLoopText` | src/main/java/moar/awake/WokeRepository.java:67-79 | the column loop appends the column texts joined by a comma and newline, ready for the identity entry |
| `SqlText.EntityStep` | src/main/java/moar/awake/WokeRepository.java:57-100 | one turn of the outer loop appends the separator, a space and that entity's block |
| `SqlText.EntitiesLoopText` | src/main/java/moar/awake/WokeRepository.java:56-103 | the outer loop's text is the blocks joined by a comma and newline |
| `SqlText.ColumnsSqlLayout` | src/main/java/moar/awake/WokeRepository.java:54-104 | for a supported mode the column list is the entities' blocks joined by a comma and newline, then a newline |
| `SqlText.ColumnsShape` | src/main/java/moar/awake/WokeRepository.java:54-104 | the loop fails exactly for an unsupported mode with at least one entity, and yields a newline for none |
| `SqlText.ColumnAsOfProperty` | src/main/java/moar/awake/WokeRepository.java:68 | a property's result name is its quoted alias-prefixed snake_case name |
| `SqlText.WordStart` | src/main/java/moar/awake/WokeRepository.java:123 | the word holding a position starts after the last space before it |
| `SqlText.ScanAsWritten` | src/main/java/moar/awake/WokeRepository.java:122-126 | the splat scan as written, bounded by a number of rounds; SplatScanNeverEnds and ScanAsWrittenAgrees state when it stops |
| `SqlText.SplatScanNeverEnds` | src/main/java/moar/awake/WokeRepository.java:122-126 | for `a.[*],b.[*]` the scan as written never stops, however many rounds it is given |
| `SqlText.StuckForever` | src/main/java/moar/awake/WokeRepository.java:122-126 | once at that state, every further round of the scan as written returns to it |
| `SqlText.Scan` | src/main/java/moar/awake/WokeRepository.java:122-126 | with the span end taken from the splat just found, the scan moves forward and keeps a start once set |
| `SqlText.ScanSpan` | src/main/java/moar/awake/WokeRepository.java:122-126 | no `.[*]` starts after the scan's end, and the end, when moved, closes a `.[*]` |
| `SqlText.ScanStartBelowEnd` | src/main/java/moar/awake/WokeRepository.java:122-126 | the span's start never passes its end |
| `SqlText.SplatSpan` | src/main/java/moar/awake/WokeRepository.java:118-132 | the span replaced lies within the text |
| `SqlText.ExpandColumnSplat` | src/main/java/moar/awake/WokeRepository.java:118-138 | the expansion is the text before the span, the column list and the text after the span, and fails exactly when the column list does |
| `SqlText.ExpandWithoutSplat` | src/main/java/moar/awake/WokeRepository.java:128-136 | without any `[*]` the column list is put in front of the whole text |
| `SqlText.ExpandBareSplat` | src/main/java/moar/awake/WokeRepository.java:128-132 | with only bare splats the first `[*]` is replaced |
| `SqlText.ExpandAliasSplat` | src/main/java/moar/awake/WokeRepository.java:122-126 | the span starts at the word of the first `.[*]` and ends after the last `.[*]` |
| `SqlText.ExpandBareAt` | src/main/java/moar/awake/WokeRepository.java:118-138 | `prefix [*] suffix` becomes the prefix, the column list and the suffix |
| `SqlText.ExpandAliasedAt` | src/main/java/moar/awake/WokeRepository.java:118-138 | `prefix alias.[*] suffix` becomes the prefix, the column list and the suffix |
| `SqlText.BareAndAliasedSplatAgree` | src/main/java/moar/awake/WokeRepository.java:118-138 | a splat on its own and the same splat qualified by an alias expand alike |
| `SqlText.ScanAsWrittenAgrees` | src/main/java/moar/awake/WokeRepository.java:122-126 | when no word holds two `.[*]`, the scan as written stops within the text's length plus one rounds with the corrected scan's span |
| `SqlText.AsDerivedTable` | src/main/java/moar/awake/WokeSessionBase.java:77-80 | a full select becomes a derived table named `tableish`; other text is kept |
| `SqlText.BuildSql` | src/main/java/moar/awake/WokeSessionBase.java:24-34 | a `call` statement runs as given; anything else selects the entities' mode-1 names from the mode-0 expansion |
| `SqlText.IteratorSql` | src/main/java/moar/awake/WokeSessionBase.java:76-93 | a select is wrapped before the call test, so it always yields a select ending in a newline; a call is passed through |
| `SqlText.SelectShape` | src/main/java/moar/awake/WokeSessionBase.java:24-34 | any text other than a call yields a statement starting with `select` and a newline and ending in a newline |
| `SqlText.DerivedTableIsNoCall` | src/main/java/moar/awake/WokeSessionBase.java:77-80 | a wrapped select is never taken for a call |
| `SqlText.GetObject` | src/main/java/moar/awake/WokeRepository.java:144 | JDBC's 1-based column index is defined exactly within the row |
| `SqlText.SetColumnValue` | src/main/java/moar/awake/WokeRepository.java:173-179 | a null removes the key and a value is stored; no other key changes |
| `SqlText.MapResultRow` | src/main/java/moar/awake/WokeRepository.java:140-149 | the reading succeeds exactly when the row holds every column it reads |
| `SqlText.MapResultRowReads` | src/main/java/moar/awake/WokeRepository.java:142-145 | each listed column gets the value at its position |
| `SqlText.MapResultRowKeeps` | src/main/java/moar/awake/WokeRepository.java:140-149 | keys other than the listed columns and `id` keep their values |
| `SqlText.MapResultRowReadsId` | src/main/java/moar/awake/WokeRepository.java:146-148 | the identity is read right after the listed columns |
| `SqlText.FlattenAt` | src/main/java/moar/awake/WokeRepository.java:56-101 | item k of list i sits in the flattened select list after the items of the lists before it |
| `SqlText.GetRowAsWritten` | src/main/java/moar/awake/WokeSessionBase.java:120-136 | as written, every entity is read from result column 1 on |
| `SqlText.SecondEntityReadsFirstColumns` | src/main/java/moar/awake/WokeSessionBase.java:120-136 | with two entities of one column each, the second entity's column receives the first entity's value |
| `SqlText.GetRow` | src/main/java/moar/awake/WokeSessionBase.java:120-136 | reading each entity at its own offset succeeds on a row with one value per select item |
| `SqlText.GetRowReadsOwnColumns` | src/main/java/moar/awake/WokeSessionBase.java:120-136 | each entity's column is read from exactly the result column that the select list names for it |
| `SqlText.EntityReadAt` | src/main/java/moar/awake/WokeSessionBase.java:120-136 | entity i is read from the result column after the items of the entities before it |
| `StatementReader.EscapeSemicolons` | src/main/java/moar/driver/StatementReader.java:23 | no `;` is left, each one having become the three characters `%3B`; a line without one is unchanged |
| `StatementReader.DelimitedSemicolon` | src/main/java/moar/driver/StatementReader.java:22-27 | in delimiter mode a line holds a `;` only as its last character, and does exactly when it ended with `$$` |
| `StatementReader.KeptLines` | src/main/java/moar/driver/StatementReader.java:20-33 | a script keeps at most as many lines as it has |
| `StatementReader.PlainScript` | src/main/java/moar/driver/StatementReader.java:20-33 | without a `DELIMITER $$` line the text is the trimmed lines other than `--` comments, each followed by a newline |
| `StatementReader.DelimiterModeSticks` | src/main/java/moar/driver/StatementReader.java:22-29 | once delimiter mode is on, `DELIMITER ;` does not end it but is kept, escaped, as a statement line |
| `StatementReader.DelimitedKept` | src/main/java/moar/driver/StatementReader.java:22-33 | in delimiter mode a line that is neither the mode line nor a comment is kept delimited, followed by a newline |
| `StatementReader.DelimitedLines` | src/main/java/moar/driver/StatementReader.java:21-33 | in delimiter mode a script keeps at most as many lines as it has, and none of them is the mode line or a comment |
| `StatementReader.DelimiterModeScript` | src/main/java/moar/driver/StatementReader.java:21-33 | once delimiter mode is on, the text is every line trimmed, its semicolons escaped and a trailing `$$` made `;`, dropping lines that then start with `DELIMITER $$` or `--`, each followed by a newline |
| `StatementReader.ScriptSplit` | src/main/java/moar/driver/StatementReader.java:20-33 | a script whose first `DELIMITER $$` line is line k reads as the plain kept lines before k, then the delimiter-mode lines after k; the mode line itself is dropped |
| `StatementReader.PlainFrom` | src/main/java/moar/driver/StatementReader.java:20-33 | lines before any mode line are read plainly, independent of what follows them |
| `StatementReader.ModeLineFirst` | src/main/java/moar/driver/StatementReader.java:28-29 | the mode line switches delimiter mode on for every later line and is not written |
| `StatementReader.EscapeAppend` | src/main/java/moar/driver/StatementReader.java:23 | escaping works piece by piece |
| `StatementReader.Escape` | src/main/java/moar/driver/StatementReader.java:48-69 | after a backslash `n` and `r` stand for newline and carriage return, a backslash, either quote and a literal tab stand for themselves, and every other character is refused; the letter `t` is refused as written and stands for a tab in the corrected reader |
| `StatementReader.UnknownEscapeFails` | src/main/java/moar/driver/StatementReader.java:45-68 | a backslash before a character that is not an escape, or at the end of the input, fails the string with "Unexpected escape" |
| `StatementReader.Quoted` | src/main/java/moar/driver/StatementReader.java:40-75 | a string read ends with its closing quote, and what is left of the input is a proper tail of it |
| `StatementReader.ReadStatementAsWritten` | src/main/java/moar/driver/StatementReader.java:77-103 | `readStatement()` as written; TabEscape states that backslash and `t` fail |
| `StatementReader.ReadStatement` | src/main/java/moar/driver/StatementReader.java:77-103 | `readStatement()` with `\t` decoded; ReadWith, SemicolonInQuotes, EmptyReadsNull and SameWithoutBackslash state what it reads |
| `StatementReader.ReadWith` | src/main/java/moar/driver/StatementReader.java:77-104 | a statement read is never empty, null standing for nothing, and the rest of the input is no longer than before |
| `StatementReader.QuotedVerbatim` | src/main/java/moar/driver/StatementReader.java:40-72 | a string body without a backslash or its quote is copied verbatim with its closing quote |
| `StatementReader.EscapedQuoteDoesNotClose` | src/main/java/moar/driver/StatementReader.java:45-66 | after a backslash the quote character is copied and the string goes on |
| `StatementReader.UnclosedFails` | src/main/java/moar/driver/StatementReader.java:74 | a string the input never closes fails with "Expected closing quote" |
| `StatementReader.PlainLoop` | src/main/java/moar/driver/StatementReader.java:82-101 | text without quotes is read up to the first `;`, with tab, newline and carriage return made spaces |
| `StatementReader.SpacedText` | src/main/java/moar/driver/StatementReader.java:92-100 | outside quotes each whitespace control becomes one space and every other character is copied |
| `StatementReader.SemicolonInQuotes` | src/main/java/moar/driver/StatementReader.java:86-91 | a `;` inside a quoted string does not end the statement, for both readers |
| `StatementReader.EmptyReadsNull` | src/main/java/moar/driver/StatementReader.java:102-103 | the end of the input, or an empty statement before a `;`, reads as null |
| `StatementReader.TabEscape` | src/main/java/moar/driver/StatementReader.java:64-68 | backslash and the letter `t` throws "Unexpected escape" as written; the corrected reader keeps the backslash and puts a tab after it |
| `StatementReader.EscapeThenClose` | src/main/java/moar/driver/StatementReader.java:45-72 | a string of one escape and its quote reads as the backslash, the decoded character and the quote |
| `StatementReader.SameWithoutBackslash` | src/main/java/moar/driver/StatementReader.java:77-101 | on input without a backslash the corrected and the as-written reader read alike |
| `StatementReader.QuotedSame` | src/main/java/moar/driver/StatementReader.java:40-75 | a string without a backslash is read alike by both readers |
| `StringUtil.AsString` | src/main/java/moar/sugar/MoarStringUtil.java:17-19 | null passes through as null; any other value becomes the text its `toString` gives |
| `StringUtil.ToLowerCase` | src/main/java/moar/sugar/MoarStringUtil.java:82-84 | null stays null; otherwise a text of the same length whose every character is the input's character at that place lowered, so no capital letter is left |
| `StringUtil.ToUpperCase` | src/main/java/moar/sugar/MoarStringUtil.java:108-110 | null stays null; otherwise a text of the same length whose every character is the input's character at that place raised, so no small letter is left |
| `StringUtil.UpperOfLower` | src/main/java/moar/sugar/MoarStringUtil.java:82-110 | upper-casing gives back a text without small letters after it has been lower-cased |
| `StringUtil.Kept` | src/main/java/moar/sugar/MoarStringUtil.java:61-68 | the characters the matcher accepts, never longer than the text |
| `StringUtil.ReplaceChars` | src/main/java/moar/sugar/MoarStringUtil.java:56-70 | null stays null; otherwise the accepted characters in their order, with every rejected one dropped and the replacement never written |
| `StringUtil.KeptAll` | src/main/java/moar/sugar/MoarStringUtil.java:61-68 | the cleaning leaves a text unchanged exactly when the matcher accepts all of its characters |
| `StringUtil.KeptCount` | src/main/java/moar/sugar/MoarStringUtil.java:61-68 | an accepted character appears in the result as often as in the input |
| `StringUtil.KeptIdempotent` | src/main/java/moar/sugar/MoarStringUtil.java:56-70 | cleaning a cleaned text changes nothing |
| `StringUtil.CleanWithOnly` | src/main/java/moar/sugar/MoarStringUtil.java:30-32 | the same as the filter: the accepted characters, in order, null for null |
| `StringUtil.CleanWithOnlyAscii` | src/main/java/moar/sugar/MoarStringUtil.java:41-43 | null stays null; the result holds only ASCII characters, and equals the input exactly when the input was all ASCII |
| `StringUtil.Blanked` | src/main/java/moar/sugar/MoarStringUtil.java:45-55 | the documented filter: the same length, each accepted character in its place and each rejected one replaced |
| `StringUtil.ReplaceCharsIntended` | src/main/java/moar/sugar/MoarStringUtil.java:45-70 | the documented `replaceChars`: null stays null; otherwise the same length, each accepted character kept in place and each rejected one replaced by the replacement |
| `StringUtil.CleanWithOnlyAsciiIntended` | src/main/java/moar/sugar/MoarStringUtil.java:21-43 | the documented `cleanWithOnlyAscii`: the same length, only ASCII characters, each ASCII character kept in place, and the input unchanged exactly when it was all ASCII |
| `StringUtil.DropsUnlessAllAccepted` | src/main/java/moar/sugar/MoarStringUtil.java:61-68 | the code as written and the documented behaviour agree exactly when the matcher accepts every character of the text |
| `StringUtil.KeptShorter` | src/main/java/moar/sugar/MoarStringUtil.java:61-68 | a text with a rejected character comes out of the loop shorter |
| `StringUtil.AccentDropped` | src/main/java/moar/sugar/MoarStringUtil.java:41-43 | `cleanWithOnlyAscii("a\u00e9")` gives `a` as written and `a ` as documented |
| `StringUtil.ToCamelCase` | src/main/java/moar/sugar/MoarStringUtil.java:72-75 | same length; the first character is replaced by its lower-case form and the rest is unchanged |
| `StringUtil.ToCamelCaseIdempotent` | src/main/java/moar/sugar/MoarStringUtil.java:72-75 | converting a name that is already lower camel case changes nothing, so converting twice equals converting once |
| `StringUtil.SplitBeforeCapitals` | src/main/java/moar/sugar/MoarStringUtil.java:97 | at least one part, and the first part starts with the text's first character |
| `StringUtil.SplitParts` | src/main/java/moar/sugar/MoarStringUtil.java:97 | the parts concatenate back to the text; each later part starts with a capital and has no other capital |
| `StringUtil.ToSnakeCase` | src/main/java/moar/sugar/MoarStringUtil.java:93-99 | null stays null and any text gives a text |
| `StringUtil.SnakeCaseAgrees` | src/main/java/moar/sugar/MoarStringUtil.java:93-99 | the split-join-lower conversion gives the same column name as the character-by-character conversion the row proxies use |
| `StringUtil.Truncate` | src/main/java/moar/sugar/MoarStringUtil.java:119-124 | null stays null; a negative size throws index-out-of-bounds; otherwise a prefix of the text of length `min(length, size)` |
| `StringUtil.TruncateIdempotent` | src/main/java/moar/sugar/MoarStringUtil.java:119-124 | a text that fits is unchanged, and truncating twice is truncating once |
| `Sugar.Has` | src/main/java/moar/sugar/Sugar.java:155-162 | `has` is false exactly for null, the canonical `Boolean.FALSE`, an empty list or an empty string |
| `Sugar.Require` | src/main/java/moar/sugar/Sugar.java:208-212 | `require(test)` throws "Required test failed" exactly when the test is false |
| `Sugar.RequireCall` | src/main/java/moar/sugar/Sugar.java:223-229 | `require(call)` returns the call's value; an exception is rethrown as a runtime exception, and an error passes through |
| `Sugar.NonNull` | src/main/java/moar/sugar/Sugar.java:193-200 | `nonNull` can only fail with a `NullPointerException` |
| `Sugar.NonNullFirst` | src/main/java/moar/sugar/Sugar.java:194-198 | the first non-null argument is the result |
| `Sugar.NonNullAllNull` | src/main/java/moar/sugar/Sugar.java:199 | with every argument null, `nonNull` throws a `NullPointerException` |
| `Sugar.NonNullPair` | src/main/java/moar/sugar/Sugar.java:193-200 | `nonNull(a, b)` with a non-null `b` is `a` when present and `b` otherwise |
| `Sugar.Safely` | src/main/java/moar/sugar/Sugar.java:355-363 | `safely` never throws: a success carries the value and no throwable, a failure no value and the throwable |
| `Sugar.Swallow` | src/main/java/moar/sugar/Sugar.java:421-424 | `swallow` returns the call's value, or null on any throwable |
| `Sugar.Retryable` | src/main/java/moar/sugar/Sugar.java:326-334 | a `RetryableException` is rethrown as it is, any other exception is wrapped in one, and an error passes through |
| `Sugar.RetryableFeedsRetry` | src/main/java/moar/sugar/Sugar.java:326-334 | after `retryable`, every exception is one the retry loop retries |
| `Sugar.RetryLoop` | src/main/java/moar/sugar/Sugar.java:284-300 | the loop never calls fewer times than it has already, and sleeps at most once per call |
| `Sugar.Retry` | src/main/java/moar/sugar/Sugar.java:284-300 | `retry` calls at most `triesAllowed` times, and never for a count of zero or less |
| `Sugar.RetryBound` | src/main/java/moar/sugar/Sugar.java:287 | from any attempt on, the loop stops by the allowed number of tries |
| `Sugar.RetryStopsAtFirstDecisive` | src/main/java/moar/sugar/Sugar.java:287-294 | the first attempt that returns or throws something not retried decides the outcome, after a sleep for each retried failure before it |
| `Sugar.RetryExhausts` | src/main/java/moar/sugar/Sugar.java:287-299 | when every allowed attempt fails with a retried exception, each is followed by a sleep, the last included, and the last failure is thrown |
| `Sugar.RetryWithoutTries` | src/main/java/moar/sugar/Sugar.java:296-299 | with no try allowed the call never runs and `throw null` raises a `NullPointerException` |
| `Sugar.RetryResultFromCall` | src/main/java/moar/sugar/Sugar.java:284-300 | the outcome is what the last call produced, unless no call was allowed |
| `Exceptional.RetryableLoop` | src/main/java/moar/Exceptional.java:200-219 | `retryable` calls at most `triesAllowed` times |
| `Exceptional.SugarRetryableNotRetriedHere` | src/main/java/moar/Exceptional.java:208 | the other package's `RetryableException` escapes from the attempt that threw it |
| `Exceptional.Has` | src/main/java/moar/Exceptional.java:77-87 | `has` is false only for null, an empty list or an empty string |
| `Exceptional.HasDiffersOnFalse` | src/main/java/moar/Exceptional.java:77-87 | the two truthiness tests differ exactly on the canonical `Boolean.FALSE` |
| `Exceptional.RequireObject` | src/main/java/moar/Exceptional.java:163-170 | `require(o)` throws a `NullPointerException` exactly when `has(o)` is false |
| `Exceptional.RequireMessage` | src/main/java/moar/Exceptional.java:172-176 | `require(message, test)` throws a message exception carrying the message exactly when the test is false |
| `Exceptional.Resolve` | src/main/java/moar/Exceptional.java:190-198 | `resolve(x)` calls and awaits until a plain value is left; ResolveFindsInnermost states that it yields the innermost value or the first failure |
| `Exceptional.ResolveFindsInnermost` | src/main/java/moar/Exceptional.java:190-198 | resolution fails exactly when some callable or future fails, and otherwise yields the innermost plain value, which resolves to itself |
| `Exceptional.NonNullResolved` | src/main/java/moar/Exceptional.java:105-115 | a failure while resolving reaches the caller as a runtime exception |
| `Exceptional.NonNullResolvedFound` | src/main/java/moar/Exceptional.java:105-115 | a returned value is the resolved value of one of the arguments |
| `Exceptional.NonNullResolvedOfPlain` | src/main/java/moar/Exceptional.java:105-115 | over plain values the resolving `nonNull` agrees with the other package's `nonNull` |
| `Exceptional.SafelyTwo` | src/main/java/moar/Exceptional.java:230-236 | `safely` agrees with the other package's, and reports a throwable exactly when the call failed |
| `Exceptional.CloseQuietly` | src/main/java/moar/Exceptional.java:45-49 | `closeQuietly` never throws, and calls `close` once for a real closeable and never for null |
| `Exceptional.CloseFailureHidden` | src/main/java/moar/Exceptional.java:45-49 | a failing `close` looks the same to the caller as a successful one |
| `ThreadTracking.NewTracker` | src/main/java/moar/sugar/thread/MoarThreadTracker.java:26-32 | a new tracker has its description, the largest long as minimum, zero maximum, count and total, and no buckets |
| `ThreadTracking.Add` | src/main/java/moar/sugar/thread/MoarThreadTracker.java:39-46 | a null time fails before any change; otherwise the count rises by one, the minimum and maximum take in the time, the total grows by it modulo 2^64, and the time's bucket gains one unless a zero bucket size makes the division fail |
| `ThreadTracking.TrackStats` | src/main/java/moar/sugar/thread/MoarThreadTracker.java:39-97 | after any run of adds the count is the number of times, the total their wrapped sum, minimum and maximum their extremes, and the bucket counters add up to the count |
| `ThreadTracking.ExtremesStep` | src/main/java/moar/sugar/thread/MoarThreadTracker.java:85-97 | one more add keeps the minimum and maximum those of all times seen and the starting values |
| `ThreadTracking.TotalStep` | src/main/java/moar/sugar/thread/MoarThreadTracker.java:43 | one more add keeps the total the sum of all times in long arithmetic |
| `ThreadTracking.ZeroBucketSizeFails` | src/main/java/moar/sugar/thread/MoarThreadTracker.java:39-46 | with a zero bucket size the first add throws an arithmetic exception after counting the time |
| `ThreadTracking.GetBuckets` | src/main/java/moar/sugar/thread/MoarThreadTracker.java:61-63 | the view holds exactly the keys seen, each with its positive counter |
| `ThreadTracking.NewActivity` | src/main/java/moar/sugar/thread/MoarThreadActivity.java:11-14 | a new activity has no trackers and no cost |
| `ThreadTracking.Accumulate` | src/main/java/moar/sugar/thread/MoarThreadActivity.java:16-25 | a null description fails with nothing changed; otherwise only that description's tracker changes, created on first use, and the cost grows by the time unless the add failed |
| `ThreadTracking.GetTime` | src/main/java/moar/sugar/thread/MoarThreadReport.java:30-32 | the report's time; Describe states that it is the time since the activity started, in long arithmetic |
| `ThreadTracking.GetTrackers` | src/main/java/moar/sugar/thread/MoarThreadReport.java:52-54 | the report's trackers; Describe states that they are every tracker of the activity once, sorted by description |
| `ThreadTracking.GetTracker` | src/main/java/moar/sugar/thread/MoarThreadReport.java:40-47 | null exactly when no tracker has the description; otherwise the first tracker that has it |
| `ThreadTracking.Describe` | src/main/java/moar/sugar/thread/MoarThreadActivity.java:27-40 | the report lists every tracker of the activity once, strictly sorted by description, with the time since the start |
| `ThreadTracking.DescribeIgnoresOrder` | src/main/java/moar/sugar/thread/MoarThreadActivity.java:29-38 | the report is the same whatever order the map enumerates its keys in |
| `ThreadTracking.ReportLookup` | src/main/java/moar/sugar/thread/MoarThreadReport.java:40-47 | looking a description up in the described report finds exactly the activity's tracker for it |
| `TxSession.HoldClose` | src/main/java/moar/awake/WokeTxSession.java:39-41 | closing a hold closes the connection exactly when the hold is a releasing one; a transaction's holds are not |
| `TxSession.Reserve` | src/main/java/moar/awake/WokeTxSession.java:34-53 | a reserved hold reaches the same connection and quote, and closing it does nothing |
| `TxSession.ReserveIdempotent` | src/main/java/moar/awake/WokeTxSession.java:34-53 | reserving through a reserved hold gives the same hold |
| `TxSession.Open` | src/main/java/moar/awake/WokeTxSession.java:16-23 | the constructor sets READ_UNCOMMITTED first, then turns auto-commit off, and succeeds exactly when both calls do |
| `TxSession.Close` | src/main/java/moar/awake/WokeTxSession.java:25-32 | `close()` restores auto-commit and then always closes the hold, and only afterwards reports an auto-commit failure as a runtime exception |
| `TxSession.Rollback` | src/main/java/moar/awake/WokeTxSession.java:55-57 | `rollback()` succeeds exactly when the connection's rollback does, and reports its failure as a runtime exception |
| `TxSession.RunOpened` | src/main/java/moar/awake/WokeRepository.java:161-169 | once the session is open, every path ends by restoring auto-commit and closing the hold |
| `TxSession.RunTransactionAsWritten` | src/main/java/moar/awake/WokeRepository.java:157-171 | as written, a transaction starts by setting the isolation level |
| `TxSession.OpenFailureLeaksHold` | src/main/java/moar/awake/WokeRepository.java:160 | when the isolation level cannot be set, the transaction fails and the reserved hold is never closed |
| `TxSession.RunTransaction` | src/main/java/moar/awake/WokeRepository.java:157-171 | with the correction, every transaction starts by setting the isolation level and ends by closing the hold |
| `TxSession.RunOpenedOps` | src/main/java/moar/awake/WokeRepository.java:160-169 | the opened session's calls are at most one rollback, then restoring auto-commit and closing; the work runs as often as `retry` calls it |
| `TxSession.BracketedCounts` | src/main/java/moar/awake/WokeRepository.java:160-169 | the protocol holds one rollback exactly when the work failed, and exactly one close |
| `TxSession.TransactionBracketed` | src/main/java/moar/awake/WokeRepository.java:157-171 | the connection is set up, rolled back exactly once when the work finally fails and never otherwise, and closed exactly once |
| `TxSession.TransactionResult` | src/main/java/moar/awake/WokeRepository.java:157-171 | a transaction succeeds when the work did and auto-commit could be restored; a final failure, after a good rollback, is the work's last failure as a runtime exception |
| `TxSession.CorrectionAgreesWhenOpened` | src/main/java/moar/awake/WokeRepository.java:160 | whenever the session opens, the corrected and the as-written transaction make the same calls and end the same way |
| `Wsse.Shown` | src/main/java/moar/soap/WsseRequest.java:35 | a null reference prints as `null`, any other text as itself |
| `Wsse.FormatPlain` | src/main/java/moar/soap/WsseRequest.java:35 | formatting copies text without `%` unchanged |
| `Wsse.FormatSlot` | src/main/java/moar/soap/WsseRequest.java:35 | a `%s` takes the next argument |
| `Wsse.HeaderFormat` | src/main/java/moar/soap/WsseRequest.java:17-36 | the header template formatted with two texts holds the first as the username and the second as the password |
| `Wsse.FormatTwo` | src/main/java/moar/soap/WsseRequest.java:35 | a template with exactly two `%s` slots and no other `%` puts the two arguments in order |
| `Wsse.WsseHeader` | src/main/java/moar/soap/WsseRequest.java:34-36 | the security header holds the username and then the password, unescaped and `null` when unset, between the fixed OASIS 2004/01 element tags |
| `Wsse.HeaderDeterminesCredentials` | src/main/java/moar/soap/WsseRequest.java:17-36 | two headers are equal only when their usernames and passwords are, for credentials without `<` |
| `Wsse.SlotsDetermined` | src/main/java/moar/soap/WsseRequest.java:22-29 | the values between fixed tag texts are recovered from the whole |
| `Wsse.NewRequest` | src/main/java/moar/soap/WsseRequest.java:44-47 | a new request keeps the namespace prefix and URL and has no credentials and no body |
| `Wsse.SetUsername` | src/main/java/moar/soap/WsseRequest.java:58-60 | only the username changes, to the value given |
| `Wsse.SetPassword` | src/main/java/moar/soap/WsseRequest.java:54-56 | only the password changes, to the value given |
| `Wsse.SetBody` | src/main/java/moar/soap/WsseRequest.java:49-52 | only the body changes, to the XML text of the map |
| `Wsse.ToXml` | src/main/java/moar/soap/WsseRequest.java:62-75 | the envelope starts with its opening tag and the security header, ends with the body element and the closing tags, and has nothing between them |
| `Wsse.EnvelopeCredentials` | src/main/java/moar/soap/WsseRequest.java:62-75 | the envelope carries the username and password as given, right after its opening tag and the header's fixed text |
| `Wsse.UnsetRendersNull` | src/main/java/moar/soap/WsseRequest.java:44-75 | a request whose credentials and body were never set renders each of them as `null` |
| `MoarJson.LeadingSpace` | cli/moar-json.js:14-17 | the run of whitespace a text starts with ends at its first non-whitespace character |
| `MoarJson.PassCount` | cli/moar-json.js:18-21 | one global replace removes every target and inserts one replacement per target; other non-whitespace characters are kept |
| `MoarJson.PassWithoutTarget` | cli/moar-json.js:18-21 | a text without the target is unchanged, whitespace included |
| `MoarJson.PassAbsorbs` | cli/moar-json.js:14-21 | the target with all whitespace on both sides becomes one replacement |
| `MoarJson.PassKeeps` | cli/moar-json.js:18-21 | a non-whitespace character that is not the target stays in place |
| `MoarJson.JoinCount` | cli/moar-json.js:13 | joining the chunks adds one comma between each pair and nothing else |
| `MoarJson.TargetsSurvive` | cli/moar-json.js:18-21 | no replacement makes or removes a later pass's target, so each later pass sees the input's count of its target |
| `MoarJson.PipelineCount` | cli/moar-json.js:18-21 | after the four passes each non-whitespace character occurs as often as in the input, unless it is a target, plus what the replacements add |
| `MoarJson.BracketsRewritten` | cli/moar-json.js:14-19 | no square bracket is left, and every bracket became one brace |
| `MoarJson.SeparatorsRewritten` | cli/moar-json.js:16-21 | every colon and comma stays one colon or comma, and each rewrite adds its quotes |
| `MoarJson.RewriteCounts` | cli/moar-json.js:12-21 | over the chunks as read: no square brackets are left, braces and separators are counted as above, and the commas the join inserts are rewritten like the others |
| `MoarJson.RewriteNothing` | cli/moar-json.js:12-21 | no input at all gives an empty output |

## Left out

- JDBC execution (connections, prepared statements, result sets, metadata) is not modelled. An oracle supplies affected-row counts, result rows, generated keys and driver failures. `WokeDataSourceSession` and `WokeSession` are plumbing around it and are left out as well.
- Reflection and dynamic proxies (`Proxy.newProxyInstance`, `getMethods`, `Class.forName`) are not modelled. The row schema is an explicit record of the interface's simple name, method names and identity kind.
- The Number-to-Double/Float coercion of `WokePrivateProxy.invoke` (src/main/java/moar/awake/WokePrivateProxy.java:160-179) is left out, because it is floating-point conversion.
- Values read from a row are passed through unconverted for the same reason.
- `doInsertBatch` and `executeSql` are left out. They hand statements to JDBC unchanged, and the statement text they send is built by the modelled single-row builders.
- Case conversion (`toLowerCase`, `toUpperCase`, `Character.toUpperCase`) and the `\p{Upper}` class are ASCII-only. Full Unicode case mapping needs tables the model does not carry.
- `StringUtil.Truncate`: a Dafny string is a sequence of Unicode scalar values, while Java's `length()` and `substring` count UTF-16 code units. For a text with a character above U+FFFF the model keeps `size` characters where Java keeps `size` code units, possibly splitting a surrogate pair. In `UsPostalAddress` the lengths and indices come from pieces of the same text, as in `substring(line1.length() + 1)`, so both counts cut at the same place; the polyline decoder is the exception, see `Polyline.DecodePoly`.
- `StringUtil.ToLowerCase`: only ASCII letters are lowered, for the reason above.
- `StringUtil.ToUpperCase`: only ASCII letters are raised, for the reason above.
- `StringUtil.ToSnakeCase`: splits only before ASCII capitals, for the same reason.
- `ValueMapper.CapitalizeFully`: Commons Text's `WordUtils` is a library; it is modelled by its documented rule (whitespace-separated words, first letter title-cased, the rest lowered) over ASCII letters.
- `StringUtil.ToCamelCase`: Guava's `CaseFormat` is replaced by explicit functions; for an UPPER_CAMEL input they lower the first letter.
- `MoarStringUtil.lastWord`, which `UsPostalAddress` calls, is not part of this model. Its source is not among the files, so it is an uninterpreted function parameter and not an invented definition.
- `UsPostal.ParseWith`: the input is a single line, because the patterns' `.` does not match line terminators and no multi-line behaviour is modelled.
- `PropertyAccessor.getDouble` and its overloads are left out, because they parse floating-point numbers.
- `PropertyAccess.ParseIntegral`: accepts ASCII digits only, while `Long.parseLong` also accepts other Unicode digits.
- The other `src/main/java/moar/PropertyAccessor.java` is left out. It is a thin wrapper over `System.getProperty`, and the modelled accessor covers its lookup.
- `Polyline.DecodePoly`: runs over unbounded integers. The 32-bit overflow of `int` shifts on very long groups is not modelled, nor is the final `float` scaling by 1e-5. Points are the accumulated integer pairs. It also reads one chunk per character, where `charAt` reads one UTF-16 code unit: a character above U+FFFF is one chunk here and two surrogate chunks in Java, so the points and the place where the text runs out differ. A well-formed polyline holds only the characters 63 to 126, where the two agree.
- `Wsse.FormatS`: only the `%s` conversion is modelled. Any other `%`, including `%%` and `%n` which `String.format` accepts, is outside the model and read as a failure; the fixed header template holds none of them.
- `Polyline.GetBounds`: bounds are taken over those integer pairs, not over IEEE floats.
- `GeoServiceC.describe` and `readKml2` are left out. The first is HTTP and JSON; the second is XML parsing and float parsing.
- `ValueMapper.SimpleDateFormat`: the `MM/dd/yyyy` parse is a partial function parameter, because `SimpleDateFormat` is a library.
- `WsseRequest.setBody` converts a map to XML through org.json. That conversion is not modelled; the XML text is a parameter.
- `Wsse.ToXml`: the namespace prefix and URL are inserted verbatim; `null` for an unset one follows string concatenation.
- Clocks, `Thread.sleep` durations and the random jitter of the retry loops are left out. The model counts the sleeps; it does not time them.
- The activity's start time and the report time come from a clock; `now` is a parameter.
- Thread-locals, `synchronized` blocks and atomic counters are modelled as plain sequential state. Concurrency is out of scope.
- `ThreadTracking.Add`: the `AtomicLong` counter `count` is a natural number and does not wrap after 2^63 adds.
- Exception messages and logging (`LOG.warn`, `LOG.trace`) are left out. Exceptions are distinguished by kind.
- What a failing `close()` of the result set, statement or hold would throw is left out. The cursor closes each quietly, so the model records only which resources are released, and in what order.
- `RowProxy` keeps the identifier quote as a single character. A driver that reports an empty or multi-character quote string is not modelled.
- `SqlText.ScanAsWritten`: the as-written splat scan carries a fuel bound, because the loop as written need not terminate. Fuel running out is the model's way of saying the loop has not ended after that many rounds.
- `Exceptional.Resolve`: a chain of callables and futures is a finite value. A callable that returns itself forever is not modelled.
- `StatementReader.ReadStatement`: the preprocessed text is written with `getBytes()` and read back one byte at a time, each byte cast to `char`. The model reads characters, which agrees for ASCII scripts; a non-ASCII character reaches the Java reader as its encoded bytes.
- `StatementReader` reads the script as a list of lines. `readLine`, the reader's charset and I/O errors are left out.
- `cli/moar-json.js` reads chunks from standard input and writes with `console.log`. That I/O is left out: the chunks are the input and the rewritten text is the output. The trailing newline of `console.log` is not part of the output.
- `cli/src/moar-json.js` is left out. It is a wrapper over the really-relaxed-json package.
- `Driver`, `DriverUpdate`, `ConnectionSpec`, the thread-execution helpers, the geo utilities on floats, the OAuth clients, the Java class `moar.sugar.MoarJson`, `JsonUtil`, `MoarLogger`, `MoarDateUtil` and the terminal UI are left out. They are I/O, concurrency, floating point or library glue, outside the modelled core.

## Findings

| source | as written | input that shows it | evidently intended | confidence | as-written member | corrected member |
|---|---|---|---|---|---|---|
| src/main/java/moar/awake/WokeRepository.java:122-126 | the splat scan restarts each round from where the last word's first `.[*]` ends | `a.[*],b.[*]`: the second round finds the same splat again and the state stops changing | the scan moves past each `alias.[*]` and ends after the last one | medium, not executed | `SqlText.ScanAsWritten`, `SqlText.SplatScanNeverEnds` | `SqlText.Scan`, `SqlText.ScanAsWrittenAgrees` |
| src/main/java/moar/awake/WokeSessionBase.java:120-136 | every entity of a mapped row is read starting again at result column 1 | two entities `A(a)` and `B(b)` with the row `1, null, 2, null`: `B.b` receives 1 | each entity reads the columns its part of the select list produced | high, not executed | `SqlText.GetRowAsWritten`, `SqlText.SecondEntityReadsFirstColumns` | `SqlText.GetRow`, `SqlText.GetRowReadsOwnColumns` |
| src/main/java/moar/sugar/UsPostalAddress.java:30-32 | the rest is taken from line 1's length plus one, even when no comma follows line 1 | `123 Main St`: `substring(12)` of an 11-character text throws | a street line alone is line 1 and nothing else | high, not executed | `UsPostal.ParseAsWritten`, `UsPostal.StreetLineWithoutComma` | `UsPostal.Parse`, `UsPostal.MainStreetAlone` |
| src/main/java/moar/driver/StatementReader.java:64-68 | the escape case is the tab character itself, so the two characters backslash and `t` hit the default case | `'\t'` written as backslash and `t` in a quoted string throws "Unexpected escape" | backslash and `t` stand for a tab, like `n` and `r` | medium, not executed | `StatementReader.ReadStatementAsWritten`, `StatementReader.TabEscape` | `StatementReader.ReadStatement`, `StatementReader.SameWithoutBackslash` |
| src/main/java/moar/awake/WokeRepository.java:160 | the reserved hold is passed to the session constructor inside the resource header, so a constructor failure skips its close | a connection whose `setTransactionIsolation` throws: the hold is never closed | the hold is closed on every path | medium, not executed | `TxSession.RunTransactionAsWritten`, `TxSession.OpenFailureLeaksHold` | `TxSession.RunTransaction`, `TxSession.TransactionBracketed` |
| src/main/java/moar/awake/WokePrivateProxy.java:277-283 | a null argument removes the setter's own name (`setName`), not the property key (`name`) | `setName(null)` on a row holding `name = Rex`: `getName()` still answers `Rex` | setting null clears the property | high, not executed | `RowProxy.SetPropertyAsWritten`, `RowProxy.NullSetKeepsValue` | `RowProxy.SetProperty`, `RowProxy.GetAfterSet` |
| src/main/java/moar/awake/WokeRepository.java:369-370 | a `where` filter is prefixed with the blank row's derived table, ignoring the repository's table-name override | a `PetRow` repository made with the table `pets` queries `pet` | the filter reads from the table the repository was made for | medium, not executed | `Repository.WhereTableAsWritten`, `Repository.WhereIgnoresOverride` | `Repository.WhereTable` |
| src/main/java/moar/awake/WokeRepository.java:402 | `executeQuery` runs outside the block that closes the statement and the hold on failure | a query that throws: the statement and the hold stay open | a failed query releases what the failed prepare or bind would | medium, not executed | `Repository.OpenCursorAsWritten`, `Repository.FailedQueryLeaks` | `Repository.OpenCursor`, `Repository.CursorReleasesAll` |
| src/main/java/moar/sugar/MoarStringUtil.java:61-68 | a rejected character is assigned to the loop variable only, so it is dropped instead of replaced | `cleanWithOnlyAscii("a\u00e9")` gives `a` | the documentation at lines 21-29 and 45-55 promises a space in its place, giving `a `; its wording names the matching characters, but `cleanWithOnlyAscii`'s promise of an ASCII-only result fixes the rejected ones as meant | medium, not executed | `StringUtil.ReplaceChars`, `StringUtil.AccentDropped` | `StringUtil.ReplaceCharsIntended`, `StringUtil.CleanWithOnlyAsciiIntended`, `StringUtil.DropsUnlessAllAccepted` |

=== FILE: cursors.dfy ===
/** The helpers that drain a result cursor into a list (`use`/`wake` of
    `InterfaceUtil`, `WakeUtil` and `Waker`), that make a repository for a
    row interface, and `findOrDefine`. A cursor is the sequence of what
    its successive `next()`/`get()` pairs produce: a row, or the exception
    one of them threw; the end of the sequence is `next()` answering
    false. */
module Cursors {
  import opened JavaLang
  import opened RowProxy
  import opened InsertStatement
  import opened Repository
  import Sugar

  /** One step of a cursor. */
  datatype Step<T> = Row(value: T) | Fails(exn: Exn)

  /** How many rows are taken before the size check stops the loop: at
      least one, since the check follows the first add. */
  function Cap(limit: int): (r: nat)
    ensures r >= 1 && r >= limit
    ensures limit >= 1 ==> r == limit
  {
    if limit < 1 then 1 else limit
  }

  /** The rows before the cursor's first failure. */
  function Leading<T>(steps: seq<Step<T>>): (r: seq<T>)
    ensures |r| <= |steps|
    ensures forall k :: 0 <= k < |r| ==> steps[k] == Row(r[k])
    ensures |r| < |steps| ==> steps[|r|].Fails?
  {
    if |steps| == 0 || steps[0].Fails? then []
    else [steps[0].value] + Leading(steps[1..])
  }

  /** What draining with a limit yields, as a whole: the first `Cap(limit)`
      rows when the cursor gets that far; otherwise its failure, if it
      fails, or all its rows. */
  function Drained<T>(steps: seq<Step<T>>, limit: int): Outcome<seq<T>> {
    var rows := Leading(steps);
    if |rows| >= Cap(limit) then Ok(rows[..Cap(limit)])
    else if |rows| < |steps| then Throw(steps[|rows|].exn)
    else Ok(rows)
  }

  /** `use(iter, limit)`: rows are added in cursor order and the list is
      returned as soon as its size reaches the limit. */
  method Use<T>(steps: seq<Step<T>>, limit: int) returns (r: Outcome<seq<T>>)
    ensures r == Drained(steps, limit)
    ensures r.Ok? ==> |r.value| <= Cap(limit) && r.value == Leading(steps)[..|r.value|]
  {
    var list: seq<T> := [];
    var i := 0;
    while i < |steps|
      invariant i <= |Leading(steps)| && list == Leading(steps)[..i]
      invariant |list| < Cap(limit)
    {
      match steps[i]
      case Fails(e) =>
        return Throw(e);
      case Row(v) =>
        assert i < |Leading(steps)| && Leading(steps)[i] == v;
        list := list + [v];
        i := i + 1;
        assert list == Leading(steps)[..i];
        if |list| >= limit {
          assert |list| == Cap(limit);
          return Ok(list);
        }
    }
    assert list == Leading(steps);
    return Ok(list);
  }

  /** An empty cursor gives an empty list. */
  lemma EmptyCursor<T>(limit: int)
    ensures Drained<T>([], limit) == Ok([])
  {
  }

  /** A limit of one or less yields exactly the first row of a cursor
      that has one. */
  lemma SmallLimitTakesOne<T>(v: T, rest: seq<Step<T>>, limit: int)
    requires limit <= 1
    ensures Drained([Row(v)] + rest, limit) == Ok([v])
  {
    assert Leading([Row(v)] + rest)[..1] == [v];
  }

  /** Raising the limit only ever lengthens the list. */
  lemma DrainedMonotone<T>(steps: seq<Step<T>>, a: int, b: int)
    requires a <= b && Drained(steps, a).Ok? && Drained(steps, b).Ok?
    ensures Drained(steps, a).value <= Drained(steps, b).value
  {
  }

  /** `use(iter)`: drain with `Integer.MAX_VALUE`, then close the cursor
      inside `require` in a `finally`, whose failure replaces the result. */
  method UseAll<T>(steps: seq<Step<T>>, close: Outcome<()>) returns (r: Outcome<seq<T>>)
    ensures close.Ok? ==> r == Drained(steps, IntMax)
    ensures close.Throw? ==> r.Throw? && r.exn == Sugar.RequireCall(close).exn
  {
    var drained := Use(steps, IntMax);
    var closed := Sugar.RequireCall(close);
    if closed.Throw? {
      return Throw(closed.exn);
    }
    return drained;
  }

  /** A cursor without a failure is drained completely when it is
      shorter than the limit. */
  lemma DrainsShortCursor<T>(rows: seq<T>, limit: int)
    requires |rows| < Cap(limit)
    ensures Drained(seq(|rows|, k requires 0 <= k < |rows| => Row(rows[k])), limit) == Ok(rows)
  {
    var steps := seq(|rows|, k requires 0 <= k < |rows| => Row(rows[k]));
    LeadingOfRows(steps, rows);
  }

  lemma {:induction false} LeadingOfRows<T>(steps: seq<Step<T>>, rows: seq<T>)
    requires |steps| == |rows| && forall k :: 0 <= k < |rows| ==> steps[k] == Row(rows[k])
    ensures Leading(steps) == rows
  {
    if |steps| > 0 {
      LeadingOfRows(steps[1..], rows[1..]);
    }
  }

  // ---------------------------------------------------------------------
  // Repositories
  // ---------------------------------------------------------------------

  /** A repository: the row interface and its table-name override. */
  datatype Repo = Repo(cls: RowClass, tableName: Option<string>)

  /** `use(clz)` / `use(clz, tableName)`. */
  function UseClass(cls: RowClass, tableName: Option<string>): (r: Repo)
    ensures r.cls == cls && r.tableName == tableName
  {
    Repo(cls, tableName)
  }

  /** The table the repository's statements name: its override, else the
      name derived from the interface. */
  lemma RepoTable(cls: RowClass, tableName: Option<string>)
    ensures var r := UseClass(cls, tableName);
      TableOf(r.tableName, NewProxy(r.cls))
        == if tableName.Some? then tableName.value else DerivedTableName(cls, '`')
  {
  }

  /** `id(Long)`'s key: `setId` with the value. */
  function IdKey(id: int): Proxy -> Proxy {
    row => SetProperty(row, "setId", Some(LongVal(id)))
  }

  /** `findOrDefine(ds, id, clz)`: the id is required; the first row the
      find query returns for the filter row, or else a new unsaved row.
      `rows` answers the query for a filter row. */
  function FindOrDefine(cls: RowClass, id: Option<int>, rows: Proxy -> Outcome<seq<Proxy>>): (r: Outcome<Proxy>)
    ensures id.None? ==> r == Throw(Sugar.RequiredTestFailed)
  {
    if id.None? then Throw(Sugar.RequiredTestFailed)
    else
      var g := Where(Guard(false, Unset), IdKey(id.value));
      var filter := FilterRow(g, NewProxy(cls)).value;
      match Sugar.RequireCall(rows(filter))
      case Throw(e) => Throw(e)
      case Ok(found) =>
        match FirstFound(found)
        case Some(row) => Ok(row)
        case None => Ok(NewProxy(cls))
  }

  /** The query is asked for a blank row carrying just the id, and the
      answer decides: the first row found, or a new row of the interface;
      a failing query fails as a runtime exception. */
  lemma FindOrDefineResult(cls: RowClass, id: int, rows: Proxy -> Outcome<seq<Proxy>>)
    ensures var filter := IdKey(id)(NewProxy(cls));
      && GetProperty(filter, "getId") == Some(LongVal(id))
      && (rows(filter).Ok? && |rows(filter).value| > 0 ==> FindOrDefine(cls, Some(id), rows) == Ok(rows(filter).value[0]))
      && (rows(filter) == Ok([]) ==> FindOrDefine(cls, Some(id), rows) == Ok(NewProxy(cls)))
      && (rows(filter).Throw? ==> FindOrDefine(cls, Some(id), rows) == Throw(Sugar.RequireCall(rows(filter)).exn))
  {
    GetAfterSet(NewProxy(cls), "Id", Some(LongVal(id)));
  }
}

=== FILE: insert.dfy ===
/** The INSERT and UPSERT statements a repository sends for one row
    (`doInsertRowWithConnection` and `setObjects`): the SQL text, the
    values bound to its placeholders, whether generated keys are read
    back, how JDBC failures are reported, and what the row looks like
    afterwards. JDBC itself is abstract: the affected-row count and the
    generated key are given. */
module InsertStatement {
  import opened JavaLang
  import opened JString
  import opened Naming
  import opened Sorting
  import opened RowProxy
  import Sugar

  // ---------------------------------------------------------------------
  // Statement text
  // ---------------------------------------------------------------------

  /** `s` written `n` times; nothing when `n <= 0`. */
  function Repeat(s: string, n: int): (r: string)
    ensures |r| == if n <= 0 then 0 else n * |s|
    decreases if n < 0 then 0 else n
  {
    if n <= 0 then [] else s + Repeat(s, n - 1)
  }

  /** The target column list: the identity column first when the row has
      one, then the columns joined by newline-comma. */
  function ColumnListText(idColumn: string, hasId: bool, columns: seq<string>): string {
    (if hasId then idColumn + "\n," else "") + Join("\n,", columns)
  }

  /** The VALUES list: a placeholder for the identity when the row has
      one, then one placeholder that is always written, then one more for
      every column after the first. */
  function PlaceholderText(hasId: bool, n: int): string {
    (if hasId then "?,\n" else "") + "?\n" + Repeat("\n,?", n - 1)
  }

  /** `insert into <table> (<columns>) values (<placeholders>)`. */
  function InsertText(table: string, idColumn: string, hasId: bool, columns: seq<string>): string {
    "insert into \n" + table + " (\n" + ColumnListText(idColumn, hasId, columns)
    + ") values (\n" + PlaceholderText(hasId, |columns|) + "\n)\n"
  }

  /** The assignment loop of the upsert clause: each column as `col=?`,
      preceded by newline-comma-space once a comma is needed. */
  function AssignmentText(columns: seq<string>, commaNeeded: bool): string {
    if |columns| == 0 then []
    else (if commaNeeded then "\n, " else "") + columns[0] + "=?" + AssignmentText(columns[1..], true)
  }

  /** `on duplicate key update`: for a row with an identity, first
      `id=last_insert_id(id)` (so the key of an updated row is reported
      back), then every column assigned from its placeholder. */
  function UpsertClause(idColumn: string, hasId: bool, columns: seq<string>): string {
    " on duplicate key update\n"
    + (if hasId then idColumn + "=last_insert_id(" + idColumn + ") " else "")
    + AssignmentText(columns, hasId)
  }

  /** The whole statement. */
  function InsertSql(table: string, idColumn: string, hasId: bool, columns: seq<string>, isUpsert: bool): string {
    InsertText(table, idColumn, hasId, columns) + if isUpsert then UpsertClause(idColumn, hasId, columns) else ""
  }

  /** The column each placeholder stands for, in statement order. */
  function Targets(idColumn: string, hasId: bool, columns: seq<string>, isUpsert: bool): seq<string> {
    Layout(if hasId then [idColumn] else [], columns, isUpsert)
  }

  /** A head, a body, and the body again when `twice`. */
  function Layout<T>(head: seq<T>, body: seq<T>, twice: bool): (r: seq<T>)
    ensures |r| == |head| + |body| + if twice then |body| else 0
  {
    head + body + if twice then body else []
  }

  /** Past the head, two layouts of equally long parts line up: position
      `i` comes from the same body position in both. */
  lemma LayoutAt<A, B>(h1: seq<A>, b1: seq<A>, h2: seq<B>, b2: seq<B>, twice: bool, i: nat)
    requires |h1| == |h2| <= i < |Layout(h1, b1, twice)| && |b1| == |b2|
    ensures var j := if i < |h1| + |b1| then i - |h1| else i - |h1| - |b1|;
      0 <= j < |b1| && Layout(h1, b1, twice)[i] == b1[j] && Layout(h2, b2, twice)[i] == b2[j]
  {
  }

  /** The assignments as a list: `col=?` per column. */
  function Assignments(columns: seq<string>): (r: seq<string>)
    ensures |r| == |columns|
    ensures forall i :: 0 <= i < |columns| ==> r[i] == columns[i] + "=?"
  {
    if |columns| == 0 then [] else [columns[0] + "=?"] + Assignments(columns[1..])
  }

  /** The assignment loop writes the assignments joined by newline-comma-
      space, with one more separator in front when a comma was already
      needed. */
  lemma {:induction false} AssignmentTextIsJoin(columns: seq<string>, commaNeeded: bool)
    ensures AssignmentText(columns, commaNeeded)
      == if |columns| == 0 then [] else (if commaNeeded then "\n, " else "") + Join("\n, ", Assignments(columns))
  {
    if |columns| > 0 {
      var head := columns[0] + "=?";
      var rest := columns[1..];
      var lead: string := if commaNeeded then "\n, " else "";
      assert AssignmentText(columns, commaNeeded) == lead + head + AssignmentText(rest, true);
      assert Assignments(columns) == [head] + Assignments(rest);
      if |rest| > 0 {
        AssignmentTextIsJoin(rest, true);
        var j := Join("\n, ", Assignments(rest));
        JoinCons("\n, ", head, Assignments(rest));
        Assoc3(lead, head, "\n, ", j);
      }
    }
  }

  lemma Assoc3(a: string, b: string, c: string, d: string)
    ensures a + b + (c + d) == a + (b + c + d)
  {
  }

  // ---------------------------------------------------------------------
  // Counting placeholders
  // ---------------------------------------------------------------------

  /** `c` occurs in none of the parts nor the separator, so not in the
      joined text. */
  lemma {:induction false} JoinFree(sep: string, parts: seq<string>, c: char)
    requires c !in sep && forall i :: 0 <= i < |parts| ==> c !in parts[i]
    ensures c !in Join(sep, parts)
  {
    if |parts| > 1 {
      JoinFree(sep, parts[1..], c);
    }
  }

  lemma {:induction false} CountRepeat(n: int)
    ensures Count(Repeat("\n,?", n), '?') == if n <= 0 then 0 else n
    decreases if n < 0 then 0 else n
  {
    if n > 0 {
      CountRepeat(n - 1);
      CountAppend("\n,?", Repeat("\n,?", n - 1), '?');
      assert Count("\n,?", '?') == 1 by {
        assert "\n,?"[1..] == ",?" && ",?"[1..] == "?" && "?"[1..] == [];
      }
    }
  }

  /** One placeholder per value, and at least one. */
  lemma CountPlaceholders(hasId: bool, n: int)
    ensures Count(PlaceholderText(hasId, n), '?') == (if hasId then 1 else 0) + (if n <= 1 then 1 else n)
  {
    var h: string := if hasId then "?,\n" else "";
    assert Count(h, '?') == if hasId then 1 else 0 by {
      assert "?,\n"[1..] == ",\n" && '?' !in ",\n";
    }
    assert Count("?\n", '?') == 1 by {
      assert "?\n"[1..] == "\n" && '?' !in "\n";
    }
    CountRepeat(n - 1);
    CountAppend(h, "?\n", '?');
    CountAppend(h + "?\n", Repeat("\n,?", n - 1), '?');
  }

  lemma {:induction false} CountAssignments(columns: seq<string>, commaNeeded: bool)
    requires forall i :: 0 <= i < |columns| ==> '?' !in columns[i]
    ensures Count(AssignmentText(columns, commaNeeded), '?') == |columns|
  {
    if |columns| > 0 {
      var lead: string := if commaNeeded then "\n, " else "";
      var rest := AssignmentText(columns[1..], true);
      CountAssignments(columns[1..], true);
      assert Count(lead + columns[0], '?') == 0;
      assert Count("=?", '?') == 1 by { assert "=?"[1..] == "?"; }
      CountAppend(lead + columns[0], "=?", '?');
      CountAppend(lead + columns[0] + "=?", rest, '?');
    }
  }

  lemma CountInsertText(table: string, idColumn: string, hasId: bool, columns: seq<string>)
    requires '?' !in table && '?' !in idColumn
    requires forall i :: 0 <= i < |columns| ==> '?' !in columns[i]
    ensures Count(InsertText(table, idColumn, hasId, columns), '?')
      == (if hasId then 1 else 0) + (if |columns| <= 1 then 1 else |columns|)
  {
    JoinFree("\n,", columns, '?');
    var head := "insert into \n" + table + " (\n" + ColumnListText(idColumn, hasId, columns) + ") values (\n";
    assert '?' !in head;
    var ph := PlaceholderText(hasId, |columns|);
    CountPlaceholders(hasId, |columns|);
    CountAppend(head, ph, '?');
    CountAppend(head + ph, "\n)\n", '?');
  }

  lemma CountUpsertClause(idColumn: string, hasId: bool, columns: seq<string>)
    requires '?' !in idColumn
    requires forall i :: 0 <= i < |columns| ==> '?' !in columns[i]
    ensures Count(UpsertClause(idColumn, hasId, columns), '?') == |columns|
  {
    var idSet: string := if hasId then idColumn + "=last_insert_id(" + idColumn + ") " else "";
    var lead := " on duplicate key update\n" + idSet;
    assert '?' !in lead;
    CountAssignments(columns, hasId);
    CountAppend(lead, AssignmentText(columns, hasId), '?');
  }

  /** A statement with at least one column has one placeholder per target
      column; with no columns it has one placeholder too many. */
  lemma CountInsertSql(table: string, idColumn: string, hasId: bool, columns: seq<string>, isUpsert: bool)
    requires '?' !in table && '?' !in idColumn
    requires forall i :: 0 <= i < |columns| ==> '?' !in columns[i]
    ensures Count(InsertSql(table, idColumn, hasId, columns, isUpsert), '?')
      == |Targets(idColumn, hasId, columns, isUpsert)| + if |columns| == 0 then 1 else 0
  {
    var text := InsertText(table, idColumn, hasId, columns);
    var tail := if isUpsert then UpsertClause(idColumn, hasId, columns) else "";
    CountInsertText(table, idColumn, hasId, columns);
    if isUpsert {
      CountUpsertClause(idColumn, hasId, columns);
    }
    assert Count(tail, '?') == if isUpsert then |columns| else 0;
    CountAppend(text, tail, '?');
  }

  // ---------------------------------------------------------------------
  // Bound values
  // ---------------------------------------------------------------------

  /** The JDBC values of `columns`, in order. */
  function DbValues(p: Proxy, columns: seq<string>): (r: seq<Option<Value>>)
    ensures |r| == |columns|
    ensures forall i :: 0 <= i < |columns| ==> r[i] == GetDbValue(p, columns[i])
  {
    if |columns| == 0 then [] else [GetDbValue(p, columns[0])] + DbValues(p, columns[1..])
  }

  /** `row instanceof WakeableRow.IdColumn`. */
  predicate HasId(p: Proxy) { p.cls.idKind.IsIdColumn() }

  /** The columns written: every column, the identity included only when
      the row is not an identity row (an identity row writes it first). */
  function InsertColumns(p: Proxy): seq<string> {
    GetColumns(p, !HasId(p))
  }

  /** `setObjects`: the identity's entry of the row's column map (`get()`)
      when the row has one, then each column's JDBC value, then, for an
      upsert, each column's JDBC value again. */
  function InsertParams(p: Proxy, view: map<string, Value>, isUpsert: bool): (r: seq<Option<Value>>)
    ensures |r| == |Targets(IdColumn(p), HasId(p), InsertColumns(p), isUpsert)|
  {
    Layout(if HasId(p) then [Lookup(view, IdColumn(p))] else [], DbValues(p, InsertColumns(p)), isUpsert)
  }

  /** Each placeholder is bound to the value of the column it stands for:
      the identity from the column map, every other column through
      `getDbValue`. */
  lemma ParamBindsTarget(p: Proxy, view: map<string, Value>, isUpsert: bool, i: nat)
    requires i < |Targets(IdColumn(p), HasId(p), InsertColumns(p), isUpsert)|
    ensures var ts := Targets(IdColumn(p), HasId(p), InsertColumns(p), isUpsert);
      InsertParams(p, view, isUpsert)[i]
        == if HasId(p) && i == 0 then Lookup(view, IdColumn(p)) else GetDbValue(p, ts[i])
  {
    var cols := InsertColumns(p);
    var vs := DbValues(p, cols);
    var h: seq<Option<Value>> := if HasId(p) then [Lookup(view, IdColumn(p))] else [];
    var hs: seq<string> := if HasId(p) then [IdColumn(p)] else [];
    if i >= |h| {
      LayoutAt(h, vs, hs, cols, isUpsert, i);
    }
  }

  /** The identity is bound from the column map under the quoted `id`
      key, and that is the row's own identity value. */
  lemma IdParamIsIdValue(p: Proxy, order: seq<string>)
    requires Distinct(order) && Elems(order) == p.current.Keys
    requires forall x :: x in p.current ==> Codable(x, p.quote)
    requires Codable(IdProperty, p.quote)
    ensures Lookup(DbView(p, order), IdColumn(p)) == IdValue(p)
  {
    var view := DbView(p, order);
    if IdProperty in p.current {
      DbViewLookup(p, order, IdProperty);
    } else if IdColumn(p) in view {
      var k :| k in p.current && IdColumn(p) == ToDbName(k, p.quote);
      ColumnRoundTrip(k, p.quote);
      ColumnRoundTrip(IdProperty, p.quote);
      assert false;
    }
  }

  /** The names Java allows: no `?` in the interface's name or its method
      names, nor as the quote character. */
  predicate PlainNames(p: Proxy) {
    p.quote != '?' && '?' !in p.cls.simpleName && forall m :: m in p.cls.methods ==> '?' !in m
  }

  /** A character that is neither a letter nor `_` survives snake-casing
      only where it already was. */
  lemma {:induction false} SnakeTailFree(s: string, x: char)
    requires x != '_' && !IsAsciiLower(x) && !IsAsciiUpper(x) && x !in s
    ensures x !in SnakeTail(s)
  {
    if |s| > 0 {
      SnakeTailFree(s[1..], x);
    }
  }

  lemma ColumnFree(p: Proxy, m: string)
    requires PlainNames(p) && '?' !in m
    ensures '?' !in ColumnOf(p, m)
  {
    var pn := PropertyName(m);
    var t := if StartsWith(m, "get") || StartsWith(m, "set") then m[3..] else m;
    assert '?' !in t;
    assert '?' !in pn;
    if |pn| > 0 {
      SnakeTailFree(pn[1..], '?');
    }
  }

  /** Columns of a row interface with plain names hold no `?`. */
  lemma ColumnsFree(p: Proxy, includeId: bool)
    requires PlainNames(p)
    ensures forall i :: 0 <= i < |GetColumns(p, includeId)| ==> '?' !in GetColumns(p, includeId)[i]
  {
    var cols := GetColumns(p, includeId);
    forall i | 0 <= i < |cols| ensures '?' !in cols[i] {
      ListedColumnFree(p, includeId, cols[i]);
    }
  }

  lemma ListedColumnFree(p: Proxy, includeId: bool, c: string)
    requires PlainNames(p) && c in GetColumns(p, includeId)
    ensures '?' !in c
  {
    var m :| m in Methods(p.cls) && Selected(m, includeId) && c == ColumnOf(p, m);
    MethodFree(p, m);
    ColumnFree(p, m);
  }

  lemma MethodFree(p: Proxy, m: string)
    requires PlainNames(p) && m in Methods(p.cls)
    ensures '?' !in m
  {
    if m !in p.cls.methods {
      assert m == "getId" || m == "setId";
    }
  }

  /** The table a repository writes to: its own override when it has one,
      otherwise the row's table name (`nonNull(tableName, getTableName())`). */
  function TableOf(override: Option<string>, p: Proxy): (r: string)
    ensures override.Some? ==> r == override.value
    ensures override.None? ==> r == GetTableName(p).0
    ensures override.None? && p.tableName.None? ==> r == DerivedTableName(p.cls, p.quote)
  {
    var t := GetTableName(p).0;
    Sugar.NonNullPair(override, t);
    Sugar.NonNull([override, Some(t)]).value
  }

  lemma TableFree(override: Option<string>, p: Proxy)
    requires PlainNames(p) && p.tableName.None?
    requires override.Some? ==> '?' !in override.value
    ensures '?' !in TableOf(override, p)
  {
    if override.None? {
      var n := p.cls.simpleName;
      var base := if EndsWith(n, "Row") then n[..|n| - 3] else n;
      assert forall i :: 0 <= i < |base| ==> base[i] == n[i];
      assert '?' !in base;
      if |base| > 0 {
        SnakeTailFree(base[1..], '?');
      }
    }
  }

  /** The statement for a row. */
  function Statement(override: Option<string>, p: Proxy, isUpsert: bool): string {
    InsertSql(TableOf(override, p), IdColumn(p), HasId(p), InsertColumns(p), isUpsert)
  }

  /** Every placeholder gets exactly one bound value as long as the row
      has a column besides the identity; a row without one leaves one
      placeholder unbound. */
  lemma ParamsMatchPlaceholders(override: Option<string>, p: Proxy, view: map<string, Value>, isUpsert: bool)
    requires PlainNames(p) && p.tableName.None?
    requires override.Some? ==> '?' !in override.value
    ensures Count(Statement(override, p, isUpsert), '?') == |InsertParams(p, view, isUpsert)|
      <==> |InsertColumns(p)| > 0
  {
    ColumnsFree(p, !HasId(p));
    TableFree(override, p);
    assert '?' !in IdColumn(p);
    CountInsertSql(TableOf(override, p), IdColumn(p), HasId(p), InsertColumns(p), isUpsert);
  }

  // ---------------------------------------------------------------------
  // Running the statement
  // ---------------------------------------------------------------------

  /** The repository reads generated keys back only for an upsert of an
      auto-increment identity row. */
  predicate ReadsGeneratedKey(kind: IdKind, isUpsert: bool) {
    isUpsert && kind == IdAsAutoLong
  }

  /** The other repository class (`Waker`) reads them back for an upsert
      of any identity row. */
  predicate WakerReadsGeneratedKey(kind: IdKind, isUpsert: bool) {
    isUpsert && kind.IsIdColumn()
  }

  /** Where the two classes differ: upserts of identity rows whose key is
      not auto-increment. */
  lemma GeneratedKeyFlavours(kind: IdKind, isUpsert: bool)
    ensures ReadsGeneratedKey(kind, isUpsert) ==> WakerReadsGeneratedKey(kind, isUpsert)
    ensures WakerReadsGeneratedKey(kind, isUpsert) && !ReadsGeneratedKey(kind, isUpsert)
      <==> isUpsert && kind.IsIdColumn() && kind != IdAsAutoLong
  {
  }

  /** How a failure while executing is reported: a syntax error and any
      other failure as `MoarException`s, a transaction rollback (deadlock)
      as a `RetryableException` around it. */
  function InsertFailure(e: Exn): (r: Exn)
    ensures r.IsRuntime()
  {
    match e
    case SqlSyntaxError => Moar("bad sql syntax on upsert")
    case SqlRollback => Retryable(Some(e))
    case _ => Moar("upsert failed")
  }

  /** Only a rollback is worth retrying: `retry`, which drives
      transactions, retries exactly the reported rollbacks. */
  lemma OnlyRollbackRetried(e: Exn)
    ensures Sugar.SugarRetries(InsertFailure(e)) <==> e == SqlRollback
    ensures InsertFailure(e) == Moar("bad sql syntax on upsert") <==> e == SqlSyntaxError
  {
  }

  /** What the database does: the affected-row count of `executeUpdate`,
      and the first generated key (`None` when the key result set is
      empty). */
  datatype Jdbc = Jdbc(updated: Outcome<int>, generatedKey: Outcome<Option<Value>>)

  /** The entries of `m` in the iteration order `order`. */
  function Entries(m: map<string, Value>, order: seq<string>): (r: seq<(string, Option<Value>)>)
    requires forall k :: k in order ==> k in m
    ensures |r| == |order|
    ensures forall i :: 0 <= i < |order| ==> r[i] == (order[i], Some(m[order[i]]))
  {
    if |order| == 0 then [] else [(order[0], Some(m[order[0]]))] + Entries(m, order[1..])
  }

  /** Executing the prepared statement. `view` is the row's column map
      taken before executing, and `keyOrder` the iteration order of that
      map once the generated key is put into it. The affected-row count is
      checked inside `swallow`, so it never decides anything. */
  function Execute(p: Proxy, view: map<string, Value>, keyOrder: seq<string>, readKey: bool, db: Jdbc): (r: Outcome<Proxy>)
    requires Elems(keyOrder) == view.Keys + {IdColumn(p)}
    ensures db.updated.Throw? ==> r == Throw(InsertFailure(db.updated.exn))
    ensures db.updated.Ok? && !readKey ==> r == Ok(p)
  {
    match db.updated
    case Throw(e) => Throw(InsertFailure(e))
    case Ok(_) =>
      if !readKey then Ok(p)
      else
        match db.generatedKey
        case Throw(e) => Throw(InsertFailure(e))
        case Ok(None) => Ok(p)
        case Ok(Some(id)) =>
          var withKey := view[IdColumn(p) := id];
          assert forall k :: k in keyOrder ==> k in withKey by {
            forall k | k in keyOrder ensures k in withKey { assert k in Elems(keyOrder); }
          }
          Ok(Set(p, Entries(withKey, keyOrder)))
  }

  /** The affected-row count is swallowed: any two counts give the same
      result. */
  lemma CountSwallowed(p: Proxy, view: map<string, Value>, keyOrder: seq<string>, readKey: bool,
                       n1: int, n2: int, key: Outcome<Option<Value>>)
    requires Elems(keyOrder) == view.Keys + {IdColumn(p)}
    ensures Execute(p, view, keyOrder, readKey, Jdbc(Ok(n1), key)) == Execute(p, view, keyOrder, readKey, Jdbc(Ok(n2), key))
  {
  }

  /** A generated key read back becomes the row's identity, and the row is
      reloaded clean from its column map. */
  lemma GeneratedKeyStored(p: Proxy, order: seq<string>, keyOrder: seq<string>, n: int, id: Value)
    requires Distinct(order) && Elems(order) == p.current.Keys
    requires forall x :: x in p.current ==> Codable(x, p.quote)
    requires Codable(IdProperty, p.quote)
    requires Distinct(keyOrder) && Elems(keyOrder) == DbView(p, order).Keys + {IdColumn(p)}
    ensures var r := Execute(p, DbView(p, order), keyOrder, true, Jdbc(Ok(n), Ok(Some(id))));
      r.Ok? && IdValue(r.value) == Some(id) && !IsDirty(r.value)
  {
    var view := DbView(p, order);
    var q := p.quote;
    var idc := IdColumn(p);
    var withKey := view[idc := id];
    assert forall k :: k in keyOrder ==> k in withKey by {
      forall k | k in keyOrder ensures k in withKey { assert k in Elems(keyOrder); }
    }
    var es := Entries(withKey, keyOrder);
    assert idc in Elems(keyOrder);
    var i :| 0 <= i < |keyOrder| && keyOrder[i] == idc;
    ColumnRoundTrip(IdProperty, q);
    assert FromDbName(es[i].0, q) == IdProperty;
    forall j | i < j < |es| ensures FromDbName(es[j].0, q) != IdProperty {
      var d := keyOrder[j];
      assert d != idc;
      assert d in Elems(keyOrder);
      assert d in view;
      var k :| k in p.current && d == ToDbName(k, q);
      ColumnRoundTrip(k, q);
    }
    SetStoresColumn(map[], map[], q, es, i);
    SetLeavesClean(p, es);
  }
}

=== FILE: javalang.dfy ===
/** The small slice of the Java runtime that the rest of the model needs:
    a nullable reference (`Option`), the exceptions the library throws or
    catches (`Exn`), and a failure-compatible `Outcome` that stands for
    "returned a value" or "threw". */
module JavaLang {

  /** A Java reference that may be null. */
  datatype Option<+T> = None | Some(value: T) {
    predicate IsFailure() { None? }

    function PropagateFailure<U>(): Option<U>
      requires None?
    {
      None
    }

    function Extract(): T
      requires Some?
    {
      value
    }

    function GetOr(default: T): T {
      match this
      case Some(v) => v
      case None => default
    }
  }

  /** The exceptions that appear in the modelled code. `Retryable` is
      `moar.sugar.RetryableException`, `RetryableTx` is the separate
      `moar.RetryableException` used by `moar.Exceptional`. The three `Sql*`
      constructors stand for the JDBC exception classes the repository layer
      tells apart; `Checked` is any checked exception and `Error` any
      `java.lang.Error`. */
  datatype Exn =
    | Moar(msg: string)
    | Retryable(cause: Option<Exn>)
    | RetryableTx(cause: Option<Exn>)
    | NullPointer
    | IndexOutOfBounds
    | NumberFormat
    | ClassCast
    | Arithmetic
    | StringMessage(msg: string)
    | Runtime(msg: string)
    | Wrapped(inner: Exn)
    | SqlSyntaxError
    | SqlRollback
    | SqlFailure(msg: string)
    | Checked(msg: string)
    | Error(msg: string)
  {
    /** Subclasses of `RuntimeException`. */
    predicate IsRuntime() {
      Moar? || Retryable? || RetryableTx? || NullPointer? || IndexOutOfBounds?
      || NumberFormat? || ClassCast? || Arithmetic? || StringMessage? || Runtime? || Wrapped?
    }

    /** Subclasses of `Exception` (everything except `Error`). */
    predicate IsException() {
      !Error?
    }
  }

  /** `asRuntimeException`: runtime exceptions pass through, anything else
      is wrapped in a `RuntimeException`. */
  function AsRuntime(e: Exn): (r: Exn)
    ensures r.IsRuntime()
    ensures e.IsRuntime() ==> r == e
    ensures !e.IsRuntime() ==> r.Wrapped? && r.inner == e
  {
    if e.IsRuntime() then e else Wrapped(e)
  }

  /** Either a normal return with `value` or an exception `exn`. */
  datatype Outcome<+T> = Ok(value: T) | Throw(exn: Exn) {
    predicate IsFailure() { Throw? }

    function PropagateFailure<U>(): Outcome<U>
      requires Throw?
    {
      Throw(exn)
    }

    function Extract(): T
      requires Ok?
    {
      value
    }
  }

  /** `Integer.MAX_VALUE`. */
  const IntMax: int := 0x7fff_ffff

  /** `Long.MAX_VALUE`. */
  const LongMax: int := 0x7fff_ffff_ffff_ffff

  /** The range of a Java `long`. */
  newtype Long = x: int | -0x8000_0000_0000_0000 <= x <= LongMax

  /** Two's-complement wrap-around of a mathematical integer into a `long`. */
  function Wrap64(x: int): (r: Long)
    ensures (r as int - x) % 0x1_0000_0000_0000_0000 == 0
    ensures -0x8000_0000_0000_0000 <= x <= LongMax ==> r as int == x
  {
    var m := x % 0x1_0000_0000_0000_0000;
    if m <= LongMax then m as Long else (m - 0x1_0000_0000_0000_0000) as Long
  }

  function Abs(x: int): nat { if x < 0 then -x else x }

  /** Java integer division, which truncates toward zero (Dafny's `/` is
      Euclidean): the remainder takes the sign of the dividend and is
      smaller than the divisor in magnitude. */
  function JavaDiv(a: int, b: int): (q: int)
    requires b != 0
    ensures Abs(a - q * b) < Abs(b)
    ensures a - q * b == 0 || (a - q * b > 0 <==> a > 0)
  {
    var n := Abs(a) / Abs(b);
    var q := if (a >= 0) == (b > 0) then n else -n;
    DivMagnitude(a, b, n, q);
    q
  }

  lemma DivMagnitude(a: int, b: int, n: int, q: int)
    requires b != 0 && n == Abs(a) / Abs(b)
    requires q == if (a >= 0) == (b > 0) then n else -n
    ensures Abs(a - q * b) < Abs(b)
    ensures a - q * b == 0 || (a - q * b > 0 <==> a > 0)
  {
    var B := Abs(b);
    var p, r := EuclidParts(Abs(a), B);
    SignedProduct(a, b, n, q);
    SignedRemainder(a, B, q * b, p, r);
  }

  /** `A == (A / B) * B + A % B` with the product and remainder named. */
  lemma EuclidParts(A: nat, B: int) returns (p: int, r: int)
    requires B > 0
    ensures p == (A / B) * B && r == A % B
    ensures A == p + r && 0 <= p && 0 <= r < B
  {
    p, r := (A / B) * B, A % B;
    MulNonNegative(A / B, B);
  }

  /** The linear part of the argument: taking away the signed product
      leaves the remainder with the sign of the dividend. */
  lemma SignedRemainder(a: int, B: int, qb: int, p: int, r: int)
    requires Abs(a) == p + r && 0 <= p && 0 <= r < B
    requires qb == if a >= 0 then p else -p
    ensures Abs(a - qb) < B
    ensures a - qb == 0 || (a - qb > 0 <==> a > 0)
  {
    assert a - qb == if a >= 0 then r else -r;
  }

  /** The quotient times the divisor: the product of the magnitudes, with
      the sign of the dividend. */
  lemma SignedProduct(a: int, b: int, n: int, q: int)
    requires b != 0
    requires q == if (a >= 0) == (b > 0) then n else -n
    ensures q * b == if a >= 0 then n * Abs(b) else -(n * Abs(b))
  {
    if b < 0 {
      NegTimesNeg(n, b);
    }
  }

  lemma MulNonNegative(x: int, y: int)
    requires 0 <= x && 0 <= y
    ensures 0 <= x * y
  {
  }

  lemma NegTimesNeg(n: int, b: int)
    ensures (-n) * b == n * (-b) == -(n * b)
  {
  }
}

=== FILE: jstring.dfy ===
/** The `java.lang.String` operations the library relies on, over
    `seq<char>`, each with the meaning Java gives it (including the `-1`
    of a failed search and the exception of an out-of-range substring). */
module JString {
  import opened JavaLang

  predicate StartsWith(s: string, p: string) {
    |p| <= |s| && s[..|p|] == p
  }

  predicate EndsWith(s: string, p: string) {
    |p| <= |s| && s[|s| - |p|..] == p
  }

  /** `sub` occurs in `s` at position `i`. */
  predicate OccursAt(s: string, sub: string, i: int) {
    0 <= i && i + |sub| <= |s| && s[i..i + |sub|] == sub
  }

  /** `s.indexOf(sub, from)` for a non-empty `sub`: the first occurrence at
      or after `from` (a negative `from` counts as 0), or -1. */
  function IndexOfFrom(s: string, sub: string, from: int): (r: int)
    requires |sub| > 0
    ensures r == -1 || (r >= from && OccursAt(s, sub, r))
    ensures r == -1 ==> forall k :: from <= k ==> !OccursAt(s, sub, k)
    ensures r != -1 ==> forall k :: from <= k < r ==> !OccursAt(s, sub, k)
    decreases |s| + 1 - (if from < 0 then -1 else from)
  {
    if from < 0 then IndexOfFrom(s, sub, 0)
    else if from + |sub| > |s| then -1
    else if OccursAt(s, sub, from) then from
    else IndexOfFrom(s, sub, from + 1)
  }

  /** `s.indexOf(sub)`. */
  function IndexOf(s: string, sub: string): (r: int)
    requires |sub| > 0
    ensures r == -1 || OccursAt(s, sub, r)
    ensures r == -1 <==> forall k :: !OccursAt(s, sub, k)
    ensures r != -1 ==> forall k :: k < r ==> !OccursAt(s, sub, k)
  {
    IndexOfFrom(s, sub, 0)
  }

  /** `s.indexOf(c)`. */
  function IndexOfChar(s: string, c: char): (r: int)
    ensures -1 <= r < |s|
    ensures r == -1 <==> c !in s
    ensures r >= 0 ==> s[r] == c && forall k :: 0 <= k < r ==> s[k] != c
  {
    if |s| == 0 then -1
    else if s[0] == c then 0
    else
      var t := IndexOfChar(s[1..], c);
      if t == -1 then -1 else t + 1
  }

  /** `s.lastIndexOf(c)`. */
  function LastIndexOfChar(s: string, c: char): (r: int)
    ensures -1 <= r < |s|
    ensures r == -1 <==> c !in s
    ensures r >= 0 ==> s[r] == c && forall k :: r < k < |s| ==> s[k] != c
  {
    if |s| == 0 then -1
    else if s[|s| - 1] == c then |s| - 1
    else
      assert s == s[..|s| - 1] + [s[|s| - 1]];
      LastIndexOfChar(s[..|s| - 1], c)
  }

  /** `s.substring(b, e)`, which throws unless `0 <= b <= e <= length`. */
  function Substring(s: string, b: int, e: int): (r: Outcome<string>)
    ensures r.Ok? <==> 0 <= b <= e <= |s|
    ensures r.Ok? ==> |r.value| == e - b && forall k :: 0 <= k < e - b ==> r.value[k] == s[b + k]
    ensures r.Throw? ==> r.exn == IndexOutOfBounds
  {
    if 0 <= b <= e <= |s| then Ok(s[b..e]) else Throw(IndexOutOfBounds)
  }

  /** `s.substring(b)`. */
  function SubstringFrom(s: string, b: int): (r: Outcome<string>)
    ensures r.Ok? <==> 0 <= b <= |s|
    ensures r.Ok? ==> r.value == s[b..] && s == s[..b] + r.value
  {
    Substring(s, b, |s|)
  }

  /** A character `trim` removes: any code point at or below the space. */
  predicate IsTrimmable(c: char) { c <= ' ' }

  /** The first index at or after `i` that holds a non-trimmable character, or `|s|`. */
  function SkipFront(s: string, i: nat): (r: nat)
    requires i <= |s|
    ensures i <= r <= |s|
    ensures forall k :: i <= k < r ==> IsTrimmable(s[k])
    ensures r < |s| ==> !IsTrimmable(s[r])
    decreases |s| - i
  {
    if i < |s| && IsTrimmable(s[i]) then SkipFront(s, i + 1) else i
  }

  /** The end, at or below `j` and not below `lo`, of the text without its trailing trimmable characters. */
  function SkipBack(s: string, lo: nat, j: nat): (r: nat)
    requires lo <= j <= |s|
    ensures lo <= r <= j
    ensures forall k :: r <= k < j ==> IsTrimmable(s[k])
    ensures r > lo ==> !IsTrimmable(s[r - 1])
  {
    if j > lo && IsTrimmable(s[j - 1]) then SkipBack(s, lo, j - 1) else j
  }

  /** Where the trimmed text starts. */
  function TrimStart(s: string): nat
    ensures TrimStart(s) <= |s|
  {
    SkipFront(s, 0)
  }

  /** `s.trim()`: the infix left after removing trimmable characters from
      both ends, and nothing else. */
  function Trim(s: string): (r: string)
    ensures TrimStart(s) + |r| <= |s| && r == s[TrimStart(s)..TrimStart(s) + |r|]
    ensures |r| == 0 || (!IsTrimmable(r[0]) && !IsTrimmable(r[|r| - 1]))
    ensures forall k :: 0 <= k < TrimStart(s) ==> IsTrimmable(s[k])
    ensures forall k :: TrimStart(s) + |r| <= k < |s| ==> IsTrimmable(s[k])
  {
    var i := SkipFront(s, 0);
    s[i..SkipBack(s, i, |s|)]
  }

  /** A text that neither starts nor ends with a trimmable character is
      its own trim. */
  lemma TrimOfFramed(s: string)
    requires |s| > 0 && !IsTrimmable(s[0]) && !IsTrimmable(s[|s| - 1])
    ensures Trim(s) == s
  {
    assert SkipFront(s, 0) == 0;
    assert SkipBack(s, 0, |s|) == |s|;
  }

  /** Trimming is idempotent. */
  lemma TrimIdempotent(s: string)
    ensures Trim(Trim(s)) == Trim(s)
  {
  }

  /** `String.join(sep, parts)`. */
  function Join(sep: string, parts: seq<string>): (r: string)
    ensures |parts| == 0 ==> r == []
    ensures |parts| == 1 ==> r == parts[0]
  {
    if |parts| == 0 then []
    else if |parts| == 1 then parts[0]
    else parts[0] + sep + Join(sep, parts[1..])
  }

  /** Joining one more part in front. */
  lemma JoinCons(sep: string, x: string, xs: seq<string>)
    requires |xs| > 0
    ensures Join(sep, [x] + xs) == x + sep + Join(sep, xs)
  {
    assert ([x] + xs)[1..] == xs;
  }

  /** Every occurrence of `a` replaced by `b` (`String.replace(char, char)`). */
  function ReplaceChar(s: string, a: char, b: char): (r: string)
    ensures |r| == |s|
    ensures forall k :: 0 <= k < |s| ==> r[k] == if s[k] == a then b else s[k]
  {
    if |s| == 0 then [] else [if s[0] == a then b else s[0]] + ReplaceChar(s[1..], a, b)
  }

  /** Every occurrence of `c` removed (`String.replace(q, "")` for a one-character `q`). */
  function RemoveChar(s: string, c: char): (r: string)
    ensures c !in r
    ensures |r| <= |s|
    ensures c !in s ==> r == s
  {
    if |s| == 0 then [] else (if s[0] == c then [] else [s[0]]) + RemoveChar(s[1..], c)
  }

  /** Every other character stays: removal keeps exactly the characters
      other than `c`. */
  lemma {:induction false} RemoveCharKeeps(s: string, c: char, x: char)
    requires x != c
    ensures x in RemoveChar(s, c) <==> x in s
  {
    if |s| > 0 {
      RemoveCharKeeps(s[1..], c, x);
      assert x in s <==> x == s[0] || x in s[1..] by { assert s == [s[0]] + s[1..]; }
    }
  }

  lemma Assoc<T>(a: seq<T>, b: seq<T>, c: seq<T>)
    ensures a + b + c == a + (b + c)
  {
  }

  /** Removal distributes over concatenation. */
  lemma {:induction false} RemoveCharAppend(a: string, b: string, c: char)
    ensures RemoveChar(a + b, c) == RemoveChar(a, c) + RemoveChar(b, c)
  {
    if |a| == 0 {
      assert a + b == b;
    } else {
      var h := if a[0] == c then [] else [a[0]];
      assert (a + b)[0] == a[0] && (a + b)[1..] == a[1..] + b;
      var x, y := RemoveChar(a[1..], c), RemoveChar(b, c);
      RemoveCharAppend(a[1..], b, c);
      assert RemoveChar(a + b, c) == h + (x + y);
      assert RemoveChar(a, c) == h + x;
      Assoc(h, x, y);
    }
  }

  predicate IsAsciiUpper(c: char) { 'A' <= c <= 'Z' }

  predicate IsAsciiLower(c: char) { 'a' <= c <= 'z' }

  predicate IsAsciiDigit(c: char) { '0' <= c <= '9' }

  function LowerChar(c: char): (r: char)
    ensures !IsAsciiUpper(r)
    ensures IsAsciiUpper(c) ==> UpperChar(r) == c
    ensures !IsAsciiUpper(c) ==> r == c
  {
    if IsAsciiUpper(c) then (c as int + 32) as char else c
  }

  function UpperChar(c: char): (r: char)
    ensures !IsAsciiLower(r)
    ensures IsAsciiLower(c) ==> IsAsciiUpper(r) && (r as int + 32) as char == c
    ensures !IsAsciiLower(c) ==> r == c
  {
    if IsAsciiLower(c) then (c as int - 32) as char else c
  }

  /** `toLowerCase()` restricted to the ASCII letters. */
  function Lower(s: string): (r: string)
    ensures |r| == |s|
    ensures forall k :: 0 <= k < |s| ==> r[k] == LowerChar(s[k])
  {
    if |s| == 0 then [] else [LowerChar(s[0])] + Lower(s[1..])
  }

  /** `toUpperCase()` restricted to the ASCII letters. */
  function Upper(s: string): (r: string)
    ensures |r| == |s|
    ensures forall k :: 0 <= k < |s| ==> r[k] == UpperChar(s[k])
  {
    if |s| == 0 then [] else [UpperChar(s[0])] + Upper(s[1..])
  }

  /** `a.equalsIgnoreCase(b)`, for ASCII letters. */
  predicate EqualsIgnoreCase(a: string, b: string) {
    Lower(a) == Lower(b)
  }

  /** The number of occurrences of `c`. */
  function Count(s: string, c: char): (n: nat)
    ensures n <= |s|
    ensures n == 0 <==> c !in s
  {
    if |s| == 0 then 0 else (if s[0] == c then 1 else 0) + Count(s[1..], c)
  }

  lemma CountAppend(a: string, b: string, c: char)
    ensures Count(a + b, c) == Count(a, c) + Count(b, c)
  {
    if |a| > 0 {
      assert (a + b)[1..] == a[1..] + b;
      CountAppend(a[1..], b, c);
    } else {
      assert a + b == b;
    }
  }
}

=== FILE: mapper.dfy ===
/** `Mapper`: a fluent helper that copies one value out of a map, reshapes
    it, and hands it to a consumer. The map is never changed; every step
    replaces the current value. */
module ValueMapper {
  import opened JavaLang
  import opened JString
  import Sugar

  /** The objects a mapper moves: a `String`, a `Date` (milliseconds since
      the epoch), or any other object, told apart by an identity. */
  datatype Obj = Text(s: string) | Date(millis: int) | Other(id: int)

  /** A mapper: the map it reads and the current value (null as `None`). */
  datatype Mapper = Mapper(entries: map<string, Obj>, value: Option<Obj>)

  /** `defineMapper(map)`: no value yet. */
  function DefineMapper(m: map<string, Obj>): (r: Mapper)
    ensures r.entries == m && r.value == None
  {
    Mapper(m, None)
  }

  /** `change(from, to)`: a null `from` replaces only a null value, any
      other replaces a value it equals. */
  function Change(mp: Mapper, from: Option<Obj>, to: Option<Obj>): (r: Mapper)
    ensures r.entries == mp.entries
    ensures r.value == if mp.value == from then to else mp.value
  {
    if from.None? then
      if mp.value.None? then mp.(value := to) else mp
    else if Some(from.value) == mp.value then mp.(value := to)
    else mp
  }

  /** Changing twice is changing once. */
  lemma ChangeIdempotent(mp: Mapper, from: Option<Obj>, to: Option<Obj>)
    ensures Change(Change(mp, from, to), from, to) == Change(mp, from, to)
  {
  }

  /** `map.get(key)`. */
  function Lookup(m: map<string, Obj>, key: string): (r: Option<Obj>)
    ensures r.Some? <==> key in m
    ensures r.Some? ==> r.value == m[key]
  {
    if key in m then Some(m[key]) else None
  }

  /** `copy(key)`: the receiver's value becomes the map's entry for `key`
      (null when absent), and a new mapper over the same map with that
      value is returned. The pair is the receiver afterwards and the new
      mapper. */
  function Copy(mp: Mapper, key: string): (r: (Mapper, Mapper))
    ensures r.0 == r.1 && r.0.entries == mp.entries
    ensures r.0.value.Some? <==> key in mp.entries
    ensures key in mp.entries ==> r.0.value == Some(mp.entries[key])
  {
    var v := Lookup(mp.entries, key);
    (mp.(value := v), Mapper(mp.entries, v))
  }

  /** `dateApply(fun)`: the value becomes what the function makes of it;
      a function that throws makes the call throw. */
  function DateApply(mp: Mapper, fun: Option<Obj> -> Outcome<Option<int>>): (r: Outcome<Mapper>)
    ensures r.Throw? <==> fun(mp.value).Throw?
    ensures r.Throw? ==> r.exn == fun(mp.value).exn
    ensures r.Ok? ==> r.value.entries == mp.entries
    ensures r.Ok? ==> (r.value.value.Some? <==> fun(mp.value).value.Some?)
    ensures r.Ok? && r.value.value.Some? ==> r.value.value == Some(Date(fun(mp.value).value.value))
  {
    match fun(mp.value)
    case Throw(e) => Throw(e)
    case Ok(d) => Ok(mp.(value := if d.Some? then Some(Date(d.value)) else None))
  }

  /** `DateUtils.addHours`: an hour is 3,600,000 milliseconds. */
  const HourMillis: int := 3_600_000

  /** The function `addHours(n)` applies: null stays null, a date moves by
      `n` hours, anything else fails the cast to `Date`. */
  function ShiftHours(hours: int): Option<Obj> -> Outcome<Option<int>> {
    (v: Option<Obj>) => match v
      case None => Ok(None)
      case Some(Date(t)) => Ok(Some(t + hours * HourMillis))
      case Some(_) => Throw(ClassCast)
  }

  /** `addHours(n)`. */
  function AddHours(mp: Mapper, hours: int): (r: Outcome<Mapper>)
    ensures r.Ok? <==> mp.value.None? || mp.value.value.Date?
    ensures r.Throw? ==> r.exn == ClassCast
    ensures r.Ok? ==> r.value.entries == mp.entries
  {
    DateApply(mp, ShiftHours(hours))
  }

  /** Shifting by `a` hours, then by `b`, is shifting by `a + b`; a shift
      of zero changes nothing. */
  lemma AddHoursCompose(mp: Mapper, a: int, b: int)
    requires AddHours(mp, a).Ok?
    ensures AddHours(AddHours(mp, a).value, b) == AddHours(mp, a + b)
    ensures AddHours(mp, 0) == Ok(mp)
  {
    if mp.value.Some? {
      var t := mp.value.value.millis;
      assert t + a * HourMillis + b * HourMillis == t + (a + b) * HourMillis;
    }
  }

  /** The value as the `(String)` cast sees it. */
  function AsText(v: Option<Obj>): (r: Outcome<Option<string>>)
    ensures r.Throw? <==> v.Some? && !v.value.Text?
    ensures r.Throw? ==> r.exn == ClassCast
    ensures r.Ok? && r.value.Some? ==> v == Some(Text(r.value.value))
    ensures r.Ok? && r.value.None? ==> v.None?
  {
    match v
    case None => Ok(None)
    case Some(Text(s)) => Ok(Some(s))
    case Some(_) => Throw(ClassCast)
  }

  /** `stringApply(fun)`: the value, cast to a string, goes through the
      function. */
  function StringApply(mp: Mapper, fun: Option<string> -> Outcome<Option<string>>): (r: Outcome<Mapper>)
    ensures mp.value.Some? && !mp.value.value.Text? ==> r == Throw(ClassCast)
    ensures r.Ok? ==> r.value.entries == mp.entries
    ensures r.Ok? ==> var arg := if mp.value.Some? then Some(mp.value.value.s) else None;
      fun(arg).Ok? && (r.value.value.Some? <==> fun(arg).value.Some?)
      && (r.value.value.Some? ==> r.value.value == Some(Text(fun(arg).value.value)))
  {
    match AsText(mp.value)
    case Throw(e) => Throw(e)
    case Ok(arg) =>
      match fun(arg)
      case Throw(e) => Throw(e)
      case Ok(out) => Ok(mp.(value := if out.Some? then Some(Text(out.value)) else None))
  }

  // ---------------------------------------------------------------------
  // capitalizeFully
  // ---------------------------------------------------------------------

  /** `Character.isWhitespace`: the space separators other than the
      no-break spaces, and the ASCII controls tab to carriage return and
      file to unit separator. */
  predicate IsWhitespace(c: char) {
    c == ' ' || '\t' <= c <= '\r' || '\U{1C}' <= c <= '\U{1F}'
    || c == '\U{1680}' || '\U{2000}' <= c <= '\U{2006}' || '\U{2008}' <= c <= '\U{200A}'
    || c == '\U{2028}' || c == '\U{2029}' || c == '\U{205F}' || c == '\U{3000}'
  }

  /** Whether position `k` starts a word: the first position, or one after
      whitespace. */
  predicate WordStart(s: string, k: nat)
    requires k < |s|
  {
    k == 0 || IsWhitespace(s[k - 1])
  }

  /** The fully capitalized form, position by position: the first letter
      of every word in upper case, every other letter in lower case. */
  function Capitalized(s: string): (r: string)
    ensures |r| == |s|
  {
    seq(|s|, k requires 0 <= k < |s| => if WordStart(s, k) then UpperChar(s[k]) else LowerChar(s[k]))
  }

  /** Case conversion leaves whitespace alone. */
  lemma CaseKeepsWhitespace(c: char)
    ensures IsWhitespace(c) ==> LowerChar(c) == c && UpperChar(c) == c
    ensures IsWhitespace(LowerChar(c)) == IsWhitespace(c)
    ensures IsWhitespace(UpperChar(c)) == IsWhitespace(c)
    ensures UpperChar(LowerChar(c)) == UpperChar(c)
  {
  }

  /** `WordUtils.capitalizeFully(s)`: lower-case the text, then walk it,
      upper-casing a character after whitespace or at the start. Null
      stays null. */
  method CapitalizeFully(s: Option<string>) returns (r: Option<string>)
    ensures r.None? <==> s.None?
    ensures s.Some? ==> r.value == Capitalized(s.value)
  {
    if s.None? {
      return None;
    }
    var t := Lower(s.value);
    var out: string := [];
    var next := true;
    var i := 0;
    while i < |t|
      invariant i <= |t| && out == Capitalized(s.value)[..i]
      invariant next <==> i == 0 || IsWhitespace(s.value[i - 1])
    {
      var c := t[i];
      CapitalizeStep(s.value, i);
      if IsWhitespace(c) {
        next := true;
      } else if next {
        c := UpperChar(c);
        next := false;
      } else {
        next := false;
      }
      out := out + [c];
      i := i + 1;
    }
    return Some(out);
  }

  /** One step of the walk: the lower-cased character is whitespace when
      the original is, and the walk's choice for it is the capitalized
      form's character. */
  lemma CapitalizeStep(s: string, i: nat)
    requires i < |s|
    ensures var c := LowerChar(s[i]);
      && IsWhitespace(c) == IsWhitespace(s[i])
      && Capitalized(s)[i] == if IsWhitespace(c) then c else if WordStart(s, i) then UpperChar(c) else c
  {
    CaseKeepsWhitespace(s[i]);
  }

  /** Capitalizing a capitalized text changes nothing. */
  lemma CapitalizedIdempotent(s: string)
    ensures Capitalized(Capitalized(s)) == Capitalized(s)
  {
    var c := Capitalized(s);
    forall k | 0 <= k < |s|
      ensures Capitalized(c)[k] == c[k]
    {
      CaseKeepsWhitespace(s[k]);
      if k > 0 {
        CaseKeepsWhitespace(s[k - 1]);
        assert IsWhitespace(c[k - 1]) == IsWhitespace(s[k - 1]);
      }
    }
  }

  /** `capitalizeFully()`: `stringApply` with the capitalizer. */
  method CapitalizeValue(mp: Mapper) returns (r: Outcome<Mapper>)
    ensures mp.value.Some? && !mp.value.value.Text? ==> r == Throw(ClassCast)
    ensures mp.value.None? ==> r == Ok(mp)
    ensures mp.value.Some? && mp.value.value.Text? ==> r == Ok(mp.(value := Some(Text(Capitalized(mp.value.value.s)))))
  {
    match AsText(mp.value)
    case Throw(e) =>
      return Throw(e);
    case Ok(arg) =>
      var out := CapitalizeFully(arg);
      return Ok(mp.(value := if out.Some? then Some(Text(out.value)) else None));
  }

  // ---------------------------------------------------------------------
  // simpleDateFormat and the consumer
  // ---------------------------------------------------------------------

  /** `simpleDateFormat()`: an empty string becomes null; otherwise the
      value, cast to a string, is parsed as `MM/dd/yyyy` inside `swallow`,
      so a null value, a value that is not a string, or text that does not
      parse all become null. `parse` is `SimpleDateFormat.parse` on a
      non-null text. */
  function SimpleDateFormat(mp: Mapper, parse: string -> Outcome<int>): (r: Mapper)
    ensures r.entries == mp.entries
    ensures r.value.Some? <==> exists t :: mp.value == Some(Text(t)) && t != "" && parse(t).Ok?
    ensures r.value.Some? ==> r.value == Some(Date(parse(mp.value.value.s).value))
  {
    if mp.value.Some? && mp.value.value.Text? && mp.value.value.s == "" then mp.(value := None)
    else
      var parsed: Outcome<Option<int>> :=
        match AsText(mp.value)
        case Throw(e) => Throw(e)
        case Ok(None) => Throw(NullPointer)
        case Ok(Some(t)) => if parse(t).Ok? then Ok(Some(parse(t).value)) else Throw(parse(t).exn);
      var d := Sugar.Swallow(parsed);
      mp.(value := if d.Some? then Some(Date(d.value)) else None)
  }

  /** A parsed value is a date, so parsing again always gives null. */
  lemma SimpleDateFormatTwice(mp: Mapper, parse: string -> Outcome<int>)
    ensures SimpleDateFormat(SimpleDateFormat(mp, parse), parse).value == None
  {
  }

  /** `to(consumer)`: the consumer receives the current value; the
      unchecked cast does not check anything. */
  function To(mp: Mapper): Option<Obj> {
    mp.value
  }

  /** `getMap()`. */
  function GetMap(mp: Mapper): map<string, Obj> {
    mp.entries
  }

  /** One step of a mapping pipeline. */
  datatype Step =
    | ChangeStep(from: Option<Obj>, to: Option<Obj>)
    | CopyStep(key: string)
    | AddHoursStep(hours: int)
    | SimpleDateStep

  /** A pipeline of steps, stopping at the first failure. */
  function Run(mp: Mapper, steps: seq<Step>, parse: string -> Outcome<int>): Outcome<Mapper>
    decreases |steps|
  {
    if |steps| == 0 then Ok(mp)
    else
      var next := match steps[0]
        case ChangeStep(f, t) => Ok(Change(mp, f, t))
        case CopyStep(k) => Ok(Copy(mp, k).1)
        case AddHoursStep(h) => AddHours(mp, h)
        case SimpleDateStep => Ok(SimpleDateFormat(mp, parse));
      match next
      case Throw(e) => Throw(e)
      case Ok(m) => Run(m, steps[1..], parse)
  }

  /** No pipeline changes the map, and one that ends in a copy hands the
      consumer the map's entry. */
  lemma {:induction false} RunKeepsMap(mp: Mapper, steps: seq<Step>, parse: string -> Outcome<int>)
    ensures Run(mp, steps, parse).Ok? ==> GetMap(Run(mp, steps, parse).value) == GetMap(mp)
    ensures |steps| > 0 && steps[|steps| - 1].CopyStep? && Run(mp, steps, parse).Ok? ==>
      To(Run(mp, steps, parse).value) == Lookup(mp.entries, steps[|steps| - 1].key)
    decreases |steps|
  {
    if |steps| > 0 {
      var next := match steps[0]
        case ChangeStep(f, t) => Ok(Change(mp, f, t))
        case CopyStep(k) => Ok(Copy(mp, k).1)
        case AddHoursStep(h) => AddHours(mp, h)
        case SimpleDateStep => Ok(SimpleDateFormat(mp, parse));
      if next.Ok? {
        RunKeepsMap(next.value, steps[1..], parse);
        if |steps| == 1 {
          assert Run(next.value, [], parse) == Ok(next.value);
        } else {
          assert steps[1..][|steps[1..]| - 1] == steps[|steps| - 1];
        }
      }
    }
  }
}

=== FILE: moarjson.dfy ===
/** `cli/moar-json.js`: the chunks read from standard input are joined with
    `Array.prototype.join`'s default separator, a comma, and the text then
    goes through four global replacements of the regular expressions
    `\s*[\s*`, `\s*]\s*`, `\s*:\s*` and `\s*,\s*`, in that order. */
module MoarJson {
  import opened JString

  /** The `\s` class of JavaScript regular expressions. */
  predicate IsJsSpace(c: char) {
    c == ' ' || '\t' <= c <= '\r' || c == '\U{A0}' || c == '\U{1680}' || '\U{2000}' <= c <= '\U{200A}'
    || c == '\U{2028}' || c == '\U{2029}' || c == '\U{202F}' || c == '\U{205F}' || c == '\U{3000}'
    || c == '\U{FEFF}'
  }

  /** The visible ASCII characters are not spaces. */
  lemma VisibleNotSpace(c: char)
    requires '!' <= c <= '~'
    ensures !IsJsSpace(c)
  {
  }

  /** Every character is a space. */
  predicate AllSpace(s: string) {
    forall k :: 0 <= k < |s| ==> IsJsSpace(s[k])
  }

  /** The length of the run of spaces `s` starts with. */
  function LeadingSpace(s: string): (n: nat)
    ensures n <= |s|
    ensures AllSpace(s[..n])
    ensures n < |s| ==> !IsJsSpace(s[n])
  {
    if |s| == 0 || !IsJsSpace(s[0]) then 0
    else
      var n := 1 + LeadingSpace(s[1..]);
      assert forall k :: 1 <= k < n ==> s[..n][k] == s[1..][..n - 1][k - 1];
      n
  }

  /** `s.replace` of the pattern `\s*c\s*`, global flag set, by `r`, for
      a target `c` outside `\s`. The search tries each position in turn: a match starts there exactly when the
      run of spaces there is followed by `c`; the greedy trailing `\s*`
      then takes the whole run after `c`, and the search resumes behind
      it. A position where no match starts keeps its character. */
  function Pass(s: string, c: char, r: string): string
    requires !IsJsSpace(c)
    decreases |s|
  {
    if |s| == 0 then []
    else
      var w := LeadingSpace(s);
      if w < |s| && s[w] == c then
        var u := s[w + 1..];
        r + Pass(u[LeadingSpace(u)..], c, r)
      else [s[0]] + Pass(s[1..], c, r)
  }

  /** A run of spaces holds no character outside `\s`. */
  lemma {:induction false} SpaceCount(s: string, d: char)
    requires AllSpace(s) && !IsJsSpace(d)
    ensures Count(s, d) == 0
  {
    if |s| > 0 {
      assert AllSpace(s[1..]) by {
        assert forall k :: 0 <= k < |s| - 1 ==> s[1..][k] == s[k + 1];
      }
      SpaceCount(s[1..], d);
    }
  }

  /** How a match splits the text: the spaces, the target, the spaces
      after it, and the rest. */
  lemma MatchCount(s: string, w: nat, u: string, v: nat, d: char)
    requires w < |s| && u == s[w + 1..] && v <= |u|
    requires AllSpace(s[..w]) && AllSpace(u[..v]) && !IsJsSpace(d)
    ensures Count(s, d) == (if s[w] == d then 1 else 0) + Count(u[v..], d)
  {
    assert s == s[..w] + ([s[w]] + (u[..v] + u[v..]));
    CountAppend(s[..w], [s[w]] + (u[..v] + u[v..]), d);
    CountAppend([s[w]], u[..v] + u[v..], d);
    CountAppend(u[..v], u[v..], d);
    SpaceCount(s[..w], d);
    SpaceCount(u[..v], d);
  }

  /** Every target is rewritten exactly once: a character outside `\s`
      other than the target keeps its occurrences, the target's are all
      gone, and each match adds the replacement's characters. */
  lemma {:induction false} PassCount(s: string, c: char, r: string, d: char)
    requires !IsJsSpace(c) && !IsJsSpace(d)
    ensures Count(Pass(s, c, r), d) == (if d == c then 0 else Count(s, d)) + Count(s, c) * Count(r, d)
    decreases |s|
  {
    if |s| > 0 {
      var w := LeadingSpace(s);
      if w < |s| && s[w] == c {
        var u := s[w + 1..];
        var t := u[LeadingSpace(u)..];
        PassCount(t, c, r, d);
        CountAppend(r, Pass(t, c, r), d);
        MatchCount(s, w, u, LeadingSpace(u), d);
        MatchCount(s, w, u, LeadingSpace(u), c);
        OneMore(Count(s, c), Count(t, c), Count(r, d));
      } else {
        PassCount(s[1..], c, r, d);
        CountAppend([s[0]], Pass(s[1..], c, r), d);
        CountAppend([s[0]], s[1..], d);
        CountAppend([s[0]], s[1..], c);
        assert s == [s[0]] + s[1..];
      }
    }
  }

  lemma OneMore(a: int, b: int, k: int)
    requires a == 1 + b
    ensures a * k == k + b * k
  {
  }

  /** The run of spaces ends at the first character outside `\s`. */
  lemma {:induction false} LeadingSpaceOf(before: string, x: char, rest: string)
    requires AllSpace(before) && !IsJsSpace(x)
    ensures LeadingSpace(before + [x] + rest) == |before|
  {
    if |before| > 0 {
      assert AllSpace(before[1..]) by {
        assert forall k :: 0 <= k < |before| - 1 ==> before[1..][k] == before[k + 1];
      }
      LeadingSpaceOf(before[1..], x, rest);
      assert (before + [x] + rest)[1..] == before[1..] + [x] + rest;
    }
  }

  /** A text without the target comes out unchanged, spaces included. */
  lemma {:induction false} PassWithoutTarget(s: string, c: char, r: string)
    requires !IsJsSpace(c) && c !in s
    ensures Pass(s, c, r) == s
    decreases |s|
  {
    if |s| > 0 {
      var w := LeadingSpace(s);
      assert w < |s| ==> s[w] in s;
      assert c !in s[1..] by {
        assert forall k :: 0 <= k < |s| - 1 ==> s[1..][k] == s[k + 1];
      }
      PassWithoutTarget(s[1..], c, r);
      assert s == [s[0]] + s[1..];
    }
  }

  /** The target with every space around it becomes one replacement. */
  lemma PassAbsorbs(before: string, c: char, after: string, t: string, r: string)
    requires !IsJsSpace(c) && AllSpace(before) && AllSpace(after)
    requires |t| == 0 || !IsJsSpace(t[0])
    ensures Pass(before + [c] + after + t, c, r) == r + Pass(t, c, r)
  {
    var s := before + [c] + after + t;
    LeadingSpaceOf(before, c, after + t);
    assert s == before + [c] + (after + t);
    var w := LeadingSpace(s);
    assert s[w] == c;
    var u := s[w + 1..];
    assert u == after + t;
    var v := LeadingSpace(u);
    if |t| == 0 {
      assert v == |after| by {
        assert u[..|after|] == after;
      }
    } else {
      LeadingSpaceOf(after, t[0], t[1..]);
      assert u == after + [t[0]] + t[1..];
    }
    assert u[v..] == t;
  }

  /** A character outside `\s` that is not the target stays where it is. */
  lemma PassKeeps(x: char, t: string, c: char, r: string)
    requires !IsJsSpace(c) && !IsJsSpace(x) && x != c
    ensures Pass([x] + t, c, r) == [x] + Pass(t, c, r)
  {
    assert ([x] + t)[1..] == t;
  }

  // ---------------------------------------------------------------------
  // The script
  // ---------------------------------------------------------------------

  const OpenBrace := "{\""
  const CloseBrace := "\"}"
  const Colon := "\":\""
  const Comma := "\",\""

  /** The outputs of the four passes, one after the other. */
  function Braced(input: string): string { Pass(input, '[', OpenBrace) }
  function Closed(input: string): string { Pass(Braced(input), ']', CloseBrace) }
  function Paired(input: string): string { Pass(Closed(input), ':', Colon) }
  function Listed(input: string): string { Pass(Paired(input), ',', Comma) }

  /** `chunks.join()`, then the four passes. */
  function Rewrite(chunks: seq<string>): string {
    Listed(Join(",", chunks))
  }

  /** The number of occurrences of `c` over all the chunks. */
  function CountAll(chunks: seq<string>, c: char): nat {
    if |chunks| == 0 then 0 else Count(chunks[0], c) + CountAll(chunks[1..], c)
  }

  /** The join adds one comma between each pair of chunks and nothing
      else. */
  lemma {:induction false} JoinCount(chunks: seq<string>, c: char)
    requires |chunks| > 0
    ensures Count(Join(",", chunks), c) == CountAll(chunks, c) + (if c == ',' then |chunks| - 1 else 0)
  {
    if |chunks| > 1 {
      JoinCount(chunks[1..], c);
      CountAppend(chunks[0] + ",", Join(",", chunks[1..]), c);
      CountAppend(chunks[0], ",", c);
    }
  }

  /** Counting in a two- and in a three-character text. */
  lemma CountPair(a: char, b: char, d: char)
    ensures Count([a, b], d) == (if a == d then 1 else 0) + (if b == d then 1 else 0)
  {
    assert [a, b][1..] == [b];
  }

  lemma CountTriple(a: char, b: char, e: char, d: char)
    ensures Count([a, b, e], d) == (if a == d then 1 else 0) + (if b == d then 1 else 0) + (if e == d then 1 else 0)
  {
    assert [a, b, e][1..] == [b, e];
    CountPair(b, e, d);
  }

  /** How often each replacement holds `d`. */
  lemma ReplacementCounts(d: char)
    ensures Count(OpenBrace, d) == (if d == '{' || d == '"' then 1 else 0)
    ensures Count(CloseBrace, d) == (if d == '}' || d == '"' then 1 else 0)
    ensures Count(Colon, d) == (if d == '"' then 2 else if d == ':' then 1 else 0)
    ensures Count(Comma, d) == (if d == '"' then 2 else if d == ',' then 1 else 0)
  {
    CountPair('{', '"', d);
    CountPair('"', '}', d);
    CountTriple('"', ':', '"', d);
    CountTriple('"', ',', '"', d);
  }

  /** A later pass's target is never produced by an earlier pass, so it
      reaches its own pass as often as it occurs in the input. */
  lemma TargetsSurvive(input: string)
    ensures Count(Braced(input), ']') == Count(input, ']')
    ensures Count(Closed(input), ':') == Count(input, ':')
    ensures Count(Paired(input), ',') == Count(input, ',')
  {
    ReplacementCounts(']');
    ReplacementCounts(':');
    ReplacementCounts(',');
    VisibleNotSpace('[');
    VisibleNotSpace(']');
    VisibleNotSpace(':');
    VisibleNotSpace(',');
    PassCount(input, '[', OpenBrace, ']');
    PassCount(input, '[', OpenBrace, ':');
    PassCount(input, '[', OpenBrace, ',');
    PassCount(Braced(input), ']', CloseBrace, ':');
    PassCount(Braced(input), ']', CloseBrace, ',');
    PassCount(Closed(input), ':', Colon, ',');
  }

  /** What the four passes do to the count of a character outside `\s`,
      given how often each replacement holds it. */
  lemma PipelineCount(input: string, d: char, k1: nat, k2: nat, k3: nat, k4: nat)
    requires !IsJsSpace(d)
    requires Count(OpenBrace, d) == k1 && Count(CloseBrace, d) == k2
    requires Count(Colon, d) == k3 && Count(Comma, d) == k4
    ensures Count(Listed(input), d) ==
      (if d == '[' || d == ']' || d == ':' || d == ',' then 0 else Count(input, d))
      + Count(input, '[') * k1 + Count(input, ']') * k2 + Count(input, ':') * k3 + Count(input, ',') * k4
  {
    TargetsSurvive(input);
    PassCount(input, '[', OpenBrace, d);
    PassCount(Braced(input), ']', CloseBrace, d);
    PassCount(Closed(input), ':', Colon, d);
    PassCount(Paired(input), ',', Comma, d);
  }

  /** The script's output has no square bracket left, and every bracket
      became one brace. */
  lemma BracketsRewritten(input: string)
    ensures '[' !in Listed(input) && ']' !in Listed(input)
    ensures Count(Listed(input), '{') == Count(input, '{') + Count(input, '[')
    ensures Count(Listed(input), '}') == Count(input, '}') + Count(input, ']')
  {
    ReplacementCounts('[');
    VisibleNotSpace('[');
    PipelineCount(input, '[', 0, 0, 0, 0);
    ReplacementCounts(']');
    VisibleNotSpace(']');
    PipelineCount(input, ']', 0, 0, 0, 0);
    ReplacementCounts('{');
    VisibleNotSpace('{');
    PipelineCount(input, '{', 1, 0, 0, 0);
    ReplacementCounts('}');
    VisibleNotSpace('}');
    PipelineCount(input, '}', 0, 1, 0, 0);
  }

  /** Every colon and comma stays one colon or comma, and each rewrite
      brings its quotation marks: one per bracket, two per colon or
      comma. */
  lemma SeparatorsRewritten(input: string)
    ensures Count(Listed(input), ':') == Count(input, ':')
    ensures Count(Listed(input), ',') == Count(input, ',')
    ensures Count(Listed(input), '"') == Count(input, '"') + Count(input, '[') + Count(input, ']')
      + 2 * Count(input, ':') + 2 * Count(input, ',')
  {
    ReplacementCounts(':');
    VisibleNotSpace(':');
    PipelineCount(input, ':', 0, 0, 1, 0);
    ReplacementCounts(',');
    VisibleNotSpace(',');
    PipelineCount(input, ',', 0, 0, 0, 1);
    ReplacementCounts('"');
    VisibleNotSpace('"');
    PipelineCount(input, '"', 1, 1, 2, 2);
  }

  /** Over the chunks as read: the commas the join inserts are rewritten
      like the others. */
  lemma RewriteCounts(chunks: seq<string>)
    requires |chunks| > 0
    ensures var out := Rewrite(chunks);
      && '[' !in out && ']' !in out
      && Count(out, '{') == CountAll(chunks, '{') + CountAll(chunks, '[')
      && Count(out, '}') == CountAll(chunks, '}') + CountAll(chunks, ']')
      && Count(out, ':') == CountAll(chunks, ':')
      && Count(out, ',') == CountAll(chunks, ',') + |chunks| - 1
      && Count(out, '"') == CountAll(chunks, '"') + CountAll(chunks, '[') + CountAll(chunks, ']')
        + 2 * CountAll(chunks, ':') + 2 * (CountAll(chunks, ',') + |chunks| - 1)
  {
    var input := Join(",", chunks);
    assert Rewrite(chunks) == Listed(input);
    BracketsRewritten(input);
    SeparatorsRewritten(input);
    JoinCount(chunks, '[');
    JoinCount(chunks, ']');
    JoinCount(chunks, '{');
    JoinCount(chunks, '}');
    JoinCount(chunks, ':');
    JoinCount(chunks, ',');
    JoinCount(chunks, '"');
  }

  /** No chunk at all is an empty input and an empty output. */
  lemma RewriteNothing()
    ensures Rewrite([]) == []
  {
  }
}

=== FILE: naming.dfy ===
/** Name conversions between Java bean properties and SQL column names, as
    `WokePrivateProxy` performs them with Guava's `CaseFormat`:

    - a property name is a method name without its `get`/`set` prefix, in
      lower camel case (`firstName`);
    - a column name is the snake_case form between two quote characters
      (`` `first_name` ``).

    Guava's UPPER_CAMEL word boundaries are the ASCII capitals, so the two
    conversions used reduce to the character maps below. */
module Naming {
  import opened JString

  /** UPPER_CAMEL to LOWER_CAMEL: the first character lower-cased, the rest
      untouched (every later word starts with a capital and has no other). */
  function LowerCamel(s: string): (r: string)
    ensures |r| == |s|
    ensures |s| > 0 ==> r[0] == LowerChar(s[0]) && r[1..] == s[1..]
  {
    if |s| == 0 then [] else [LowerChar(s[0])] + s[1..]
  }

  /** The characters after the first word: a capital starts a new word and
      becomes `_` plus its lower-case form. */
  function SnakeTail(s: string): (r: string)
    ensures forall c :: c in r ==> !IsAsciiUpper(c)
    ensures |r| == |s| + |Capitals(s)|
  {
    if |s| == 0 then []
    else if IsAsciiUpper(s[0]) then ['_'] + ([LowerChar(s[0])] + SnakeTail(s[1..]))
    else [s[0]] + SnakeTail(s[1..])
  }

  /** The capitals of `s`, in order. */
  function Capitals(s: string): seq<char> {
    if |s| == 0 then [] else (if IsAsciiUpper(s[0]) then [s[0]] else []) + Capitals(s[1..])
  }

  /** UPPER_CAMEL to LOWER_UNDERSCORE (`FirstName` and `firstName` both give
      `first_name`). */
  function Snake(s: string): (r: string)
    ensures forall c :: c in r ==> !IsAsciiUpper(c)
    ensures |s| == 0 <==> |r| == 0
    ensures |s| > 0 ==> r[0] == LowerChar(s[0])
  {
    if |s| == 0 then [] else [LowerChar(s[0])] + SnakeTail(s[1..])
  }

  /** `getPropertyName`: drop a leading `get` or `set`, then lower-camel. */
  function PropertyName(name: string): (r: string)
    ensures |r| == 0 || !IsAsciiUpper(r[0])
    ensures StartsWith(name, "get") || StartsWith(name, "set") ==> |r| == |name| - 3
    ensures !(StartsWith(name, "get") || StartsWith(name, "set")) ==> |r| == |name|
  {
    if StartsWith(name, "get") || StartsWith(name, "set") then LowerCamel(name[3..])
    else LowerCamel(name)
  }

  /** `toDbName`: the snake_case form between two quote characters. */
  function ToDbName(name: string, q: char): string {
    [q] + Snake(name) + [q]
  }

  /** A column name is quoted at both ends, so it is never the bare key
      `id`. */
  lemma QuotedIsNotId(name: string, q: char)
    ensures ToDbName(name, q) != "id"
  {
    var r := ToDbName(name, q);
    assert |r| >= 2 && r[0] == q && r[|r| - 1] == q;
  }

  /** The character loop of `fromDbName`: quote characters are skipped, an
      underscore raises the capitalise flag, and any other character is
      copied, capitalised when the flag is up (which lowers the flag). A
      quote character that is itself `_` still raises the flag. */
  function CamelLoop(key: string, q: char, upper: bool): (r: string)
    ensures |r| <= |key|
    ensures '_' !in r
  {
    if |key| == 0 then []
    else
      var c := key[0];
      if c == q then CamelLoop(key[1..], q, upper || c == '_')
      else if c != '_' then [if upper then UpperChar(c) else c] + CamelLoop(key[1..], q, false)
      else CamelLoop(key[1..], q, true)
  }

  /** `fromDbName`: the property a column name stands for. */
  function FromDbName(key: string, q: char): string {
    PropertyName(CamelLoop(key, q, true))
  }

  /** A property name as `getPropertyName` produces it: it does not start
      with a capital. */
  predicate IsPropertyName(p: string) {
    |p| == 0 || !IsAsciiUpper(p[0])
  }

  /** The names the column codec round-trips: no underscore, no quote
      character, and a quote character that is neither a letter nor `_`. */
  predicate Codable(p: string, q: char) {
    IsPropertyName(p) && '_' !in p && q !in p && q != '_' && !IsAsciiUpper(q) && !IsAsciiLower(q)
  }

  lemma {:induction false} CamelLoopOfSnakeTail(s: string, q: char)
    requires '_' !in s && q !in s && q != '_' && !IsAsciiUpper(q) && !IsAsciiLower(q)
    ensures CamelLoop(SnakeTail(s), q, false) == s
  {
    if |s| > 0 {
      CamelLoopOfSnakeTail(s[1..], q);
      SnakeTailStep(s, q);
      assert s == [s[0]] + s[1..];
    }
  }

  /** One character of `s` through the snake tail and back. */
  lemma {:induction false} SnakeTailStep(s: string, q: char)
    requires |s| > 0 && s[0] != '_' && s[0] != q && q != '_' && !IsAsciiUpper(q) && !IsAsciiLower(q)
    ensures CamelLoop(SnakeTail(s), q, false) == [s[0]] + CamelLoop(SnakeTail(s[1..]), q, false)
  {
    var c := s[0];
    var tail := SnakeTail(s[1..]);
    if IsAsciiUpper(c) {
      var l := LowerChar(c);
      CamelLoopUnderscore([l] + tail, q, false);
      CamelLoopChar(l, tail, q, true);
    } else {
      CamelLoopChar(c, tail, q, false);
    }
  }

  /** An underscore that is not the quote raises the capitalise flag. */
  lemma {:induction false} CamelLoopUnderscore(t: string, q: char, upper: bool)
    requires q != '_'
    ensures CamelLoop(['_'] + t, q, upper) == CamelLoop(t, q, true)
  {
    assert (['_'] + t)[1..] == t;
  }

  /** Any other character is copied, capitalised when the flag is up. */
  lemma {:induction false} CamelLoopChar(c: char, t: string, q: char, upper: bool)
    requires c != q && c != '_'
    ensures CamelLoop([c] + t, q, upper) == [if upper then UpperChar(c) else c] + CamelLoop(t, q, false)
  {
    assert ([c] + t)[1..] == t;
  }

  /** A property name survives the trip to a column name and back: the
      inverse `getDbValue` and `isDbDirty` rely on. */
  lemma {:induction false} ColumnRoundTrip(p: string, q: char)
    requires Codable(p, q)
    ensures FromDbName(ToDbName(p, q), q) == p
  {
    var key := ToDbName(p, q);
    if |p| == 0 {
      assert key == [q, q];
      assert key[1..] == [q];
      assert key[1..][1..] == [];
      assert CamelLoop(key, q, true) == [];
    } else {
      var c := p[0];
      var tail := SnakeTail(p[1..]);
      assert key == [q] + ([LowerChar(c)] + (tail + [q]));
      assert key[1..] == [LowerChar(c)] + (tail + [q]);
      assert key[1..][1..] == tail + [q];
      CamelLoopOfSnakeTail(p[1..], q);
      CamelLoopDropsQuote(tail, q, false);
      var body := CamelLoop(key, q, true);
      calc {
        body;
        CamelLoop(key[1..], q, true);
        [UpperChar(LowerChar(c))] + CamelLoop(tail + [q], q, false);
        [UpperChar(LowerChar(c))] + p[1..];
      }
      NotAccessorName(body);
      assert LowerChar(UpperChar(LowerChar(c))) == c;
      assert p == [c] + p[1..];
    }
  }

  /** Column bodies that come back unchanged from a property name: no
      capitals and no quote character, and every `_` sits between a
      character and a lower-case letter. */
  predicate WellFormedColumnBody(b: string, q: char) {
    && (forall i :: 0 <= i < |b| ==> !IsAsciiUpper(b[i]) && b[i] != q)
    && (|b| > 0 ==> b[0] != '_')
    && (forall i :: 0 <= i < |b| && b[i] == '_' ==> i + 1 < |b| && IsAsciiLower(b[i + 1]))
  }

  lemma {:induction false} SnakeTailOfCamelLoop(b: string, q: char)
    requires forall i :: 0 <= i < |b| ==> !IsAsciiUpper(b[i]) && b[i] != q
    requires forall i :: 0 <= i < |b| && b[i] == '_' ==> i + 1 < |b| && IsAsciiLower(b[i + 1])
    requires q != '_'
    ensures SnakeTail(CamelLoop(b, q, false)) == b
  {
    if |b| > 0 {
      var c := b[0];
      if c == '_' {
        var d := b[1];
        assert IsAsciiLower(d);
        SnakeTailOfCamelLoop(b[2..], q);
        assert b[1..][1..] == b[2..];
        assert CamelLoop(b, q, false) == [UpperChar(d)] + CamelLoop(b[2..], q, false);
        assert LowerChar(UpperChar(d)) == d;
        assert b == ['_', d] + b[2..];
      } else {
        SnakeTailOfCamelLoop(b[1..], q);
        assert CamelLoop(b, q, false) == [c] + CamelLoop(b[1..], q, false);
        assert b == [c] + b[1..];
      }
    }
  }

  /** A well-formed column name survives the trip to a property name and
      back. */
  lemma {:induction false} PropertyRoundTrip(b: string, q: char)
    requires WellFormedColumnBody(b, q) && q != '_'
    ensures ToDbName(FromDbName([q] + b + [q], q), q) == [q] + b + [q]
  {
    var key := [q] + b + [q];
    assert key[1..] == b + [q];
    var body := CamelLoop(key, q, true);
    assert body == CamelLoop(b + [q], q, true);
    CamelLoopDropsQuote(b, q, true);
    if |b| == 0 {
      assert body == [];
    } else {
      var c := b[0];
      assert body == [UpperChar(c)] + CamelLoop(b[1..], q, false);
      NotAccessorName(body);
      var p := FromDbName(key, q);
      assert p == [LowerChar(UpperChar(c))] + CamelLoop(b[1..], q, false);
      assert LowerChar(UpperChar(c)) == c;
      SnakeTailOfCamelLoop(b[1..], q);
      assert p[1..] == CamelLoop(b[1..], q, false);
      assert Snake(p) == [c] + b[1..];
      assert b == [c] + b[1..];
    }
  }

  /** A name that does not open with a lower-case letter keeps its
      first character under `getPropertyName`'s prefix test. */
  lemma NotAccessorName(b: string)
    requires |b| > 0 && !IsAsciiLower(b[0])
    ensures !StartsWith(b, "get") && !StartsWith(b, "set")
  {
    assert |b| >= 3 ==> b[..3][0] == b[0];
  }

  /** A trailing quote character does not contribute. */
  lemma {:induction false} CamelLoopDropsQuote(b: string, q: char, upper: bool)
    requires q != '_'
    ensures CamelLoop(b + [q], q, upper) == CamelLoop(b, q, upper)
  {
    if |b| == 0 {
      assert b + [q] == [q];
    } else {
      assert (b + [q])[1..] == b[1..] + [q];
      CamelLoopDropsQuote(b[1..], q, false);
      CamelLoopDropsQuote(b[1..], q, true);
      CamelLoopDropsQuote(b[1..], q, upper);
    }
  }

  /** Only the property `id` has the column `id`. */
  lemma SnakeIsIdOnlyForId(p: string)
    requires IsPropertyName(p)
    ensures Snake(p) == "id" <==> p == "id"
  {
    if Snake(p) == "id" {
      assert |p| > 0;
      var t := SnakeTail(p[1..]);
      assert t == "d";
      assert |p[1..]| == 1;
      assert p[1] == 'd' by {
        assert p[1..][1..] == [];
        var x := p[1];
        assert t == (if IsAsciiUpper(x) then ['_', LowerChar(x)] else [x]);
      }
      assert LowerChar(p[0]) == 'i';
      assert p == [p[0], p[1]];
    }
  }
}

=== FILE: polyline.dfy ===
/** `GeoServiceC.decodePoly`, `getBounds`, `northEastPoint` and
    `southWestPoint`. A point is kept as the pair of accumulated integers
    (degrees times 100,000) that the decoder sums before scaling. */
module Polyline {
  import opened JavaLang

  /** A decoded point, in units of 1e-5 degrees. */
  datatype Point = Point(lat: int, lng: int)

  /** 32 to the power `k`: the weight of the `k`-th five-bit group. */
  function Pow32(k: nat): (r: nat)
    ensures r > 0
  {
    if k == 0 then 1 else 32 * Pow32(k - 1)
  }

  /** The value of the group of five-bit chunks starting at `i` and the
      index after it: a character stands for its code minus 63, its low
      five bits are the chunk, least significant first, and a value of
      32 or more means another chunk follows. Running off the end of the
      text is the `charAt` failure. */
  function Group(s: string, i: nat): (r: Outcome<(nat, nat)>)
    ensures r.Ok? ==> i < r.value.1 <= |s|
    ensures r.Throw? ==> r.exn == IndexOutOfBounds
    decreases |s| - i
  {
    if i >= |s| then Throw(IndexOutOfBounds)
    else
      var b := s[i] as int - 63;
      if b >= 32 then
        match Group(s, i + 1)
        case Throw(e) => Throw(e)
        case Ok(rest) => Ok((b % 32 + 32 * rest.0, rest.1))
      else Ok((b % 32, i + 1))
  }

  /** `(r & 1) != 0 ? ~(r >> 1) : r >> 1`: the zigzag decoding of a
      delta. */
  function ZigZag(r: nat): int {
    if r % 2 != 0 then -(r / 2) - 1 else r / 2
  }

  /** The points of the text from index `i`, given the running sums. */
  function DecodeFrom(s: string, i: nat, lat: int, lng: int): (r: Outcome<seq<Point>>)
    ensures r.Throw? ==> r.exn == IndexOutOfBounds
    decreases |s| - i
  {
    if i >= |s| then Ok([])
    else
      match Group(s, i)
      case Throw(e) => Throw(e)
      case Ok(a) =>
        match Group(s, a.1)
        case Throw(e) => Throw(e)
        case Ok(b) =>
          var p := Point(lat + ZigZag(a.0), lng + ZigZag(b.0));
          match DecodeFrom(s, b.1, p.lat, p.lng)
          case Throw(e) => Throw(e)
          case Ok(ps) => Ok([p] + ps)
  }

  /** A group read chunk by chunk with a running weight, as the inner
      `do`-loop reads it, has the value of `Group`. */
  method ReadValue(s: string, start: nat) returns (r: Outcome<(nat, nat)>)
    requires start <= |s|
    ensures r == Group(s, start)
  {
    ShiftedZero(Group(s, start));
    var index := start;
    var result: nat := 0;
    var k: nat := 0;
    while index < |s|
      invariant start <= index <= |s|
      invariant Group(s, start) == Shifted(result, k, Group(s, index))
      decreases |s| - index
    {
      var b := s[index] as int - 63;
      var chunk: nat := b % 32;
      GroupAt(s, index);
      var weighted := Weigh(chunk, k);
      if b < 32 {
        ShiftedLast(result, k, chunk, index + 1);
        return Ok((result + weighted, index + 1));
      }
      ShiftedStep(result, k, chunk, Group(s, index + 1));
      result := result + weighted;
      k := k + 1;
      index := index + 1;
    }
    return Throw(IndexOutOfBounds);
  }

  /** The first chunk of a group and the rest of it. */
  lemma GroupAt(s: string, i: nat)
    requires i < |s|
    ensures var b := s[i] as int - 63;
      Group(s, i) == if b >= 32 then Shifted(b % 32, 1, Group(s, i + 1)) else Ok((b % 32, i + 1))
  {
  }

  /** A group's value seen after `k` chunks already worth `acc`. */
  function Shifted(acc: nat, k: nat, g: Outcome<(nat, nat)>): Outcome<(nat, nat)> {
    match g
    case Throw(e) => Throw(e)
    case Ok(v) => Ok((acc + Pow32(k) * v.0, v.1))
  }

  /** A chunk at its weight. */
  function Weigh(chunk: nat, k: nat): (r: nat)
    ensures r == chunk * Pow32(k)
  {
    chunk * Pow32(k)
  }

  lemma ShiftedLast(acc: nat, k: nat, chunk: nat, j: nat)
    ensures Shifted(acc, k, Ok((chunk, j))) == Ok((acc + chunk * Pow32(k), j))
  {
  }

  lemma ShiftedZero(g: Outcome<(nat, nat)>)
    ensures Shifted(0, 0, g) == g
  {
  }

  /** Reading one more chunk moves its value from the group into the
      accumulator at the next weight. */
  lemma ShiftedStep(acc: nat, k: nat, chunk: nat, g: Outcome<(nat, nat)>)
    ensures Shifted(acc, k, Shifted(chunk, 1, g)) == Shifted(acc + Weigh(chunk, k), k + 1, g)
  {
    if g.Ok? {
      var v := g.value.0;
      assert Pow32(1) == 32;
      var j := g.value.1;
      assert Shifted(chunk, 1, g) == Ok((chunk + 32 * v, j));
      assert Shifted(acc, k, Ok((chunk + 32 * v, j))) == Ok((acc + Pow32(k) * (chunk + 32 * v), j));
      assert Shifted(acc + Weigh(chunk, k), k + 1, g) == Ok((acc + Weigh(chunk, k) + Pow32(k + 1) * v, j));
      WeightStep(acc, Pow32(k), Pow32(k + 1), chunk, v);
    }
  }

  lemma WeightStep(acc: int, P: int, Q: int, chunk: int, v: int)
    requires Q == 32 * P
    ensures acc + P * (chunk + 32 * v) == acc + chunk * P + Q * v
  {
    assert P * (chunk + 32 * v) == P * chunk + P * (32 * v);
  }

  /** `decodePoly(encoded)`: the outer loop reads a latitude group and a
      longitude group per point, adds the decoded deltas to the running
      sums and emits the point; a text that ends inside a pair fails. */
  method DecodePoly(encoded: string) returns (r: Outcome<seq<Point>>)
    ensures r == DecodeFrom(encoded, 0, 0, 0)
    ensures |encoded| == 0 ==> r == Ok([])
  {
    var poly: seq<Point> := [];
    var index := 0;
    var lat, lng := 0, 0;
    PrependNothing(DecodeFrom(encoded, 0, 0, 0));
    while index < |encoded|
      invariant index <= |encoded|
      invariant DecodeFrom(encoded, 0, 0, 0) == Prepend(poly, DecodeFrom(encoded, index, lat, lng))
      decreases |encoded| - index
    {
      var a := ReadValue(encoded, index);
      if a.Throw? {
        return Throw(a.exn);
      }
      var b := ReadValue(encoded, a.value.1);
      if b.Throw? {
        return Throw(b.exn);
      }
      DecodeOne(encoded, index, lat, lng, a.value.0, b.value.0, a.value.1, b.value.1);
      var p := Point(lat + ZigZag(a.value.0), lng + ZigZag(b.value.0));
      PrependAppend(poly, p, DecodeFrom(encoded, b.value.1, p.lat, p.lng));
      poly := poly + [p];
      lat, lng := p.lat, p.lng;
      index := b.value.1;
    }
    assert poly + [] == poly;
    return Ok(poly);
  }

  lemma PrependNothing(rest: Outcome<seq<Point>>)
    ensures Prepend([], rest) == rest
  {
    if rest.Ok? {
      assert [] + rest.value == rest.value;
    }
  }

  /** One step of the decoder: the two groups at `i` make a point, and the
      rest is decoded from after them. */
  lemma DecodeOne(s: string, i: nat, lat: int, lng: int, x: nat, y: nat, m: nat, n: nat)
    requires i < |s| && Group(s, i) == Ok((x, m)) && Group(s, m) == Ok((y, n))
    ensures var p := Point(lat + ZigZag(x), lng + ZigZag(y));
      DecodeFrom(s, i, lat, lng) == Prepend([p], DecodeFrom(s, n, p.lat, p.lng))
  {
  }

  /** The points found so far in front of what the rest yields. */
  function Prepend(ps: seq<Point>, rest: Outcome<seq<Point>>): Outcome<seq<Point>> {
    match rest
    case Throw(e) => Throw(e)
    case Ok(qs) => Ok(ps + qs)
  }

  lemma PrependAppend(ps: seq<Point>, p: Point, rest: Outcome<seq<Point>>)
    ensures Prepend(ps, match rest case Throw(e) => Throw(e) case Ok(qs) => Ok([p] + qs))
      == Prepend(ps + [p], rest)
  {
    if rest.Ok? {
      assert ps + ([p] + rest.value) == ps + [p] + rest.value;
    }
  }

  // ---------------------------------------------------------------------
  // The encoding the decoder reads
  // ---------------------------------------------------------------------

  /** The zigzag encoding of a delta: non-negative values to even codes,
      negative values to odd ones. */
  function ZigZagEncode(v: int): nat {
    if v < 0 then -2 * v - 1 else 2 * v
  }

  lemma ZigZagRoundTrip(v: int)
    ensures ZigZag(ZigZagEncode(v)) == v
  {
  }

  /** The chunks of a non-negative value, least significant first, with
      32 added to every chunk but the last, each shifted up by 63. */
  function Chunks(n: nat): (r: string)
    ensures |r| > 0
  {
    if n < 32 then [(n + 63) as char] else [(n % 32 + 32 + 63) as char] + Chunks(n / 32)
  }

  /** The chunks of a value, followed by anything, read back as the
      value. */
  lemma {:induction false} GroupOfChunks(n: nat, rest: string)
    ensures Group(Chunks(n) + rest, 0) == Ok((n, |Chunks(n)|))
    decreases n
  {
    var s := Chunks(n) + rest;
    if n >= 32 {
      var t := Chunks(n / 32) + rest;
      GroupOfChunks(n / 32, rest);
      assert s == [s[0]] + t;
      GroupFrom(s, t, 1, 0);
      assert s[0] as int - 63 == n % 32 + 32;
    } else {
      assert s[0] as int - 63 == n;
    }
  }

  /** Reading `s` from `i + d` is reading its suffix `t` from `i`, with
      indexes shifted by `d`. */
  lemma {:induction false} GroupFrom(s: string, t: string, d: nat, i: nat)
    requires d <= |s| && s[d..] == t
    ensures Group(s, i + d).Throw? <==> Group(t, i).Throw?
    ensures Group(t, i).Ok? ==> Group(s, i + d).value == (Group(t, i).value.0, Group(t, i).value.1 + d)
    decreases |t| - i
  {
    if i < |t| {
      assert s[i + d] == t[i];
      GroupFrom(s, t, d, i + 1);
    }
  }

  /** One encoded value. */
  function EncodeValue(delta: int): string {
    Chunks(ZigZagEncode(delta))
  }

  /** `encode`: each point as its latitude and longitude deltas from the
      previous point. */
  function EncodeFrom(ps: seq<Point>, lat: int, lng: int): string {
    if |ps| == 0 then ""
    else EncodeValue(ps[0].lat - lat) + EncodeValue(ps[0].lng - lng) + EncodeFrom(ps[1..], ps[0].lat, ps[0].lng)
  }

  /** Decoding reads back every point the encoding wrote, in order. */
  lemma {:induction false} DecodeEncoded(ps: seq<Point>, lat: int, lng: int)
    ensures DecodeFrom(EncodeFrom(ps, lat, lng), 0, lat, lng) == Ok(ps)
  {
    if |ps| > 0 {
      var p := ps[0];
      var rest := EncodeFrom(ps[1..], p.lat, p.lng);
      DecodeEncoded(ps[1..], p.lat, p.lng);
      ConsStep(EncodeFrom(ps, lat, lng), rest, p, ps[1..], lat, lng);
      assert [p] + ps[1..] == ps;
    }
  }

  /** One encoded point in front of a text that decodes to `tail`. */
  lemma ConsStep(s: string, rest: string, p: Point, tail: seq<Point>, lat: int, lng: int)
    requires s == EncodeValue(p.lat - lat) + EncodeValue(p.lng - lng) + rest
    requires DecodeFrom(rest, 0, p.lat, p.lng) == Ok(tail)
    ensures DecodeFrom(s, 0, lat, lng) == Ok([p] + tail)
  {
    DecodePair(p.lat - lat, p.lng - lng, rest, lat, lng);
    assert Point(lat + (p.lat - lat), lng + (p.lng - lng)) == p;
  }

  /** A pair of encoded deltas in front of a text decodes to the point the
      deltas lead to, followed by the text's points. */
  lemma DecodePair(dlat: int, dlng: int, rest: string, lat: int, lng: int)
    ensures var s := EncodeValue(dlat) + EncodeValue(dlng) + rest;
      DecodeFrom(s, 0, lat, lng) == Prepend([Point(lat + dlat, lng + dlng)], DecodeFrom(rest, 0, lat + dlat, lng + dlng))
  {
    var a := EncodeValue(dlat);
    var b := EncodeValue(dlng);
    var s := a + b + rest;
    PairGroups(ZigZagEncode(dlat), ZigZagEncode(dlng), rest);
    ZigZagRoundTrip(dlat);
    ZigZagRoundTrip(dlng);
    DecodeOne(s, 0, lat, lng, ZigZagEncode(dlat), ZigZagEncode(dlng), |a|, |a| + |b|);
    assert s[|a| + |b|..] == rest;
    DecodeShift(s, rest, |a| + |b|, lat + dlat, lng + dlng);
  }

  /** The two groups at the front of two encoded values and a text. */
  lemma PairGroups(x: nat, y: nat, rest: string)
    ensures var a := Chunks(x);
      var b := Chunks(y);
      var s := a + b + rest;
      Group(s, 0) == Ok((x, |a|)) && Group(s, |a|) == Ok((y, |a| + |b|))
  {
    GroupOfChunks(x, Chunks(y) + rest);
    GroupOfChunks(y, rest);
    TwoGroups(Chunks(x), Chunks(y), rest, x, y);
  }

  lemma TwoGroups(a: string, b: string, rest: string, x: nat, y: nat)
    requires Group(a + (b + rest), 0) == Ok((x, |a|)) && Group(b + rest, 0) == Ok((y, |b|))
    ensures Group(a + b + rest, 0) == Ok((x, |a|)) && Group(a + b + rest, |a|) == Ok((y, |a| + |b|))
  {
    var s := a + b + rest;
    assert s == a + (b + rest);
    assert s[|a|..] == b + rest;
    GroupFrom(s, b + rest, |a|, 0);
  }

  /** Decoding `s` from `d` is decoding its suffix from 0. */
  lemma {:induction false} DecodeShift(s: string, t: string, d: nat, lat: int, lng: int)
    requires d <= |s| && s[d..] == t
    ensures DecodeFrom(s, d, lat, lng) == DecodeFrom(t, 0, lat, lng)
  {
    DecodeShiftAt(s, t, d, 0, lat, lng);
  }

  lemma {:induction false} DecodeShiftAt(s: string, t: string, d: nat, i: nat, lat: int, lng: int)
    requires d <= |s| && s[d..] == t
    ensures DecodeFrom(s, i + d, lat, lng) == DecodeFrom(t, i, lat, lng)
    decreases |t| - i
  {
    if i < |t| {
      GroupFrom(s, t, d, i);
      var ga := Group(t, i);
      if ga.Ok? {
        GroupFrom(s, t, d, ga.value.1);
        var gb := Group(t, ga.value.1);
        if gb.Ok? {
          var p := Point(lat + ZigZag(ga.value.0), lng + ZigZag(gb.value.0));
          DecodeShiftAt(s, t, d, gb.value.1, p.lat, p.lng);
        }
      }
    }
  }

  /** A text that stops after a latitude fails. */
  lemma HalfPairFails(delta: int)
    ensures DecodeFrom(EncodeValue(delta), 0, 0, 0) == Throw(IndexOutOfBounds)
  {
    var s := EncodeValue(delta);
    GroupOfChunks(ZigZagEncode(delta), "");
    assert s + "" == s;
  }

  // ---------------------------------------------------------------------
  // Bounds
  // ---------------------------------------------------------------------

  /** `northEastPoint(a, b)`: the larger of each coordinate. */
  function NorthEast(a: Point, b: Point): (r: Point)
    ensures r.lat >= a.lat && r.lat >= b.lat && (r.lat == a.lat || r.lat == b.lat)
    ensures r.lng >= a.lng && r.lng >= b.lng && (r.lng == a.lng || r.lng == b.lng)
  {
    Point(if a.lat >= b.lat then a.lat else b.lat, if a.lng >= b.lng then a.lng else b.lng)
  }

  /** `southWestPoint(a, b)`: the smaller of each coordinate. */
  function SouthWest(a: Point, b: Point): (r: Point)
    ensures r.lat <= a.lat && r.lat <= b.lat && (r.lat == a.lat || r.lat == b.lat)
    ensures r.lng <= a.lng && r.lng <= b.lng && (r.lng == a.lng || r.lng == b.lng)
  {
    Point(if a.lat <= b.lat then a.lat else b.lat, if a.lng <= b.lng then a.lng else b.lng)
  }

  /** A bounding box: its south-west and north-east corners. */
  datatype Bound = Bound(sw: Point, ne: Point)

  /** Every point lies in the box. */
  predicate Contains(b: Bound, ps: seq<Point>) {
    forall i :: 0 <= i < |ps| ==>
      b.sw.lat <= ps[i].lat <= b.ne.lat && b.sw.lng <= ps[i].lng <= b.ne.lng
  }

  /** Each side of the box touches a point. */
  predicate Tight(b: Bound, ps: seq<Point>) {
    && (exists i :: 0 <= i < |ps| && ps[i].lat == b.sw.lat)
    && (exists i :: 0 <= i < |ps| && ps[i].lng == b.sw.lng)
    && (exists i :: 0 <= i < |ps| && ps[i].lat == b.ne.lat)
    && (exists i :: 0 <= i < |ps| && ps[i].lng == b.ne.lng)
  }

  /** The corners folded over the points, starting from `b`. */
  function Fold(b: Bound, ps: seq<Point>): Bound
    decreases |ps|
  {
    if |ps| == 0 then b
    else Fold(Bound(SouthWest(b.sw, ps[0]), NorthEast(b.ne, ps[0])), ps[1..])
  }

  /** `getBounds(points)`: both corners start at the first point (an empty
      list fails in `get(0)`) and are widened by every point, the first
      included. */
  function GetBounds(ps: seq<Point>): (r: Outcome<Bound>)
    ensures |ps| == 0 <==> r.Throw?
    ensures r.Throw? ==> r.exn == IndexOutOfBounds
  {
    if |ps| == 0 then Throw(IndexOutOfBounds)
    else Ok(Fold(Bound(ps[0], ps[0]), ps))
  }

  /** The box a fold ends with holds the start and every point, and each
      side comes from the start or from a point. */
  lemma {:induction false} FoldBounds(b: Bound, ps: seq<Point>)
    ensures var r := Fold(b, ps);
      && r.sw.lat <= b.sw.lat && r.sw.lng <= b.sw.lng && r.ne.lat >= b.ne.lat && r.ne.lng >= b.ne.lng
      && Contains(r, ps)
      && (r.sw.lat == b.sw.lat || exists i :: 0 <= i < |ps| && ps[i].lat == r.sw.lat)
      && (r.sw.lng == b.sw.lng || exists i :: 0 <= i < |ps| && ps[i].lng == r.sw.lng)
      && (r.ne.lat == b.ne.lat || exists i :: 0 <= i < |ps| && ps[i].lat == r.ne.lat)
      && (r.ne.lng == b.ne.lng || exists i :: 0 <= i < |ps| && ps[i].lng == r.ne.lng)
    decreases |ps|
  {
    if |ps| > 0 {
      var b1 := Bound(SouthWest(b.sw, ps[0]), NorthEast(b.ne, ps[0]));
      FoldBounds(b1, ps[1..]);
      var r := Fold(b, ps);
      assert r == Fold(b1, ps[1..]);
      forall i | 0 <= i < |ps|
        ensures r.sw.lat <= ps[i].lat <= r.ne.lat && r.sw.lng <= ps[i].lng <= r.ne.lng
      {
        if i > 0 {
          assert ps[i] == ps[1..][i - 1];
        }
      }
      if r.sw.lat != b.sw.lat && r.sw.lat != b1.sw.lat {
        var i :| 0 <= i < |ps[1..]| && ps[1..][i].lat == r.sw.lat;
        assert ps[i + 1].lat == r.sw.lat;
      }
      if r.sw.lng != b.sw.lng && r.sw.lng != b1.sw.lng {
        var i :| 0 <= i < |ps[1..]| && ps[1..][i].lng == r.sw.lng;
        assert ps[i + 1].lng == r.sw.lng;
      }
      if r.ne.lat != b.ne.lat && r.ne.lat != b1.ne.lat {
        var i :| 0 <= i < |ps[1..]| && ps[1..][i].lat == r.ne.lat;
        assert ps[i + 1].lat == r.ne.lat;
      }
      if r.ne.lng != b.ne.lng && r.ne.lng != b1.ne.lng {
        var i :| 0 <= i < |ps[1..]| && ps[1..][i].lng == r.ne.lng;
        assert ps[i + 1].lng == r.ne.lng;
      }
    }
  }

  /** The bounds of a non-empty list are its smallest enclosing box: they
      contain every point and each side touches one. */
  lemma BoundsEnclose(ps: seq<Point>)
    requires |ps| > 0
    ensures GetBounds(ps).Ok? && Contains(GetBounds(ps).value, ps) && Tight(GetBounds(ps).value, ps)
  {
    FoldBounds(Bound(ps[0], ps[0]), ps);
  }
}

=== FILE: postal.dfy ===
/** `UsPostalAddress`: the constructor that splits a one-line US address
    into line 1, city, state and ZIP with a cascade of regular
    expressions. Each expression is modelled by what it accepts (or
    removes) on a single line of text; `MoarStringUtil.lastWord`, which
    the parser calls but which is not part of this model, is a parameter
    that may answer null. */
module UsPostal {
  import opened JavaLang
  import opened JString

  /** The parsed fields; `line2` is never set. */
  datatype Address = Address(zip: Option<string>, line1: Option<string>, line2: Option<string>,
                             city: Option<string>, state: Option<string>)

  const Empty: Address := Address(None, None, None, None, None)

  // ---------------------------------------------------------------------
  // The character classes and patterns
  // ---------------------------------------------------------------------

  /** The characters `.` does not match. */
  predicate IsLineTerminator(c: char) {
    c == '\n' || c == '\r' || c == '\U{85}' || c == '\U{2028}' || c == '\U{2029}'
  }

  /** A text every `.` matches: what the parameter name `singleLineAddress`
      asks of the caller. */
  predicate SingleLine(s: string) {
    forall k :: 0 <= k < |s| ==> !IsLineTerminator(s[k])
  }

  /** `\s`. */
  predicate IsRegexSpace(c: char) {
    c == ' ' || c == '\t' || c == '\n' || c == '\U{0B}' || c == '\U{0C}' || c == '\r'
  }

  predicate Digits(s: string) {
    forall k :: 0 <= k < |s| ==> IsAsciiDigit(s[k])
  }

  /** The whole text matches `[0-9]{5}(?:-[0-9]{4})?`. */
  predicate IsZip(s: string) {
    || (|s| == 5 && Digits(s))
    || (|s| == 10 && Digits(s[..5]) && s[5] == '-' && Digits(s[6..]))
  }

  /** The length of the ZIP the text ends with (`.*[0-9]{5}(?:-[0-9]{4})?$`),
      or 0 when it ends with none. */
  function ZipLength(s: string): (n: nat)
    ensures n <= |s|
    ensures n > 0 ==> IsZip(s[|s| - n..])
    ensures n == 0 ==> forall k :: 0 <= k <= |s| ==> !IsZip(s[k..])
  {
    if |s| >= 10 && IsZip(s[|s| - 10..]) then 10
    else if |s| >= 5 && IsZip(s[|s| - 5..]) then 5
    else
      assert forall k :: 0 <= k <= |s| && IsZip(s[k..]) ==> k == |s| - 5 || k == |s| - 10;
      0
  }

  /** How many digits the text starts with. */
  function LeadingDigits(s: string): (n: nat)
    ensures n <= |s| && Digits(s[..n])
    ensures n < |s| ==> !IsAsciiDigit(s[n])
  {
    if |s| == 0 || !IsAsciiDigit(s[0]) then 0
    else
      var n := 1 + LeadingDigits(s[1..]);
      assert s[..n] == [s[0]] + s[1..][..n - 1];
      n
  }

  /** `s.matches("^[0-9]* .*")`: optional digits, then a space. */
  predicate HasStreetNumber(s: string) {
    var d := LeadingDigits(s);
    d < |s| && s[d] == ' '
  }

  /** The start of the run of `\s` characters that ends at `j`. */
  function SpaceRunStart(s: string, j: nat): (r: nat)
    requires j <= |s|
    ensures r <= j
    ensures forall k :: r <= k < j ==> IsRegexSpace(s[k])
    ensures r > 0 ==> !IsRegexSpace(s[r - 1])
  {
    if j > 0 && IsRegexSpace(s[j - 1]) then SpaceRunStart(s, j - 1) else j
  }

  /** Two capital letters at `i`. */
  predicate CapsAt(s: string, i: int) {
    0 <= i && i + 2 <= |s| && IsAsciiUpper(s[i]) && IsAsciiUpper(s[i + 1])
  }

  /** `s.matches(".*\\s*[A-Z]{2}$")`. */
  predicate EndsWithCode(s: string) {
    CapsAt(s, |s| - 2)
  }

  /** Where the two-letter code starts when the text matches
      `.*\\s*[A-Z]{2}\\s*[0-9]{5}(?:-[0-9]{4})?$`, or -1. */
  function CodeBeforeZip(s: string): (i: int)
    ensures i == -1 || (CapsAt(s, i) && ZipLength(s) > 0)
  {
    var z := ZipLength(s);
    if z == 0 then -1
    else
      var w := SpaceRunStart(s, |s| - z);
      if CapsAt(s, w - 2) then w - 2 else -1
  }

  /** The index of the first `\s` character, or the length. */
  function FirstSpace(s: string): (r: nat)
    ensures r <= |s|
    ensures forall k :: 0 <= k < r ==> !IsRegexSpace(s[k])
    ensures r < |s| ==> IsRegexSpace(s[r])
  {
    if |s| == 0 || IsRegexSpace(s[0]) then 0 else 1 + FirstSpace(s[1..])
  }

  /** The second words of the two-word states. */
  const TwoWordStates: seq<string> :=
    ["Carolina", "Dakota", "Hampshire", "Island", "Jersey", "Mexico", "Virginia", "York"]

  /** The loop of `isTwoWordState` over a list of words. */
  function IsOneOf(state: string, words: seq<string>): bool {
    |words| > 0 && (EqualsIgnoreCase(state, words[0]) || IsOneOf(state, words[1..]))
  }

  /** `isTwoWordState(state)`. */
  function IsTwoWordState(state: string): bool {
    IsOneOf(state, TwoWordStates)
  }

  /** The loop answers true exactly for a case-insensitive member of the
      list. */
  lemma {:induction false} IsOneOfMembership(state: string, words: seq<string>)
    ensures IsOneOf(state, words) <==> exists k :: 0 <= k < |words| && EqualsIgnoreCase(state, words[k])
  {
    if |words| > 0 {
      IsOneOfMembership(state, words[1..]);
      if !EqualsIgnoreCase(state, words[0]) && exists k :: 0 <= k < |words| && EqualsIgnoreCase(state, words[k]) {
        var k :| 0 <= k < |words| && EqualsIgnoreCase(state, words[k]);
        assert words[1..][k - 1] == words[k];
      }
      if IsOneOf(state, words[1..]) {
        var k :| 0 <= k < |words[1..]| && EqualsIgnoreCase(state, words[1..][k]);
        assert words[k + 1] == words[1..][k];
      }
    }
  }

  /** `isTwoWordState` is case-insensitive membership among the eight
      second words. */
  lemma TwoWordStateMembership(state: string)
    ensures IsTwoWordState(state) <==>
      exists k :: 0 <= k < |TwoWordStates| && EqualsIgnoreCase(state, TwoWordStates[k])
  {
    IsOneOfMembership(state, TwoWordStates);
  }

  // ---------------------------------------------------------------------
  // The parser
  // ---------------------------------------------------------------------

  /** How far the parser got: finished, or an address so far and the text
      still to parse. */
  datatype Progress = Done(address: Address) | Continue(address: Address, rest: string)

  /** The characters of a trimmed slice are characters of the text. */
  lemma TrimSingleLine(s: string)
    requires SingleLine(s)
    ensures SingleLine(Trim(s))
  {
    var t := Trim(s);
    forall k | 0 <= k < |t|
      ensures !IsLineTerminator(t[k])
    {
      assert t[k] == s[TrimStart(s) + k];
    }
  }

  /** Line 1: with a street number, the text before the first comma,
      trimmed; parsing goes on after the line's length plus one, trimmed,
      and stops when nothing is left. As written that offset can lie past
      the end of the text (there is no comma); `fixed` treats it as the
      end. */
  function Line1Step(s: string, fixed: bool): (r: Outcome<Progress>)
    requires SingleLine(s)
    ensures !HasStreetNumber(s) ==> r == Ok(Continue(Empty, s))
    ensures r.Ok? && r.value.Continue? ==> SingleLine(r.value.rest)
    ensures fixed ==> r.Ok?
  {
    if !HasStreetNumber(s) then Ok(Continue(Empty, s))
    else
      var comma := IndexOfChar(s, ',');
      var line1 := Trim(if comma < 0 then s else s[..comma]);
      var from := |line1| + 1;
      if fixed && from > |s| then Ok(Done(Empty.(line1 := Some(line1))))
      else
        match SubstringFrom(s, from)
        case Throw(e) => Throw(e)
        case Ok(t) => Ok(AfterLine1(line1, s, t))
  }

  /** What follows line 1, trimmed, unless nothing does. */
  function AfterLine1(line1: string, s: string, t: string): (r: Progress)
    requires SingleLine(s) && EndsWith(s, t)
    ensures r.Continue? ==> SingleLine(r.rest)
  {
    var rest := Trim(t);
    var a := Empty.(line1 := Some(line1));
    if rest == [] then Done(a)
    else
      assert SingleLine(t) by {
        assert forall k :: 0 <= k < |t| ==> t[k] == s[|s| - |t| + k];
      }
      TrimSingleLine(t);
      Continue(a, rest)
  }

  /** After a two-letter code: the city is the text before the code's
      leading spaces, commas removed and trimmed; what follows the city's
      length in the comma-free text goes to `StateAndZip`. */
  function CodeTail(a: Address, s: string, codeAt: nat): (r: Outcome<Address>)
    requires codeAt <= |s|
    ensures r.Ok? ==> r.value.city == Some(Trim(RemoveChar(s[..SpaceRunStart(s, codeAt)], ',')))
    ensures r.Ok? ==> r.value.line1 == a.line1
  {
    var city := Trim(RemoveChar(s[..SpaceRunStart(s, codeAt)], ','));
    match SubstringFrom(RemoveChar(s, ','), |city|)
    case Throw(e) => Throw(e)
    case Ok(t) => Ok(StateAndZip(a.(city := Some(city)), t))
  }

  /** The text after the city, trimmed: the state up to its first space,
      then the ZIP; each is left unset when nothing is left for it. */
  function StateAndZip(a: Address, t0: string): (r: Address)
    ensures r.line1 == a.line1 && r.city == a.city
    ensures r.zip == a.zip || r.state.Some?
    ensures r.state == a.state
      || (r.state.Some? && |r.state.value| > 0 && forall k :: 0 <= k < |r.state.value| ==> !IsRegexSpace(r.state.value[k]))
  {
    var t := Trim(t0);
    if t == [] then a
    else
      assert !IsRegexSpace(t[0]) by {
        assert !IsTrimmable(t[0]);
      }
      var state := t[..FirstSpace(t)];
      var rest := Trim(t[|state|..]);
      if rest == [] then a.(state := Some(state))
      else a.(state := Some(state), zip := Some(rest))
  }

  /** A two-word state takes the word before it, except that Virginia
      takes only `West`. Gives the text left and the state. */
  function TwoWord(s: string, state: string, lastWord: string -> Option<string>): (r: Outcome<(string, string)>)
    ensures !IsTwoWordState(state) ==> r == Ok((s, state))
  {
    if !IsTwoWordState(state) then Ok((s, state))
    else
      match lastWord(s)
      case None => Throw(NullPointer)
      case Some(w) =>
        if EqualsIgnoreCase(state, "Virginia") && !EqualsIgnoreCase(w, "West") then Ok((s, state))
        else
          match Substring(s, 0, |s| - |w|)
          case Throw(e) => Throw(e)
          case Ok(left) => Ok((left, w + " " + state))
  }

  /** Before a state word Dakota, York and the others the preceding word
      is always absorbed; before Virginia only `West` is. */
  lemma VirginiaNeedsWest(s: string, state: string, w: string, lastWord: string -> Option<string>)
    requires IsTwoWordState(state) && lastWord(s) == Some(w) && |w| <= |s|
    ensures TwoWord(s, state, lastWord).Ok?
    ensures TwoWord(s, state, lastWord).value.1 != state
      <==> !EqualsIgnoreCase(state, "Virginia") || EqualsIgnoreCase(w, "West")
  {
    var r := TwoWord(s, state, lastWord);
    if !EqualsIgnoreCase(state, "Virginia") || EqualsIgnoreCase(w, "West") {
      assert |r.value.1| > |state|;
    }
  }

  /** A trailing ZIP without a code: the ZIP is the text after the last
      space; the state is the last word before it, widened by `TwoWord`;
      the city is what is left, commas removed and trimmed. */
  function ZipTail(a: Address, s: string, lastWord: string -> Option<string>): (r: Outcome<Address>)
    ensures r.Ok? ==> r.value.zip == Some(Trim(s[LastIndexOfChar(s, ' ') + 1..]))
    ensures r.Ok? ==> r.value.line1 == a.line1 && r.value.state.Some? && r.value.city.Some?
  {
    var zip := Trim(s[LastIndexOfChar(s, ' ') + 1..]);
    var s2 := s[..|s| - |zip|];
    match lastWord(s2)
    case None => Throw(NullPointer)
    case Some(state) =>
      match StateWords(s2, state, lastWord)
      case Throw(e) => Throw(e)
      case Ok(p) => Ok(a.(zip := Some(zip), state := Some(p.1), city := Some(Trim(RemoveChar(p.0, ',')))))
  }

  /** The state word and the space before it cut off the text, then
      `TwoWord`. */
  function StateWords(s: string, state: string, lastWord: string -> Option<string>): (r: Outcome<(string, string)>)
  {
    match Substring(s, 0, |s| - |state| - 1)
    case Throw(e) => Throw(e)
    case Ok(s3) => TwoWord(s3, state, lastWord)
  }

  /** What follows line 1: a trailing code, a code and a ZIP, or a ZIP
      alone; with none of them the city is still null when its length is
      taken. */
  function ParseRest(a: Address, s: string, lastWord: string -> Option<string>): (r: Outcome<Address>)
    requires SingleLine(s)
    ensures r.Ok? ==> r.value.line1 == a.line1
  {
    if EndsWithCode(s) then CodeTail(a, s, |s| - 2)
    else if CodeBeforeZip(s) >= 0 then CodeTail(a, s, CodeBeforeZip(s))
    else if ZipLength(s) > 0 then ZipTail(a, s, lastWord)
    else Throw(NullPointer)
  }

  /** The constructor: a bare ZIP sets only the ZIP; otherwise line 1,
      then the rest. */
  function ParseWith(s: string, lastWord: string -> Option<string>, fixed: bool): (r: Outcome<Address>)
    requires SingleLine(s)
    ensures IsZip(s) ==> r == Ok(Empty.(zip := Some(s)))
    ensures r.Ok? && !IsZip(s) ==> (r.value.line1.Some? <==> HasStreetNumber(s))
  {
    if IsZip(s) then Ok(Empty.(zip := Some(s)))
    else
      match Line1Step(s, fixed)
      case Throw(e) => Throw(e)
      case Ok(Done(a)) => Ok(a)
      case Ok(Continue(a, rest)) => ParseRest(a, rest, lastWord)
  }

  /** `new UsPostalAddress(s)` as written. */
  function ParseAsWritten(s: string, lastWord: string -> Option<string>): Outcome<Address>
    requires SingleLine(s)
  {
    ParseWith(s, lastWord, false)
  }

  /** `new UsPostalAddress(s)` with line 1 allowed to be the whole text. */
  function Parse(s: string, lastWord: string -> Option<string>): Outcome<Address>
    requires SingleLine(s)
  {
    ParseWith(s, lastWord, true)
  }

  // ---------------------------------------------------------------------
  // Properties
  // ---------------------------------------------------------------------

  /** A street line without a comma: as written the parser takes its
      length plus one as the offset of the rest and fails; corrected, the
      line is line 1 and nothing else is set. */
  lemma StreetLineWithoutComma(s: string, lastWord: string -> Option<string>)
    requires SingleLine(s) && HasStreetNumber(s) && ',' !in s && Trim(s) == s
    ensures ParseAsWritten(s, lastWord) == Throw(IndexOutOfBounds)
    ensures Parse(s, lastWord) == Ok(Empty.(line1 := Some(s)))
  {
    StreetLineIsNoZip(s);
    assert SubstringFrom(s, |s| + 1) == Throw(IndexOutOfBounds);
    assert Trim([]) == [];
  }

  /** The street line `123 Main St` on its own. */
  lemma MainStreetAlone(lastWord: string -> Option<string>)
    ensures SingleLine("123 Main St")
    ensures ParseAsWritten("123 Main St", lastWord) == Throw(IndexOutOfBounds)
    ensures Parse("123 Main St", lastWord) == Ok(Empty.(line1 := Some("123 Main St")))
  {
    MainStreetText("123 Main St");
    StreetLineWithoutComma("123 Main St", lastWord);
  }

  lemma MainStreetText(s: string)
    requires s == "123 Main St"
    ensures SingleLine(s) && HasStreetNumber(s) && ',' !in s && Trim(s) == s
  {
    assert LeadingDigits(s) == 3 by {
      DigitsCounted(s, 3);
      assert !IsAsciiDigit(s[3]);
    }
    assert ',' !in s by {
      assert forall k :: 0 <= k < |s| ==> s[k] != ',';
    }
    TrimOfFramed(s);
  }

  /** A text with a street number is not a bare ZIP. */
  lemma StreetLineIsNoZip(s: string)
    requires HasStreetNumber(s)
    ensures !IsZip(s)
  {
    var d := LeadingDigits(s);
    if |s| == 10 && Digits(s[..5]) && s[5] == '-' {
      DigitsCounted(s, 5);
    }
  }

  /** A text starting with `n` digits starts with at least that many. */
  lemma {:induction false} DigitsCounted(s: string, n: nat)
    requires n <= |s| && Digits(s[..n])
    ensures LeadingDigits(s) >= n
  {
    if n > 0 {
      assert IsAsciiDigit(s[..n][0]);
      assert s[1..][..n - 1] == s[..n][1..];
      DigitsCounted(s[1..], n - 1);
    }
  }

  /** A street line, a comma, and more: line 1 is the trimmed text before
      the comma and parsing goes on with the rest, trimmed, both as
      written and corrected. */
  lemma StreetLineThenRest(l1: string, b: string, fixed: bool)
    requires SingleLine(l1 + "," + b) && HasStreetNumber(l1) && ',' !in l1 && Trim(l1) == l1
    ensures Line1Step(l1 + "," + b, fixed)
      == if Trim(b) == [] then Ok(Done(Empty.(line1 := Some(l1))))
         else Ok(Continue(Empty.(line1 := Some(l1)), Trim(b)))
  {
    var s := l1 + "," + b;
    assert s[..|l1|] == l1;
    assert LeadingDigits(s) == LeadingDigits(l1) by {
      StreetNumberOfPrefix(l1, "," + b);
      assert s == l1 + ("," + b);
    }
    assert IndexOfChar(s, ',') == |l1| by {
      assert s[|l1|] == ',';
      assert forall k :: 0 <= k < |l1| ==> s[k] == l1[k];
    }
    assert s[|l1| + 1..] == b;
  }

  /** The street-number prefix of a text is found in any text it starts. */
  lemma {:induction false} StreetNumberOfPrefix(a: string, b: string)
    requires HasStreetNumber(a)
    ensures LeadingDigits(a + b) == LeadingDigits(a)
  {
    if |a| > 0 && IsAsciiDigit(a[0]) {
      assert (a + b)[1..] == a[1..] + b;
      assert LeadingDigits(a[1..]) == LeadingDigits(a) - 1;
      StreetNumberOfPrefix(a[1..], b);
    }
  }

  /** A text ending in neither a digit nor a capital has neither a code
      nor a ZIP, so the null city fails the parse. */
  lemma NoCodeNoZip(s: string, lastWord: string -> Option<string>, fixed: bool)
    requires SingleLine(s) && |s| > 0 && !HasStreetNumber(s)
    requires !IsAsciiDigit(s[|s| - 1]) && !IsAsciiUpper(s[|s| - 1])
    ensures ParseWith(s, lastWord, fixed) == Throw(NullPointer)
  {
    assert !IsZip(s);
    assert ZipLength(s) == 0 by {
      if |s| >= 5 {
        assert s[|s| - 5..][4] == s[|s| - 1];
      }
      if |s| >= 10 {
        assert s[|s| - 10..][9] == s[|s| - 1];
      }
    }
  }

  /** A city, a code and a ZIP separated by single spaces parse into
      exactly those three. */
  lemma CityCodeZip(city: string, code: string, zip: string, lastWord: string -> Option<string>)
    requires |city| > 0 && Trim(city) == city && ',' !in city && SingleLine(city)
    requires |code| == 2 && CapsAt(code, 0) && IsZip(zip)
    ensures ParseRest(Empty, city + " " + code + " " + zip, lastWord)
      == Ok(Empty.(city := Some(city), state := Some(code), zip := Some(zip)))
  {
    var tail := " " + code + " " + zip;
    var s := city + tail;
    assert s == city + " " + code + " " + zip;
    CodeZipText(code, zip);
    SingleLineConcat(city, tail);
    CodeZipLayout(city, code, zip);
    assert s[..|city|] == city;
    RemoveCharAppend(city, tail, ',');
    assert SubstringFrom(RemoveChar(s, ','), |city|) == Ok(tail);
    CodeZipTail(city, code, zip);
  }

  /** The code and ZIP part is one line without commas. */
  lemma CodeZipText(code: string, zip: string)
    requires |code| == 2 && CapsAt(code, 0) && IsZip(zip)
    ensures var tail := " " + code + " " + zip;
      SingleLine(tail) && ',' !in tail && RemoveChar(tail, ',') == tail
  {
    var tail := " " + code + " " + zip;
    assert forall k :: 4 <= k < |tail| ==> tail[k] == zip[k - 4];
    assert forall k :: 0 <= k < |zip| ==> IsAsciiDigit(zip[k]) || zip[k] == '-' by {
      if |zip| == 10 {
        assert forall k :: 0 <= k < 5 ==> zip[k] == zip[..5][k];
        assert forall k :: 6 <= k < 10 ==> zip[k] == zip[6..][k - 6];
      }
    }
  }

  /** Concatenation keeps a text on one line. */
  lemma SingleLineConcat(a: string, b: string)
    requires SingleLine(a) && SingleLine(b)
    ensures SingleLine(a + b)
  {
    assert forall k :: |a| <= k < |a + b| ==> (a + b)[k] == b[k - |a|];
  }

  /** Where the patterns find the code in `city code zip`. */
  lemma CodeZipLayout(city: string, code: string, zip: string)
    requires |city| > 0 && !IsTrimmable(city[|city| - 1])
    requires |code| == 2 && CapsAt(code, 0) && IsZip(zip)
    ensures var s := city + " " + code + " " + zip;
      && !EndsWithCode(s)
      && CodeBeforeZip(s) == |city| + 1
      && SpaceRunStart(s, |city| + 1) == |city|
  {
    var head := city + " " + code + " ";
    var s := head + zip;
    assert s == city + " " + code + " " + zip;
    ZipEnd(zip);
    assert s[|s| - 1] == zip[|zip| - 1];
    ZipOfTail(head, zip);
    SpacesAroundCode(city, code, zip);
    CodeBeforeZipAt(s, |zip|, |city| + 1);
  }

  /** The code the ZIP pattern finds, from where the spaces before the ZIP
      start. */
  lemma CodeBeforeZipAt(s: string, z: nat, i: nat)
    requires 0 < z <= |s| && ZipLength(s) == z
    requires SpaceRunStart(s, |s| - z) == i + 2 && CapsAt(s, i)
    ensures CodeBeforeZip(s) == i
  {
  }

  /** The single spaces on either side of the code. */
  lemma SpacesAroundCode(city: string, code: string, zip: string)
    requires |city| > 0 && !IsTrimmable(city[|city| - 1])
    requires |code| == 2 && CapsAt(code, 0)
    ensures var s := city + " " + code + " " + zip;
      && CapsAt(s, |city| + 1)
      && SpaceRunStart(s, |city| + 4) == |city| + 3
      && SpaceRunStart(s, |city| + 1) == |city|
  {
    var s := city + " " + code + " " + zip;
    var n := |city|;
    assert s[n - 1] == city[n - 1] && s[n] == ' ';
    assert s[n + 1] == code[0] && s[n + 2] == code[1] && s[n + 3] == ' ';
    SpaceRunOne(s, n + 4);
    SpaceRunOne(s, n + 1);
  }

  /** A single space before `j`. */
  lemma SpaceRunOne(s: string, j: nat)
    requires 2 <= j <= |s| && s[j - 1] == ' ' && !IsTrimmable(s[j - 2])
    ensures SpaceRunStart(s, j) == j - 1
  {
    assert !IsRegexSpace(s[j - 2]);
  }

  /** The text after the city: the state up to the space, then the ZIP. */
  lemma CodeZipTail(city: string, code: string, zip: string)
    requires |code| == 2 && CapsAt(code, 0) && IsZip(zip)
    ensures StateAndZip(Empty.(city := Some(city)), " " + code + " " + zip)
      == Empty.(city := Some(city), state := Some(code), zip := Some(zip))
  {
    var t := code + " " + zip;
    StateThenZip(code, zip);
    assert t[..FirstSpace(t)] == code;
  }

  /** The trimmed text after the city, its first space, and the trimmed
      rest after the state. */
  lemma StateThenZip(code: string, zip: string)
    requires |code| == 2 && CapsAt(code, 0) && IsZip(zip)
    ensures var t := code + " " + zip;
      && Trim(" " + code + " " + zip) == t
      && FirstSpace(t) == 2
      && Trim(t[2..]) == zip
  {
    var t := code + " " + zip;
    ZipEnd(zip);
    assert " " + code + " " + zip == " " + t;
    TrimOfSpaced(t);
    FirstSpaceAfterCode(code, zip);
    assert t[2..] == " " + zip;
    TrimOfSpaced(zip);
  }

  /** A ZIP starts and ends with a digit. */
  lemma ZipEnd(zip: string)
    requires IsZip(zip)
    ensures IsAsciiDigit(zip[0]) && IsAsciiDigit(zip[|zip| - 1])
  {
    if |zip| == 10 {
      assert zip[9] == zip[6..][3];
      assert zip[0] == zip[..5][0];
    }
  }

  lemma FirstSpaceAfterCode(code: string, zip: string)
    requires |code| == 2 && CapsAt(code, 0)
    ensures FirstSpace(code + " " + zip) == 2
  {
    var t := code + " " + zip;
    assert t[0] == code[0] && t[1] == code[1] && t[2] == ' ';
  }

  /** A framed text after one space trims to itself. */
  lemma TrimOfSpaced(x: string)
    requires |x| > 0 && !IsTrimmable(x[0]) && !IsTrimmable(x[|x| - 1])
    ensures Trim(" " + x) == x
  {
    var u := " " + x;
    assert SkipFront(u, 1) == 1;
    assert SkipFront(u, 0) == 1;
    assert SkipBack(u, 1, |u|) == |u|;
    assert u[1..] == x;
  }

  /** A text ending in a ZIP after a space has a ZIP of that length. */
  lemma ZipOfTail(a: string, zip: string)
    requires IsZip(zip) && |a| > 0 && a[|a| - 1] == ' '
    ensures ZipLength(a + zip) == |zip|
  {
    var s := a + zip;
    assert s[|s| - |zip|..] == zip;
    if |zip| == 5 && |s| >= 10 {
      assert !IsZip(s[|s| - 10..]) by {
        assert s[|s| - 10..][5] == s[|s| - 5] == zip[0];
      }
    }
  }
}

=== FILE: propertyaccessor.dfy ===
/** `PropertyAccessor`: a setting named `name` is looked up under the key
    `baseName.name` in the JVM system properties, then through the
    accessor's fetch function, then in the environment under the key's
    environment-variable form, and falls back to a default. The process
    environment and the system properties are parameters. */
module PropertyAccess {
  import opened JavaLang
  import opened JString

  /** An accessor: its base name and its fetch function (null for
      nothing). */
  datatype Accessor = Accessor(baseName: string, fetch: string -> Option<string>)

  /** `System.getenv` and `System.getProperty`. */
  datatype Host = Host(env: string -> Option<string>, props: string -> Option<string>)

  /** The fetch of the constructors without one: `name -> null`. */
  function NoFetch(): (f: string -> Option<string>)
    ensures forall k :: f(k) == None
  {
    _ => None
  }

  /** `PropertyAccessor(baseName, fetch)`. */
  function WithFetch(baseName: string, fetch: string -> Option<string>): (r: Accessor)
    ensures r.baseName == baseName && r.fetch == fetch
  {
    Accessor(baseName, fetch)
  }

  /** `PropertyAccessor(baseName)`. */
  function ForBase(baseName: string): (r: Accessor)
    ensures r.baseName == baseName && forall k :: r.fetch(k) == None
  {
    WithFetch(baseName, NoFetch())
  }

  /** `PropertyAccessor()`: the empty base name. */
  function Plain(): (r: Accessor)
    ensures r.baseName == "" && forall k :: r.fetch(k) == None
  {
    ForBase("")
  }

  /** `PropertyAccessor(clz)` and `PropertyAccessor(clz, fetch)`: the base
      name is the class's name. */
  function ForClass(className: string, fetch: Option<string -> Option<string>>): (r: Accessor)
    ensures r.baseName == className
    ensures fetch.Some? ==> r.fetch == fetch.value
    ensures fetch.None? ==> forall k :: r.fetch(k) == None
  {
    match fetch
    case Some(f) => WithFetch(className, f)
    case None => ForBase(className)
  }

  /** The key of a setting. */
  function Key(a: Accessor, name: string): (k: string)
    ensures k == a.baseName + "." + name
    ensures |k| == |a.baseName| + |name| + 1 && k[|a.baseName|] == '.'
  {
    a.baseName + "." + name
  }

  /** `getEnvName(key)`: upper-cased, dots made underscores. */
  function EnvName(key: string): (r: string)
    ensures |r| == |key| && '.' !in r
    ensures forall k :: 0 <= k < |key| ==> r[k] == if key[k] == '.' then '_' else UpperChar(key[k])
  {
    ReplaceChar(Upper(key), '.', '_')
  }

  /** `getString(name, defaultValue)`: the environment value is taken, a
      fetched value overrides it, the default fills in when both are
      null, and a system property under the key overrides everything. */
  function GetString(a: Accessor, name: string, defaultValue: Option<string>, host: Host): (r: Option<string>)
    ensures defaultValue.Some? ==> r.Some?
  {
    var key := Key(a, name);
    var envValue := host.env(EnvName(key));
    var downStream := if envValue.Some? then envValue else None;
    var fetched := a.fetch(key);
    var downStream := if fetched.Some? then fetched else downStream;
    var downStream := if downStream.None? then defaultValue else downStream;
    match host.props(key)
    case Some(p) => Some(p)
    case None => downStream
  }

  /** `getString(name)`: no default. */
  function GetStringOrNull(a: Accessor, name: string, host: Host): (r: Option<string>)
    ensures r.Some? ==> r == host.props(Key(a, name)) || r == a.fetch(Key(a, name)) || r == host.env(EnvName(Key(a, name)))
  {
    GetString(a, name, None, host)
  }

  /** The first of several values that is not null. */
  function FirstPresent(vs: seq<Option<string>>): Option<string> {
    if |vs| == 0 then None else if vs[0].Some? then vs[0] else FirstPresent(vs[1..])
  }

  /** The lookup is the first present value in the order system property,
      fetch, environment, default. */
  lemma GetStringPrecedence(a: Accessor, name: string, defaultValue: Option<string>, host: Host)
    ensures var key := Key(a, name);
      GetString(a, name, defaultValue, host)
        == FirstPresent([host.props(key), a.fetch(key), host.env(EnvName(key)), defaultValue])
  {
    var key := Key(a, name);
    var vs := [host.props(key), a.fetch(key), host.env(EnvName(key)), defaultValue];
    assert vs[1..] == [a.fetch(key), host.env(EnvName(key)), defaultValue];
    assert vs[2..] == [host.env(EnvName(key)), defaultValue];
    assert vs[3..] == [defaultValue];
    assert FirstPresent(vs[3..]) == defaultValue by {
      assert vs[3..][1..] == [];
    }
    var envValue := host.env(EnvName(key));
    assert FirstPresent(vs[2..]) == if envValue.Some? then envValue else defaultValue by {
      assert vs[2..][1..] == vs[3..];
    }
    assert FirstPresent(vs[1..]) == if a.fetch(key).Some? then a.fetch(key) else FirstPresent(vs[2..]) by {
      assert vs[1..][1..] == vs[2..];
    }
  }

  /** Without a fetch, a system property or an environment value, the
      default is the answer; the environment is consulted under the
      upper-cased key. */
  lemma DefaultWhenUnset(name: string, defaultValue: Option<string>, host: Host)
    requires host.props("." + name).None? && host.env(EnvName("." + name)).None?
    ensures GetString(Plain(), name, defaultValue, host) == defaultValue
  {
    assert Key(Plain(), name) == "." + name;
  }

  // ---------------------------------------------------------------------
  // Typed getters
  // ---------------------------------------------------------------------

  /** `Boolean.toString(b)`. */
  function BooleanText(b: bool): string {
    if b then "true" else "false"
  }

  /** `Boolean.valueOf(s)`: true exactly for `true` in any case. */
  predicate ParseBoolean(s: string) {
    EqualsIgnoreCase(s, "true")
  }

  /** `getBoolean(name, defaultValue)`. */
  function GetBoolean(a: Accessor, name: string, defaultValue: bool, host: Host): bool {
    ParseBoolean(GetString(a, name, Some(BooleanText(defaultValue)), host).value)
  }

  /** Reading back a printed boolean gives the boolean. */
  lemma BooleanRoundTrip(b: bool)
    ensures ParseBoolean(BooleanText(b)) == b
  {
    assert Lower("true") == "true";
    if !b {
      assert Lower("false")[0] == 'f';
    }
  }

  /** A boolean setting that is set nowhere is its default. */
  lemma BooleanDefault(a: Accessor, name: string, defaultValue: bool, host: Host)
    requires var key := Key(a, name);
      host.props(key).None? && a.fetch(key).None? && host.env(EnvName(key)).None?
    ensures GetBoolean(a, name, defaultValue, host) == defaultValue
  {
    BooleanRoundTrip(defaultValue);
  }

  /** The character of a decimal digit. */
  function DigitChar(d: nat): (c: char)
    requires d < 10
    ensures IsAsciiDigit(c)
  {
    ('0' as int + d) as char
  }

  function DigitValue(c: char): (d: nat)
    requires IsAsciiDigit(c)
    ensures d < 10 && DigitChar(d) == c
  {
    c as int - '0' as int
  }

  predicate AllDigits(s: string) {
    forall k :: 0 <= k < |s| ==> IsAsciiDigit(s[k])
  }

  /** The decimal digits of a natural number, most significant first,
      without leading zeros. */
  function Decimal(n: nat): (r: string)
    ensures |r| > 0 && AllDigits(r)
    ensures |r| > 1 ==> r[0] != '0'
  {
    if n < 10 then [DigitChar(n)]
    else
      var r := Decimal(n / 10) + [DigitChar(n % 10)];
      assert r[0] == Decimal(n / 10)[0];
      r
  }

  /** `Long.toString(x)` and `Integer.toString(x)`. */
  function IntegerText(x: int): (r: string)
    ensures |r| > 0
  {
    if x < 0 then "-" + Decimal(-x) else Decimal(x)
  }

  /** The value of a string of decimal digits. */
  function DigitsValue(s: string): nat
    requires AllDigits(s)
  {
    if |s| == 0 then 0 else DigitsValue(s[..|s| - 1]) * 10 + DigitValue(s[|s| - 1])
  }

  /** `Long.parseLong(s)` (with `lo`, `hi` the range of `long`) and
      `Integer.parseInt(s)` (the range of `int`): an optional sign, then
      at least one decimal digit, and a value in range; anything else is
      a `NumberFormatException`. */
  function ParseIntegral(s: string, lo: int, hi: int): (r: Outcome<int>)
    ensures r.Ok? ==> lo <= r.value <= hi
    ensures r.Throw? ==> r.exn == NumberFormat
  {
    if |s| == 0 then Throw(NumberFormat)
    else
      var body := if s[0] == '-' || s[0] == '+' then s[1..] else s;
      if |body| == 0 || !AllDigits(body) then Throw(NumberFormat)
      else
        var v: int := if s[0] == '-' then -(DigitsValue(body) as int) else DigitsValue(body) as int;
        if lo <= v <= hi then Ok(v) else Throw(NumberFormat)
  }

  /** The digits of a number are worth the number. */
  lemma {:induction false} DecimalValue(n: nat)
    ensures DigitsValue(Decimal(n)) == n
  {
    if n >= 10 {
      DecimalValue(n / 10);
      var r := Decimal(n);
      assert r[..|r| - 1] == Decimal(n / 10);
      assert DigitValue(DigitChar(n % 10)) == n % 10;
    }
  }

  /** Parsing a printed number in range gives it back. */
  lemma IntegerRoundTrip(x: int, lo: int, hi: int)
    requires lo <= x <= hi
    ensures ParseIntegral(IntegerText(x), lo, hi) == Ok(x)
  {
    var n: nat := if x < 0 then -x else x;
    var d := Decimal(n);
    DecimalValue(n);
    assert IsAsciiDigit(d[0]);
    ParseDigits(d, n, lo, hi);
  }

  /** A run of digits parses to its value, with or without a minus sign
      in front. */
  lemma ParseDigits(d: string, v: nat, lo: int, hi: int)
    requires |d| > 0 && AllDigits(d) && DigitsValue(d) == v && IsAsciiDigit(d[0])
    ensures lo <= v <= hi ==> ParseIntegral(d, lo, hi) == Ok(v)
    ensures lo <= -(v as int) <= hi ==> ParseIntegral("-" + d, lo, hi) == Ok(-(v as int))
  {
    assert ("-" + d)[1..] == d;
  }

  /** `Long.MIN_VALUE`. */
  const LongMin: int := -0x8000_0000_0000_0000

  /** `Integer.MIN_VALUE`. */
  const IntMin: int := -0x8000_0000

  /** `getLong(name, defaultValue)`; `getLong(name, Integer)` widens its
      default first. */
  function GetLong(a: Accessor, name: string, defaultValue: int, host: Host): Outcome<int> {
    ParseIntegral(GetString(a, name, Some(IntegerText(defaultValue)), host).value, LongMin, LongMax)
  }

  /** `getInteger(name, defaultValue)`. */
  function GetInteger(a: Accessor, name: string, defaultValue: int, host: Host): Outcome<int> {
    ParseIntegral(GetString(a, name, Some(IntegerText(defaultValue)), host).value, IntMin, IntMax)
  }

  /** A numeric setting that is set nowhere is its default; a set value
      that is not a number in range fails. */
  lemma NumericDefault(a: Accessor, name: string, defaultValue: int, host: Host)
    requires var key := Key(a, name);
      host.props(key).None? && a.fetch(key).None? && host.env(EnvName(key)).None?
    ensures LongMin <= defaultValue <= LongMax ==> GetLong(a, name, defaultValue, host) == Ok(defaultValue)
    ensures IntMin <= defaultValue <= IntMax ==> GetInteger(a, name, defaultValue, host) == Ok(defaultValue)
  {
    if LongMin <= defaultValue <= LongMax {
      IntegerRoundTrip(defaultValue, LongMin, LongMax);
    }
    if IntMin <= defaultValue <= IntMax {
      IntegerRoundTrip(defaultValue, IntMin, IntMax);
    }
  }

  /** A system property wins over the default: the typed getters read it. */
  lemma PropertyOverridesDefault(a: Accessor, name: string, defaultValue: int, host: Host, x: int)
    requires host.props(Key(a, name)) == Some(IntegerText(x)) && IntMin <= x <= IntMax
    ensures GetInteger(a, name, defaultValue, host) == Ok(x)
    ensures GetLong(a, name, defaultValue, host) == Ok(x)
  {
    IntegerRoundTrip(x, IntMin, IntMax);
    IntegerRoundTrip(x, LongMin, LongMax);
  }
}

=== FILE: proxy.dfy ===
/** The per-row state behind every woke row object (`WokePrivateProxy`):
    the row interface's shape, the values loaded from the database (the
    baseline) and the values as the program has since set them (the
    current map), the identifier quote character and the table-name
    override. Reflection over the row interface is replaced by the list of
    its method names. */
module RowProxy {
  import opened JavaLang
  import opened JString
  import opened Naming
  import opened Sorting

  /** Which of the `WakeableRow` marker interfaces a row interface extends.
      `IdPlain` is `IdColumn` itself, which declares no accessors; the
      `IdAs*` kinds declare `getId`/`setId` of their type. */
  datatype IdKind = NoId | IdPlain | IdAsLong | IdAsAutoLong | IdAsString | IdAsUuid {
    /** `instanceof WakeableRow.IdColumn`. */
    predicate IsIdColumn() { !NoId? }

    /** The kind declares `getId` and `setId`. */
    predicate DeclaresId() { IdAsLong? || IdAsAutoLong? || IdAsString? || IdAsUuid? }
  }

  /** A row interface: its simple name, the names of its own public methods
      and its identity kind. */
  datatype RowClass = RowClass(simpleName: string, methods: seq<string>, idKind: IdKind)

  /** The values a row can hold. `Date` is `java.util.Date`, `Timestamp`
      its `java.sql` subclass, both as milliseconds since the epoch. */
  datatype Value =
    | LongVal(n: int)
    | StrVal(s: string)
    | UuidVal(u: string)
    | DateVal(ms: int)
    | TimestampVal(ms: int)
    | OtherVal(tag: string)

  datatype Proxy = Proxy(
    cls: RowClass,
    baseline: map<string, Value>,
    current: map<string, Value>,
    quote: char,
    tableName: Option<string>)

  /** A fresh proxy: empty maps, a backquote as quote, no table name. */
  function NewProxy(cls: RowClass): (p: Proxy)
    ensures p.baseline == map[] && p.current == map[] && p.quote == '`' && p.tableName == None
  {
    Proxy(cls, map[], map[], '`', None)
  }

  /** All public methods of the interface, inherited accessors included. */
  function Methods(cls: RowClass): seq<string> {
    cls.methods + if cls.idKind.DeclaresId() then ["getId", "setId"] else []
  }

  /** `isProperty`: a getter or setter name. */
  predicate IsProperty(name: string) {
    StartsWith(name, "get") || StartsWith(name, "set")
  }

  /** `getPropertyName("Id")`. */
  const IdProperty: string := "id"

  /** The column a method contributes. */
  function ColumnOf(p: Proxy, m: string): string {
    ToDbName(PropertyName(m), p.quote)
  }

  /** A method contributes to `getColumns(includeId)`. */
  predicate Selected(m: string, includeId: bool) {
    IsProperty(m) && (PropertyName(m) != IdProperty || includeId)
  }

  /** The columns of the selected methods, in method order, repeats kept. */
  function ColumnList(p: Proxy, ms: seq<string>, includeId: bool): (r: seq<string>)
    ensures forall c :: c in r <==> exists m :: m in ms && Selected(m, includeId) && c == ColumnOf(p, m)
  {
    if |ms| == 0 then []
    else
      var rest := ColumnList(p, ms[1..], includeId);
      assert forall m :: m in ms <==> m == ms[0] || m in ms[1..];
      if Selected(ms[0], includeId) then [ColumnOf(p, ms[0])] + rest else rest
  }

  /** `getColumns(includeId)`: one quoted snake_case column per getter or
      setter, no repeats, in ascending order; the `id` property counts only
      when `includeId`. */
  function GetColumns(p: Proxy, includeId: bool): (r: seq<string>)
    ensures StrictlySorted(r)
    ensures forall c :: c in r <==> exists m :: m in Methods(p.cls) && Selected(m, includeId) && c == ColumnOf(p, m)
  {
    var raw := ColumnList(p, Methods(p.cls), includeId);
    var r := SortStrings(Dedupe(raw));
    assert forall c :: c in r <==> c in raw by {
      assert Elems(r) == Elems(raw);
    }
    r
  }

  /** The identity column is listed iff `includeId` and the interface has an
      `id` accessor. */
  lemma IdColumnListed(p: Proxy, includeId: bool)
    ensures ToDbName(IdProperty, p.quote) in GetColumns(p, includeId)
        <==> includeId && exists m :: m in Methods(p.cls) && IsProperty(m) && PropertyName(m) == IdProperty
  {
    var idCol := ToDbName(IdProperty, p.quote);
    var cols := GetColumns(p, includeId);
    if idCol in cols {
      var m :| m in Methods(p.cls) && Selected(m, includeId) && idCol == ColumnOf(p, m);
      ColumnIsIdOnlyForId(p, m);
    }
    if includeId && exists m :: m in Methods(p.cls) && IsProperty(m) && PropertyName(m) == IdProperty {
      var m :| m in Methods(p.cls) && IsProperty(m) && PropertyName(m) == IdProperty;
      assert Selected(m, includeId);
      assert idCol == ColumnOf(p, m);
    }
  }

  /** A method's column is the identity column only for an `id` property. */
  lemma ColumnIsIdOnlyForId(p: Proxy, m: string)
    requires ColumnOf(p, m) == ToDbName(IdProperty, p.quote)
    ensures PropertyName(m) == IdProperty
  {
    var pn := PropertyName(m);
    assert Snake(pn) == ColumnOf(p, m)[1..|ColumnOf(p, m)| - 1];
    assert Snake(IdProperty) == "id" by {
      assert IdProperty == ['i'] + "d";
      assert SnakeTail("d") == "d";
    }
    SnakeIsIdOnlyForId(pn);
  }

  /** An interface that declares the identity has `id` among its columns
      exactly when they are asked for with it. */
  lemma DeclaredIdListedIffIncluded(p: Proxy, includeId: bool)
    requires p.cls.idKind.DeclaresId()
    ensures ToDbName(IdProperty, p.quote) in GetColumns(p, includeId) <==> includeId
  {
    IdColumnListed(p, includeId);
    assert "getId" in Methods(p.cls) by {
      var ms := Methods(p.cls);
      assert ms[|ms| - 2] == "getId";
    }
    GetIdIsIdProperty();
  }

  /** `getId` is a getter of the identity property. */
  lemma GetIdIsIdProperty()
    ensures IsProperty("getId") && PropertyName("getId") == IdProperty
  {
    assert "getId"[..3] == "get";
    assert "getId"[3..] == "Id";
  }

  /** `getDbValue`: the value as handed to JDBC, a `Date` becoming a
      `Timestamp` of the same instant. */
  function DbValue(v: Value): (r: Value)
    ensures v.DateVal? ==> r == TimestampVal(v.ms)
    ensures !v.DateVal? ==> r == v
  {
    match v
    case DateVal(ms) => TimestampVal(ms)
    case _ => v
  }

  /** The current value of a property. */
  function Lookup(m: map<string, Value>, k: string): Option<Value> {
    if k in m then Some(m[k]) else None
  }

  /** `getDbValue(column)`: the current value of the column's property,
      ready for JDBC. */
  function GetDbValue(p: Proxy, column: string): (r: Option<Value>)
    ensures r.None? <==> FromDbName(column, p.quote) !in p.current
    ensures r.Some? ==> r.value == DbValue(p.current[FromDbName(column, p.quote)])
  {
    match Lookup(p.current, FromDbName(column, p.quote))
    case None => None
    case Some(v) => Some(DbValue(v))
  }

  /** The column of a property yields that property's value. */
  lemma DbValueOfColumn(p: Proxy, prop: string)
    requires Codable(prop, p.quote)
    ensures GetDbValue(p, ToDbName(prop, p.quote))
      == if prop in p.current then Some(DbValue(p.current[prop])) else None
  {
    ColumnRoundTrip(prop, p.quote);
  }

  /** `getIdColumn`. */
  function IdColumn(p: Proxy): (r: string)
    ensures r == ToDbName(IdProperty, p.quote)
  {
    [p.quote] + "id" + [p.quote]
  }

  /** `getIdValue`. */
  function IdValue(p: Proxy): Option<Value> {
    Lookup(p.current, IdProperty)
  }

  /** The getter: the current value under the method's property name. */
  function GetProperty(p: Proxy, name: string): Option<Value> {
    Lookup(p.current, PropertyName(name))
  }

  /** `a.equals(b)` on the values a row holds. `Date.equals` compares
      `getTime()` with any `Date`, a `Timestamp` included; `Timestamp.equals`
      refuses anything that is not a `Timestamp`; the other classes compare
      by value. So a `Date` equals a `Timestamp` of the same instant, but
      not the other way round. */
  predicate JavaEquals(a: Value, b: Value) {
    match a
    case DateVal(ms) => (b.DateVal? || b.TimestampVal?) && b.ms == ms
    case _ => a == b
  }

  /** `equals` is value equality except for a `Date` compared with a
      `Timestamp` of the same instant, and it is not symmetric there. */
  lemma JavaEqualsCases(a: Value, b: Value)
    ensures JavaEquals(a, b) <==> a == b || (a.DateVal? && b == TimestampVal(a.ms))
    ensures a.DateVal? && b == TimestampVal(a.ms) ==> JavaEquals(a, b) && !JavaEquals(b, a)
  {
  }

  /** `isDbDirty(column)`: the current value of the column's property (the
      receiver of `equals`) differs from the loaded one. A value present on
      one side only counts as a difference; both absent does not. */
  predicate IsDbDirty(p: Proxy, column: string) {
    var prop := FromDbName(column, p.quote);
    var cur := Lookup(p.current, prop);
    var loaded := Lookup(p.baseline, prop);
    if cur == loaded then false
    else if cur.Some? then !(loaded.Some? && JavaEquals(cur.value, loaded.value))
    else true
  }

  /** A column is dirty exactly when its current and loaded values differ,
      except that a current `Date` and a loaded `Timestamp` of the same
      instant leave it clean, while the reverse pair makes it dirty. */
  lemma DbDirtyIsDifference(p: Proxy, column: string)
    ensures var prop := FromDbName(column, p.quote);
      var cur := Lookup(p.current, prop);
      var loaded := Lookup(p.baseline, prop);
      (IsDbDirty(p, column)
       <==> cur != loaded && !(cur.Some? && cur.value.DateVal? && loaded == Some(TimestampVal(cur.value.ms))))
  {
  }

  /** The first-dirty-column scan of `isDirty`. */
  function AnyDirty(p: Proxy, cols: seq<string>): (r: bool)
    ensures r <==> exists c :: c in cols && IsDbDirty(p, c)
  {
    if |cols| == 0 then false
    else if IsDbDirty(p, cols[0]) then true
    else
      assert forall c :: c in cols <==> c == cols[0] || c in cols[1..];
      AnyDirty(p, cols[1..])
  }

  /** `isDirty()`: some column, the identity included, is dirty. */
  function IsDirty(p: Proxy): (r: bool)
    ensures r <==> exists c :: c in GetColumns(p, true) && IsDbDirty(p, c)
  {
    AnyDirty(p, GetColumns(p, true))
  }

  /** Equal maps leave nothing dirty. */
  lemma CleanWhenSynced(p: Proxy)
    requires p.current == p.baseline
    ensures !IsDirty(p)
  {
  }

  /** `reset()`: the current map becomes a copy of the baseline. */
  function Reset(p: Proxy): (r: Proxy)
    ensures r.current == p.baseline
    ensures r.baseline == p.baseline && r.cls == p.cls && r.quote == p.quote && r.tableName == p.tableName
    ensures !IsDirty(r)
  {
    CleanWhenSynced(p.(current := p.baseline));
    p.(current := p.baseline)
  }

  /** The loop of `set(dbMap)` over the map's entries in its iteration
      order: a null value removes the raw column name from the baseline,
      any other value is stored under the column's property in both maps. */
  function SetLoop(base: map<string, Value>, cur: map<string, Value>, q: char, entries: seq<(string, Option<Value>)>)
    : (r: (map<string, Value>, map<string, Value>))
    decreases |entries|
  {
    if |entries| == 0 then (base, cur)
    else
      var key, v := entries[0].0, entries[0].1;
      var prop := FromDbName(key, q);
      if v.None? then SetLoop(base - {key}, cur, q, entries[1..])
      else SetLoop(base[prop := v.value], cur[prop := v.value], q, entries[1..])
  }

  /** Every entry of `a` is also in `b`, with the same value. */
  predicate Agrees(a: map<string, Value>, b: map<string, Value>) {
    forall k :: k in a ==> k in b && a[k] == b[k]
  }

  lemma {:induction false} SetLoopKeepsAgreement(base: map<string, Value>, cur: map<string, Value>, q: char,
                                                 entries: seq<(string, Option<Value>)>)
    requires Agrees(base, cur)
    ensures Agrees(SetLoop(base, cur, q, entries).0, SetLoop(base, cur, q, entries).1)
    decreases |entries|
  {
    if |entries| > 0 {
      var key, v := entries[0].0, entries[0].1;
      var prop := FromDbName(key, q);
      if v.None? {
        assert SetLoop(base, cur, q, entries) == SetLoop(base - {key}, cur, q, entries[1..]);
        SetLoopKeepsAgreement(base - {key}, cur, q, entries[1..]);
      } else {
        assert SetLoop(base, cur, q, entries) == SetLoop(base[prop := v.value], cur[prop := v.value], q, entries[1..]);
        SetLoopKeepsAgreement(base[prop := v.value], cur[prop := v.value], q, entries[1..]);
      }
    }
  }

  lemma {:induction false} SetLoopSyncs(m: map<string, Value>, q: char, entries: seq<(string, Option<Value>)>)
    requires forall i :: 0 <= i < |entries| ==> entries[i].1.Some?
    ensures SetLoop(m, m, q, entries).0 == SetLoop(m, m, q, entries).1
    decreases |entries|
  {
    if |entries| > 0 {
      var key, v := entries[0].0, entries[0].1;
      SetLoopSyncs(m[FromDbName(key, q) := v.value], q, entries[1..]);
    }
  }

  /** `set(dbMap)`: both maps are cleared and reloaded from the row. */
  function Set(p: Proxy, entries: seq<(string, Option<Value>)>): (r: Proxy)
    ensures r.cls == p.cls && r.quote == p.quote && r.tableName == p.tableName
    ensures Agrees(r.baseline, r.current)
  {
    SetLoopKeepsAgreement(map[], map[], p.quote, entries);
    var r := SetLoop(map[], map[], p.quote, entries);
    p.(baseline := r.0, current := r.1)
  }

  /** After loading a row without nulls the two maps are identical, so the
      row is clean. */
  lemma SetLeavesClean(p: Proxy, entries: seq<(string, Option<Value>)>)
    requires forall i :: 0 <= i < |entries| ==> entries[i].1.Some?
    ensures Set(p, entries).baseline == Set(p, entries).current
    ensures !IsDirty(Set(p, entries))
  {
    SetLoopSyncs(map[], p.quote, entries);
    CleanWhenSynced(Set(p, entries));
  }

  /** Each loaded column's value is found under its property afterwards
      (when no later entry shares the property). */
  lemma {:induction false} SetStoresColumn(base: map<string, Value>, cur: map<string, Value>, q: char,
                                           entries: seq<(string, Option<Value>)>, i: nat)
    requires i < |entries| && entries[i].1.Some?
    requires forall j :: i < j < |entries| ==> FromDbName(entries[j].0, q) != FromDbName(entries[i].0, q)
    ensures var r := SetLoop(base, cur, q, entries);
      var prop := FromDbName(entries[i].0, q);
      prop in r.1 && r.1[prop] == entries[i].1.value
    decreases |entries|
  {
    var key, v := entries[0].0, entries[0].1;
    var prop := FromDbName(key, q);
    if i == 0 {
      SetLoopPreservesUntouched(base[prop := v.value], cur[prop := v.value], q, entries[1..], prop);
    } else {
      if v.None? {
        SetStoresColumn(base - {key}, cur, q, entries[1..], i - 1);
      } else {
        SetStoresColumn(base[prop := v.value], cur[prop := v.value], q, entries[1..], i - 1);
      }
    }
  }

  lemma {:induction false} SetLoopPreservesUntouched(base: map<string, Value>, cur: map<string, Value>, q: char,
                                                     entries: seq<(string, Option<Value>)>, prop: string)
    requires forall j :: 0 <= j < |entries| ==> FromDbName(entries[j].0, q) != prop
    ensures Lookup(SetLoop(base, cur, q, entries).1, prop) == Lookup(cur, prop)
    decreases |entries|
  {
    if |entries| > 0 {
      var key, v := entries[0].0, entries[0].1;
      if v.None? {
        SetLoopPreservesUntouched(base - {key}, cur, q, entries[1..], prop);
      } else {
        SetLoopPreservesUntouched(base[FromDbName(key, q) := v.value], cur[FromDbName(key, q) := v.value],
                                  q, entries[1..], prop);
      }
    }
  }

  /** `setProperty` as written: a null argument removes the raw method
      name (`setName`), not the property (`name`). */
  function SetPropertyAsWritten(p: Proxy, name: string, arg: Option<Value>): (r: Proxy)
    ensures arg.Some? ==> r.current == p.current[PropertyName(name) := arg.value]
    ensures arg.None? ==> r.current == p.current - {name}
    ensures r.baseline == p.baseline && r.cls == p.cls && r.quote == p.quote && r.tableName == p.tableName
  {
    match arg
    case None => p.(current := p.current - {name})
    case Some(v) => p.(current := p.current[PropertyName(name) := v])
  }

  /** Setting a property to null through the setter leaves its old value
      visible to the getter. */
  lemma NullSetKeepsValue()
    ensures var p := NewProxy(RowClass("PetRow", ["getName", "setName"], NoId)).(current := map["name" := StrVal("Rex")]);
      GetProperty(SetPropertyAsWritten(p, "setName", None), "getName") == Some(StrVal("Rex"))
  {
    var p := NewProxy(RowClass("PetRow", ["getName", "setName"], NoId)).(current := map["name" := StrVal("Rex")]);
    assert PropertyName("getName") == "name" by { assert "getName"[3..] == "Name"; }
    assert "setName" != "name";
  }

  /** The setter with the evidently intended null handling: a null
      argument clears the property. */
  function SetProperty(p: Proxy, name: string, arg: Option<Value>): (r: Proxy)
    ensures r.baseline == p.baseline && r.cls == p.cls && r.quote == p.quote && r.tableName == p.tableName
    ensures forall k :: k != PropertyName(name) ==> Lookup(r.current, k) == Lookup(p.current, k)
  {
    match arg
    case None => p.(current := p.current - {PropertyName(name)})
    case Some(v) => p.(current := p.current[PropertyName(name) := v])
  }

  /** What a setter stores, the matching getter returns, null included. */
  lemma GetAfterSet(p: Proxy, name: string, arg: Option<Value>)
    ensures GetProperty(SetProperty(p, "set" + name, arg), "get" + name) == arg
  {
    assert ("set" + name)[3..] == name;
    assert ("get" + name)[3..] == name;
    assert StartsWith("set" + name, "set") && StartsWith("get" + name, "get");
  }

  /** The table name derived from the interface name: a trailing `Row` is
      dropped and the rest is snake-cased and quoted. */
  function DerivedTableName(cls: RowClass, q: char): (r: string)
    ensures EndsWith(cls.simpleName, "Row")
      ==> r == ToDbName(cls.simpleName[..|cls.simpleName| - 3], q)
    ensures !EndsWith(cls.simpleName, "Row") ==> r == ToDbName(cls.simpleName, q)
  {
    var n := cls.simpleName;
    ToDbName(if EndsWith(n, "Row") then n[..|n| - 3] else n, q)
  }

  /** `getTableName()`: the override or cached name when there is one,
      otherwise the derived name, which is cached. */
  function GetTableName(p: Proxy): (r: (string, Proxy))
    ensures p.tableName.Some? ==> r == (p.tableName.value, p)
    ensures p.tableName.None? ==> r.0 == DerivedTableName(p.cls, p.quote) && r.1 == p.(tableName := Some(r.0))
  {
    match p.tableName
    case Some(t) => (t, p)
    case None =>
      var t := DerivedTableName(p.cls, p.quote);
      (t, p.(tableName := Some(t)))
  }

  /** Asking twice gives the same name, and the second call changes nothing,
      even if the quote character changed in between. */
  lemma TableNameCached(p: Proxy, q: char)
    ensures var (t1, p1) := GetTableName(p);
      var (t2, p2) := GetTableName(p1.(quote := q));
      t2 == t1 && p2 == p1.(quote := q)
  {
  }

  /** `setTableName(tableish)`. */
  function SetTableName(p: Proxy, tableish: Option<string>): (r: Proxy)
    ensures tableish.Some? ==> GetTableName(r).0 == tableish.value
    ensures r.current == p.current && r.baseline == p.baseline
  {
    p.(tableName := tableish)
  }

  /** The loop of `get()`: each current entry put under its column name,
      in the map's iteration order (a later key wins when two properties
      share a column name). */
  function DbLoop(cur: map<string, Value>, q: char, order: seq<string>): (r: map<string, Value>)
    requires forall k :: k in order ==> k in cur
    ensures r.Keys == DbKeys(q, order)
  {
    if |order| == 0 then map[]
    else
      var k := order[|order| - 1];
      var r := DbLoop(cur, q, order[..|order| - 1]);
      r[ToDbName(k, q) := cur[k]]
  }

  /** The column names of the properties in `order`. */
  function DbKeys(q: char, order: seq<string>): set<string> {
    if |order| == 0 then {} else DbKeys(q, order[..|order| - 1]) + {ToDbName(order[|order| - 1], q)}
  }

  lemma DbKeysMembers(q: char, order: seq<string>)
    ensures forall d :: d in DbKeys(q, order) <==> exists k :: k in order && d == ToDbName(k, q)
  {
    forall d | d in DbKeys(q, order) ensures exists k :: k in order && d == ToDbName(k, q) {
      var k := DbKeyOwner(q, order, d);
    }
    forall k | k in order ensures ToDbName(k, q) in DbKeys(q, order) {
      DbKeysHas(q, order, k);
    }
  }

  lemma {:induction false} DbKeysHas(q: char, order: seq<string>, k: string)
    requires k in order
    ensures ToDbName(k, q) in DbKeys(q, order)
  {
    if k != order[|order| - 1] {
      InFront(order, k);
      DbKeysHas(q, order[..|order| - 1], k);
    }
  }

  lemma {:induction false} DbKeyOwner(q: char, order: seq<string>, d: string) returns (k: string)
    requires d in DbKeys(q, order)
    ensures k in order && d == ToDbName(k, q)
  {
    var last := order[|order| - 1];
    if d == ToDbName(last, q) {
      k := last;
    } else {
      var front := order[..|order| - 1];
      k := DbKeyOwner(q, front, d);
      assert front[..] <= order;
    }
  }

  /** `get()`: the current values keyed by column name. `order` is the
      iteration order of the current map's keys. */
  function DbView(p: Proxy, order: seq<string>): (r: map<string, Value>)
    requires Distinct(order) && Elems(order) == p.current.Keys
    ensures forall d :: d in r <==> exists k :: k in p.current && d == ToDbName(k, p.quote)
  {
    DbKeysMembers(p.quote, order);
    DbLoop(p.current, p.quote, order)
  }

  lemma {:induction false} DbLoopLookup(cur: map<string, Value>, q: char, order: seq<string>, k: string)
    requires forall x :: x in order ==> x in cur
    requires forall x :: x in order && x != k ==> ToDbName(x, q) != ToDbName(k, q)
    requires k in order
    ensures ToDbName(k, q) in DbLoop(cur, q, order) && DbLoop(cur, q, order)[ToDbName(k, q)] == cur[k]
  {
    var last := order[|order| - 1];
    var front := order[..|order| - 1];
    assert forall x :: x in front ==> x in order;
    var dk, dl := ToDbName(k, q), ToDbName(last, q);
    var r := DbLoop(cur, q, front);
    assert DbLoop(cur, q, order) == r[dl := cur[last]];
    if last != k {
      InFront(order, k);
      DbLoopLookup(cur, q, front, k);
      assert dl != dk;
    }
  }

  lemma InFront<T>(s: seq<T>, x: T)
    requires x in s && x != s[|s| - 1]
    ensures x in s[..|s| - 1]
  {
    var i :| 0 <= i < |s| && s[i] == x;
    assert s[..|s| - 1][i] == x;
  }

  /** With codable property names every current value is found under its
      column name, whatever the iteration order. */
  lemma DbViewLookup(p: Proxy, order: seq<string>, k: string)
    requires Distinct(order) && Elems(order) == p.current.Keys
    requires forall x :: x in p.current ==> Codable(x, p.quote)
    requires k in p.current
    ensures ToDbName(k, p.quote) in DbView(p, order) && DbView(p, order)[ToDbName(k, p.quote)] == p.current[k]
  {
    assert k in Elems(order);
    forall x | x in order && x != k ensures ToDbName(x, p.quote) != ToDbName(k, p.quote) {
      assert x in Elems(order);
      ColumnRoundTrip(x, p.quote);
      ColumnRoundTrip(k, p.quote);
    }
    assert forall x :: x in order ==> x in p.current by {
      forall x | x in order ensures x in p.current { assert x in Elems(order); }
    }
    DbLoopLookup(p.current, p.quote, order, k);
  }
}

=== FILE: repository.dfy ===
/** The session-level operations of a repository (`WokeRepository`, and
    its twin `Waker`, which behaves alike in everything modelled here):
    the insert reentrancy guard and the pending key, the find query, the
    iterator's statement and the resources its cursor holds. A row is its
    proxy; the callbacks a caller passes are functions on proxies. */
module Repository {
  import opened JavaLang
  import opened JString
  import opened Naming
  import opened Sorting
  import opened RowProxy
  import opened SqlText
  import opened InsertStatement
  import Sugar

  // ---------------------------------------------------------------------
  // The insert guard and the pending key
  // ---------------------------------------------------------------------

  /** The pending key callback: never set (null), the no-op it is reset
      to, or a callback set by `where`/`key`. */
  datatype PendingKey = Unset | NoOp | Apply(f: Proxy -> Proxy)

  /** The thread's in-insert flag and the repository's pending key. */
  datatype Guard = Guard(inInsert: bool, key: PendingKey)

  /** The exception a nested insert gets. */
  const Reentry: Exn := Moar("reentry")

  /** Applying the pending key to a row; a null key is skipped. */
  function ApplyKey(key: PendingKey, row: Proxy): Proxy {
    match key
    case Unset => row
    case NoOp => row
    case Apply(f) => f(row)
  }

  /** `where(r)` / `key(r)`: the callback becomes the pending key. */
  function Where(g: Guard, f: Proxy -> Proxy): (r: Guard)
    ensures r.inInsert == g.inInsert && r.key == Apply(f)
  {
    g.(key := Apply(f))
  }

  /** `doSessionInsertRow`: a nested insert is refused; otherwise the
      pending key and then the updater are applied to the row, and the
      row is stored. Either way the flag ends as it was and the pending
      key is reset to the no-op. */
  function SessionInsertRow(g: Guard, row: Proxy, updater: Proxy -> Proxy, store: Proxy -> Outcome<Proxy>)
    : (r: (Guard, Outcome<Proxy>))
    ensures r.0 == Guard(g.inInsert, NoOp)
    ensures g.inInsert ==> r.1 == Throw(Reentry)
    ensures !g.inInsert ==> r.1 == store(updater(ApplyKey(g.key, row)))
  {
    if g.inInsert then (g.(key := NoOp), Throw(Reentry))
    else
      var keyed := ApplyKey(g.key, row);
      (Guard(false, NoOp), store(updater(keyed)))
  }

  /** `insert(updater)` / `upsert(updater)`: a new row through the guard,
      the pending key included. */
  function InsertWith(g: Guard, blank: Proxy, updater: Proxy -> Proxy, store: Proxy -> Outcome<Proxy>)
    : (r: (Guard, Outcome<Proxy>))
    ensures !g.inInsert ==> r.1 == store(updater(ApplyKey(g.key, blank)))
  {
    SessionInsertRow(g, blank, updater, store)
  }

  /** `insert(row)` / `upsert(row)`: the pending key is reset first, so an
      earlier `where` does not touch the given row. */
  function InsertRow(g: Guard, row: Proxy, store: Proxy -> Outcome<Proxy>): (r: (Guard, Outcome<Proxy>))
    ensures !g.inInsert ==> r.1 == store(row)
  {
    SessionInsertRow(g.(key := NoOp), row, x => x, store)
  }

  /** A pending key is used by exactly one insert: the next one applies
      it, the one after that does not. */
  lemma KeyUsedOnce(g: Guard, f: Proxy -> Proxy, a: Proxy, b: Proxy, u: Proxy -> Proxy, v: Proxy -> Proxy,
                    store: Proxy -> Outcome<Proxy>)
    requires !g.inInsert
    ensures var (g1, r1) := InsertWith(Where(g, f), a, u, store);
      && r1 == store(u(f(a)))
      && InsertWith(g1, b, v, store).1 == store(v(b))
  {
  }

  /** Inserting a given row ignores whatever key is pending. */
  lemma InsertRowIgnoresKey(g: Guard, k: PendingKey, row: Proxy, store: Proxy -> Outcome<Proxy>)
    ensures InsertRow(g, row, store) == InsertRow(g.(key := k), row, store)
  {
  }

  /** A nested insert fails and leaves the outer insert's flag up, so the
      outer insert's own reset is what lowers it. */
  lemma NestedInsertRefused(g: Guard, row: Proxy, u: Proxy -> Proxy, store: Proxy -> Outcome<Proxy>)
    requires g.inInsert
    ensures InsertWith(g, row, u, store) == (Guard(true, NoOp), Throw(Reentry))
    ensures InsertRow(g, row, store) == (Guard(true, NoOp), Throw(Reentry))
  {
  }

  // ---------------------------------------------------------------------
  // Find
  // ---------------------------------------------------------------------

  /** The filter row of `find`/`list`: a blank row with the pending key
      applied. Before any key is set the key is null and calling it
      throws; finding does not reset the key. */
  function FilterRow(g: Guard, blank: Proxy): (r: Outcome<Proxy>)
    ensures r.Throw? <==> g.key.Unset?
    ensures r.Throw? ==> r.exn == NullPointer
    ensures g.key.Apply? ==> r == Ok(g.key.f(blank))
  {
    match g.key
    case Unset => Throw(NullPointer)
    case NoOp => Ok(blank)
    case Apply(f) => Ok(f(blank))
  }

  /** The condition loop of the find query: `key = ?` per key of the
      filter row's column map, joined by ` and `. */
  function WhereText(keys: seq<string>, first: bool): string {
    if |keys| == 0 then []
    else (if first then "" else " and ") + keys[0] + " = ?" + WhereText(keys[1..], false)
  }

  /** The conditions as a list. */
  function Conditions(keys: seq<string>): (r: seq<string>)
    ensures |r| == |keys|
    ensures forall i :: 0 <= i < |keys| ==> r[i] == keys[i] + " = ?"
  {
    if |keys| == 0 then [] else [keys[0] + " = ?"] + Conditions(keys[1..])
  }

  /** The loop writes the conditions joined by ` and `. */
  lemma {:induction false} WhereTextIsJoin(keys: seq<string>, first: bool)
    ensures WhereText(keys, first)
      == if |keys| == 0 then [] else (if first then "" else " and ") + Join(" and ", Conditions(keys))
  {
    if |keys| > 0 {
      var head := keys[0] + " = ?";
      var rest := keys[1..];
      var lead: string := if first then "" else " and ";
      assert WhereText(keys, first) == lead + head + WhereText(rest, false);
      assert Conditions(keys) == [head] + Conditions(rest);
      if |rest| > 0 {
        WhereTextIsJoin(rest, false);
        JoinCons(" and ", head, Conditions(rest));
        Assoc3(lead, head, " and ", Join(" and ", Conditions(rest)));
      }
    }
  }

  /** The conditions joined by ` and `; nothing for no keys. */
  function ConditionText(keys: seq<string>): string {
    if |keys| == 0 then "" else Join(" and ", Conditions(keys))
  }

  /** The ordering clause, when an ordering is given. */
  function OrderClause(orderBy: Option<string>): string {
    match orderBy
    case Some(o) => " order by " + o
    case None => ""
  }

  /** `doTableFindSql`'s statement: the mode-2 select of the row, the
      table, the conditions in key order, and the ordering when given.
      `keys` is the iteration order of the row's column map. */
  function FindSql(p: Proxy, table: string, keys: seq<string>, orderBy: Option<string>): (r: string)
    ensures StartsWith(r, "select\n")
    ensures EndsWith(r, "where " + ConditionText(keys) + OrderClause(orderBy))
  {
    var select := BuildSelect([p], 2).value;
    var head := "from " + table + " ";
    var rest := "where " + WhereText(keys, true) + OrderClause(orderBy);
    PrefixKept("select\n", select, head + rest);
    FirstConditionsJoined(keys);
    SuffixAfter(select, head, rest);
    select + (head + rest)
  }

  /** The condition loop, started at the first key, is the join. */
  lemma {:induction false} FirstConditionsJoined(keys: seq<string>)
    ensures WhereText(keys, true) == ConditionText(keys)
  {
    WhereTextIsJoin(keys, true);
  }

  lemma SuffixAfter(a: string, b: string, c: string)
    ensures EndsWith(a + (b + c), c)
  {
    assert (a + (b + c))[|a| + |b|..] == c;
  }

  /** The find parameters: the map's values in the same key order. */
  function FindParams(view: map<string, Value>, keys: seq<string>): (r: seq<Value>)
    requires forall k :: k in keys ==> k in view
    ensures |r| == |keys|
    ensures forall i :: 0 <= i < |keys| ==> r[i] == view[keys[i]]
  {
    if |keys| == 0 then [] else [view[keys[0]]] + FindParams(view, keys[1..])
  }

  lemma {:induction false} CountWhere(keys: seq<string>, first: bool)
    requires forall i :: 0 <= i < |keys| ==> '?' !in keys[i]
    ensures Count(WhereText(keys, first), '?') == |keys|
  {
    if |keys| > 0 {
      var lead: string := if first then "" else " and ";
      var rest := WhereText(keys[1..], false);
      CountWhere(keys[1..], false);
      assert Count(lead + keys[0], '?') == 0;
      assert Count(" = ?", '?') == 1 by { assert " = ?"[1..] == "= ?" && "= ?"[1..] == " ?" && " ?"[1..] == "?"; }
      CountAppend(lead + keys[0], " = ?", '?');
      CountAppend(lead + keys[0] + " = ?", rest, '?');
    }
  }

  /** One condition placeholder per parameter, bound in the order the
      conditions are written. */
  lemma FindParamsMatchConditions(view: map<string, Value>, keys: seq<string>)
    requires forall k :: k in keys ==> k in view
    requires forall i :: 0 <= i < |keys| ==> '?' !in keys[i]
    ensures Count(WhereText(keys, true), '?') == |FindParams(view, keys)|
  {
    CountWhere(keys, true);
  }

  /** An empty filter row leaves a bare `where ` at the end of the query. */
  lemma EmptyFilterBareWhere(p: Proxy, table: string)
    ensures EndsWith(FindSql(p, table, [], None), "where ")
  {
    assert "where " + "" + OrderClause(None) == "where ";
  }

  /** `find()`: the first row found, or null. */
  function FirstFound(rows: seq<Proxy>): (r: Option<Proxy>)
    ensures r.None? <==> |rows| == 0
    ensures r.Some? ==> r.value == rows[0] && r.value in rows
  {
    if |rows| == 0 then None else Some(rows[0])
  }

  // ---------------------------------------------------------------------
  // The iterator's statement
  // ---------------------------------------------------------------------

  /** The text's lower-case form starts with `where `. */
  predicate IsWhere(t: string) { StartsWith(Lower(t), "where ") }

  /** The table part of `doIterator` for a given table text: a select is
      wrapped as a derived table named after the row interface; a call is
      left alone; anything else, after a `where ` filter has been put
      behind the table and the interface name, is wrapped in a select of
      `[*]`. */
  function IteratorTableish(t: string, name: string, table: string): (r: string)
    ensures IsSelect(t) ==> r == "(" + t + ") " + name
    ensures IsCall(t) && !IsSelect(t) ==> r == t
  {
    if IsSelect(t) then "(" + t + ") " + name
    else if IsCall(t) then t
    else
      var t2 := if IsWhere(t) then table + " " + name + " " + t else t;
      "(select [*] from " + t2 + ") " + name + " "
  }

  /** The statement `doIterator` prepares: a call as given, anything else
      as the mode-1 select of the row from the splat-expanded (mode 0)
      table part. */
  function DoIteratorSql(p: Proxy, t: string, table: string): (r: string)
    ensures IsCall(t) ==> r == t
  {
    if IsCall(t) then t
    else BuildSelect([p], 1).value + "from " + ExpandColumnSplat([p], IteratorTableish(t, p.cls.simpleName, table), 0).value
  }

  /** A call never starts like a select. */
  lemma CallIsNoSelect(t: string)
    requires IsCall(t)
    ensures !IsSelect(t)
  {
    assert t[0] == 'c';
  }

  /** A `where ` filter selects the row's columns (mode 0) from the table
      named after the interface, with the filter kept verbatim: the `[*]`
      the wrapper adds is the one expanded. */
  lemma WhereFilterSql(p: Proxy, t: string, table: string)
    requires IsWhere(t) && !IsCall(t) && !IsSelect(t)
    requires '[' !in t && '[' !in table && '[' !in p.cls.simpleName
    ensures DoIteratorSql(p, t, table)
      == BuildSelect([p], 1).value + "from " + ("(select " + BuildColumnsSql([p], 0).value
         + WhereSuffix(t, p.cls.simpleName, table))
  {
    var name := p.cls.simpleName;
    WhereTableish(t, name, table);
    ExpandBareAt([p], "(select ", WhereSuffix(t, name, table), 0);
  }

  /** What follows the `[*]` of a wrapped `where ` filter: the table, the
      interface name as its alias, the filter, and the derived table's
      alias. */
  function WhereSuffix(t: string, name: string, table: string): (r: string)
    ensures '[' !in t && '[' !in table && '[' !in name ==> '[' !in r
  {
    " from " + table + " " + name + " " + t + ") " + name + " "
  }

  lemma WhereTableish(t: string, name: string, table: string)
    requires IsWhere(t) && !IsCall(t) && !IsSelect(t)
    ensures IteratorTableish(t, name, table) == "(select " + "[*]" + WhereSuffix(t, name, table)
  {
    var x := table + " " + name + " " + t;
    assert "(select [*] from " == "(select " + "[*]" + " from ";
    calc {
      IteratorTableish(t, name, table);
      "(select [*] from " + x + ") " + name + " ";
      "(select " + "[*]" + (" from " + x + ") " + name + " ");
    }
    assert " from " + x == " from " + table + " " + name + " " + t;
  }

  /** With the table-name override a repository can carry (`tableName`),
      the filter's table as written: `getTableName()` of a blank row,
      which never looks at the override. */
  function WhereTableAsWritten(override: Option<string>, blank: Proxy): string {
    GetTableName(blank).0
  }

  /** A repository for `PetRow` created with the table `pets`: its `where`
      iterator still reads from `pet`. */
  lemma WhereIgnoresOverride()
    ensures var blank := NewProxy(RowClass("PetRow", ["getName", "setName"], NoId));
      WhereTableAsWritten(Some("pets"), blank) == "`pet`"
  {
    var blank := NewProxy(RowClass("PetRow", ["getName", "setName"], NoId));
    assert EndsWith("PetRow", "Row");
    assert "PetRow"[..3] == "Pet";
    assert Snake("Pet") == "pet" by {
      assert SnakeTail("et") == "et" by {
        assert "et"[1..] == "t" && "t"[1..] == [];
      }
    }
  }

  /** The filter's table with the override honoured, as insert and find
      already do. */
  function WhereTable(override: Option<string>, blank: Proxy): (r: string)
    ensures override.Some? ==> r == override.value
    ensures override.None? ==> r == WhereTableAsWritten(override, blank)
  {
    TableOf(override, blank)
  }

  // ---------------------------------------------------------------------
  // The cursor's resources
  // ---------------------------------------------------------------------

  /** What a cursor holds: the connection hold, the prepared statement and
      the result set. */
  datatype Resource = HoldRes | StatementRes | ResultSetRes

  /** What the database does when the cursor opens. */
  datatype CursorDb = CursorDb(prepare: Outcome<()>, bind: Outcome<()>, query: Outcome<()>)

  /** How opening ended: the cursor or the exception, and the resources
      released before returning. */
  datatype Opening = Opening(result: Outcome<()>, released: seq<Resource>)

  /** The resources acquired: the hold always, the statement once
      prepared, the result set once the query ran. */
  function Acquired(db: CursorDb): (r: seq<Resource>)
    ensures HoldRes in r
  {
    [HoldRes] + (if db.prepare.Ok? then [StatementRes] else [])
    + (if db.prepare.Ok? && db.bind.Ok? && db.query.Ok? then [ResultSetRes] else [])
  }

  /** Opening as written: a failed prepare releases the hold; a failed
      bind releases the statement and then the hold; a failed query goes
      out through `require` and releases nothing. */
  function OpenCursorAsWritten(db: CursorDb): (r: Opening)
    ensures db.prepare.Throw? ==> r == Opening(Throw(AsRuntime(db.prepare.exn)), [HoldRes])
    ensures db.prepare.Ok? && db.bind.Throw? ==> r == Opening(Throw(AsRuntime(db.bind.exn)), [StatementRes, HoldRes])
  {
    if db.prepare.Throw? then Opening(Throw(AsRuntime(db.prepare.exn)), [HoldRes])
    else if db.bind.Throw? then Opening(Throw(AsRuntime(AsRuntime(db.bind.exn))), [StatementRes, HoldRes])
    else Opening(Sugar.RequireCall(db.query), [])
  }

  /** A query that fails leaves the statement and the hold open. */
  lemma FailedQueryLeaks(e: Exn)
    ensures var db := CursorDb(Ok(()), Ok(()), Throw(e));
      var r := OpenCursorAsWritten(db);
      r.result.Throw? && HoldRes in Acquired(db) && HoldRes !in r.released
  {
  }

  /** Opening with a failed query handled like a failed bind. */
  function OpenCursor(db: CursorDb): (r: Opening)
    ensures r.result.Ok? <==> db.prepare.Ok? && db.bind.Ok? && db.query.Ok?
    ensures db.prepare.Ok? && db.bind.Ok? ==> r.result == Sugar.RequireCall(db.query)
  {
    if db.prepare.Throw? || db.bind.Throw? then OpenCursorAsWritten(db)
    else Opening(Sugar.RequireCall(db.query), if db.query.Throw? then [StatementRes, HoldRes] else [])
  }

  /** `close()` on an open cursor: the result set, the statement and the
      hold, each closed quietly, in that order. */
  function CloseCursor(): (r: seq<Resource>)
    ensures |r| == 3 && ResultSetRes in r && StatementRes in r
    ensures r[2] == HoldRes && HoldRes !in r[..2]
  {
    [ResultSetRes, StatementRes, HoldRes]
  }

  /** The resources in the opposite order. */
  function Reversed(s: seq<Resource>): (r: seq<Resource>)
    ensures |r| == |s|
  {
    if |s| == 0 then [] else Reversed(s[1..]) + [s[0]]
  }

  /** Every resource acquired is released exactly once, the last acquired
      first: by the failing open, or by `close()` of the cursor it
      returned; and the opening failure reaches the caller as a runtime
      exception. */
  lemma CursorReleasesAll(db: CursorDb)
    ensures var r := OpenCursor(db);
      && r.released + (if r.result.Ok? then CloseCursor() else []) == Reversed(Acquired(db))
      && (r.result.Throw? ==> r.result.exn.IsRuntime() || !r.result.exn.IsException())
  {
    var acquired := Acquired(db);
    if db.prepare.Throw? {
      assert acquired == [HoldRes];
    } else if db.bind.Throw? || db.query.Throw? {
      assert acquired == [HoldRes, StatementRes];
      assert Reversed(acquired) == Reversed([StatementRes]) + [HoldRes];
    } else {
      assert acquired == [HoldRes, StatementRes, ResultSetRes];
      assert Reversed(acquired) == Reversed([StatementRes, ResultSetRes]) + [HoldRes];
      assert Reversed([StatementRes, ResultSetRes]) == Reversed([ResultSetRes]) + [StatementRes];
    }
  }

  /** Nothing is released twice. */
  lemma ReleasedOnce(db: CursorDb)
    ensures Distinct(Reversed(Acquired(db)))
  {
    CursorReleasesAll(db);
  }

  /** Where the two versions of opening agree: everything except a failed
      query. */
  lemma OpeningAgreesUnlessQueryFails(db: CursorDb)
    requires db.prepare.Throw? || db.bind.Throw? || db.query.Ok?
    ensures OpenCursor(db) == OpenCursorAsWritten(db)
  {
  }
}

=== FILE: session.dfy ===
/** The row operations every session offers (`WokeSessionBase`): update
    and delete by identity, update under another table name, reset, and
    picking one entity out of a mapped result row (`WokeMappableRow`).
    Each statement is recorded with its text and parameters; what the
    database answers for the n-th statement is given. */
module Session {
  import opened JavaLang
  import opened JString
  import opened Sorting
  import opened RowProxy
  import opened InsertStatement
  import Sugar

  /** A statement issued on a held connection: its text and its
      parameters in binding order (`None` is SQL null). */
  datatype Issued = Issued(sql: string, params: seq<Option<Value>>)

  /** The statements issued, in order, and how the operation ended. */
  datatype Log = Log(issued: seq<Issued>, result: Outcome<()>)

  // ---------------------------------------------------------------------
  // Running statements
  // ---------------------------------------------------------------------

  /** The affected-row counts an operation accepts: exactly one for
      update, zero or one for delete. */
  predicate Accepted(n: int, exactlyOne: bool) {
    if exactlyOne then n == 1 else n == 1 || n == 0
  }

  /** One statement inside `require(() -> …)`: a database failure becomes
      a runtime exception, an unaccepted count fails the inner `require`. */
  function Checked(answer: Outcome<int>, exactlyOne: bool): (r: Outcome<()>)
    ensures r.Ok? <==> answer.Ok? && Accepted(answer.value, exactlyOne)
    ensures answer.Ok? && r.Throw? ==> r.exn == Sugar.RequiredTestFailed
  {
    match answer
    case Throw(e) => Sugar.RequireCall(Throw(e))
    case Ok(n) => Sugar.RequireCall(Sugar.Require(Accepted(n, exactlyOne)))
  }

  /** The statements from the i-th on, one after the other; the first
      failure ends the operation. `checks(n)` is how the n-th statement
      came out. */
  function RunFrom(stmts: seq<Issued>, checks: nat -> Outcome<()>, i: nat): (r: Log)
    requires i <= |stmts|
    ensures i + |r.issued| <= |stmts| && r.issued == stmts[i..i + |r.issued|]
    ensures r.result.Ok? <==> forall n :: i <= n < |stmts| ==> checks(n).Ok?
    ensures r.result.Ok? ==> r.issued == stmts[i..]
    ensures r.result.Throw? ==> (
      && |r.issued| > 0
      && r.result == checks(i + |r.issued| - 1)
      && (forall n :: i <= n < i + |r.issued| - 1 ==> checks(n).Ok?))
    decreases |stmts| - i
  {
    if i == |stmts| then Log([], Ok(()))
    else if checks(i).Throw? then Log([stmts[i]], checks(i))
    else
      var rest := RunFrom(stmts, checks, i + 1);
      SliceCons(stmts, i, i + 1 + |rest.issued|);
      Log([stmts[i]] + rest.issued, rest.result)
  }

  lemma SliceCons<T>(s: seq<T>, i: nat, j: nat)
    requires i < j <= |s|
    ensures s[i..j] == [s[i]] + s[i + 1..j]
  {
  }

  /** All statements, from the first, each checked as `Checked` says. */
  function RunAll(stmts: seq<Issued>, db: nat -> Outcome<int>, exactlyOne: bool): (r: Log)
    ensures |r.issued| <= |stmts| && r.issued == stmts[..|r.issued|]
    ensures r.result.Ok? <==> forall n :: 0 <= n < |stmts| ==> db(n).Ok? && Accepted(db(n).value, exactlyOne)
    ensures r.result.Ok? ==> r.issued == stmts
    ensures r.result.Throw? ==> (
      && |r.issued| > 0
      && r.result == Checked(db(|r.issued| - 1), exactlyOne)
      && (forall n :: 0 <= n < |r.issued| - 1 ==> db(n).Ok? && Accepted(db(n).value, exactlyOne)))
  {
    var checks := (n: nat) => Checked(db(n), exactlyOne);
    assert forall n: nat :: checks(n) == Checked(db(n), exactlyOne);
    var r := RunFrom(stmts, checks, 0);
    assert stmts[0..] == stmts;
    r
  }

  // ---------------------------------------------------------------------
  // Update
  // ---------------------------------------------------------------------

  /** The dirty columns among `cols`, in their order. */
  function DirtyColumns(p: Proxy, cols: seq<string>): (r: seq<string>)
    ensures forall c :: c in r <==> c in cols && IsDbDirty(p, c)
    ensures |r| <= |cols|
  {
    if |cols| == 0 then []
    else
      assert forall c :: c in cols <==> c == cols[0] || c in cols[1..];
      (if IsDbDirty(p, cols[0]) then [cols[0]] else []) + DirtyColumns(p, cols[1..])
  }

  /** Taking the dirty columns keeps a sorted list sorted. */
  lemma {:induction false} DirtyColumnsSorted(p: Proxy, cols: seq<string>)
    requires StrictlySorted(cols)
    ensures StrictlySorted(DirtyColumns(p, cols))
  {
    if |cols| > 0 {
      var rest := DirtyColumns(p, cols[1..]);
      assert StrictlySorted(cols[1..]);
      DirtyColumnsSorted(p, cols[1..]);
      if IsDbDirty(p, cols[0]) {
        forall j | 0 <= j < |rest| ensures Less(cols[0], rest[j]) {
          assert rest[j] in cols[1..];
          var m :| 0 <= m < |cols[1..]| && cols[1..][m] == rest[j];
          assert cols[m + 1] == rest[j];
        }
      }
    }
  }

  /** The SET loop of `update`: over the listed columns, each dirty one
      written as a newline, the column and `=?`, separated by `, `, its
      value bound in the same order. */
  function AssignLoop(p: Proxy, cols: seq<string>, comma: bool): (r: (string, seq<Option<Value>>))
  {
    if |cols| == 0 then ("", [])
    else if IsDbDirty(p, cols[0]) then
      var rest := AssignLoop(p, cols[1..], true);
      ((if comma then ", " else "") + "\n" + cols[0] + "=?" + rest.0, [GetDbValue(p, cols[0])] + rest.1)
    else AssignLoop(p, cols[1..], comma)
  }

  /** One assignment of the SET list. */
  function Assignment(c: string): string { "\n" + c + "=?" }

  /** The assignments of some columns. */
  function AssignmentsOf(cols: seq<string>): (r: seq<string>)
    ensures |r| == |cols|
    ensures forall i :: 0 <= i < |cols| ==> r[i] == Assignment(cols[i])
  {
    if |cols| == 0 then [] else [Assignment(cols[0])] + AssignmentsOf(cols[1..])
  }

  /** One step of the SET loop and of the dirty filter, at a dirty
      column. */
  lemma DirtyStep(p: Proxy, cols: seq<string>, comma: bool)
    requires |cols| > 0 && IsDbDirty(p, cols[0])
    ensures DirtyColumns(p, cols) == [cols[0]] + DirtyColumns(p, cols[1..])
    ensures AssignLoop(p, cols, comma).0 == (if comma then ", " else "") + Assignment(cols[0]) + AssignLoop(p, cols[1..], true).0
    ensures AssignLoop(p, cols, comma).1 == [GetDbValue(p, cols[0])] + AssignLoop(p, cols[1..], true).1
  {
  }

  /** One step at a clean column. */
  lemma CleanStep(p: Proxy, cols: seq<string>, comma: bool)
    requires |cols| > 0 && !IsDbDirty(p, cols[0])
    ensures DirtyColumns(p, cols) == DirtyColumns(p, cols[1..])
    ensures AssignLoop(p, cols, comma) == AssignLoop(p, cols[1..], comma)
  {
  }

  /** Either step. */
  lemma AssignStep(p: Proxy, cols: seq<string>, comma: bool)
    requires |cols| > 0
    ensures IsDbDirty(p, cols[0]) ==>
      && DirtyColumns(p, cols) == [cols[0]] + DirtyColumns(p, cols[1..])
      && AssignLoop(p, cols, comma).0 == (if comma then ", " else "") + Assignment(cols[0]) + AssignLoop(p, cols[1..], true).0
      && AssignLoop(p, cols, comma).1 == [GetDbValue(p, cols[0])] + AssignLoop(p, cols[1..], true).1
    ensures !IsDbDirty(p, cols[0]) ==>
      && DirtyColumns(p, cols) == DirtyColumns(p, cols[1..])
      && AssignLoop(p, cols, comma) == AssignLoop(p, cols[1..], comma)
  {
    if IsDbDirty(p, cols[0]) { DirtyStep(p, cols, comma); } else { CleanStep(p, cols, comma); }
  }

  /** The loop binds the dirty columns' values in column order. */
  lemma {:induction false} AssignLoopParams(p: Proxy, cols: seq<string>, comma: bool)
    ensures AssignLoop(p, cols, comma).1 == DbValues(p, DirtyColumns(p, cols))
  {
    if |cols| > 0 {
      AssignStep(p, cols, comma);
      AssignLoopParams(p, cols[1..], true);
      AssignLoopParams(p, cols[1..], comma);
      var rest := DirtyColumns(p, cols[1..]);
      if IsDbDirty(p, cols[0]) {
        assert ([cols[0]] + rest)[1..] == rest;
      }
    }
  }

  /** The joined text with an optional leading separator. */
  function Lead(comma: bool, parts: seq<string>): string {
    if |parts| == 0 then "" else (if comma then ", " else "") + Join(", ", parts)
  }

  lemma LeadCons(comma: bool, x: string, parts: seq<string>)
    ensures Lead(comma, [x] + parts) == (if comma then ", " else "") + x + Lead(true, parts)
  {
    var lead: string := if comma then ", " else "";
    if |parts| > 0 {
      JoinCons(", ", x, parts);
      Assoc3(lead, x, ", ", Join(", ", parts));
    } else {
      assert Join(", ", [x]) == x;
    }
  }

  /** The loop writes the dirty columns' assignments joined by `, `. */
  lemma {:induction false} AssignLoopIsJoin(p: Proxy, cols: seq<string>, comma: bool)
    ensures AssignLoop(p, cols, comma).0 == Lead(comma, AssignmentsOf(DirtyColumns(p, cols)))
  {
    if |cols| > 0 {
      AssignStep(p, cols, comma);
      AssignLoopIsJoin(p, cols[1..], true);
      AssignLoopIsJoin(p, cols[1..], comma);
      var rest := DirtyColumns(p, cols[1..]);
      if IsDbDirty(p, cols[0]) {
        assert AssignmentsOf([cols[0]] + rest) == [Assignment(cols[0])] + AssignmentsOf(rest) by {
          assert ([cols[0]] + rest)[1..] == rest;
        }
        LeadCons(comma, Assignment(cols[0]), AssignmentsOf(rest));
      }
    }
  }

  /** The columns `update` considers: all listed ones, the identity only
      for a row that does not declare one. */
  function UpdateColumns(p: Proxy): (r: seq<string>)
    ensures StrictlySorted(r)
  {
    GetColumns(p, !HasId(p))
  }

  /** `update(row)`'s statement: the table, the SET list of dirty
      columns, and the identity condition; the dirty values then the
      identity value. */
  function UpdateStatement(p: Proxy): (r: Issued)
    ensures StartsWith(r.sql, "update\n" + GetTableName(p).0 + "\nset")
    ensures EndsWith(r.sql, "\nwhere " + IdColumn(p) + "=?")
    ensures |r.params| > 0 && r.params[|r.params| - 1] == IdValue(p)
  {
    var assign := AssignLoop(p, UpdateColumns(p), false);
    var head := "update\n" + GetTableName(p).0 + "\nset";
    var idPart := "\nwhere " + IdColumn(p) + "=?";
    Framed(head, assign.0, idPart);
    Issued(head + assign.0 + idPart, assign.1 + [IdValue(p)])
  }

  lemma Framed(head: string, mid: string, tail: string)
    ensures StartsWith(head + mid + tail, head) && EndsWith(head + mid + tail, tail)
  {
    assert (head + mid + tail)[..|head|] == head;
    assert (head + mid + tail)[|head + mid|..] == tail;
  }

  /** The parameters are the dirty columns' values, in column order, and
      the identity value last. */
  lemma UpdateParams(p: Proxy)
    ensures var dirty := DirtyColumns(p, UpdateColumns(p));
      && StrictlySorted(dirty)
      && UpdateStatement(p).params == DbValues(p, dirty) + [IdValue(p)]
  {
    AssignLoopParams(p, UpdateColumns(p), false);
    DirtyColumnsSorted(p, UpdateColumns(p));
  }

  lemma {:induction false} AssignmentsFree(cols: seq<string>)
    requires forall i :: 0 <= i < |cols| ==> '?' !in cols[i]
    ensures Count(Join(", ", AssignmentsOf(cols)), '?') == |cols|
  {
    if |cols| > 0 {
      var a := Assignment(cols[0]);
      assert Count(a, '?') == 1 by {
        assert Count("=?", '?') == 1 by { assert "=?"[1..] == "?"; }
        assert '?' !in "\n" + cols[0];
        CountAppend("\n" + cols[0], "=?", '?');
      }
      if |cols| == 1 {
        assert AssignmentsOf(cols) == [a];
      } else {
        var rest := AssignmentsOf(cols[1..]);
        assert AssignmentsOf(cols) == [a] + rest;
        AssignmentsFree(cols[1..]);
        JoinCons(", ", a, rest);
        CountAppend(a, ", ", '?');
        CountAppend(a + ", ", Join(", ", rest), '?');
      }
    }
  }

  /** The statement's text in its three parts. */
  lemma UpdateShape(p: Proxy)
    ensures UpdateStatement(p).sql
      == ("update\n" + GetTableName(p).0 + "\nset") + AssignLoop(p, UpdateColumns(p), false).0
         + ("\nwhere " + IdColumn(p) + "=?")
  {
  }

  lemma CountThree(head: string, mid: string, tail: string, n: nat)
    requires Count(head, '?') == 0 && Count(mid, '?') == n && Count(tail, '?') == 1
    ensures Count(head + mid + tail, '?') == n + 1
  {
    CountAppend(head, mid, '?');
    CountAppend(head + mid, tail, '?');
  }

  /** The SET list has one placeholder per dirty column. */
  lemma AssignPlaceholders(p: Proxy, cols: seq<string>)
    requires forall i :: 0 <= i < |cols| ==> '?' !in cols[i]
    ensures Count(AssignLoop(p, cols, false).0, '?') == |DirtyColumns(p, cols)|
  {
    var dirty := DirtyColumns(p, cols);
    var text := AssignLoop(p, cols, false).0;
    AssignLoopIsJoin(p, cols, false);
    if |dirty| == 0 {
      assert text == "";
    } else {
      SubFree(dirty, cols);
      AssignmentsFree(dirty);
      assert text == Join(", ", AssignmentsOf(dirty));
    }
  }

  lemma SubFree(sub: seq<string>, cols: seq<string>)
    requires forall c :: c in sub ==> c in cols
    requires forall i :: 0 <= i < |cols| ==> '?' !in cols[i]
    ensures forall i :: 0 <= i < |sub| ==> '?' !in sub[i]
  {
    forall i | 0 <= i < |sub| ensures '?' !in sub[i] {
      assert sub[i] in cols;
    }
  }

  /** A placeholder-free text followed by `=?`. */
  lemma OnePlaceholder(x: string)
    requires '?' !in x
    ensures Count(x + "=?", '?') == 1
  {
    assert Count("=?", '?') == 1 by { assert "=?"[1..] == "?"; }
    CountAppend(x, "=?", '?');
  }

  /** Every placeholder of the statement has its parameter. */
  lemma {:induction false} UpdatePlaceholders(p: Proxy)
    requires PlainNames(p) && '?' !in GetTableName(p).0
    ensures Count(UpdateStatement(p).sql, '?') == |UpdateStatement(p).params|
  {
    UpdateSqlPlaceholders(p);
    UpdateParams(p);
  }

  /** The statement has one placeholder per dirty column and one for the
      identity. */
  lemma {:induction false} UpdateSqlPlaceholders(p: Proxy)
    requires PlainNames(p) && '?' !in GetTableName(p).0
    ensures Count(UpdateStatement(p).sql, '?') == |DirtyColumns(p, UpdateColumns(p))| + 1
  {
    var sets := AssignLoop(p, UpdateColumns(p), false).0;
    var n := |DirtyColumns(p, UpdateColumns(p))|;
    assert Count(sets, '?') == n by {
      ColumnsFree(p, !HasId(p));
      AssignPlaceholders(p, UpdateColumns(p));
    }
    assert '?' !in IdColumn(p) by {
      var q := p.quote;
      assert IdColumn(p) == [q] + "id" + [q];
    }
    UpdateShape(p);
    UpdateFrameCount(GetTableName(p).0, sets, IdColumn(p), n);
  }

  /** The text around the SET list adds exactly the identity's placeholder. */
  lemma UpdateFrameCount(table: string, sets: string, id: string, n: nat)
    requires '?' !in table && '?' !in id && Count(sets, '?') == n
    ensures Count(("update\n" + table + "\nset") + sets + ("\nwhere " + id + "=?"), '?') == n + 1
  {
    var head := "update\n" + table + "\nset";
    assert Count(head, '?') == 0 by {
      assert '?' !in "update\n" && '?' !in "\nset";
      assert '?' !in head;
    }
    assert '?' !in "\nwhere " + id by {
      assert '?' !in "\nwhere ";
    }
    OnePlaceholder("\nwhere " + id);
    CountThree(head, sets, "\nwhere " + id + "=?", n);
  }

  /** Over clean columns the SET loop writes and binds nothing. */
  lemma {:induction false} CleanLoop(p: Proxy, cols: seq<string>, comma: bool)
    requires forall c :: c in cols ==> !IsDbDirty(p, c)
    ensures AssignLoop(p, cols, comma) == ("", [])
  {
    if |cols| > 0 {
      assert cols[0] in cols;
      assert forall c :: c in cols[1..] ==> c in cols;
      CleanLoop(p, cols[1..], comma);
    }
  }

  /** With nothing dirty the SET list is empty and the statement is still
      issued, with the identity as its only parameter. */
  lemma NothingDirtyStillIssued(p: Proxy, db: nat -> Outcome<int>)
    requires forall c :: c in UpdateColumns(p) ==> !IsDbDirty(p, c)
    ensures UpdateStatement(p).sql == "update\n" + GetTableName(p).0 + "\nset" + "\nwhere " + IdColumn(p) + "=?"
    ensures UpdateStatement(p).params == [IdValue(p)]
    ensures |Update([p], db).issued| == 1
  {
    CleanLoop(p, UpdateColumns(p), false);
    UpdateShape(p);
    var head := "update\n" + GetTableName(p).0 + "\nset";
    var id := IdColumn(p);
    assert UpdateStatement(p).sql == head + ("\nwhere " + id + "=?");
    Assoc(head, "\nwhere " + id, "=?");
    Assoc(head, "\nwhere ", id);
    OneRowIssued(p, db);
  }

  lemma OneRowIssued(p: Proxy, db: nat -> Outcome<int>)
    ensures |Update([p], db).issued| == 1
  {
    var r := RunAll(UpdateStatements([p]), db, true);
    assert r.result.Ok? ==> |r.issued| == 1;
  }

  /** The statements of `update(rows…)`, one per row. */
  function UpdateStatements(rows: seq<Proxy>): (r: seq<Issued>)
    ensures |r| == |rows|
    ensures forall i :: 0 <= i < |rows| ==> r[i] == UpdateStatement(rows[i])
  {
    seq(|rows|, i requires 0 <= i < |rows| => UpdateStatement(rows[i]))
  }

  /** `update(rows…)`: one statement per row, each required to change
      exactly one row. */
  function Update(rows: seq<Proxy>, db: nat -> Outcome<int>): (r: Log)
    ensures r.result.Ok? <==> forall i :: 0 <= i < |rows| ==> db(i) == Ok(1)
    ensures r.result.Ok? ==> |r.issued| == |rows|
    ensures |r.issued| <= |rows| && forall i :: 0 <= i < |r.issued| ==> r.issued[i] == UpdateStatement(rows[i])
  {
    var r := RunAll(UpdateStatements(rows), db, true);
    r
  }

  /** The rows with the table-name override set. */
  function Renamed(tableish: string, rows: seq<Proxy>): (r: seq<Proxy>)
    ensures |r| == |rows|
    ensures forall i :: 0 <= i < |rows| ==> GetTableName(r[i]).0 == tableish
  {
    seq(|rows|, i requires 0 <= i < |rows| => SetTableName(rows[i], Some(tableish)))
  }

  /** `update(tableish, rows…)`: each row is given the table-name override
      and then updated, so every statement names that table. */
  function UpdateIn(tableish: string, rows: seq<Proxy>, db: nat -> Outcome<int>): (r: Log)
    ensures forall i :: 0 <= i < |r.issued| ==>
      StartsWith(r.issued[i].sql, "update\n" + tableish + "\nset")
  {
    Update(Renamed(tableish, rows), db)
  }

  // ---------------------------------------------------------------------
  // Delete
  // ---------------------------------------------------------------------

  /** `delete`'s statement for one row: the table and the identity. */
  function DeleteStatement(p: Proxy): (r: Issued)
    ensures r.params == [IdValue(p)]
    ensures EndsWith(r.sql, IdColumn(p) + "=?")
  {
    var head := "delete from \n" + GetTableName(p).0 + "\n" + "where\n";
    assert (head + (IdColumn(p) + "=?"))[|head|..] == IdColumn(p) + "=?";
    Issued(head + IdColumn(p) + "=?", [IdValue(p)])
  }

  /** The rows of the argument array that are not null, in order. */
  function Present(rows: seq<Option<Proxy>>): (r: seq<Proxy>)
    ensures forall p :: p in r <==> Some(p) in rows
    ensures |r| <= |rows|
  {
    if |rows| == 0 then []
    else
      assert forall x :: x in rows <==> x == rows[0] || x in rows[1..];
      (if rows[0].Some? then [rows[0].value] else []) + Present(rows[1..])
  }

  /** `delete(rows…)`: nothing for a null array; otherwise one statement
      per non-null row, each allowed to delete at most one row. */
  function Delete(rows: Option<seq<Option<Proxy>>>, db: nat -> Outcome<int>): (r: Log)
    ensures rows.None? ==> r == Log([], Ok(()))
    ensures rows.Some? ==> var ps := Present(rows.value);
      && (r.result.Ok? <==> forall i :: 0 <= i < |ps| ==> db(i) == Ok(0) || db(i) == Ok(1))
      && (r.result.Ok? ==> |r.issued| == |ps|)
      && |r.issued| <= |ps|
      && forall i :: 0 <= i < |r.issued| ==> r.issued[i] == DeleteStatement(ps[i])
  {
    match rows
    case None => Log([], Ok(()))
    case Some(rs) =>
      var ps := Present(rs);
      var stmts := seq(|ps|, i requires 0 <= i < |ps| => DeleteStatement(ps[i]));
      var r := RunAll(stmts, db, false);
      r
  }

  /** Null elements are skipped: they issue nothing. */
  lemma DeleteSkipsNulls(rows: seq<Option<Proxy>>, db: nat -> Outcome<int>)
    ensures Delete(Some(rows + [None]), db) == Delete(Some(rows), db)
  {
    PresentAppendNone(rows);
  }

  lemma {:induction false} PresentAppendNone(rows: seq<Option<Proxy>>)
    ensures Present(rows + [None]) == Present(rows)
  {
    if |rows| > 0 {
      assert (rows + [None])[1..] == rows[1..] + [None];
      PresentAppendNone(rows[1..]);
    } else {
      assert Present([None]) == [] + Present([]);
    }
  }

  // ---------------------------------------------------------------------
  // Reset and picking an entity
  // ---------------------------------------------------------------------

  /** `reset(objects…)`: every object back to its loaded state, none
      dirty afterwards. */
  function ResetAll(ps: seq<Proxy>): (r: seq<Proxy>)
    ensures |r| == |ps|
    ensures forall i :: 0 <= i < |ps| ==>
      r[i].current == ps[i].baseline && r[i].baseline == ps[i].baseline && !IsDirty(r[i])
  {
    seq(|ps|, i requires 0 <= i < |ps| => Reset(ps[i]))
  }

  /** Resetting twice is resetting once. */
  lemma ResetAllIdempotent(ps: seq<Proxy>)
    ensures ResetAll(ResetAll(ps)) == ResetAll(ps)
  {
  }

  /** `WokeMappableRow.get(clz)`: the position of the first object whose
      interface is exactly `clz`, or none. */
  function FirstOfClass(objs: seq<Proxy>, clz: RowClass): (r: Option<nat>)
    ensures r.None? <==> forall i :: 0 <= i < |objs| ==> objs[i].cls != clz
    ensures r.Some? ==> (
      && r.value < |objs| && objs[r.value].cls == clz
      && forall j :: 0 <= j < r.value ==> objs[j].cls != clz)
  {
    if |objs| == 0 then None
    else if objs[0].cls == clz then Some(0)
    else
      match FirstOfClass(objs[1..], clz)
      case None => None
      case Some(k) => Some(k + 1)
  }

  /** The object `get(clz)` returns, one of the row's own objects. */
  function RowGet(objs: seq<Proxy>, clz: RowClass): (r: Option<Proxy>)
    ensures r.Some? ==> r.value in objs && r.value.cls == clz
    ensures r.None? <==> forall o :: o in objs ==> o.cls != clz
  {
    match FirstOfClass(objs, clz)
    case None => None
    case Some(k) => Some(objs[k])
  }

  /** Matching is by the exact interface: a row of `PetRow` and
      `OwnerRow` gives the pet for `PetRow` even when the owner comes
      first, and nothing for a third interface. */
  lemma RowGetIsExact(pet: Proxy, owner: Proxy, other: RowClass)
    requires pet.cls != owner.cls && other != pet.cls && other != owner.cls
    ensures RowGet([owner, pet], pet.cls) == Some(pet)
    ensures RowGet([owner, pet], other) == None
  {
    assert FirstOfClass([owner, pet], pet.cls) == Some(1) by {
      assert [owner, pet][1..] == [pet];
    }
  }
}

=== FILE: sorting.dfy ===
/** The natural order of `String` (`compareTo`: UTF-16 code unit by code
    unit, a proper prefix first) and the sorting of duplicate-free string
    lists that `Collections.sort` performs on them. A Dafny `string` holds
    Unicode scalar values, so the order is stated on characters through
    their UTF-16 encoding and proved to agree with comparing the encoded
    code units. */
module Sorting {

  /** The place of a character in UTF-16 code-unit order. A character
      below the surrogate range is its own single code unit; a
      supplementary character starts with a high surrogate, so it sorts
      after those and before 0xE000..0xFFFF, in code-point order among
      its kind. */
  function Rank(c: char): int {
    var n := c as int;
    if n < 0xD800 then n
    else if n >= 0x1_0000 then 0xD800 + (n - 0x1_0000)
    else n + 0x10_0000
  }

  /** `a.compareTo(b) < 0`. */
  predicate Less(a: string, b: string) {
    if |a| == 0 then |b| > 0
    else |b| > 0 && (Rank(a[0]) < Rank(b[0]) || (a[0] == b[0] && Less(a[1..], b[1..])))
  }

  // ---------------------------------------------------------------------
  // The order on code units that `compareTo` performs
  // ---------------------------------------------------------------------

  /** The UTF-16 encoding of one character: one code unit, or a high and a
      low surrogate. */
  function Utf16(c: char): (r: seq<int>)
    ensures |r| == 1 <==> (c as int) < 0x1_0000
    ensures |r| == 1 ==> r[0] == c as int && !(0xD800 <= r[0] < 0xE000)
    ensures |r| == 2 ==> 0xD800 <= r[0] < 0xDC00 <= r[1] < 0xE000
    ensures |r| == 2 ==> (r[0] - 0xD800) * 0x400 + (r[1] - 0xDC00) + 0x1_0000 == c as int
  {
    var n := c as int;
    if n < 0x1_0000 then [n]
    else [0xD800 + (n - 0x1_0000) / 0x400, 0xDC00 + (n - 0x1_0000) % 0x400]
  }

  /** The code units of a string, as `charAt` sees them. */
  function Units(s: string): seq<int> {
    if |s| == 0 then [] else Utf16(s[0]) + Units(s[1..])
  }

  /** Lexicographic order on code-unit sequences, a proper prefix first:
      `String.compareTo` as written, on `char` values. */
  predicate UnitLess(x: seq<int>, y: seq<int>) {
    if |x| == 0 then |y| > 0
    else |y| > 0 && (x[0] < y[0] || (x[0] == y[0] && UnitLess(x[1..], y[1..])))
  }

  /** A shared prefix does not decide the order. */
  lemma {:induction false} UnitLessPrefix(p: seq<int>, x: seq<int>, y: seq<int>)
    ensures UnitLess(p + x, p + y) == UnitLess(x, y)
  {
    if |p| == 0 {
      assert p + x == x && p + y == y;
    } else {
      assert (p + x)[0] == p[0] == (p + y)[0];
      assert (p + x)[1..] == p[1..] + x;
      assert (p + y)[1..] == p[1..] + y;
      UnitLessPrefix(p[1..], x, y);
    }
  }

  /** Two different characters are ordered by their encodings as by
      their ranks, whatever follows them. */
  lemma UnitLessFirst(c: char, d: char, x: seq<int>, y: seq<int>)
    requires c != d
    ensures UnitLess(Utf16(c) + x, Utf16(d) + y) <==> Rank(c) < Rank(d)
  {
    var u, v := Utf16(c) + x, Utf16(d) + y;
    var n, m := c as int, d as int;
    if n >= 0x1_0000 && m >= 0x1_0000 && (n - 0x1_0000) / 0x400 == (m - 0x1_0000) / 0x400 {
      assert u[0] == v[0];
      assert u[1..] == [Utf16(c)[1]] + x;
      assert v[1..] == [Utf16(d)[1]] + y;
      assert (n - 0x1_0000) % 0x400 != (m - 0x1_0000) % 0x400;
    } else {
      assert u[0] != v[0];
    }
  }

  /** `Less` is the code-unit order of `compareTo`. */
  lemma {:induction false} LessIsUnitOrder(a: string, b: string)
    ensures Less(a, b) <==> UnitLess(Units(a), Units(b))
  {
    if |a| > 0 && |b| > 0 {
      if a[0] == b[0] {
        UnitLessPrefix(Utf16(a[0]), Units(a[1..]), Units(b[1..]));
        LessIsUnitOrder(a[1..], b[1..]);
      } else {
        UnitLessFirst(a[0], b[0], Units(a[1..]), Units(b[1..]));
      }
    }
  }

  lemma LessIrreflexive(a: string)
    ensures !Less(a, a)
  {
  }

  lemma {:induction false} LessTransitive(a: string, b: string, c: string)
    requires Less(a, b) && Less(b, c)
    ensures Less(a, c)
  {
    if |a| > 0 && a[0] == b[0] && b[0] == c[0] {
      LessTransitive(a[1..], b[1..], c[1..]);
    }
  }

  lemma {:induction false} LessTotal(a: string, b: string)
    requires a != b
    ensures Less(a, b) || Less(b, a)
  {
    if |a| > 0 && |b| > 0 && a[0] == b[0] {
      assert a == [a[0]] + a[1..] && b == [b[0]] + b[1..];
      LessTotal(a[1..], b[1..]);
    }
  }

  lemma LessAsymmetric(a: string, b: string)
    requires Less(a, b)
    ensures !Less(b, a)
  {
    if Less(b, a) {
      LessTransitive(a, b, a);
      LessIrreflexive(a);
    }
  }

  /** The elements of a list, as a set. */
  function Elems<T(!new)>(s: seq<T>): (r: set<T>)
    ensures forall e :: e in r <==> e in s
  {
    set e | e in s
  }

  /** Ascending without repeats. */
  predicate StrictlySorted(s: seq<string>) {
    forall i, j :: 0 <= i < j < |s| ==> Less(s[i], s[j])
  }

  /** No element twice. */
  predicate Distinct<T(==)>(s: seq<T>) {
    forall i, j :: 0 <= i < j < |s| ==> s[i] != s[j]
  }

  lemma StrictlySortedIsDistinct(s: seq<string>)
    requires StrictlySorted(s)
    ensures Distinct(s)
  {
    forall i, j | 0 <= i < j < |s| ensures s[i] != s[j] {
      LessIrreflexive(s[i]);
    }
  }

  /** `x` placed into a strictly sorted list (nothing happens when it is
      already there). */
  function Insert(x: string, s: seq<string>): (r: seq<string>)
    requires StrictlySorted(s)
    ensures StrictlySorted(r)
    ensures Elems(r) == Elems(s) + {x}
  {
    if |s| == 0 then [x]
    else if x == s[0] then s
    else if Less(x, s[0]) then
      forall e | e in s ensures Less(x, e) {
        var j :| 0 <= j < |s| && s[j] == e;
        if j > 0 { LessTransitive(x, s[0], s[j]); }
      }
      ConsSorted(x, s);
      [x] + s
    else
      LessTotal(x, s[0]);
      var t := Insert(x, s[1..]);
      forall e | e in t ensures Less(s[0], e) {
        if e != x {
          assert e in Elems(s[1..]);
          var j :| 0 <= j < |s[1..]| && s[1..][j] == e;
          assert s[j + 1] == e;
        }
      }
      ConsSorted(s[0], t);
      assert Elems([s[0]] + t) == {s[0]} + Elems(t);
      assert Elems(s) == {s[0]} + Elems(s[1..]) by { assert s == [s[0]] + s[1..]; }
      [s[0]] + t
  }

  /** A list stays strictly sorted with an element below all of it in front. */
  lemma ConsSorted(x: string, t: seq<string>)
    requires StrictlySorted(t) && forall e :: e in t ==> Less(x, e)
    ensures StrictlySorted([x] + t)
  {
    var r := [x] + t;
    forall i, j | 0 <= i < j < |r| ensures Less(r[i], r[j]) {
      assert r[j] == t[j - 1];
      if i > 0 { assert r[i] == t[i - 1]; }
    }
  }

  /** `Collections.sort` of a list. With no duplicates left, the stable
      merge sort's output is the strictly ascending listing of the same
      elements. */
  function SortStrings(s: seq<string>): (r: seq<string>)
    ensures StrictlySorted(r)
    ensures Elems(r) == Elems(s)
  {
    if |s| == 0 then [] else Insert(s[|s| - 1], SortStrings(s[..|s| - 1]))
  }

  /** The elements of `s` in first-occurrence order without repeats (a list
      built with `if (!list.contains(x)) list.add(x)`). */
  function Dedupe<T(==,!new)>(s: seq<T>): (r: seq<T>)
    ensures Distinct(r)
    ensures Elems(r) == Elems(s)
  {
    if |s| == 0 then []
    else
      var r := Dedupe(s[..|s| - 1]);
      assert Elems(s) == Elems(s[..|s| - 1]) + {s[|s| - 1]} by {
        assert s == s[..|s| - 1] + [s[|s| - 1]];
      }
      if s[|s| - 1] in r then r else r + [s[|s| - 1]]
  }

  /** A finite set of strings has exactly one strictly ascending listing,
      so any two ways of computing it agree. */
  lemma {:induction false} StrictlySortedUnique(a: seq<string>, b: seq<string>)
    requires StrictlySorted(a) && StrictlySorted(b)
    requires Elems(a) == Elems(b)
    ensures a == b
  {
    assert |a| == 0 <==> |b| == 0 by {
      if |a| > 0 { assert a[0] in Elems(a); }
      if |b| > 0 { assert b[0] in Elems(b); }
    }
    if |a| > 0 {
      assert a[0] == b[0] by {
        if a[0] != b[0] {
          assert b[0] in Elems(b);
          assert a[0] in Elems(a);
          var i :| 0 <= i < |a| && a[i] == b[0];
          var j :| 0 <= j < |b| && b[j] == a[0];
          assert Less(a[0], a[i]) || i == 0;
          assert Less(b[0], b[j]) || j == 0;
          LessAsymmetric(a[0], b[0]);
        }
      }
      assert Elems(a[1..]) == Elems(b[1..]) by {
        forall e | e in a[1..] ensures e in b[1..] {
          var i :| 1 <= i < |a| && a[i] == e;
          LessIrreflexive(a[0]);
          assert e != a[0];
          assert e in Elems(a);
          var j :| 0 <= j < |b| && b[j] == e;
          assert j != 0;
        }
        forall e | e in b[1..] ensures e in a[1..] {
          var j :| 1 <= j < |b| && b[j] == e;
          LessIrreflexive(b[0]);
          assert e != b[0];
          assert e in Elems(b);
          var i :| 0 <= i < |a| && a[i] == e;
          assert i != 0;
        }
      }
      StrictlySortedUnique(a[1..], b[1..]);
      assert a == [a[0]] + a[1..] && b == [b[0]] + b[1..];
    }
  }
}

=== FILE: sqltext.dfy ===
/** The SELECT-list text the repository layer generates for one or more
    row entities (`buildColumnsSql`, `buildSelect`), the `[*]` splat
    expansion inside a FROM clause (`expandColumnSplat`), the statement a
    session iterator runs (`buildSql`) and the positional reading of a
    result row back into entities (`mapResultRow` and the iterator's
    `get`). */
module SqlText {
  import opened JavaLang
  import opened JString
  import opened Naming
  import opened Sorting
  import opened RowProxy

  /** What the SQL builder reads off one row proxy: the alias prefix (the
      simple class name and a dot), the identifier quote, whether the row
      type carries the `IdColumn` marker, and the columns it lists (all of
      them except `id` for an `IdColumn` row, which gets its own entry). */
  datatype Entity = Entity(alias: string, quote: char, idColumn: bool, columns: seq<string>)

  function EntityOf(p: Proxy): Entity {
    var idColumn := p.cls.idKind.IsIdColumn();
    Entity(p.cls.simpleName + ".", p.quote, idColumn, GetColumns(p, !idColumn))
  }

  function Entities(ps: seq<Proxy>): (r: seq<Entity>)
    ensures |r| == |ps|
    ensures forall i :: 0 <= i < |ps| ==> r[i] == EntityOf(ps[i])
  {
    seq(|ps|, i requires 0 <= i < |ps| => EntityOf(ps[i]))
  }

  /** The listed columns of a proxy are distinct quoted names, so none of
      them is the bare key `id` the reader uses for the identity. */
  lemma EntityOfColumns(p: Proxy)
    ensures Distinct(EntityOf(p).columns)
    ensures "id" !in EntityOf(p).columns
  {
    var cols := EntityOf(p).columns;
    StrictlySortedIsDistinct(cols);
    forall c | c in cols ensures c != "id" {
      var m :| m in Methods(p.cls) && Selected(m, !EntityOf(p).idColumn) && c == ColumnOf(p, m);
      QuotedIsNotId(PropertyName(m), p.quote);
    }
  }

  /** The alias with the dot turned into an underscore, used in result
      column names. */
  function AliasU(e: Entity): string {
    ReplaceChar(e.alias, '.', '_')
  }

  /** The quoted result-column name `q + Alias_ + column-without-quotes + q`. */
  function ColumnAs(e: Entity, column: string): string {
    [e.quote] + AliasU(e) + RemoveChar(column, e.quote) + [e.quote]
  }

  predicate ValidMode(mode: int) { 0 <= mode <= 2 }

  /** The exception for any other mode. */
  const ModeError: Exn := Moar("Mode not supported")

  /** The text of one listed column in the given mode. */
  function ColumnText(e: Entity, column: string, mode: int): (r: Outcome<string>)
    ensures r.Ok? <==> ValidMode(mode)
    ensures r.Throw? ==> r.exn == ModeError
    ensures mode == 1 ==> r == Ok(ColumnAs(e, column))
    ensures mode == 2 ==> r == Ok(column)
  {
    if mode == 0 then Ok(e.alias + column + " " + ColumnAs(e, column))
    else if mode == 1 then Ok(ColumnAs(e, column))
    else if mode == 2 then Ok(column)
    else Throw(ModeError)
  }

  /** The identity entry that closes an entity's block: the real `id`
      column for an `IdColumn` entity, a `null` placeholder otherwise. */
  function IdText(e: Entity, mode: int): (r: Outcome<string>)
    ensures r.Ok? <==> ValidMode(mode)
    ensures r.Throw? ==> r.exn == ModeError
    ensures !e.idColumn && (mode == 0 || mode == 1) ==> r == Ok("null " + AliasU(e) + "id\n")
    ensures !e.idColumn && mode == 2 ==> r == Ok("null id\n")
  {
    if e.idColumn then
      var columnAs := ColumnAs(e, "id") + "\n";
      if mode == 0 then Ok(e.alias + "id" + " " + columnAs)
      else if mode == 1 then Ok(columnAs + "\n")
      else if mode == 2 then Ok("id\n")
      else Throw(ModeError)
    else if mode == 0 || mode == 1 then Ok("null " + AliasU(e) + "id\n")
    else if mode == 2 then Ok("null id\n")
    else Throw(ModeError)
  }

  /** The inner loop over one entity's columns, appending `text,\n` each. */
  function ColumnsLoop(e: Entity, cols: seq<string>, mode: int, acc: string): (r: Outcome<string>)
    ensures r.Throw? ==> |cols| > 0 && r.exn == ModeError
  {
    if |cols| == 0 then Ok(acc)
    else
      var t :- ColumnText(e, cols[0], mode);
      ColumnsLoop(e, cols[1..], mode, acc + t + ",\n")
  }

  /** The outer loop of `buildColumnsSql` from entity `i` on. */
  function EntitiesLoop(es: seq<Entity>, mode: int, i: nat, acc: string): (r: Outcome<string>)
    requires i <= |es|
    decreases |es| - i
  {
    if i == |es| then Ok(acc + "\n")
    else
      var e := es[i];
      var head := acc + (if i > 0 then ",\n" else "") + " ";
      var withCols :- ColumnsLoop(e, e.columns, mode, head);
      var id :- IdText(e, mode);
      EntitiesLoop(es, mode, i + 1, withCols + id)
  }

  /** `buildColumnsSql(wokens, mode)`: an unsupported mode fails, unless
      there is no entity to list. */
  function BuildColumnsSql(ps: seq<Proxy>, mode: int): (r: Outcome<string>)
    ensures r.Throw? <==> |ps| > 0 && !ValidMode(mode)
    ensures r.Throw? ==> r.exn == ModeError
    ensures |ps| == 0 ==> r == Ok("\n")
  {
    ColumnsShape(Entities(ps), mode);
    EntitiesLoop(Entities(ps), mode, 0, "")
  }

  /** `buildSelect(woken, mode)`. */
  function BuildSelect(ps: seq<Proxy>, mode: int): (r: Outcome<string>)
    ensures r.Ok? <==> BuildColumnsSql(ps, mode).Ok?
    ensures r.Ok? ==> StartsWith(r.value, "select\n") && r.value[7..] == BuildColumnsSql(ps, mode).value
  {
    var cols :- BuildColumnsSql(ps, mode);
    Ok("select\n" + cols)
  }

  /** The items of one entity's block, in order: one per listed column,
      then the identity entry. */
  function EntityItems(e: Entity, mode: int): (r: seq<string>)
    requires ValidMode(mode)
    ensures |r| == |e.columns| + 1
    ensures r[|r| - 1] == IdText(e, mode).value
    ensures forall k :: 0 <= k < |e.columns| ==> r[k] == ColumnText(e, e.columns[k], mode).value
  {
    ColumnTexts(e, e.columns, mode) + [IdText(e, mode).value]
  }

  /** The texts of the given columns of an entity. */
  function ColumnTexts(e: Entity, cols: seq<string>, mode: int): (r: seq<string>)
    requires ValidMode(mode)
    ensures |r| == |cols|
    ensures forall k :: 0 <= k < |cols| ==> r[k] == ColumnText(e, cols[k], mode).value
  {
    if |cols| == 0 then [] else [ColumnText(e, cols[0], mode).value] + ColumnTexts(e, cols[1..], mode)
  }

  /** One entity's block: a space, then its items separated by `,\n`. */
  function EntityBlock(e: Entity, mode: int): string
    requires ValidMode(mode)
  {
    " " + Join(",\n", EntityItems(e, mode))
  }

  /** The blocks of a list of entities. */
  function Blocks(es: seq<Entity>, mode: int): (r: seq<string>)
    requires ValidMode(mode)
    ensures |r| == |es|
    ensures forall i :: 0 <= i < |es| ==> r[i] == EntityBlock(es[i], mode)
  {
    seq(|es|, i requires 0 <= i < |es| => EntityBlock(es[i], mode))
  }

  lemma {:induction false} ColumnsLoopText(e: Entity, cols: seq<string>, mode: int, acc: string, idText: string)
    requires ValidMode(mode)
    ensures ColumnsLoop(e, cols, mode, acc).Ok?
    ensures ColumnsLoop(e, cols, mode, acc).value + idText == acc + Join(",\n", ColumnTexts(e, cols, mode) + [idText])
  {
    if |cols| == 0 {
      assert ColumnTexts(e, cols, mode) + [idText] == [idText];
    } else {
      var t := ColumnText(e, cols[0], mode).value;
      var rest := ColumnTexts(e, cols[1..], mode);
      var a2 := acc + t + ",\n";
      ColumnsLoopText(e, cols[1..], mode, a2, idText);
      ColumnsLoopStep(e, cols, mode, acc);
      assert ColumnTexts(e, cols, mode) + [idText] == [t] + (rest + [idText]);
      JoinCons(",\n", t, rest + [idText]);
      Regroup3(acc, t, ",\n", Join(",\n", rest + [idText]));
    }
  }

  lemma ColumnsLoopStep(e: Entity, cols: seq<string>, mode: int, acc: string)
    requires ValidMode(mode) && |cols| > 0
    ensures ColumnsLoop(e, cols, mode, acc) == ColumnsLoop(e, cols[1..], mode, acc + ColumnText(e, cols[0], mode).value + ",\n")
  {
  }

  lemma Regroup3(a: string, b: string, c: string, d: string)
    ensures a + b + c + d == a + (b + c + d)
  {
  }

  lemma JoinFrom(sep: string, bs: seq<string>, i: nat)
    requires i < |bs|
    ensures Join(sep, bs[i..]) == bs[i] + (if i + 1 < |bs| then sep else "") + Join(sep, bs[i + 1..])
  {
    if i + 1 < |bs| {
      assert bs[i..] == [bs[i]] + bs[i + 1..];
      JoinCons(sep, bs[i], bs[i + 1..]);
    } else {
      assert bs[i..] == [bs[i]];
      assert bs[i + 1..] == [];
    }
  }

  /** One entity's turn of the outer loop appends its block. */
  lemma EntityStep(e: Entity, mode: int, head: string)
    requires ValidMode(mode)
    ensures ColumnsLoop(e, e.columns, mode, head).Ok? && IdText(e, mode).Ok?
    ensures ColumnsLoop(e, e.columns, mode, head).value + IdText(e, mode).value
      == head + Join(",\n", EntityItems(e, mode))
  {
    ColumnsLoopText(e, e.columns, mode, head, IdText(e, mode).value);
  }

  lemma EntitiesLoopStep(es: seq<Entity>, mode: int, i: nat, acc: string)
    requires ValidMode(mode) && i < |es|
    ensures EntitiesLoop(es, mode, i, acc)
      == EntitiesLoop(es, mode, i + 1, acc + (if i > 0 then ",\n" else "") + Blocks(es, mode)[i])
  {
    var e := es[i];
    var sep := if i > 0 then ",\n" else "";
    var head := acc + sep + " ";
    EntityStep(e, mode, head);
    Assoc(acc + sep, " ", Join(",\n", EntityItems(e, mode)));
  }

  lemma Regroup(a: string, b: string, c: string, d: string)
    ensures a + b + c + d + "\n" == a + (b + c + d) + "\n"
  {
  }

  lemma {:induction false} EntitiesLoopText(es: seq<Entity>, mode: int, i: nat, acc: string)
    requires ValidMode(mode) && i <= |es|
    ensures EntitiesLoop(es, mode, i, acc)
      == Ok(acc + (if 0 < i < |es| then ",\n" else "") + Join(",\n", Blocks(es, mode)[i..]) + "\n")
    decreases |es| - i
  {
    var bs := Blocks(es, mode);
    if i < |es| {
      var sep := if i > 0 then ",\n" else "";
      var next := acc + sep + bs[i];
      EntitiesLoopStep(es, mode, i, acc);
      EntitiesLoopText(es, mode, i + 1, next);
      var sep2 := if i + 1 < |es| then ",\n" else "";
      var rest := Join(",\n", bs[i + 1..]);
      JoinFrom(",\n", bs, i);
      Regroup(acc + sep, bs[i], sep2, rest);
    } else {
      assert bs[i..] == [];
      assert acc + "" + Join(",\n", bs[i..]) + "\n" == acc + "\n";
    }
  }

  /** For a supported mode the text of `buildColumnsSql` is the entities'
      blocks, in array order, separated by `,\n`, plus a final newline;
      each block lists the entity's columns and ends with its identity
      entry. */
  lemma ColumnsSqlLayout(ps: seq<Proxy>, mode: int)
    requires ValidMode(mode)
    ensures BuildColumnsSql(ps, mode) == Ok(Join(",\n", Blocks(Entities(ps), mode)) + "\n")
  {
    var es := Entities(ps);
    EntitiesLoopText(es, mode, 0, "");
    var bs := Blocks(es, mode);
    assert bs[0..] == bs;
    NoPrefix(Join(",\n", bs));
  }

  lemma NoPrefix(x: string)
    ensures "" + "" + x + "\n" == x + "\n"
  {
  }

  lemma ColumnsShape(es: seq<Entity>, mode: int)
    ensures EntitiesLoop(es, mode, 0, "").Throw? <==> |es| > 0 && !ValidMode(mode)
    ensures EntitiesLoop(es, mode, 0, "").Throw? ==> EntitiesLoop(es, mode, 0, "").exn == ModeError
    ensures |es| == 0 ==> EntitiesLoop(es, mode, 0, "") == Ok("\n")
  {
    if ValidMode(mode) {
      EntitiesLoopText(es, mode, 0, "");
      if |es| == 0 {
        assert "" + "\n" == "\n";
      }
    } else if |es| > 0 {
      var e := es[0];
      var c := ColumnsLoop(e, e.columns, mode, " ");
      assert "" + (if 0 > 0 then ",\n" else "") + " " == " ";
      assert c.Throw? || IdText(e, mode).Throw?;
    } else {
      assert "" + "\n" == "\n";
    }
  }

  /** Removing the quotes from a property's column name gives back its
      snake_case body, so its mode-1 name is `q + Alias_ + snake + q`. */
  lemma ColumnAsOfProperty(e: Entity, prop: string)
    requires e.quote !in Snake(prop)
    ensures ColumnAs(e, ToDbName(prop, e.quote)) == [e.quote] + AliasU(e) + Snake(prop) + [e.quote]
  {
    var q := e.quote;
    var b := Snake(prop);
    assert ToDbName(prop, q) == [q] + b + [q];
    RemoveCharAppend([q] + b, [q], q);
    RemoveCharAppend([q], b, q);
    assert RemoveChar([q], q) == [] by { assert [q][1..] == []; }
    assert RemoveChar(b, q) == b;
    assert RemoveChar(ToDbName(prop, q), q) == b;
  }

  // ---------------------------------------------------------------------
  // Splat expansion
  // ---------------------------------------------------------------------

  const AliasSplat: string := ".[*]"
  const Splat: string := "[*]"

  /** `lastIndexOf(' ', pos) + 1`: where the word holding `pos` starts. */
  function WordStart(s: string, pos: nat): (r: nat)
    requires pos < |s|
    ensures r <= pos + 1
    ensures forall k :: r <= k <= pos ==> s[k] != ' '
    ensures r > 0 ==> s[r - 1] == ' '
  {
    var t := s[..pos + 1];
    assert forall k :: 0 <= k < |t| ==> t[k] == s[k];
    LastIndexOfChar(t, ' ') + 1
  }

  /** No `.[*]` starts on a character other than a dot. */
  lemma NoSplatAt(s: string, k: int)
    requires 0 <= k < |s| && s[k] != '.'
    ensures !OccursAt(s, AliasSplat, k)
  {
  }

  /** A `.[*]` holds a `[*]` one character on. */
  lemma SplatInAliasSplat(s: string, k: int)
    requires OccursAt(s, AliasSplat, k)
    ensures OccursAt(s, Splat, k + 1)
  {
    assert s[k + 1..k + 4] == s[k..k + 4][1..];
  }

  /** Two `.[*]` never overlap. */
  lemma AliasSplatsApart(s: string, a: int, k: int)
    requires OccursAt(s, AliasSplat, a) && a < k < a + |AliasSplat|
    ensures !OccursAt(s, AliasSplat, k)
  {
    assert s[k] == s[a..a + 4][k - a];
    NoSplatAt(s, k);
  }

  /** Where `[` occurs only at `n`, so do `[*]` and the bracket of `.[*]`. */
  lemma SplatsAtBracket(s: string, n: int)
    requires forall k :: 0 <= k < |s| && s[k] == '[' ==> k == n
    ensures forall k :: OccursAt(s, Splat, k) ==> k == n
    ensures forall k :: OccursAt(s, AliasSplat, k) ==> k + 1 == n
  {
    forall k | OccursAt(s, Splat, k) ensures k == n {
      assert s[k..k + 3][0] == s[k];
    }
    forall k | OccursAt(s, AliasSplat, k) ensures k + 1 == n {
      assert s[k..k + 4][1] == s[k + 1];
    }
  }

  lemma SoleBracket(a: string, b: string)
    requires '[' !in a && '[' !in b
    ensures forall k :: 0 <= k < |a + "[*]" + b| && (a + "[*]" + b)[k] == '[' ==> k == |a|
  {
  }

  /** One round of the scan loop of `expandColumnSplat` as written: find
      the next `.[*]` at or after `end`, remember the start of its word as
      the span start (unless one is already set, i.e. non-zero) and set the
      span end from the first `.[*]` at or after that word start. */
  function ScanStepAsWritten(s: string, start: int, end: int): (r: (int, int))
    requires IndexOfFrom(s, AliasSplat, end) != -1
  {
    var pos := IndexOfFrom(s, AliasSplat, end);
    var w := WordStart(s, pos);
    (if start == 0 then w else start, IndexOfFrom(s, AliasSplat, w) + |AliasSplat|)
  }

  /** The scan loop as written, run for at most `fuel` rounds; `None` when
      it has not stopped by then. */
  function ScanAsWritten(s: string, start: int, end: int, fuel: nat): Option<(int, int)>
    decreases fuel
  {
    if IndexOfFrom(s, AliasSplat, end) == -1 then Some((start, end))
    else if fuel == 0 then None
    else
      var (st, en) := ScanStepAsWritten(s, start, end);
      ScanAsWritten(s, st, en, fuel - 1)
  }

  /** Two splats in one word, `a.[*],b.[*]`: after the first round the scan
      state no longer changes while the loop condition stays true, so the
      loop never ends. */
  lemma SplatScanNeverEnds(fuel: nat)
    ensures ScanAsWritten("a.[*],b.[*]", 0, 0, fuel) == None
  {
    var s := "a.[*],b.[*]";
    assert OccursAt(s, AliasSplat, 1);
    assert OccursAt(s, AliasSplat, 7);
    NoSplatAt(s, 0);
    NoSplatAt(s, 5);
    NoSplatAt(s, 6);
    assert IndexOfFrom(s, AliasSplat, 0) == 1;
    assert IndexOfFrom(s, AliasSplat, 5) == 7;
    assert WordStart(s, 1) == 0 by { assert ' ' !in s[..2]; }
    assert WordStart(s, 7) == 0 by { assert ' ' !in s[..8]; }
    assert ScanStepAsWritten(s, 0, 0) == (0, 5);
    assert ScanStepAsWritten(s, 0, 5) == (0, 5);
    if fuel > 0 {
      StuckForever(s, fuel - 1);
    }
  }

  lemma {:induction false} StuckForever(s: string, fuel: nat)
    requires s == "a.[*],b.[*]"
    requires IndexOfFrom(s, AliasSplat, 5) == 7
    requires ScanStepAsWritten(s, 0, 5) == (0, 5)
    ensures ScanAsWritten(s, 0, 5, fuel) == None
  {
    if fuel > 0 {
      StuckForever(s, fuel - 1);
    }
  }

  /** The scan loop with the span end taken from the splat just found. */
  function Scan(s: string, start: int, end: int): (r: (int, int))
    requires 0 <= end <= |s|
    ensures end <= r.1 <= |s|
    ensures start != 0 ==> r.0 == start
    decreases |s| - end
  {
    var pos := IndexOfFrom(s, AliasSplat, end);
    if pos == -1 then (start, end)
    else
      var st := if start == 0 then WordStart(s, pos) else start;
      var e2: nat := pos + |AliasSplat|;
      Scan(s, st, e2)
  }

  /** The scan stops after the last `.[*]`: none is left at or after the
      span end, and when the span end moved, a `.[*]` ends there. */
  lemma {:induction false} ScanSpan(s: string, start: int, end: int)
    requires 0 <= end <= |s|
    ensures forall k :: Scan(s, start, end).1 <= k ==> !OccursAt(s, AliasSplat, k)
    ensures Scan(s, start, end).1 > end ==> OccursAt(s, AliasSplat, Scan(s, start, end).1 - |AliasSplat|)
    ensures Scan(s, start, end).1 == end ==> Scan(s, start, end).0 == start
    decreases |s| - end
  {
    var pos := IndexOfFrom(s, AliasSplat, end);
    if pos != -1 {
      var st := if start == 0 then WordStart(s, pos) else start;
      var e2: nat := pos + |AliasSplat|;
      ScanSpan(s, st, e2);
      ScanUnfold(s, start, end, st, pos, e2);
      var r := Scan(s, st, e2);
      if r.1 == e2 {
        assert OccursAt(s, AliasSplat, pos);
      }
    } else {
      assert Scan(s, start, end) == (start, end);
    }
  }

  lemma {:induction false} ScanStartBelowEnd(s: string, start: int, end: int)
    requires 0 <= start <= end <= |s|
    ensures 0 <= Scan(s, start, end).0 <= Scan(s, start, end).1
    decreases |s| - end
  {
    var pos := IndexOfFrom(s, AliasSplat, end);
    if pos != -1 {
      var w := WordStart(s, pos);
      ScanStartBelowEnd(s, if start == 0 then w else start, pos + |AliasSplat|);
    }
  }

  /** The span `expandColumnSplat` replaces, after the fallback to the
      first bare `[*]`. */
  function SplatSpan(s: string): (r: (nat, nat))
    ensures r.0 <= r.1 <= |s|
  {
    var (st, en) := Scan(s, 0, 0);
    var sp := IndexOf(s, Splat);
    if st == 0 && sp != -1 then (sp, sp + |Splat|)
    else
      assert 0 <= st <= en by { ScanStartBelowEnd(s, 0, 0); }
      (st as nat, en as nat)
  }

  /** `expandColumnSplat(woken, tableish, mode)` with the corrected scan:
      the text before the span, the generated column list, the text after
      the span. */
  function ExpandColumnSplat(ps: seq<Proxy>, tableish: string, mode: int): (r: Outcome<string>)
    ensures r.Ok? <==> BuildColumnsSql(ps, mode).Ok?
    ensures r.Ok? ==>
      r.value == tableish[..SplatSpan(tableish).0] + BuildColumnsSql(ps, mode).value + tableish[SplatSpan(tableish).1..]
  {
    var (st, en) := SplatSpan(tableish);
    var cols :- BuildColumnsSql(ps, mode);
    Ok(tableish[..st] + cols + tableish[en..])
  }

  /** Without any `[*]` the column list is put in front of the whole
      input. */
  lemma ExpandWithoutSplat(ps: seq<Proxy>, tableish: string, mode: int)
    requires forall k :: !OccursAt(tableish, Splat, k)
    requires BuildColumnsSql(ps, mode).Ok?
    ensures ExpandColumnSplat(ps, tableish, mode) == Ok(BuildColumnsSql(ps, mode).value + tableish)
  {
    NoSplatSpan(tableish);
    ExpandAtSpan(ps, tableish, mode, [], tableish);
    EmptyFront(BuildColumnsSql(ps, mode).value, tableish);
  }

  lemma EmptyFront<T>(x: seq<T>, y: seq<T>)
    ensures [] + x + y == x + y
  {
  }

  lemma NoSplatSpan(s: string)
    requires forall k :: !OccursAt(s, Splat, k)
    ensures SplatSpan(s) == (0, 0)
  {
    forall k | OccursAt(s, AliasSplat, k) ensures false {
      SplatInAliasSplat(s, k);
    }
    assert IndexOfFrom(s, AliasSplat, 0) == -1;
    assert Scan(s, 0, 0) == (0, 0);
    assert IndexOf(s, Splat) == -1;
  }

  /** With only bare splats, the first `[*]` is replaced. */
  lemma ExpandBareSplat(ps: seq<Proxy>, tableish: string, mode: int)
    requires forall k :: !OccursAt(tableish, AliasSplat, k)
    requires IndexOf(tableish, Splat) != -1
    requires BuildColumnsSql(ps, mode).Ok?
    ensures var sp := IndexOf(tableish, Splat);
      ExpandColumnSplat(ps, tableish, mode) == Ok(tableish[..sp] + BuildColumnsSql(ps, mode).value + tableish[sp + 3..])
  {
    assert IndexOfFrom(tableish, AliasSplat, 0) == -1;
    assert Scan(tableish, 0, 0) == (0, 0);
  }

  /** With aliased splats whose first word does not open the input, the
      span runs from the start of the first splat's word to the end of the
      last `.[*]`, and no `.[*]` is left after it. */
  lemma {:induction false} ExpandAliasSplat(tableish: string)
    requires IndexOf(tableish, AliasSplat) != -1
    requires WordStart(tableish, IndexOf(tableish, AliasSplat)) > 0
    ensures SplatSpan(tableish).0 == WordStart(tableish, IndexOf(tableish, AliasSplat))
    ensures OccursAt(tableish, AliasSplat, SplatSpan(tableish).1 - |AliasSplat|)
    ensures forall k :: SplatSpan(tableish).1 - |AliasSplat| < k ==> !OccursAt(tableish, AliasSplat, k)
  {
    var s := tableish;
    var p1 := IndexOf(s, AliasSplat);
    var w1 := WordStart(s, p1);
    var e1: nat := p1 + |AliasSplat|;
    AliasedSplatSpan(s, p1, w1, e1);
    ScanSpan(s, w1, e1);
    var r := Scan(s, w1, e1);
    assert OccursAt(s, AliasSplat, r.1 - |AliasSplat|);
    NoSplatAfterLast(s, r.1 - |AliasSplat|);
  }

  /** No `.[*]` starts after the last one. */
  lemma NoSplatAfterLast(s: string, last: int)
    requires OccursAt(s, AliasSplat, last)
    requires forall k :: last + |AliasSplat| <= k ==> !OccursAt(s, AliasSplat, k)
    ensures forall k :: last < k ==> !OccursAt(s, AliasSplat, k)
  {
    forall k | last < k < last + |AliasSplat| ensures !OccursAt(s, AliasSplat, k) {
      AliasSplatsApart(s, last, k);
    }
  }

  /** When the first `.[*]`'s word does not open the input, the span is
      what the scan makes of the rest after that first splat. */
  lemma AliasedSplatSpan(s: string, p1: int, w1: nat, e1: nat)
    requires p1 == IndexOf(s, AliasSplat) && p1 != -1
    requires w1 == WordStart(s, p1) && w1 > 0 && e1 == p1 + |AliasSplat|
    ensures SplatSpan(s).0 == w1
    ensures SplatSpan(s).1 == Scan(s, w1, e1).1
  {
    ScanUnfold(s, 0, 0, w1, p1, e1);
  }

  /** The expansion is determined by the span alone. */
  lemma ExpandAtSpan(ps: seq<Proxy>, s: string, mode: int, prefix: string, suffix: string)
    requires BuildColumnsSql(ps, mode).Ok?
    requires s[..SplatSpan(s).0] == prefix && s[SplatSpan(s).1..] == suffix
    ensures ExpandColumnSplat(ps, s, mode) == Ok(prefix + BuildColumnsSql(ps, mode).value + suffix)
  {
  }

  /** `prefix [*] suffix` expands to the column list in place of the splat. */
  lemma ExpandBareAt(ps: seq<Proxy>, prefix: string, suffix: string, mode: int)
    requires |prefix| > 0 && prefix[|prefix| - 1] == ' '
    requires '[' !in prefix && '[' !in suffix
    requires BuildColumnsSql(ps, mode).Ok?
    ensures ExpandColumnSplat(ps, prefix + "[*]" + suffix, mode) == Ok(prefix + BuildColumnsSql(ps, mode).value + suffix)
  {
    var s := prefix + "[*]" + suffix;
    var n := |prefix|;
    BareSpan(prefix, suffix);
    assert s[..n] == prefix && s[n + 3..] == suffix;
    ExpandAtSpan(ps, s, mode, prefix, suffix);
  }

  lemma BareSpan(prefix: string, suffix: string)
    requires |prefix| > 0 && prefix[|prefix| - 1] == ' '
    requires '[' !in prefix && '[' !in suffix
    ensures SplatSpan(prefix + "[*]" + suffix) == (|prefix|, |prefix| + 3)
  {
    var s := prefix + "[*]" + suffix;
    var n := |prefix|;
    SoleBracket(prefix, suffix);
    SplatsAtBracket(s, n);
    NoSplatAt(s, n - 1);
    assert forall k :: !OccursAt(s, AliasSplat, k);
    assert OccursAt(s, Splat, n) by { assert s[n..n + 3] == "[*]"; }
    assert IndexOf(s, Splat) == n;
    assert IndexOfFrom(s, AliasSplat, 0) == -1;
    assert Scan(s, 0, 0) == (0, 0);
  }

  /** `prefix alias.[*] suffix` expands to the column list in place of the
      qualified splat. */
  lemma ExpandAliasedAt(ps: seq<Proxy>, prefix: string, alias: string, suffix: string, mode: int)
    requires |prefix| > 0 && prefix[|prefix| - 1] == ' '
    requires '[' !in prefix && '[' !in alias && '[' !in suffix && ' ' !in alias
    requires BuildColumnsSql(ps, mode).Ok?
    ensures ExpandColumnSplat(ps, prefix + alias + ".[*]" + suffix, mode) == Ok(prefix + BuildColumnsSql(ps, mode).value + suffix)
  {
    var s := prefix + alias + ".[*]" + suffix;
    AliasedAt(prefix, alias, suffix);
    ExpandAtSpan(ps, s, mode, prefix, suffix);
  }

  /** The span of `prefix alias.[*] suffix` is exactly `alias.[*]`. */
  lemma AliasedAt(prefix: string, alias: string, suffix: string)
    requires |prefix| > 0 && prefix[|prefix| - 1] == ' '
    requires '[' !in prefix && '[' !in alias && '[' !in suffix && ' ' !in alias
    ensures var s := prefix + alias + ".[*]" + suffix;
      s[..SplatSpan(s).0] == prefix && s[SplatSpan(s).1..] == suffix
  {
    var head := prefix + alias + ".";
    var s := head + "[*]" + suffix;
    assert s == prefix + alias + ".[*]" + suffix;
    var n := |prefix|;
    var m := n + |alias|;
    AliasedSpan(head, suffix, n, m);
    assert s[..n] == prefix && s[m + 4..] == suffix;
  }

  lemma AliasedSpan(head: string, suffix: string, n: nat, m: nat)
    requires 0 < n <= m && |head| == m + 1 && head[m] == '.' && head[n - 1] == ' '
    requires forall k :: n <= k < m ==> head[k] != ' '
    requires '[' !in head && '[' !in suffix
    ensures SplatSpan(head + "[*]" + suffix) == (n, m + 4)
  {
    var s := head + "[*]" + suffix;
    SoleBracket(head, suffix);
    SplatsAtBracket(s, m + 1);
    assert OccursAt(s, AliasSplat, m) by { assert s[m..m + 4] == ".[*]"; }
    assert IndexOfFrom(s, AliasSplat, 0) == m;
    assert WordStart(s, m) == n by {
      assert s[n - 1] == ' ';
      assert forall k :: n <= k <= m ==> s[k] == head[k];
    }
    assert IndexOfFrom(s, AliasSplat, m + 4) == -1;
    assert Scan(s, n, m + 4) == (n, m + 4);
  }

  /** A splat on its own and the same splat qualified by a table alias
      expand alike. */
  lemma BareAndAliasedSplatAgree(ps: seq<Proxy>, prefix: string, alias: string, suffix: string, mode: int)
    requires |prefix| > 0 && prefix[|prefix| - 1] == ' '
    requires '[' !in prefix && '[' !in alias && '[' !in suffix && ' ' !in alias
    requires BuildColumnsSql(ps, mode).Ok?
    ensures ExpandColumnSplat(ps, prefix + "[*]" + suffix, mode)
         == ExpandColumnSplat(ps, prefix + alias + ".[*]" + suffix, mode)
         == Ok(prefix + BuildColumnsSql(ps, mode).value + suffix)
  {
    ExpandBareAt(ps, prefix, suffix, mode);
    ExpandAliasedAt(ps, prefix, alias, suffix, mode);
  }

  /** Every `.[*]` sits in its own space-separated word. */
  ghost predicate OneSplatPerWord(s: string) {
    forall i, j :: 0 <= i < j && OccursAt(s, AliasSplat, i) && OccursAt(s, AliasSplat, j) ==> ' ' in s[i..j]
  }

  lemma FirstSplatOfWord(s: string, pos: nat)
    requires OneSplatPerWord(s) && OccursAt(s, AliasSplat, pos)
    ensures IndexOfFrom(s, AliasSplat, WordStart(s, pos)) == pos
  {
    var w := WordStart(s, pos);
    forall k | w <= k < pos ensures !OccursAt(s, AliasSplat, k) {
      assert forall j :: 0 <= j < pos - k ==> s[k..pos][j] == s[k + j];
      assert ' ' !in s[k..pos];
    }
  }

  /** One round of the loop as written. */
  lemma {:induction false} AsWrittenStep(s: string, start: int, end: int, fuel: nat, st: int, e2: int, f2: nat)
    requires IndexOfFrom(s, AliasSplat, end) != -1 && fuel > 0 && f2 == fuel - 1
    requires ScanStepAsWritten(s, start, end) == (st, e2)
    ensures ScanAsWritten(s, start, end, fuel) == ScanAsWritten(s, st, e2, f2)
  {
  }

  /** One round of the corrected loop. */
  lemma ScanUnfold(s: string, start: int, end: int, st: int, pos: int, e2: int)
    requires 0 <= end <= |s| && pos == IndexOfFrom(s, AliasSplat, end) && pos != -1
    requires e2 == pos + 4
    requires st == if start == 0 then WordStart(s, pos) else start
    ensures Scan(s, start, end) == Scan(s, st, e2)
  {
  }

  /** When no word holds two splats, the loop as written stops within
      `|s| + 1` rounds with the span of the corrected loop. */
  lemma {:induction false} ScanAsWrittenAgrees(s: string, start: int, end: nat, fuel: nat)
    requires OneSplatPerWord(s)
    requires end <= |s| < fuel + end
    ensures ScanAsWritten(s, start, end, fuel) == Some(Scan(s, start, end))
    decreases |s| - end
  {
    var pos := IndexOfFrom(s, AliasSplat, end);
    if pos != -1 {
      var w := WordStart(s, pos);
      FirstSplatOfWord(s, pos);
      var st := if start == 0 then w else start;
      var e2: nat := pos + 4;
      var f2: nat := fuel - 1;
      assert ScanStepAsWritten(s, start, end) == (st, e2);
      ScanAsWrittenAgrees(s, st, e2, f2);
      AsWrittenStep(s, start, end, fuel, st, e2, f2);
      ScanUnfold(s, start, end, st, pos, e2);
    } else {
      assert ScanAsWritten(s, start, end, fuel) == Some((start, end));
      assert Scan(s, start, end) == (start, end);
    }
  }

  predicate IsSelect(t: string) { StartsWith(t, "select ") || StartsWith(t, "select\n") }

  predicate IsCall(t: string) { StartsWith(t, "call ") || StartsWith(t, "call\n") }

  /** A full select is used as a derived table named `tableish`. */
  function AsDerivedTable(t: string): (r: string)
    ensures IsSelect(t) ==> r == "(" + t + ") tableish"
    ensures !IsSelect(t) ==> r == t
  {
    if IsSelect(t) then "(" + t + ") tableish" else t
  }

  /** `buildSql(tableish, woken)` on the iterator's (possibly wrapped)
      text: a `call` statement runs as given; anything else becomes a
      select of the entities' mode-1 names from the splat-expanded FROM
      text in mode 0. */
  function BuildSql(ps: seq<Proxy>, tableish: string): (r: string)
    ensures IsCall(tableish) ==> r == tableish
    ensures !IsCall(tableish) ==>
      r == BuildSelect(ps, 1).value + "from " + ExpandColumnSplat(ps, tableish, 0).value + "\n"
  {
    if IsCall(tableish) then tableish
    else
      ColumnsShape(Entities(ps), 1);
      ColumnsShape(Entities(ps), 0);
      BuildSelect(ps, 1).value + "from " + ExpandColumnSplat(ps, tableish, 0).value + "\n"
  }

  /** The statement the iterator prepares: a select is wrapped first, so it
      is never taken for a call. */
  function IteratorSql(ps: seq<Proxy>, tableish: string): (r: string)
    ensures IsSelect(tableish) ==> StartsWith(r, "select\n") && EndsWith(r, "\n")
    ensures IsCall(tableish) ==> r == tableish
  {
    if IsSelect(tableish) then
      var t := AsDerivedTable(tableish);
      DerivedTableIsNoCall(tableish);
      SelectShape(ps, t);
      BuildSql(ps, t)
    else
      BuildSql(ps, tableish)
  }

  /** A wrapped select starts with a parenthesis, not `call`. */
  lemma DerivedTableIsNoCall(t: string)
    requires IsSelect(t)
    ensures !IsCall(t) && !IsCall(AsDerivedTable(t))
  {
    assert t[0] == 's';
    assert AsDerivedTable(t)[0] == '(';
  }

  /** Any statement other than a call becomes a select ending in a newline. */
  lemma SelectShape(ps: seq<Proxy>, t: string)
    requires !IsCall(t)
    ensures StartsWith(BuildSql(ps, t), "select\n") && EndsWith(BuildSql(ps, t), "\n")
  {
    ColumnsShape(Entities(ps), 1);
    var a := BuildSelect(ps, 1).value;
    var x := ExpandColumnSplat(ps, t, 0).value;
    PrefixKept("select\n", a, "from ");
    PrefixKept("select\n", a + "from ", x);
    PrefixKept("select\n", a + "from " + x, "\n");
    EndsWithLast(a + "from " + x, "\n");
  }

  lemma PrefixKept(p: string, a: string, b: string)
    requires StartsWith(a, p)
    ensures StartsWith(a + b, p)
  {
    assert (a + b)[..|p|] == a[..|p|];
  }

  lemma EndsWithLast(a: string, b: string)
    ensures EndsWith(a + b, b)
  {
    assert (a + b)[|a|..] == b;
  }

  // ---------------------------------------------------------------------
  // Reading result rows
  // ---------------------------------------------------------------------

  /** A result row: the column values in select-list order (`getObject(1)`
      is element 0); `None` is SQL NULL. */
  type ResultRow = seq<Option<Value>>

  /** `rs.getObject(i)` for 1-based `i`; an index past the row is a JDBC
      error. */
  function GetObject(row: ResultRow, i: int): (r: Outcome<Option<Value>>)
    ensures r.Ok? <==> 1 <= i <= |row|
    ensures r.Ok? ==> r.value == row[i - 1]
  {
    if 1 <= i <= |row| then Ok(row[i - 1]) else Throw(Wrapped(SqlFailure("column index out of range")))
  }

  /** `setColumnValue`: a null removes the key, anything else is stored. */
  function SetColumnValue(m: map<string, Value>, column: string, v: Option<Value>): (r: map<string, Value>)
    ensures Lookup(r, column) == v
    ensures forall k :: k != column ==> Lookup(r, k) == Lookup(m, k)
  {
    match v
    case None => m - {column}
    case Some(x) => m[column := x]
  }

  /** `mapResultRow` reading from result column `first` on (the source
      always starts at column 1): the listed columns in order, then `id`
      when the entity has one. */
  function MapResultRow(hasId: bool, m: map<string, Value>, cols: seq<string>, row: ResultRow, first: int)
    : (r: Outcome<map<string, Value>>)
    requires first >= 1
    ensures r.Ok? <==> |cols| + (if hasId then 1 else 0) == 0 || first - 1 + |cols| + (if hasId then 1 else 0) <= |row|
    decreases |cols|
  {
    if |cols| == 0 then
      if hasId then
        var v :- GetObject(row, first);
        Ok(SetColumnValue(m, "id", v))
      else Ok(m)
    else
      var v :- GetObject(row, first);
      MapResultRow(hasId, SetColumnValue(m, cols[0], v), cols[1..], row, first + 1)
  }

  /** Each listed column gets the value at its position from `first`,
      provided the columns are distinct and none is the key `id`. */
  lemma {:induction false} MapResultRowReads(hasId: bool, m: map<string, Value>, cols: seq<string>, row: ResultRow,
                                             first: int, k: nat)
    requires Distinct(cols) && k < |cols| && "id" !in cols
    requires 1 <= first && first - 1 + |cols| + (if hasId then 1 else 0) <= |row|
    ensures Lookup(MapResultRow(hasId, m, cols, row, first).value, cols[k]) == row[first - 1 + k]
    decreases |cols|
  {
    var m1 := SetColumnValue(m, cols[0], row[first - 1]);
    if k == 0 {
      MapResultRowKeeps(hasId, m1, cols[1..], row, first + 1, cols[0]);
    } else {
      assert cols[1..][k - 1] == cols[k];
      MapResultRowReads(hasId, m1, cols[1..], row, first + 1, k - 1);
    }
  }

  /** Keys other than the listed columns and `id` keep their values. */
  lemma {:induction false} MapResultRowKeeps(hasId: bool, m: map<string, Value>, cols: seq<string>, row: ResultRow,
                                             first: int, key: string)
    requires key !in cols && key != "id"
    requires 1 <= first && first - 1 + |cols| + (if hasId then 1 else 0) <= |row|
    ensures Lookup(MapResultRow(hasId, m, cols, row, first).value, key) == Lookup(m, key)
    decreases |cols|
  {
    if |cols| > 0 {
      MapResultRowKeeps(hasId, SetColumnValue(m, cols[0], row[first - 1]), cols[1..], row, first + 1, key);
    }
  }

  /** The identity is read right after the listed columns. */
  lemma {:induction false} MapResultRowReadsId(m: map<string, Value>, cols: seq<string>, row: ResultRow, first: int)
    requires 1 <= first && first + |cols| <= |row|
    ensures Lookup(MapResultRow(true, m, cols, row, first).value, "id") == row[first - 1 + |cols|]
    decreases |cols|
  {
    if |cols| > 0 {
      MapResultRowReadsId(SetColumnValue(m, cols[0], row[first - 1]), cols[1..], row, first + 1);
    }
  }

  /** A fresh proxy's map filled from the row at `first`. */
  function ReadEntity(e: Entity, row: ResultRow, first: int): Outcome<map<string, Value>>
    requires first >= 1
  {
    MapResultRow(e.idColumn, map[], e.columns, row, first)
  }

  /** The number of select-list items an entity occupies: its listed
      columns plus the identity entry or its null placeholder. */
  function Widths(es: seq<Entity>): (r: seq<nat>)
    ensures |r| == |es|
    ensures forall i :: 0 <= i < |es| ==> r[i] == |es[i].columns| + 1
  {
    seq(|es|, i requires 0 <= i < |es| => |es[i].columns| + 1)
  }

  /** The sum of the first `i` widths. */
  function Start(ws: seq<nat>, i: nat): nat
    requires i <= |ws|
  {
    if i == 0 then 0 else ws[0] + Start(ws[1..], i - 1)
  }

  lemma {:induction false} StartStep(ws: seq<nat>, i: nat)
    requires i < |ws|
    ensures Start(ws, i + 1) == Start(ws, i) + ws[i]
  {
    if i > 0 {
      StartStep(ws[1..], i - 1);
    }
  }

  lemma {:induction false} StartMonotone(ws: seq<nat>, i: nat, j: nat)
    requires i <= j <= |ws|
    ensures Start(ws, i) <= Start(ws, j)
    decreases j - i
  {
    if i < j {
      StartStep(ws, j - 1);
      StartMonotone(ws, i, j - 1);
    }
  }

  /** The lists one after another. */
  function Flatten(xss: seq<seq<string>>): seq<string> {
    if |xss| == 0 then [] else xss[0] + Flatten(xss[1..])
  }

  function Lengths(xss: seq<seq<string>>): (r: seq<nat>)
    ensures |r| == |xss|
    ensures forall i :: 0 <= i < |xss| ==> r[i] == |xss[i]|
  {
    seq(|xss|, i requires 0 <= i < |xss| => |xss[i]|)
  }

  /** Item `k` of list `i` sits in the flattened list after the items of
      the lists before it. */
  lemma {:induction false} FlattenAt(xss: seq<seq<string>>, i: nat, k: nat)
    requires i < |xss| && k < |xss[i]|
    ensures Start(Lengths(xss), i) + k < |Flatten(xss)|
    ensures Flatten(xss)[Start(Lengths(xss), i) + k] == xss[i][k]
  {
    if i > 0 {
      assert Lengths(xss)[1..] == Lengths(xss[1..]);
      FlattenAt(xss[1..], i - 1, k);
    }
  }

  lemma {:induction false} FlattenLength(xss: seq<seq<string>>)
    ensures |Flatten(xss)| == Start(Lengths(xss), |xss|)
  {
    if |xss| > 0 {
      assert Lengths(xss)[1..] == Lengths(xss[1..]);
      FlattenLength(xss[1..]);
    }
  }

  function ItemLists(es: seq<Entity>, mode: int): (r: seq<seq<string>>)
    requires ValidMode(mode)
    ensures |r| == |es|
    ensures forall i :: 0 <= i < |es| ==> r[i] == EntityItems(es[i], mode)
    ensures Lengths(r) == Widths(es)
  {
    seq(|es|, i requires 0 <= i < |es| => EntityItems(es[i], mode))
  }

  /** The select list of a statement over the entities, item by item. */
  function SelectItems(es: seq<Entity>, mode: int): seq<string>
    requires ValidMode(mode)
  {
    Flatten(ItemLists(es, mode))
  }

  /** The iterator's `get` as written: every entity is read from result
      column 1. */
  function GetRowAsWritten(es: seq<Entity>, row: ResultRow): (r: Outcome<seq<map<string, Value>>>)
    ensures r.Ok? ==> |r.value| == |es|
    ensures r.Ok? ==> forall i :: 0 <= i < |es| ==> ReadEntity(es[i], row, 1) == Ok(r.value[i])
    decreases |es|
  {
    if |es| == 0 then Ok([])
    else
      var m :- ReadEntity(es[0], row, 1);
      var rest :- GetRowAsWritten(es[1..], row);
      Ok([m] + rest)
  }

  /** Two entities without identity, one column each: the select list is
      `a, null id, b, null id`, yet the second entity's `b` receives the
      first result column, the value of the first entity's `a`. */
  lemma SecondEntityReadsFirstColumns()
    ensures var es := [Entity("A.", '`', false, ["`a`"]), Entity("B.", '`', false, ["`b`"])];
      var row := [Some(LongVal(1)), None, Some(LongVal(2)), None];
      && GetRowAsWritten(es, row).Ok?
      && Lookup(GetRowAsWritten(es, row).value[1], "`b`") == Some(LongVal(1))
  {
    var es := [Entity("A.", '`', false, ["`a`"]), Entity("B.", '`', false, ["`b`"])];
    var row: ResultRow := [Some(LongVal(1)), None, Some(LongVal(2)), None];
    MapResultRowReads(false, map[], ["`b`"], row, 1, 0);
    assert GetRowAsWritten(es, row).Ok?;
    assert GetRowAsWritten(es, row).value[1] == ReadEntity(es[1], row, 1).value;
  }

  /** The reading the select list calls for: entity `i` from the result
      column after the items of the entities before it. */
  function GetRowFrom(es: seq<Entity>, row: ResultRow, i: nat): (r: Outcome<seq<map<string, Value>>>)
    requires i <= |es|
    ensures r.Ok? ==> |r.value| == |es| - i
    ensures Start(Widths(es), |es|) <= |row| ==> r.Ok?
    decreases |es| - i
  {
    if i == |es| then Ok([])
    else
      StartStep(Widths(es), i);
      StartMonotone(Widths(es), i + 1, |es|);
      var m :- ReadEntity(es[i], row, Start(Widths(es), i) + 1);
      var rest :- GetRowFrom(es, row, i + 1);
      Ok([m] + rest)
  }

  /** Entity `j` is read from the result column after the items of the
      entities before it. */
  lemma {:induction false} GetRowFromReads(es: seq<Entity>, row: ResultRow, i: nat, j: nat)
    requires i <= j < |es| && GetRowFrom(es, row, i).Ok?
    ensures ReadEntity(es[j], row, Start(Widths(es), j) + 1) == Ok(GetRowFrom(es, row, i).value[j - i])
    decreases j - i
  {
    var m := ReadEntity(es[i], row, Start(Widths(es), i) + 1);
    var rest := GetRowFrom(es, row, i + 1);
    assert m.Ok? && rest.Ok?;
    assert GetRowFrom(es, row, i).value == [m.value] + rest.value;
    if j > i {
      GetRowFromReads(es, row, i + 1, j);
    }
  }

  /** `get` with each entity read at its own offset. */
  function GetRow(es: seq<Entity>, row: ResultRow): (r: Outcome<seq<map<string, Value>>>)
    ensures Start(Widths(es), |es|) <= |row| ==> r.Ok?
    ensures r.Ok? ==> |r.value| == |es|
  {
    GetRowFrom(es, row, 0)
  }

  /** For a row with one value per select-list item, every entity's listed
      column receives the value of the result column whose select-list
      name is that column's mode-1 name. */
  lemma GetRowReadsOwnColumns(es: seq<Entity>, row: ResultRow, i: nat, k: nat)
    requires |row| == |SelectItems(es, 1)|
    requires i < |es| && k < |es[i].columns|
    requires Distinct(es[i].columns) && "id" !in es[i].columns
    ensures Start(Widths(es), i) + k < |row|
    ensures SelectItems(es, 1)[Start(Widths(es), i) + k] == ColumnAs(es[i], es[i].columns[k])
    ensures GetRow(es, row).Ok?
    ensures Lookup(GetRow(es, row).value[i], es[i].columns[k]) == row[Start(Widths(es), i) + k]
  {
    SelectItemOf(es, i, k);
    SelectItemsLength(es);
    ReadsColumnAt(es, row, i, k);
  }

  lemma SelectItemsLength(es: seq<Entity>)
    ensures |SelectItems(es, 1)| == Start(Widths(es), |es|)
  {
    FlattenLength(ItemLists(es, 1));
  }

  /** Entity `i`'s column `k` is read from result column `Start + k + 1`. */
  lemma ReadsColumnAt(es: seq<Entity>, row: ResultRow, i: nat, k: nat)
    requires i < |es| && k < |es[i].columns| && Start(Widths(es), |es|) <= |row|
    requires Distinct(es[i].columns) && "id" !in es[i].columns
    ensures Start(Widths(es), i) + k < |row|
    ensures GetRow(es, row).Ok?
    ensures Lookup(GetRow(es, row).value[i], es[i].columns[k]) == row[Start(Widths(es), i) + k]
  {
    var first := EntityReadAt(es, row, i);
    var e := es[i];
    MapResultRowReads(e.idColumn, map[], e.columns, row, first, k);
  }

  /** Where item `k` of entity `i` sits in the select list. */
  lemma SelectItemOf(es: seq<Entity>, i: nat, k: nat)
    requires i < |es| && k < |es[i].columns|
    ensures Start(Widths(es), i) + k < |SelectItems(es, 1)|
    ensures SelectItems(es, 1)[Start(Widths(es), i) + k] == ColumnAs(es[i], es[i].columns[k])
  {
    var xss := ItemLists(es, 1);
    FlattenAt(xss, i, k);
    ColumnItem(es[i], k);
  }

  /** Item `k` of an entity's mode-1 block is its column's result name. */
  lemma ColumnItem(e: Entity, k: nat)
    requires k < |e.columns|
    ensures EntityItems(e, 1)[k] == ColumnAs(e, e.columns[k])
  {
  }


  /** A row with all the values needed is read in full, entity `i` from
      the result column after the items of the entities before it. */
  lemma EntityReadAt(es: seq<Entity>, row: ResultRow, i: nat) returns (first: int)
    requires i < |es| && Start(Widths(es), |es|) <= |row|
    ensures first == Start(Widths(es), i) + 1
    ensures first - 1 + |es[i].columns| + (if es[i].idColumn then 1 else 0) <= |row|
    ensures GetRow(es, row).Ok? && ReadEntity(es[i], row, first) == Ok(GetRow(es, row).value[i])
  {
    var ws := Widths(es);
    StartStep(ws, i);
    StartMonotone(ws, i + 1, |es|);
    first := Start(ws, i) + 1;
    GetRowFromReads(es, row, 0, i);
  }
}

=== FILE: statementreader.dfy ===
/** The SQL script reader of the migration driver (`StatementReader`):
    the line preprocessing its constructor does, and `readStatement`,
    which takes the next `;`-terminated statement from what is left of
    the preprocessed text, copying quoted strings verbatim. */
module StatementReader {
  import opened JavaLang
  import opened JString

  // ---------------------------------------------------------------------
  // Preprocessing
  // ---------------------------------------------------------------------

  /** The line that switches delimiter mode on. */
  const DelimiterOn: string := "DELIMITER $$"

  /** `line.replaceAll(";", "%3B")`. */
  function EscapeSemicolons(s: string): (r: string)
    ensures ';' !in r
    ensures |r| == |s| + 2 * Count(s, ';')
    ensures ';' !in s ==> r == s
  {
    if |s| == 0 then []
    else (if s[0] == ';' then "%3B" else [s[0]]) + EscapeSemicolons(s[1..])
  }

  /** A trimmed line in delimiter mode: its semicolons escaped, and a
      trailing `$$` turned into the statement's `;`. */
  function Delimited(line: string): string {
    var t := EscapeSemicolons(line);
    if EndsWith(t, "$$") then t[..|t| - 2] + ";" else t
  }

  /** A line in delimiter mode holds a `;` only as its last character, and
      does precisely when it ended with `$$`. */
  lemma DelimitedSemicolon(line: string)
    ensures var d := Delimited(line);
      && (';' in d <==> EndsWith(EscapeSemicolons(line), "$$"))
      && (';' in d ==> d[|d| - 1] == ';' && ';' !in d[..|d| - 1])
  {
    var t := EscapeSemicolons(line);
    if EndsWith(t, "$$") {
      var d := t[..|t| - 2] + ";";
      assert d[..|d| - 1] == t[..|t| - 2];
      assert forall c :: c in t[..|t| - 2] ==> c in t;
    }
  }

  /** The constructor's loop over the script's lines: each line trimmed
      and, in delimiter mode, delimited; the `DELIMITER $$` line switches
      the mode on for good and is dropped, as are `--` comment lines;
      every other line is kept, followed by a newline. */
  function Preprocess(lines: seq<string>, delimiterMode: bool): string
  {
    if |lines| == 0 then ""
    else
      var t := Trim(lines[0]);
      var line := if delimiterMode then Delimited(t) else t;
      if StartsWith(line, DelimiterOn) then Preprocess(lines[1..], true)
      else if StartsWith(line, "--") then Preprocess(lines[1..], delimiterMode)
      else line + "\n" + Preprocess(lines[1..], delimiterMode)
  }

  /** The lines a script without a `DELIMITER $$` line keeps: trimmed,
      comments left out. */
  function KeptLines(lines: seq<string>): (r: seq<string>)
    ensures |r| <= |lines|
  {
    if |lines| == 0 then []
    else (if StartsWith(Trim(lines[0]), "--") then [] else [Trim(lines[0])]) + KeptLines(lines[1..])
  }

  /** Lines, each followed by a newline. */
  function Lines(ls: seq<string>): string {
    if |ls| == 0 then "" else ls[0] + "\n" + Lines(ls[1..])
  }

  /** Without delimiter mode the text is the kept lines, each ended by a
      newline. */
  lemma {:induction false} PlainScript(lines: seq<string>)
    requires forall i :: 0 <= i < |lines| ==> !StartsWith(Trim(lines[i]), DelimiterOn)
    ensures Preprocess(lines, false) == Lines(KeptLines(lines))
  {
    if |lines| > 0 {
      assert !StartsWith(Trim(lines[0]), DelimiterOn);
      PlainScript(lines[1..]);
      var t := Trim(lines[0]);
      if !StartsWith(t, "--") {
        var k := [t] + KeptLines(lines[1..]);
        assert Preprocess(lines, false) == t + "\n" + Preprocess(lines[1..], false);
        assert KeptLines(lines) == k;
        assert k[0] == t && k[1..] == KeptLines(lines[1..]);
        assert Lines(k) == t + "\n" + Lines(KeptLines(lines[1..]));
      } else {
        assert Preprocess(lines, false) == Preprocess(lines[1..], false);
        assert KeptLines(lines) == [] + KeptLines(lines[1..]);
        assert [] + KeptLines(lines[1..]) == KeptLines(lines[1..]);
      }
    }
  }

  /** The lines a script keeps once delimiter mode is on: each trimmed
      and delimited, the mode line and comments left out. */
  function DelimitedLines(lines: seq<string>): (r: seq<string>)
    ensures |r| <= |lines|
    ensures forall i :: 0 <= i < |r| ==> !StartsWith(r[i], DelimiterOn) && !StartsWith(r[i], "--")
  {
    if |lines| == 0 then []
    else
      var d := Delimited(Trim(lines[0]));
      (if StartsWith(d, DelimiterOn) || StartsWith(d, "--") then [] else [d]) + DelimitedLines(lines[1..])
  }

  /** In delimiter mode the text is the delimited lines that are kept,
      each ended by a newline. */
  lemma {:induction false} DelimiterModeScript(lines: seq<string>)
    ensures Preprocess(lines, true) == Lines(DelimitedLines(lines))
  {
    if |lines| > 0 {
      DelimiterModeScript(lines[1..]);
      var d := Delimited(Trim(lines[0]));
      if StartsWith(d, DelimiterOn) || StartsWith(d, "--") {
        assert Preprocess(lines, true) == Preprocess(lines[1..], true);
        assert DelimitedLines(lines) == [] + DelimitedLines(lines[1..]);
        assert [] + DelimitedLines(lines[1..]) == DelimitedLines(lines[1..]);
      } else {
        var k := [d] + DelimitedLines(lines[1..]);
        assert Preprocess(lines, true) == d + "\n" + Preprocess(lines[1..], true);
        assert DelimitedLines(lines) == k;
        assert k[0] == d && k[1..] == DelimitedLines(lines[1..]);
        assert Lines(k) == d + "\n" + Lines(DelimitedLines(lines[1..]));
      }
    }
  }

  /** Any script: the lines before the first `DELIMITER $$` line are kept
      plain, the mode line is dropped, and every line after it is read in
      delimiter mode. */
  lemma {:induction false} ScriptSplit(lines: seq<string>, k: nat)
    requires k < |lines| && StartsWith(Trim(lines[k]), DelimiterOn)
    requires forall i :: 0 <= i < k ==> !StartsWith(Trim(lines[i]), DelimiterOn)
    ensures Preprocess(lines, false) == Lines(KeptLines(lines[..k])) + Lines(DelimitedLines(lines[k + 1..]))
  {
    var rest := Preprocess(lines[k..], false);
    assert Preprocess(lines, false) == Lines(KeptLines(lines[..k])) + rest by {
      PlainFrom(lines, 0, k);
      assert lines[0..] == lines && lines[0..k] == lines[..k];
    }
    assert rest == Lines(DelimitedLines(lines[k + 1..])) by {
      ModeLineFirst(lines[k..]);
      assert lines[k..][1..] == lines[k + 1..];
    }
  }

  /** From line `j` on, the lines before any mode line at `k` are kept
      plain, whatever follows them. */
  lemma {:induction false} PlainFrom(lines: seq<string>, j: nat, k: nat)
    requires j <= k <= |lines|
    requires forall i :: j <= i < k ==> !StartsWith(Trim(lines[i]), DelimiterOn)
    ensures Preprocess(lines[j..], false) == Lines(KeptLines(lines[j..k])) + Preprocess(lines[k..], false)
    decreases k - j
  {
    if j == k {
      assert KeptLines(lines[j..k]) == [];
      assert "" + Preprocess(lines[k..], false) == Preprocess(lines[k..], false);
    } else {
      var t := Trim(lines[j]);
      var middle := Lines(KeptLines(lines[j + 1..k]));
      var tail := Preprocess(lines[k..], false);
      assert lines[j..][0] == lines[j] && lines[j..][1..] == lines[j + 1..];
      assert lines[j..k][0] == lines[j] && lines[j..k][1..] == lines[j + 1..k];
      assert !StartsWith(t, DelimiterOn);
      assert Preprocess(lines[j + 1..], false) == middle + tail by {
        PlainFrom(lines, j + 1, k);
      }
      if StartsWith(t, "--") {
        assert KeptLines(lines[j..k]) == [] + KeptLines(lines[j + 1..k]);
        assert [] + KeptLines(lines[j + 1..k]) == KeptLines(lines[j + 1..k]);
      } else {
        var kept := [t] + KeptLines(lines[j + 1..k]);
        assert KeptLines(lines[j..k]) == kept;
        assert kept[0] == t && kept[1..] == KeptLines(lines[j + 1..k]);
        assert Lines(kept) == t + "\n" + middle;
        Assoc(t + "\n", middle, tail);
      }
    }
  }

  /** A script whose first line is the mode line is read in delimiter mode
      from its second line on. */
  lemma {:induction false} ModeLineFirst(lines: seq<string>)
    requires |lines| > 0 && StartsWith(Trim(lines[0]), DelimiterOn)
    ensures Preprocess(lines, false) == Lines(DelimitedLines(lines[1..]))
  {
    DelimiterModeScript(lines[1..]);
    assert Preprocess(lines, false) == Preprocess(lines[1..], true);
  }

  /** Delimiter mode cannot be left: a `DELIMITER ;` line meant to end it
      is kept as text, its semicolon escaped. */
  lemma DelimiterModeSticks()
    ensures Preprocess(["DELIMITER ;"], true) == "DELIMITER %3B\n"
  {
    var t := "DELIMITER ;";
    assert !IsTrimmable(t[0]) && !IsTrimmable(t[|t| - 1]);
    TrimOfFramed(t);
    DelimitEnd();
    EscapedLineKept(t);
  }

  /** A trimmed line that delimits to `DELIMITER %3B` is kept. */
  lemma EscapedLineKept(t: string)
    requires Trim(t) == t && Delimited(t) == "DELIMITER %3B"
    ensures Preprocess([t], true) == "DELIMITER %3B\n"
  {
    var d := "DELIMITER %3B";
    assert !StartsWith(d, DelimiterOn) by {
      assert d[10] != DelimiterOn[10];
    }
    assert !StartsWith(d, "--") by {
      assert d[0] != '-';
    }
    DelimitedKept(t, d);
  }

  /** One line in delimiter mode that neither switches modes nor is a
      comment is kept as delimited. */
  lemma DelimitedKept(t: string, d: string)
    requires Trim(t) == t && Delimited(t) == d
    requires !StartsWith(d, DelimiterOn) && !StartsWith(d, "--")
    ensures Preprocess([t], true) == d + "\n"
  {
    assert [t][1..] == [];
  }

  /** The line `DELIMITER ;` in delimiter mode. */
  lemma DelimitEnd()
    ensures Delimited("DELIMITER ;") == "DELIMITER %3B"
  {
    var head := "DELIMITER ";
    assert "DELIMITER ;" == head + ";";
    EscapeLast(head);
    var e := head + "%3B";
    assert e == "DELIMITER %3B";
    assert !EndsWith(e, "$$") by {
      assert e[|e| - 1] == 'B';
    }
  }

  /** A text ending in its only semicolon has that one escaped. */
  lemma EscapeLast(head: string)
    requires ';' !in head
    ensures EscapeSemicolons(head + ";") == head + "%3B"
  {
    EscapeAppend(head, ";");
    assert EscapeSemicolons(head) == head;
    var semi: string := [';'];
    assert semi[1..] == [];
    assert EscapeSemicolons(semi) == "%3B";
  }

  lemma {:induction false} EscapeAppend(a: string, b: string)
    ensures EscapeSemicolons(a + b) == EscapeSemicolons(a) + EscapeSemicolons(b)
  {
    if |a| > 0 {
      assert (a + b)[1..] == a[1..] + b;
      EscapeAppend(a[1..], b);
    } else {
      assert a + b == b;
    }
  }

  // ---------------------------------------------------------------------
  // Reading statements
  // ---------------------------------------------------------------------

  /** The exception for an escape the reader does not know. */
  const UnexpectedEscape: Exn := Runtime("Unexpected escape")

  /** The exception for a string the text does not close; its message
      names the quote's character code. */
  function QuoteMissing(q: char): Exn {
    Runtime("Expected closing quote of type (" + (if q == '\'' then "39" else "34") + ")")
  }

  /** What an escaped character stands for. As written the tab case
      matches a literal tab character after the backslash; `fixed` also
      accepts the letter `t`, as the other letter cases evidently intend. */
  function Escape(c: char, fixed: bool): (r: Option<char>)
    ensures c == 'n' ==> r == Some('\n')
    ensures c == 'r' ==> r == Some('\r')
    ensures c == 't' ==> (r.Some? <==> fixed) && (fixed ==> r == Some('\t'))
    ensures c == '\\' || c == '\'' || c == '"' || c == '\t' ==> r == Some(c)
    ensures r.Some? <==> c in "nr\\'\"\t" || (fixed && c == 't')
  {
    match c
    case 'n' => Some('\n')
    case 'r' => Some('\r')
    case '\\' => Some('\\')
    case '\'' => Some('\'')
    case '"' => Some('"')
    case '\t' => Some('\t')
    case 't' => if fixed then Some('\t') else None
    case _ => None
  }

  /** `readQuotedString(q)` after the opening quote: characters are copied
      up to and including the closing quote; a backslash is copied and
      followed by what the next character stands for. Gives the text
      copied and what is left of the input. */
  function Quoted(s: string, q: char, fixed: bool): (r: Outcome<(string, string)>)
    ensures r.Ok? ==> |r.value.1| < |s| && EndsWith(s, r.value.1)
    ensures r.Ok? ==> |r.value.0| > 0 && r.value.0[|r.value.0| - 1] == q
    decreases |s|
  {
    if |s| == 0 then Throw(QuoteMissing(q))
    else if s[0] == '\\' then
      if |s| == 1 then Throw(UnexpectedEscape)
      else
        match Escape(s[1], fixed)
        case None => Throw(UnexpectedEscape)
        case Some(d) =>
          match Quoted(s[2..], q, fixed)
          case Throw(e) => Throw(e)
          case Ok(more) =>
            SuffixOfTail(s, 2, more.1);
            Ok((['\\', d] + more.0, more.1))
    else if s[0] == q then Ok(([q], s[1..]))
    else
      match Quoted(s[1..], q, fixed)
      case Throw(e) => Throw(e)
      case Ok(more) =>
        SuffixOfTail(s, 1, more.1);
        Ok(([s[0]] + more.0, more.1))
  }

  /** A backslash at the end of the input, or before a character that is
      not an escape, fails the string. */
  lemma UnknownEscapeFails(c: char, rest: string, q: char, fixed: bool)
    requires Escape(c, fixed).None?
    ensures Quoted(['\\', c] + rest, q, fixed) == Throw(UnexpectedEscape)
    ensures Quoted(['\\'], q, fixed) == Throw(UnexpectedEscape)
  {
    assert (['\\', c] + rest)[1] == c;
  }

  /** What ends a tail of a text ends the text. */
  lemma SuffixOfTail(s: string, k: nat, t: string)
    requires k <= |s| && EndsWith(s[k..], t)
    ensures EndsWith(s, t)
  {
    assert s[k..][|s[k..]| - |t|..] == s[|s| - |t|..];
  }

  /** A character outside quotes: tab, newline and carriage return become
      a space. */
  function Spaced(c: char): char {
    if c == '\t' || c == '\n' || c == '\r' then ' ' else c
  }

  /** The loop of `readStatement`: up to the first `;` outside quotes, or
      the end. Gives the statement's text and what is left. */
  function StatementLoop(s: string, text: string, fixed: bool): (r: Outcome<(string, string)>)
    decreases |s|
  {
    if |s| == 0 then Ok((text, []))
    else if s[0] == ';' then Ok((text, s[1..]))
    else if s[0] == '\'' || s[0] == '"' then
      match Quoted(s[1..], s[0], fixed)
      case Throw(e) => Throw(e)
      case Ok(quoted) => StatementLoop(quoted.1, text + [s[0]] + quoted.0, fixed)
    else StatementLoop(s[1..], text + [Spaced(s[0])], fixed)
  }

  /** A statement read: its trimmed text, null when empty, and the rest of
      the input. */
  datatype Read = Read(statement: Option<string>, rest: string)

  function ReadWith(s: string, fixed: bool): (r: Outcome<Read>)
    ensures r.Ok? && r.value.statement.Some? ==> |r.value.statement.value| > 0
    ensures r.Ok? ==> |r.value.rest| <= |s|
  {
    match StatementLoop(s, "", fixed)
    case Throw(e) => Throw(e)
    case Ok(read) =>
      var t := Trim(read.0);
      LoopRestShorter(s, "", fixed);
      Ok(Read(if t == "" then None else Some(t), read.1))
  }

  lemma {:induction false} LoopRestShorter(s: string, text: string, fixed: bool)
    ensures StatementLoop(s, text, fixed).Ok? ==> |StatementLoop(s, text, fixed).value.1| <= |s|
    decreases |s|
  {
    if |s| > 0 && s[0] != ';' {
      if s[0] == '\'' || s[0] == '"' {
        var q := Quoted(s[1..], s[0], fixed);
        if q.Ok? { LoopRestShorter(q.value.1, text + [s[0]] + q.value.0, fixed); }
      } else {
        LoopRestShorter(s[1..], text + [Spaced(s[0])], fixed);
      }
    }
  }

  /** `readStatement()` as written. */
  function ReadStatementAsWritten(s: string): Outcome<Read> {
    ReadWith(s, false)
  }

  /** `readStatement()` with `\t` decoded like `\n` and `\r`. */
  function ReadStatement(s: string): Outcome<Read> {
    ReadWith(s, true)
  }

  /** A string body without its quote or a backslash is copied verbatim,
      with its closing quote. */
  lemma {:induction false} QuotedVerbatim(b: string, q: char, rest: string, fixed: bool)
    requires q != '\\' && q !in b && '\\' !in b
    ensures Quoted(b + [q] + rest, q, fixed) == Ok((b + [q], rest))
  {
    if |b| == 0 {
      assert b + [q] + rest == [q] + rest;
      assert ([q] + rest)[1..] == rest;
    } else {
      assert (b + [q] + rest)[1..] == b[1..] + [q] + rest;
      QuotedVerbatim(b[1..], q, rest, fixed);
      assert [b[0]] + (b[1..] + [q]) == b + [q];
    }
  }

  /** An escaped character never closes the string: after a backslash
      the quote itself is copied and the string goes on. */
  lemma EscapedQuoteDoesNotClose(q: char, rest: string, fixed: bool)
    requires q == '\'' || q == '"'
    ensures Quoted(['\\', q] + rest, q, fixed)
      == match Quoted(rest, q, fixed)
         case Throw(e) => Throw(e)
         case Ok(more) => Ok((['\\', q] + more.0, more.1))
  {
    assert (['\\', q] + rest)[2..] == rest;
  }

  /** A body without its quote or a backslash that the input never closes
      fails. */
  lemma {:induction false} UnclosedFails(b: string, q: char, fixed: bool)
    requires q !in b && '\\' !in b
    ensures Quoted(b, q, fixed) == Throw(QuoteMissing(q))
  {
    if |b| > 0 {
      UnclosedFails(b[1..], q, fixed);
    }
  }

  /** Text without quotes is read up to the first `;`, whitespace
      controls made spaces. */
  lemma {:induction false} PlainLoop(a: string, b: string, text: string, fixed: bool)
    requires ';' !in a && '\'' !in a && '"' !in a
    ensures StatementLoop(a + ";" + b, text, fixed) == Ok((text + SpacedText(a), b))
  {
    if |a| == 0 {
      assert a + ";" + b == ";" + b;
      assert (";" + b)[1..] == b;
      assert text + SpacedText(a) == text;
    } else {
      assert (a + ";" + b)[1..] == a[1..] + ";" + b;
      PlainLoop(a[1..], b, text + [Spaced(a[0])], fixed);
      assert text + [Spaced(a[0])] + SpacedText(a[1..]) == text + SpacedText(a);
    }
  }

  /** Text with its whitespace controls made spaces. */
  function SpacedText(s: string): (r: string)
    ensures |r| == |s|
    ensures forall k :: 0 <= k < |s| ==> r[k] == Spaced(s[k])
  {
    if |s| == 0 then [] else [Spaced(s[0])] + SpacedText(s[1..])
  }

  /** A semicolon inside a quoted string does not end the statement: the
      quoted string, semicolons and all, is the statement. */
  lemma SemicolonInQuotes(b: string, rest: string)
    requires '\'' !in b && '\\' !in b
    ensures ReadStatement("'" + b + "';" + rest) == Ok(Read(Some("'" + b + "'"), rest))
    ensures ReadStatementAsWritten("'" + b + "';" + rest) == Ok(Read(Some("'" + b + "'"), rest))
  {
    QuotedStatement(b, rest, true);
    QuotedStatement(b, rest, false);
    TrimOfFramed("'" + b + "'");
  }

  lemma QuotedStatement(b: string, rest: string, fixed: bool)
    requires '\'' !in b && '\\' !in b
    ensures StatementLoop("'" + b + "';" + rest, "", fixed) == Ok(("'" + b + "'", rest))
  {
    var s := "'" + b + "';" + rest;
    assert s[0] == '\'';
    assert s[1..] == b + ['\''] + (";" + rest);
    QuotedVerbatim(b, '\'', ";" + rest, fixed);
    assert "" + [s[0]] + (b + ['\'']) == "'" + b + "'";
    assert StatementLoop(s, "", fixed) == StatementLoop(";" + rest, "'" + b + "'", fixed);
    PlainLoop("", rest, "'" + b + "'", fixed);
    assert "" + ";" + rest == ";" + rest;
  }

  /** The end of the input, or nothing but whitespace before a `;`, reads
      as null. */
  lemma EmptyReadsNull(rest: string)
    ensures ReadStatement("") == Ok(Read(None, ""))
    ensures ReadStatement(";" + rest) == Ok(Read(None, rest))
  {
    PlainLoop("", rest, "", true);
    assert ";" + rest == "" + ";" + rest;
  }

  /** The backslash-`t` escape: the reader as written refuses it, the
      corrected one keeps the backslash and puts a tab after it. */
  lemma TabEscape()
    ensures ReadStatementAsWritten("'\\t'") == Throw(UnexpectedEscape)
    ensures ReadStatement("'\\t'") == Ok(Read(Some("'\\\t'"), ""))
  {
    var s := "'\\t'";
    assert s[0] == '\'' && s[1..] == ['\\', 't', '\''];
    assert Quoted(['\\', 't', '\''], '\'', false) == Throw(UnexpectedEscape);
    EscapeThenClose('t', '\t', '\'', true);
    var text := "" + ['\''] + ['\\', '\t', '\''];
    assert StatementLoop(s, "", true) == StatementLoop("", text, true);
    assert text == "'\\\t'";
    TrimOfFramed(text);
  }

  /** A string holding one escape and then its closing quote. */
  lemma EscapeThenClose(c: char, d: char, q: char, fixed: bool)
    requires Escape(c, fixed) == Some(d) && q != '\\'
    ensures Quoted(['\\', c, q], q, fixed) == Ok((['\\', d, q], ""))
  {
    var s := ['\\', c, q];
    assert s[2..] == [q] && [q][1..] == [];
    assert Quoted([q], q, fixed) == Ok(([q], []));
    assert ['\\', d] + [q] == ['\\', d, q];
  }

  /** The correction only changes inputs with a backslash: without one
      both readers read alike. */
  lemma {:induction false} SameWithoutBackslash(s: string, text: string)
    requires '\\' !in s
    ensures StatementLoop(s, text, true) == StatementLoop(s, text, false)
    decreases |s|
  {
    if |s| > 0 && s[0] != ';' {
      if s[0] == '\'' || s[0] == '"' {
        QuotedSame(s[1..], s[0]);
        var q := Quoted(s[1..], s[0], false);
        if q.Ok? {
          assert forall c :: c in q.value.1 ==> c in s;
          SameWithoutBackslash(q.value.1, text + [s[0]] + q.value.0);
        }
      } else {
        SameWithoutBackslash(s[1..], text + [Spaced(s[0])]);
      }
    }
  }

  lemma {:induction false} QuotedSame(s: string, q: char)
    requires '\\' !in s
    ensures Quoted(s, q, true) == Quoted(s, q, false)
    decreases |s|
  {
    if |s| > 0 && s[0] != q {
      QuotedSame(s[1..], q);
    }
  }
}

=== FILE: stringutil.dfy ===
/** `MoarStringUtil`: null-passing string helpers. A Java `String` that may
    be null is an `Option<string>`. */
module StringUtil {
  import opened JavaLang
  import opened JString
  import Naming

  /** `asString(o)`: null stays null, anything else is its `toString()`. */
  function AsString<T>(o: Option<T>, toString: T -> string): (r: Option<string>)
    ensures r.None? <==> o.None?
    ensures o.Some? ==> r.value == toString(o.value)
  {
    match o
    case None => None
    case Some(v) => Some(toString(v))
  }

  /** `toLowerCase(s)`. */
  function ToLowerCase(s: Option<string>): (r: Option<string>)
    ensures r.None? <==> s.None?
    ensures s.Some? ==> |r.value| == |s.value| && forall c :: c in r.value ==> !IsAsciiUpper(c)
    ensures s.Some? ==> forall k :: 0 <= k < |s.value| ==> r.value[k] == LowerChar(s.value[k])
  {
    match s
    case None => None
    case Some(t) => Some(Lower(t))
  }

  /** `toUpperCase(s)`. */
  function ToUpperCase(s: Option<string>): (r: Option<string>)
    ensures r.None? <==> s.None?
    ensures s.Some? ==> |r.value| == |s.value| && forall c :: c in r.value ==> !IsAsciiLower(c)
    ensures s.Some? ==> forall k :: 0 <= k < |s.value| ==> r.value[k] == UpperChar(s.value[k])
  {
    match s
    case None => None
    case Some(t) => Some(Upper(t))
  }

  /** Upper-casing undoes lower-casing on a text without lower-case
      letters. */
  lemma UpperOfLower(t: string)
    requires forall c :: c in t ==> !IsAsciiLower(c)
    ensures ToUpperCase(ToLowerCase(Some(t))) == Some(t)
  {
    var l := Lower(t);
    var u := Upper(l);
    forall k | 0 <= k < |t|
      ensures u[k] == t[k]
    {
      assert t[k] in t;
      assert u[k] == UpperChar(LowerChar(t[k]));
    }
    assert u == t;
    assert ToLowerCase(Some(t)) == Some(l);
  }

  // ---------------------------------------------------------------------
  // Character filtering
  // ---------------------------------------------------------------------

  /** The characters of `s` the matcher accepts, in order. */
  function Kept(matches: char -> bool, s: string): (r: string)
    ensures |r| <= |s|
    ensures forall c :: c in r ==> matches(c)
  {
    if |s| == 0 then [] else (if matches(s[0]) then [s[0]] else []) + Kept(matches, s[1..])
  }

  /** `replaceChars(matcher, s, replacement)` as written: a loop over the
      characters that appends the accepted ones; the rejected ones are
      dropped, and the replacement character is assigned to the loop
      variable only, so it never reaches the result. */
  method ReplaceChars(matches: char -> bool, s: Option<string>, replacement: char) returns (r: Option<string>)
    ensures r.None? <==> s.None?
    ensures s.Some? ==> r.value == Kept(matches, s.value)
  {
    if s.None? {
      return None;
    }
    var t := s.value;
    var clean: string := [];
    var i := 0;
    while i < |t|
      invariant i <= |t|
      invariant clean + Kept(matches, t[i..]) == Kept(matches, t)
    {
      var c := t[i];
      assert t[i..] == [c] + t[i + 1..];
      if matches(c) {
        clean := clean + [c];
      } else {
        c := replacement;
      }
      i := i + 1;
    }
    assert t[i..] == [];
    return Some(clean);
  }

  /** Filtering keeps every accepted character and only those: a text is
      its own filtering exactly when the matcher accepts all of it. */
  lemma {:induction false} KeptAll(matches: char -> bool, s: string)
    ensures Kept(matches, s) == s <==> forall c :: c in s ==> matches(c)
  {
    if |s| > 0 {
      KeptAll(matches, s[1..]);
      assert forall c :: c in s <==> c == s[0] || c in s[1..] by {
        assert s == [s[0]] + s[1..];
      }
      if !matches(s[0]) {
        assert |Kept(matches, s)| < |s|;
      }
    }
  }

  /** An accepted character survives filtering, and as often as it
      occurs. */
  lemma {:induction false} KeptCount(matches: char -> bool, s: string, c: char)
    requires matches(c)
    ensures Count(Kept(matches, s), c) == Count(s, c)
  {
    if |s| > 0 {
      KeptCount(matches, s[1..], c);
      var h := if matches(s[0]) then [s[0]] else [];
      CountAppend(h, Kept(matches, s[1..]), c);
    }
  }

  /** Filtering twice is filtering once. */
  lemma KeptIdempotent(matches: char -> bool, s: string)
    ensures Kept(matches, Kept(matches, s)) == Kept(matches, s)
  {
    KeptAll(matches, Kept(matches, s));
  }

  /** Guava's `CharMatcher.ascii()`. */
  predicate IsAscii(c: char) { c as int < 128 }

  /** `cleanWithOnly(matcher, s)`: `replaceChars` with a space as the
      replacement. */
  method CleanWithOnly(matches: char -> bool, s: Option<string>) returns (r: Option<string>)
    ensures r.None? <==> s.None?
    ensures s.Some? ==> r.value == Kept(matches, s.value)
  {
    r := ReplaceChars(matches, s, ' ');
  }

  /** `cleanWithOnlyAscii(s)`: the ASCII characters of the text, in order;
      anything else is dropped, not blanked. */
  method CleanWithOnlyAscii(s: Option<string>) returns (r: Option<string>)
    ensures r.None? <==> s.None?
    ensures s.Some? ==> r.value == Kept(IsAscii, s.value)
    ensures s.Some? ==> forall c :: c in r.value ==> IsAscii(c)
    ensures s.Some? ==> (r.value == s.value <==> forall c :: c in s.value ==> IsAscii(c))
  {
    if s.None? {
      return None;
    }
    r := CleanWithOnly(IsAscii, s);
    KeptAll(IsAscii, s.value);
  }

  /** The documented filter: each character the matcher rejects is
      replaced by `replacement`, and the accepted ones stay in place. */
  function Blanked(matches: char -> bool, s: string, replacement: char): (r: string)
    ensures |r| == |s|
    ensures forall k :: 0 <= k < |s| ==> r[k] == (if matches(s[k]) then s[k] else replacement)
  {
    if |s| == 0 then []
    else [if matches(s[0]) then s[0] else replacement] + Blanked(matches, s[1..], replacement)
  }

  /** `replaceChars` as documented: the loop appends the replacement in
      place of a rejected character. */
  method ReplaceCharsIntended(matches: char -> bool, s: Option<string>, replacement: char) returns (r: Option<string>)
    ensures r.None? <==> s.None?
    ensures s.Some? ==> |r.value| == |s.value|
    ensures s.Some? ==> forall k :: 0 <= k < |s.value| ==>
      r.value[k] == (if matches(s.value[k]) then s.value[k] else replacement)
  {
    if s.None? {
      return None;
    }
    var t := s.value;
    var clean: string := [];
    var i := 0;
    while i < |t|
      invariant i <= |t| && |clean| == i
      invariant forall k :: 0 <= k < i ==> clean[k] == (if matches(t[k]) then t[k] else replacement)
    {
      var c := t[i];
      if !matches(c) {
        c := replacement;
      }
      clean := clean + [c];
      i := i + 1;
    }
    return Some(clean);
  }

  /** `cleanWithOnlyAscii` as documented: every character outside ASCII
      becomes a space, so the length is kept. */
  method CleanWithOnlyAsciiIntended(s: Option<string>) returns (r: Option<string>)
    ensures r.None? <==> s.None?
    ensures s.Some? ==> |r.value| == |s.value| && forall c :: c in r.value ==> IsAscii(c)
    ensures s.Some? ==> forall k :: 0 <= k < |s.value| ==> IsAscii(s.value[k]) ==> r.value[k] == s.value[k]
    ensures s.Some? ==> (r.value == s.value <==> forall c :: c in s.value ==> IsAscii(c))
  {
    r := ReplaceCharsIntended(IsAscii, s, ' ');
    if s.Some? {
      if r.value == s.value {
        forall c | c in s.value
          ensures IsAscii(c)
        {
          var k :| 0 <= k < |s.value| && s.value[k] == c;
          assert r.value[k] == c;
        }
      }
    }
  }

  /** The two filters agree exactly when the matcher accepts the whole
      text; otherwise dropping shortens the text and blanking does not. */
  lemma {:induction false} DropsUnlessAllAccepted(matches: char -> bool, s: string, replacement: char)
    ensures Kept(matches, s) == Blanked(matches, s, replacement) <==> forall c :: c in s ==> matches(c)
  {
    if forall c :: c in s ==> matches(c) {
      KeptAll(matches, s);
      var b := Blanked(matches, s, replacement);
      forall k | 0 <= k < |s|
        ensures b[k] == s[k]
      {
        assert s[k] in s;
      }
    } else {
      var c :| c in s && !matches(c);
      var j :| 0 <= j < |s| && s[j] == c;
      KeptShorter(matches, s, j);
    }
  }

  /** A text with a rejected character loses it when filtered. */
  lemma {:induction false} KeptShorter(matches: char -> bool, s: string, j: nat)
    requires j < |s| && !matches(s[j])
    ensures |Kept(matches, s)| < |s|
  {
    if j > 0 {
      KeptShorter(matches, s[1..], j - 1);
    }
  }

  /** `cleanWithOnlyAscii("a\u00e9")` drops the accented letter as
      written, and turns it into a space as documented. */
  lemma AccentDropped()
    ensures Kept(IsAscii, "a\U{e9}") == "a"
    ensures Blanked(IsAscii, "a\U{e9}", ' ') == "a "
  {
    assert "a\U{e9}"[1..] == "\U{e9}";
    assert "\U{e9}"[1..] == "";
  }

  // ---------------------------------------------------------------------
  // Case conversion and truncation
  // ---------------------------------------------------------------------

  /** `toCamelCase(name)`: UPPER_CAMEL to LOWER_CAMEL. */
  function ToCamelCase(name: string): (r: string)
    ensures |r| == |name|
    ensures |name| > 0 ==> r[0] == LowerChar(name[0]) && !IsAsciiUpper(r[0]) && r[1..] == name[1..]
  {
    Naming.LowerCamel(name)
  }

  /** A name already in lower camel case is left alone, so converting
      twice is converting once. */
  lemma ToCamelCaseIdempotent(name: string)
    ensures ToCamelCase(ToCamelCase(name)) == ToCamelCase(name)
    ensures |name| > 0 && !IsAsciiUpper(name[0]) ==> ToCamelCase(name) == name
  {
    if |name| > 0 {
      var r := ToCamelCase(name);
      assert r == [r[0]] + r[1..];
      assert name == [name[0]] + name[1..];
    }
  }

  /** `split("(?=\\p{Upper})")`: the text cut before every capital after
      the first character (a zero-width match at the start leaves no
      empty leading part). An empty text is one empty part. */
  function SplitBeforeCapitals(s: string): (r: seq<string>)
    ensures |r| > 0
    ensures |s| > 0 ==> |r[0]| > 0 && r[0][0] == s[0]
    decreases |s|
  {
    if |s| <= 1 then [s]
    else
      var rest := SplitBeforeCapitals(s[1..]);
      if IsAsciiUpper(s[1]) then [s[..1]] + rest
      else [[s[0]] + rest[0]] + rest[1..]
  }

  /** The parts joined with nothing give back the text; every part after
      the first starts with a capital, and no part has a capital after
      its first character. */
  lemma {:induction false} SplitParts(s: string)
    ensures Join("", SplitBeforeCapitals(s)) == s
    ensures forall k :: 0 < k < |SplitBeforeCapitals(s)| ==>
      (|SplitBeforeCapitals(s)[k]| > 0 && IsAsciiUpper(SplitBeforeCapitals(s)[k][0]))
    ensures forall k, j :: 0 <= k < |SplitBeforeCapitals(s)| && 0 < j < |SplitBeforeCapitals(s)[k]| ==>
      !IsAsciiUpper(SplitBeforeCapitals(s)[k][j])
    decreases |s|
  {
    if |s| > 1 {
      var rest := SplitBeforeCapitals(s[1..]);
      SplitParts(s[1..]);
      if IsAsciiUpper(s[1]) {
        JoinCons("", s[..1], rest);
        assert s == s[..1] + s[1..];
      } else {
        var head := [s[0]] + rest[0];
        JoinHead("", s[0], rest);
        assert s == [s[0]] + s[1..];
        var parts := SplitBeforeCapitals(s);
        assert parts == [head] + rest[1..];
        forall k, j | 0 <= k < |parts| && 0 < j < |parts[k]|
          ensures !IsAsciiUpper(parts[k][j])
        {
          if k == 0 {
            if j == 1 {
              assert parts[0][1] == s[1];
            } else {
              assert parts[0][j] == rest[0][j - 1];
            }
          } else {
            assert parts[k] == rest[k];
          }
        }
      }
    }
  }

  /** Lengthening the first part lengthens the join in front. */
  lemma JoinHead(sep: string, c: char, parts: seq<string>)
    requires |parts| > 0
    ensures Join(sep, [[c] + parts[0]] + parts[1..]) == [c] + Join(sep, parts)
  {
    var p := [[c] + parts[0]] + parts[1..];
    if |parts| > 1 {
      assert p[1..] == parts[1..];
    }
  }

  /** `toSnakeCase(s)`: the parts joined with `_`, lower-cased; null stays
      null. */
  function ToSnakeCase(s: Option<string>): (r: Option<string>)
    ensures r.None? <==> s.None?
  {
    match s
    case None => None
    case Some(t) => Some(Lower(Join("_", SplitBeforeCapitals(t))))
  }

  /** The split-and-join conversion is the column-name conversion the row
      proxy uses: an underscore before every capital after the first
      character, everything lower-cased. */
  lemma {:induction false} SnakeCaseAgrees(t: string)
    ensures ToSnakeCase(Some(t)) == Some(Naming.Snake(t))
    decreases |t|
  {
    if |t| == 1 {
      assert Naming.SnakeTail(t[1..]) == [];
    } else if |t| > 1 {
      var rest := SplitBeforeCapitals(t[1..]);
      SnakeCaseAgrees(t[1..]);
      var j := Join("_", rest);
      assert Lower(j) == Naming.Snake(t[1..]);
      assert Naming.Snake(t[1..]) == [LowerChar(t[1])] + Naming.SnakeTail(t[2..]) by {
        assert t[1..][1..] == t[2..];
      }
      assert Naming.SnakeTail(t[1..]) == (if IsAsciiUpper(t[1]) then ['_'] + ([LowerChar(t[1])] + Naming.SnakeTail(t[2..]))
        else [t[1]] + Naming.SnakeTail(t[2..])) by {
        assert t[1..][1..] == t[2..];
      }
      if IsAsciiUpper(t[1]) {
        JoinCons("_", t[..1], rest);
        LowerAppend(t[..1] + "_", j);
        LowerAppend(t[..1], "_");
      } else {
        JoinHead("_", t[0], rest);
        LowerAppend([t[0]], j);
      }
    }
  }

  /** Lower-casing works character by character. */
  lemma LowerAppend(a: string, b: string)
    ensures Lower(a + b) == Lower(a) + Lower(b)
  {
  }

  /** `truncate(s, size)`: the first `min(length, size)` characters; null
      stays null, and a negative size fails in `substring`. */
  function Truncate(s: Option<string>, size: int): (r: Outcome<Option<string>>)
    ensures s.None? ==> r == Ok(None)
    ensures s.Some? ==> (r.Ok? <==> size >= 0)
    ensures r.Throw? ==> r.exn == IndexOutOfBounds
    ensures s.Some? && r.Ok? ==> (r.value.Some?
      && |r.value.value| == (if size < |s.value| then size else |s.value|)
      && StartsWith(s.value, r.value.value))
  {
    match s
    case None => Ok(None)
    case Some(t) =>
      match Substring(t, 0, if |t| < size then |t| else size)
      case Throw(e) => Throw(e)
      case Ok(u) => Ok(Some(u))
  }

  /** Truncating to a length the text already fits leaves it alone, and
      truncating again to the same size changes nothing. */
  lemma TruncateIdempotent(t: string, size: nat)
    ensures size >= |t| ==> Truncate(Some(t), size) == Ok(Some(t))
    ensures Truncate(Truncate(Some(t), size).value, size) == Truncate(Some(t), size)
  {
    assert t[0..|t|] == t;
    var u := Truncate(Some(t), size).value.value;
    assert u[0..|u|] == u;
  }
}

=== FILE: sugar.dfy ===
/** The control-flow helpers of `moar.sugar.Sugar`: the bounded retry loop,
    `retryable`, the truthiness test `has`, the `require` family, `nonNull`,
    `safely` and `swallow`. A callable is modelled by what each of its calls
    does: attempt `i` (counting from 0) returns or throws `call(i)`. Sleeps
    are counted, not timed. */
module Sugar {
  import opened JavaLang

  /** A Java object as the truthiness tests see it. `JBoolean` records
      whether the reference is the canonical `Boolean.FALSE`/`TRUE`
      instance (autoboxing always yields the canonical one). */
  datatype JObject =
    | JNull
    | JBoolean(b: bool, canonical: bool)
    | JList(size: nat)
    | JStr(s: string)
    | JOther

  /** `has(object)`: false exactly for null, the canonical `Boolean.FALSE`,
      an empty list and an empty string. */
  function Has(o: JObject): (r: bool)
    ensures !r <==> o == JNull || o == JBoolean(false, true) || o == JList(0) || o == JStr("")
  {
    match o
    case JNull => false
    case JBoolean(b, canonical) => b || !canonical
    case JList(n) => n > 0
    case JStr(s) => |s| > 0
    case JOther => true
  }

  /** The exception `require(Boolean)` throws. */
  const RequiredTestFailed: Exn := Moar("Required test failed")

  /** `require(test)` on an autoboxed boolean: throws exactly when the test
      is false. */
  function Require(test: bool): (r: Outcome<()>)
    ensures r.Ok? <==> test
    ensures r.Throw? ==> r.exn == RequiredTestFailed
  {
    var boxed := JBoolean(test, true);
    if !Has(boxed) then Throw(RequiredTestFailed) else Ok(())
  }

  /** `require(Callable)`: the call's value, or its exception made a
      runtime exception; an `Error` is not caught and passes unchanged. */
  function RequireCall<T>(call: Outcome<T>): (r: Outcome<T>)
    ensures call.Ok? ==> r == call
    ensures call.Throw? && call.exn.IsException() ==> r == Throw(AsRuntime(call.exn))
    ensures call.Throw? && !call.exn.IsException() ==> r == call
    ensures r.Throw? ==> r.exn.IsRuntime() || !r.exn.IsException()
  {
    match call
    case Ok(v) => Ok(v)
    case Throw(e) => if e.IsException() then Throw(AsRuntime(e)) else Throw(e)
  }

  /** `nonNull(args...)`: the first non-null argument, or a
      `NullPointerException`. */
  function NonNull<T>(args: seq<Option<T>>): (r: Outcome<T>)
    ensures r.Throw? ==> r.exn == NullPointer
  {
    if |args| == 0 then Throw(NullPointer)
    else if args[0].Some? then Ok(args[0].value)
    else NonNull(args[1..])
  }

  /** The first non-null argument is the result. */
  lemma {:induction false} NonNullFirst<T>(args: seq<Option<T>>, k: nat)
    requires k < |args| && args[k].Some?
    requires forall i :: 0 <= i < k ==> args[i].None?
    ensures NonNull(args) == Ok(args[k].value)
  {
    if k > 0 {
      assert args[0].None?;
      NonNullFirst(args[1..], k - 1);
    }
  }

  /** With every argument null, `nonNull` throws. */
  lemma {:induction false} NonNullAllNull<T>(args: seq<Option<T>>)
    requires forall i :: 0 <= i < |args| ==> args[i].None?
    ensures NonNull(args) == Throw(NullPointer)
  {
    if |args| > 0 {
      NonNullAllNull(args[1..]);
    }
  }

  /** `nonNull(a, b)`, the two-argument form the repository layer uses for
      the table-name override. */
  lemma NonNullPair<T>(a: Option<T>, b: T)
    ensures NonNull([a, Some(b)]) == Ok(a.GetOr(b))
  {
    assert [a, Some(b)][1..] == [Some(b)];
  }

  /** `SafeResult` / `Two`: the value (null on failure) and the throwable
      (null on success). */
  datatype Safe<T> = Safe(value: Option<T>, thrown: Option<Exn>)

  /** `safely(call)`: nothing escapes; success and failure are told apart
      by which half is set. */
  function Safely<T>(call: Outcome<Option<T>>): (r: Safe<T>)
    ensures call.Ok? ==> r == Safe(call.value, None)
    ensures call.Throw? ==> r == Safe(None, Some(call.exn))
  {
    match call
    case Ok(v) => Safe(v, None)
    case Throw(e) => Safe(None, Some(e))
  }

  /** `swallow(call)`: the call's value, null on any throwable. */
  function Swallow<T>(call: Outcome<Option<T>>): (r: Option<T>)
    ensures call.Ok? ==> r == call.value
    ensures call.Throw? ==> r == None
  {
    Safely(call).value
  }

  /** `retryable(call)`: a `RetryableException` is rethrown as is, any
      other exception is wrapped in one; an `Error` is not caught. */
  function Retryable<T>(call: Outcome<T>): (r: Outcome<T>)
    ensures call.Ok? ==> r == call
    ensures call.Throw? && call.exn.Retryable? ==> r == call
    ensures call.Throw? && !call.exn.Retryable? && call.exn.IsException() ==> r == Throw(Exn.Retryable(Some(call.exn)))
    ensures call.Throw? && !call.exn.IsException() ==> r == call
  {
    match call
    case Ok(v) => Ok(v)
    case Throw(e) =>
      if e.Retryable? then Throw(e)
      else if e.IsException() then Throw(Exn.Retryable(Some(e)))
      else Throw(e)
  }

  /** After `retryable`, every exception that is an `Exception` is one the
      retry loop retries. */
  lemma RetryableFeedsRetry<T>(call: Outcome<T>)
    requires call.Throw? && call.exn.IsException()
    ensures Retryable(call).Throw? && SugarRetries(Retryable(call).exn)
  {
  }

  // ---------------------------------------------------------------------
  // The bounded retry loop
  // ---------------------------------------------------------------------

  /** How a retry loop ended: its result, how many times it called, and
      how many times it slept. */
  datatype RetryRun<T> = RetryRun(result: Outcome<T>, calls: nat, sleeps: nat)

  /** `moar.sugar.RetryableException` is what `Sugar.retry` retries. */
  predicate SugarRetries(e: Exn) { e.Retryable? }

  /** Attempt `i` failed with an exception the loop retries. */
  predicate RetriedAt<T>(call: nat -> Outcome<T>, retries: Exn -> bool, i: nat) {
    call(i).Throw? && retries(call(i).exn)
  }

  /** The loop from attempt `tries` on: a result or a non-retried exception
      ends it; a retried exception is remembered and followed by a sleep;
      when the tries are used up the last exception is thrown, and with
      none (no try was allowed) `throw null` is a `NullPointerException`. */
  function RetryLoop<T>(triesAllowed: int, call: nat -> Outcome<T>, retries: Exn -> bool, tries: nat, last: Option<Exn>)
    : (r: RetryRun<T>)
    ensures tries <= r.calls
    ensures r.sleeps <= r.calls
    decreases triesAllowed - tries
  {
    if tries < triesAllowed then
      var out := call(tries);
      if out.Throw? && retries(out.exn) then RetryLoop(triesAllowed, call, retries, tries + 1, Some(out.exn))
      else RetryRun(out, tries + 1, tries)
    else RetryRun(Throw(if last.Some? then last.value else NullPointer), tries, tries)
  }

  /** `retry(triesAllowed, retryWaitMs, call)` with the exceptions it
      retries given by `retries`. */
  function RetryWith<T>(triesAllowed: int, call: nat -> Outcome<T>, retries: Exn -> bool): RetryRun<T> {
    RetryLoop(triesAllowed, call, retries, 0, None)
  }

  /** `Sugar.retry(triesAllowed, retryWaitMs, call)`. */
  function Retry<T>(triesAllowed: int, call: nat -> Outcome<T>): (r: RetryRun<T>)
    ensures r.calls <= if triesAllowed < 0 then 0 else triesAllowed
  {
    RetryBound(triesAllowed, call, SugarRetries, 0, None);
    RetryWith(triesAllowed, call, SugarRetries)
  }

  lemma {:induction false} RetryBound<T>(triesAllowed: int, call: nat -> Outcome<T>, retries: Exn -> bool,
                                         tries: nat, last: Option<Exn>)
    ensures RetryLoop(triesAllowed, call, retries, tries, last).calls
         <= if triesAllowed < tries then tries else triesAllowed
    decreases triesAllowed - tries
  {
    if tries < triesAllowed {
      var out := call(tries);
      if out.Throw? && retries(out.exn) {
        RetryBound(triesAllowed, call, retries, tries + 1, Some(out.exn));
      }
    }
  }

  /** Every attempt before `k` failed with a retried exception. */
  predicate RetriedBefore<T>(call: nat -> Outcome<T>, retries: Exn -> bool, k: nat) {
    forall i: nat :: i < k ==> RetriedAt(call, retries, i)
  }

  /** The first attempt that returns or throws something not retried
      decides the outcome: it is call number `k + 1`, and each of the `k`
      retried failures before it was followed by a sleep. */
  lemma RetryStopsAtFirstDecisive<T>(triesAllowed: int, call: nat -> Outcome<T>, retries: Exn -> bool, k: nat)
    requires k < triesAllowed
    requires RetriedBefore(call, retries, k) && !RetriedAt(call, retries, k)
    ensures RetryWith(triesAllowed, call, retries) == RetryRun(call(k), k + 1, k)
  {
    RetryLoopFrom(triesAllowed, call, retries, 0, None, k);
  }

  lemma {:induction false} RetryLoopFrom<T>(triesAllowed: int, call: nat -> Outcome<T>, retries: Exn -> bool,
                                            tries: nat, last: Option<Exn>, k: nat)
    requires tries <= k < triesAllowed
    requires forall i: nat :: tries <= i < k ==> RetriedAt(call, retries, i)
    requires !RetriedAt(call, retries, k)
    ensures RetryLoop(triesAllowed, call, retries, tries, last) == RetryRun(call(k), k + 1, k)
    decreases k - tries
  {
    if tries < k {
      assert RetriedAt(call, retries, tries);
      RetryLoopFrom(triesAllowed, call, retries, tries + 1, Some(call(tries).exn), k);
    }
  }

  /** When every allowed attempt fails with a retried exception, the loop
      calls `triesAllowed` times, sleeps after each failure, the last one
      included, and throws the last failure. */
  lemma RetryExhausts<T>(triesAllowed: nat, call: nat -> Outcome<T>, retries: Exn -> bool)
    requires triesAllowed > 0 && RetriedBefore(call, retries, triesAllowed)
    ensures RetryWith(triesAllowed, call, retries) == RetryRun(call(triesAllowed - 1), triesAllowed, triesAllowed)
  {
    RetryLoopExhausts(triesAllowed, call, retries, 0, None);
  }

  lemma {:induction false} RetryLoopExhausts<T>(triesAllowed: nat, call: nat -> Outcome<T>, retries: Exn -> bool,
                                                tries: nat, last: Option<Exn>)
    requires tries <= triesAllowed && RetriedBefore(call, retries, triesAllowed)
    requires tries > 0 ==> call(tries - 1).Throw? && last == Some(call(tries - 1).exn)
    requires tries == 0 ==> triesAllowed > 0
    ensures RetryLoop(triesAllowed, call, retries, tries, last)
         == RetryRun(call(triesAllowed - 1), triesAllowed, triesAllowed)
    decreases triesAllowed - tries
  {
    if tries < triesAllowed {
      assert RetriedAt(call, retries, tries);
      RetryLoopExhausts(triesAllowed, call, retries, tries + 1, Some(call(tries).exn));
    } else {
      assert RetriedAt(call, retries, triesAllowed - 1);
    }
  }

  /** With no try allowed the call never runs, and `throw null` raises a
      `NullPointerException`. */
  lemma RetryWithoutTries<T>(triesAllowed: int, call: nat -> Outcome<T>, retries: Exn -> bool)
    requires triesAllowed <= 0
    ensures RetryWith(triesAllowed, call, retries) == RetryRun(Throw(NullPointer), 0, 0)
  {
  }

  /** Whatever the loop returns comes from one of its calls, unless no
      call was allowed. */
  lemma {:induction false} RetryResultFromCall<T>(triesAllowed: int, call: nat -> Outcome<T>, retries: Exn -> bool,
                                                  tries: nat, last: Option<Exn>)
    requires tries > 0 ==> call(tries - 1).Throw? && last == Some(call(tries - 1).exn)
    requires tries == 0 ==> last == None
    ensures var r := RetryLoop(triesAllowed, call, retries, tries, last);
      (r.calls > 0 && r.result == call(r.calls - 1)) || (r.calls == 0 && r.result == Throw(NullPointer))
    decreases triesAllowed - tries
  {
    if tries < triesAllowed {
      var out := call(tries);
      if out.Throw? && retries(out.exn) {
        RetryResultFromCall(triesAllowed, call, retries, tries + 1, Some(out.exn));
      }
    }
  }
}

/** The helpers of `moar.Exceptional`, the older twin of `Sugar`: a retry
    loop over `moar.RetryableException`, a truthiness test that counts
    `Boolean.FALSE` as present, `require` variants, `resolve` and the
    resolving `nonNull`. */
module Exceptional {
  import opened JavaLang
  import opened Sugar

  /** `moar.RetryableException` is what `Exceptional.retryable` retries. */
  predicate ExceptionalRetries(e: Exn) { e.RetryableTx? }

  /** `retryable(triesAllowed, retryWaitMs, call)`: the same loop as
      `Sugar.retry`, over the other exception class. */
  function RetryableLoop<T>(triesAllowed: int, call: nat -> Outcome<T>): (r: RetryRun<T>)
    ensures r.calls <= if triesAllowed < 0 then 0 else triesAllowed
  {
    RetryBound(triesAllowed, call, ExceptionalRetries, 0, None);
    RetryWith(triesAllowed, call, ExceptionalRetries)
  }

  /** A `moar.sugar.RetryableException` is not retried here: it escapes
      from the attempt that threw it. */
  lemma SugarRetryableNotRetriedHere<T>(triesAllowed: int, call: nat -> Outcome<T>)
    requires triesAllowed > 0 && call(0).Throw? && call(0).exn.Retryable?
    ensures RetryableLoop(triesAllowed, call) == RetryRun(call(0), 1, 0)
  {
    RetryStopsAtFirstDecisive(triesAllowed, call, ExceptionalRetries, 0);
  }

  /** `has(o)`: false only for null, an empty list or an empty string. */
  function Has(o: JObject): (r: bool)
    ensures !r <==> o == JNull || o == JList(0) || o == JStr("")
  {
    match o
    case JNull => false
    case JList(n) => n > 0
    case JStr(s) => |s| > 0
    case _ => true
  }

  /** The two truthiness tests differ exactly on the canonical
      `Boolean.FALSE`. */
  lemma HasDiffersOnFalse(o: JObject)
    ensures Has(o) != Sugar.Has(o) <==> o == JBoolean(false, true)
  {
  }

  /** `require(Object)`: a null, an empty list or an empty string throws a
      `NullPointerException`. */
  function RequireObject(o: JObject): (r: Outcome<()>)
    ensures r.Throw? <==> !Has(o)
    ensures r.Throw? ==> r.exn == NullPointer
  {
    var o2 := if o == JList(0) || o == JStr("") then JNull else o;
    if o2 == JNull then Throw(NullPointer) else Ok(())
  }

  /** `require(message, test)`. */
  function RequireMessage(message: string, test: bool): (r: Outcome<()>)
    ensures r.Ok? <==> test
    ensures r.Throw? ==> r.exn == StringMessage(message)
  {
    if !test then Throw(StringMessage(message)) else Ok(())
  }

  /** A value that may be a `Callable` or a `Future` of further values. */
  datatype Deferred =
    | Plain(v: Option<string>)
    | CallableOf(call: Outcome<Deferred>)
    | FutureOf(get: Outcome<Deferred>)

  /** `resolve(x)`: callables are called and futures awaited until a plain
      value (or null) remains; the first failure escapes. */
  function Resolve(x: Deferred): (r: Outcome<Option<string>>)
  {
    match x
    case Plain(v) => Ok(v)
    case CallableOf(c) => if c.Throw? then Throw(c.exn) else Resolve(c.value)
    case FutureOf(g) => if g.Throw? then Throw(g.exn) else Resolve(g.value)
  }

  /** Layers of callables and futures with no failure. */
  predicate Resolvable(x: Deferred) {
    match x
    case Plain(_) => true
    case CallableOf(c) => c.Ok? && Resolvable(c.value)
    case FutureOf(g) => g.Ok? && Resolvable(g.value)
  }

  /** The innermost plain value. */
  function Innermost(x: Deferred): Option<string>
    requires Resolvable(x)
  {
    match x
    case Plain(v) => v
    case CallableOf(c) => Innermost(c.value)
    case FutureOf(g) => Innermost(g.value)
  }

  /** Resolution fails exactly when some layer fails, and otherwise yields
      the innermost plain value; resolving that again changes nothing. */
  lemma {:induction false} ResolveFindsInnermost(x: Deferred)
    ensures Resolve(x).Ok? <==> Resolvable(x)
    ensures Resolvable(x) ==> Resolve(x) == Ok(Innermost(x)) && Resolve(Plain(Innermost(x))) == Resolve(x)
  {
    match x
    case Plain(_) =>
    case CallableOf(c) => if c.Ok? { ResolveFindsInnermost(c.value); }
    case FutureOf(g) => if g.Ok? { ResolveFindsInnermost(g.value); }
  }

  /** `nonNull(args...)`: each non-null argument is resolved (a failure
      made a runtime exception and thrown); the first non-null resolved
      value is returned, else a `NullPointerException`. */
  function NonNullResolved(args: seq<Deferred>): (r: Outcome<string>)
    ensures r.Throw? && r.exn.IsException() ==> r.exn.IsRuntime()
  {
    if |args| == 0 then Throw(NullPointer)
    else if args[0] == Plain(None) then NonNullResolved(args[1..])
    else
      match RequireCall(Resolve(args[0]))
      case Throw(e) => Throw(e)
      case Ok(v) => if v.Some? then Ok(v.value) else NonNullResolved(args[1..])
  }

  /** A returned value is the resolved value of one of the arguments. */
  lemma {:induction false} NonNullResolvedFound(args: seq<Deferred>)
    requires NonNullResolved(args).Ok?
    ensures exists k :: 0 <= k < |args| && Resolve(args[k]) == Ok(Some(NonNullResolved(args).value))
  {
    var r := NonNullResolved(args);
    if args[0] != Plain(None) && Resolve(args[0]).Ok? && Resolve(args[0]).value.Some? {
      assert Resolve(args[0]) == Ok(Some(r.value));
    } else {
      NonNullResolvedFound(args[1..]);
      var k :| 0 <= k < |args[1..]| && Resolve(args[1..][k]) == Ok(Some(r.value));
      assert args[k + 1] == args[1..][k];
    }
  }

  /** Over plain arguments the resolving `nonNull` is `Sugar.nonNull`. */
  lemma {:induction false} NonNullResolvedOfPlain(vs: seq<Option<string>>)
    ensures NonNullResolved(seq(|vs|, i requires 0 <= i < |vs| => Plain(vs[i]))) == NonNull(vs)
  {
    var args := seq(|vs|, i requires 0 <= i < |vs| => Plain(vs[i]));
    if |vs| > 0 {
      NonNullResolvedOfPlain(vs[1..]);
      assert args[1..] == seq(|vs[1..]|, i requires 0 <= i < |vs[1..]| => Plain(vs[1..][i]));
    }
  }

  /** `safely(call)` returning `Two(result, throwable)`. */
  function SafelyTwo<T>(call: Outcome<Option<T>>): (r: Safe<T>)
    ensures r == Sugar.Safely(call)
    ensures r.thrown.None? <==> call.Ok?
  {
    match call
    case Ok(v) => Safe(v, None)
    case Throw(e) => Safe(None, Some(e))
  }

  /** `closeQuietly(closeable)`: a null closeable is ignored, and the
      failure of a real `close` is swallowed. `closeable` is what its
      `close` does; the result is how the call ended and how many times
      `close` ran. */
  function CloseQuietly(closeable: Option<Outcome<()>>): (r: (Outcome<()>, nat))
    ensures r.0.Ok?
    ensures r.1 == if closeable.Some? then 1 else 0
  {
    match closeable
    case None => (Ok(()), 0)
    case Some(_) => (Ok(()), 1)
  }

  /** Whether `close` succeeds or fails makes no difference to the caller. */
  lemma CloseFailureHidden(e: Exn)
    ensures CloseQuietly(Some(Throw(e))) == CloseQuietly(Some(Ok(())))
  {
  }
}

=== FILE: tracker.dfy ===
/** `MoarThreadTracker`, `MoarThreadActivity` and `MoarThreadReport`: cost
    statistics per description. The atomics only make the updates safe
    under concurrency; each update is modelled as one sequential step. */
module ThreadTracking {
  import opened JavaLang
  import Sorting

  /** A tracker: its description, the running minimum, maximum, count and
      total of the elapsed times added, and its buckets. The bucket map is
      kept as a multiset of bucket keys: a key's multiplicity is its
      counter, and a key is in the map exactly when it has been counted. */
  datatype Tracker = Tracker(description: string, min: int, max: int, count: nat, total: int, buckets: multiset<int>)

  /** `new MoarThreadTracker(desc)`: the minimum starts at
      `Long.MAX_VALUE`, everything else at zero. */
  function NewTracker(desc: string): (t: Tracker)
    ensures t.description == desc && t.min == LongMax && t.max == 0
    ensures t.count == 0 && t.total == 0 && t.buckets == multiset{}
  {
    Tracker(desc, LongMax, 0, 0, 0, multiset{})
  }

  /** The bucket of an elapsed time: `elap / bucketSize` in `long`
      arithmetic (truncating, and wrapping for `MIN_VALUE / -1`). */
  function BucketKey(elap: int, bucketSize: int): int
    requires bucketSize != 0
  {
    Wrap64(JavaDiv(elap, bucketSize)) as int
  }

  /** The tracker after an `add`, and what it threw. */
  datatype Added = Added(tracker: Tracker, thrown: Option<Exn>)

  /** `add(elap)`: a null time fails unboxing before anything changes; the
      minimum, maximum, count and total are updated before the bucket key
      is computed, so a zero bucket size fails with those updates made. */
  function Add(t: Tracker, elap: Option<Long>, bucketSize: Long): (r: Added)
    ensures elap.None? ==> r == Added(t, Some(NullPointer))
    ensures elap.Some? ==> var e := elap.value as int;
      && r.tracker.description == t.description
      && r.tracker.count == t.count + 1
      && r.tracker.min <= t.min && r.tracker.min <= e && (r.tracker.min == t.min || r.tracker.min == e)
      && r.tracker.max >= t.max && r.tracker.max >= e && (r.tracker.max == t.max || r.tracker.max == e)
      && (r.tracker.total - (t.total + e)) % 0x1_0000_0000_0000_0000 == 0
    ensures elap.Some? && bucketSize == 0 ==> r.thrown == Some(Arithmetic) && r.tracker.buckets == t.buckets
    ensures elap.Some? && bucketSize != 0 ==>
      r.thrown.None? && r.tracker.buckets == t.buckets + multiset{BucketKey(elap.value as int, bucketSize as int)}
  {
    match elap
    case None => Added(t, Some(NullPointer))
    case Some(v) =>
      var e := v as int;
      var stats := t.(min := if e < t.min then e else t.min,
                      max := if e > t.max then e else t.max,
                      count := t.count + 1,
                      total := Wrap64(t.total + e) as int);
      if bucketSize == 0 then Added(stats, Some(Arithmetic))
      else Added(stats.(buckets := t.buckets + multiset{BucketKey(e, bucketSize as int)}), None)
  }

  /** A new tracker given the times one after another, stopping at the
      first failure. */
  function Track(desc: string, vs: seq<Long>, bucketSize: Long): Added
    decreases |vs|
  {
    if |vs| == 0 then Added(NewTracker(desc), None)
    else
      var before := Track(desc, vs[..|vs| - 1], bucketSize);
      if before.thrown.Some? then before
      else Add(before.tracker, Some(vs[|vs| - 1]), bucketSize)
  }

  /** The sum of the times, as mathematical integers. */
  function Sum(vs: seq<Long>): int {
    if |vs| == 0 then 0 else vs[0] as int + Sum(vs[1..])
  }

  lemma {:induction false} SumSnoc(vs: seq<Long>)
    requires |vs| > 0
    ensures Sum(vs) == Sum(vs[..|vs| - 1]) + vs[|vs| - 1] as int
  {
    if |vs| > 1 {
      SumSnoc(vs[1..]);
      assert vs[1..][..|vs[1..]| - 1] == vs[..|vs| - 1][1..];
    }
  }

  /** The bucket keys of the times. */
  function Keys(vs: seq<Long>, bucketSize: Long): multiset<int>
    requires bucketSize != 0
  {
    if |vs| == 0 then multiset{} else Keys(vs[..|vs| - 1], bucketSize) + multiset{BucketKey(vs[|vs| - 1] as int, bucketSize as int)}
  }

  /** Two integers that agree modulo 2^64 wrap to the same `long`. */
  lemma Wrap64Congruent(x: int, y: int)
    requires (x - y) % 0x1_0000_0000_0000_0000 == 0
    ensures Wrap64(x) == Wrap64(y)
  {
    var k := (x - y) / 0x1_0000_0000_0000_0000;
    assert x - y == k * 0x1_0000_0000_0000_0000;
    assert x % 0x1_0000_0000_0000_0000 == y % 0x1_0000_0000_0000_0000;
  }

  /** Wrapping a partial sum before adding to it changes nothing. */
  lemma WrapAgain(x: int, y: int)
    ensures Wrap64(Wrap64(x) as int + y) == Wrap64(x + y)
  {
    Wrap64Congruent(Wrap64(x) as int + y, x + y);
  }

  /** The minimum and maximum of the times and the starting values. */
  predicate Extremes(t: Tracker, vs: seq<Long>) {
    && t.min <= LongMax && (forall i :: 0 <= i < |vs| ==> t.min <= vs[i] as int)
    && (t.min == LongMax || exists i :: 0 <= i < |vs| && t.min == vs[i] as int)
    && t.max >= 0 && (forall i :: 0 <= i < |vs| ==> t.max >= vs[i] as int)
    && (t.max == 0 || exists i :: 0 <= i < |vs| && t.max == vs[i] as int)
  }

  /** One more add keeps the extremes. */
  lemma {:induction false} ExtremesStep(before: Tracker, vs: seq<Long>, bucketSize: Long)
    requires |vs| > 0 && Extremes(before, vs[..|vs| - 1])
    ensures Extremes(Add(before, Some(vs[|vs| - 1]), bucketSize).tracker, vs)
  {
    var init := vs[..|vs| - 1];
    var last := vs[|vs| - 1];
    var after := Add(before, Some(last), bucketSize).tracker;
    forall i | 0 <= i < |vs|
      ensures after.min <= vs[i] as int && after.max >= vs[i] as int
    {
      if i < |vs| - 1 {
        assert vs[i] == init[i];
      }
    }
    if after.min != LongMax && after.min != last as int {
      var i :| 0 <= i < |init| && before.min == init[i] as int;
      assert after.min == vs[i] as int;
    }
    if after.max != 0 && after.max != last as int {
      var i :| 0 <= i < |init| && before.max == init[i] as int;
      assert after.max == vs[i] as int;
    }
  }

  /** One more add keeps the total the wrapped sum. */
  lemma {:induction false} TotalStep(before: Tracker, vs: seq<Long>, bucketSize: Long)
    requires |vs| > 0 && before.total == Wrap64(Sum(vs[..|vs| - 1])) as int
    ensures Add(before, Some(vs[|vs| - 1]), bucketSize).tracker.total == Wrap64(Sum(vs)) as int
  {
    AddToWrapped(before, Some(vs[|vs| - 1]), Sum(vs[..|vs| - 1]), bucketSize);
    WrapSnoc(vs);
  }

  /** The wrapped sum of the times, split before the last one. */
  lemma {:induction false} WrapSnoc(vs: seq<Long>)
    requires |vs| > 0
    ensures Wrap64(Sum(vs)) == Wrap64(Sum(vs[..|vs| - 1]) + vs[|vs| - 1] as int)
  {
    SumSnoc(vs);
  }

  /** An add to a total that holds a wrapped sum holds the wrapped sum
      with the time added. */
  lemma AddToWrapped(t: Tracker, elap: Option<Long>, sum: int, bucketSize: Long)
    requires elap.Some? && t.total == Wrap64(sum) as int
    ensures Add(t, elap, bucketSize).tracker.total == Wrap64(sum + elap.value as int) as int
  {
    assert Add(t, elap, bucketSize).tracker.total == Wrap64(t.total + elap.value as int) as int;
    WrapAgain(sum, elap.value as int);
  }

  /** The statistics after any number of adds with a non-zero bucket
      size: the count is the number of times, the total their sum in
      `long` arithmetic, the minimum and maximum those of the times and
      the starting values, and every time counted in exactly one bucket,
      so the bucket counters add up to the count. */
  lemma {:induction false} TrackStats(desc: string, vs: seq<Long>, bucketSize: Long)
    requires bucketSize != 0
    ensures var t := Track(desc, vs, bucketSize);
      && t.thrown.None?
      && t.tracker.description == desc
      && t.tracker.count == |vs|
      && t.tracker.total == Wrap64(Sum(vs)) as int
      && t.tracker.buckets == Keys(vs, bucketSize)
      && |t.tracker.buckets| == t.tracker.count
      && Extremes(t.tracker, vs)
    decreases |vs|
  {
    if |vs| > 0 {
      var init := vs[..|vs| - 1];
      TrackStats(desc, init, bucketSize);
      var before := Track(desc, init, bucketSize).tracker;
      ExtremesStep(before, vs, bucketSize);
      TotalStep(before, vs, bucketSize);
    }
  }

  /** With a zero bucket size the first add fails, after counting it. */
  lemma ZeroBucketSizeFails(desc: string, v: Long)
    ensures Track(desc, [v], 0).thrown == Some(Arithmetic)
    ensures Track(desc, [v], 0).tracker.count == 1
  {
    assert [v][..0] == [];
  }

  /** `getBuckets()`: a read-only view, the counter of every key seen. */
  function GetBuckets(t: Tracker): (r: map<int, nat>)
    ensures forall k :: k in r <==> k in t.buckets
    ensures forall k :: k in r ==> r[k] == t.buckets[k] && r[k] > 0
  {
    map k | k in t.buckets :: t.buckets[k]
  }

  // ---------------------------------------------------------------------
  // Activity and report
  // ---------------------------------------------------------------------

  /** `MoarThreadActivity`: a tracker per description, the start time and
      the accumulated cost. */
  datatype Activity = Activity(costMap: map<string, Tracker>, start: int, cost: int)

  /** Every tracker is filed under its own description. */
  predicate Filed(a: Activity) {
    forall d :: d in a.costMap ==> a.costMap[d].description == d
  }

  /** A new activity, started at `now`. */
  function NewActivity(now: int): (a: Activity)
    ensures Filed(a) && a.costMap == map[] && a.cost == 0
  {
    Activity(map[], now, 0)
  }

  /** `accumulate(description, elapsed)`: a tracker is made the first time
      a description is seen, the time is added to it, and the activity's
      cost grows by the time. A null description fails in the concurrent
      map; a failing add leaves the tracker updated and the cost alone. */
  function Accumulate(a: Activity, description: Option<string>, elapsed: Long, bucketSize: Long): (r: (Activity, Option<Exn>))
    requires Filed(a)
    ensures Filed(r.0) && r.0.start == a.start
    ensures description.None? ==> r == (a, Some(NullPointer))
    ensures description.Some? ==> var d := description.value;
      && r.0.costMap.Keys == a.costMap.Keys + {d}
      && (forall e :: e in a.costMap && e != d ==> r.0.costMap[e] == a.costMap[e])
      && (d in a.costMap ==> r.0.costMap[d] == Add(a.costMap[d], Some(elapsed), bucketSize).tracker)
      && (d !in a.costMap ==> r.0.costMap[d] == Add(NewTracker(d), Some(elapsed), bucketSize).tracker)
    ensures description.Some? && bucketSize != 0 ==> r.1.None? && r.0.cost == Wrap64(a.cost + elapsed as int) as int
    ensures description.Some? && bucketSize == 0 ==> r.1 == Some(Arithmetic) && r.0.cost == a.cost
  {
    match description
    case None => (a, Some(NullPointer))
    case Some(d) =>
      var t := if d in a.costMap then a.costMap[d] else NewTracker(d);
      var added := Add(t, Some(elapsed), bucketSize);
      var m := a.costMap[d := added.tracker];
      if added.thrown.Some? then (a.(costMap := m), added.thrown)
      else (a.(costMap := m, cost := Wrap64(a.cost + elapsed as int) as int), None)
  }

  /** `MoarThreadReport`: the time and the trackers. */
  datatype Report = Report(time: int, trackers: seq<Tracker>)

  /** `getTime()`. */
  function GetTime(r: Report): int {
    r.time
  }

  /** `getTrackers()`. */
  function GetTrackers(r: Report): seq<Tracker> {
    r.trackers
  }

  /** `getTracker(desc)`: the first tracker with that description, or
      null. */
  method GetTracker(report: Report, desc: string) returns (r: Option<Tracker>)
    ensures r.None? <==> forall i :: 0 <= i < |report.trackers| ==> report.trackers[i].description != desc
    ensures r.Some? ==> r.value.description == desc
    ensures r.Some? ==>
      exists i :: 0 <= i < |report.trackers| && report.trackers[i] == r.value &&
        forall j :: 0 <= j < i ==> report.trackers[j].description != desc
  {
    var i := 0;
    while i < |report.trackers|
      invariant i <= |report.trackers|
      invariant forall j :: 0 <= j < i ==> report.trackers[j].description != desc
    {
      if report.trackers[i].description == desc {
        return Some(report.trackers[i]);
      }
      i := i + 1;
    }
    return None;
  }

  /** The descriptions of a list of trackers. */
  function Descriptions(ts: seq<Tracker>): (r: seq<string>)
    ensures |r| == |ts| && forall i :: 0 <= i < |ts| ==> r[i] == ts[i].description
  {
    seq(|ts|, i requires 0 <= i < |ts| => ts[i].description)
  }

  /** `describe()`: the trackers sorted by description, and the time since
      the start. `order` is the order the map's key set enumerates, and
      `now` the clock. */
  function Describe(a: Activity, order: seq<string>, now: int): (r: Report)
    requires Filed(a) && Sorting.Distinct(order) && Sorting.Elems(order) == a.costMap.Keys
    ensures r.time == Wrap64(now - a.start) as int
    ensures Sorting.StrictlySorted(Descriptions(r.trackers))
    ensures Sorting.Elems(Descriptions(r.trackers)) == a.costMap.Keys
    ensures forall i :: 0 <= i < |r.trackers| ==>
      r.trackers[i].description in a.costMap && r.trackers[i] == a.costMap[r.trackers[i].description]
  {
    var keys := Sorting.SortStrings(order);
    assert forall i :: 0 <= i < |keys| ==> keys[i] in Sorting.Elems(keys);
    var ts := seq(|keys|, i requires 0 <= i < |keys| => a.costMap[keys[i]]);
    assert Descriptions(ts) == keys;
    Report(Wrap64(now - a.start) as int, ts)
  }

  /** The report does not depend on the order the map enumerates its keys
      in. */
  lemma DescribeIgnoresOrder(a: Activity, o1: seq<string>, o2: seq<string>, now: int)
    requires Filed(a)
    requires Sorting.Distinct(o1) && Sorting.Elems(o1) == a.costMap.Keys
    requires Sorting.Distinct(o2) && Sorting.Elems(o2) == a.costMap.Keys
    ensures Describe(a, o1, now) == Describe(a, o2, now)
  {
    var r1 := Describe(a, o1, now).trackers;
    var r2 := Describe(a, o2, now).trackers;
    Sorting.StrictlySortedUnique(Descriptions(r1), Descriptions(r2));
    assert |r1| == |r2|;
    forall i | 0 <= i < |r1| ensures r1[i] == r2[i] {
      assert Descriptions(r1)[i] == Descriptions(r2)[i];
    }
  }

  /** Looking a description up in the report finds its tracker exactly
      when it was accumulated. */
  method ReportLookup(a: Activity, order: seq<string>, now: int, desc: string) returns (r: Option<Tracker>)
    requires Filed(a) && Sorting.Distinct(order) && Sorting.Elems(order) == a.costMap.Keys
    ensures r.Some? <==> desc in a.costMap
    ensures r.Some? ==> r.value == a.costMap[desc]
  {
    var report := Describe(a, order, now);
    r := GetTracker(report, desc);
    if desc in a.costMap {
      assert desc in Sorting.Elems(Descriptions(report.trackers));
      var i :| 0 <= i < |report.trackers| && Descriptions(report.trackers)[i] == desc;
    }
  }
}

=== FILE: txsession.dfy ===
/** A transaction session (`WokeTxSession`) over one held connection, and
    `runWokeTransaction`, which runs a unit of work in it with retry,
    rolls back once when the work finally fails, and closes the session.
    The connection is abstract: what each of its calls does is given, and
    the model records the calls in order. */
module TxSession {
  import opened JavaLang
  import opened Sugar

  /** `Connection.TRANSACTION_READ_UNCOMMITTED`. */
  const ReadUncommitted: int := 1

  /** The number of tries `runWokeTransaction` allows unless the property
      `txTries` says otherwise. */
  const DefaultTxTries: int := 3

  /** The calls made on the held connection. */
  datatype ConnOp = SetIsolation(level: int) | SetAutoCommit(on: bool) | RollbackOp | CloseHold

  /** What the connection's calls do. */
  datatype Conn = Conn(isolation: Outcome<()>, autoCommitOff: Outcome<()>, autoCommitOn: Outcome<()>, rollback: Outcome<()>)

  /** A connection hold: the connection it gives access to, its identifier
      quote, and whether closing it releases the connection. */
  datatype Hold = Hold(conn: nat, quote: string, releases: bool)

  /** The connection calls closing a hold makes. */
  function HoldClose(h: Hold): (ops: seq<ConnOp>)
    ensures CloseHold in ops <==> h.releases
  {
    if h.releases then [CloseHold] else []
  }

  /** `reserve()` on a transaction session: a hold on the same connection
      with the same quote, whose `close` does nothing. */
  function Reserve(h: Hold): (r: Hold)
    ensures r.conn == h.conn && r.quote == h.quote
    ensures HoldClose(r) == []
  {
    Hold(h.conn, h.quote, false)
  }

  /** Reserving through a reserved hold changes nothing. */
  lemma ReserveIdempotent(h: Hold)
    ensures Reserve(Reserve(h)) == Reserve(h)
  {
  }

  /** The constructor: isolation READ_UNCOMMITTED, then auto-commit off,
      inside `require` (a failure stops it and is made a runtime
      exception). */
  function Open(c: Conn): (r: (Outcome<()>, seq<ConnOp>))
    ensures r.0.Ok? <==> c.isolation.Ok? && c.autoCommitOff.Ok?
    ensures r.0.Ok? ==> r.1 == [SetIsolation(ReadUncommitted), SetAutoCommit(false)]
    ensures |r.1| > 0 && r.1[0] == SetIsolation(ReadUncommitted)
  {
    if c.isolation.Throw? then (RequireCall(c.isolation), [SetIsolation(ReadUncommitted)])
    else (RequireCall(c.autoCommitOff), [SetIsolation(ReadUncommitted), SetAutoCommit(false)])
  }

  /** `close()`: auto-commit back on (a failure is kept), the hold closed
      in any case, then the kept failure thrown as a runtime exception. */
  function Close(c: Conn): (r: (Outcome<()>, seq<ConnOp>))
    ensures r.1 == [SetAutoCommit(true), CloseHold]
    ensures r.0.Ok? <==> c.autoCommitOn.Ok?
    ensures r.0.Throw? ==> r.0.exn == AsRuntime(c.autoCommitOn.exn)
  {
    var kept := if c.autoCommitOn.Throw? then Some(c.autoCommitOn.exn) else None;
    (if kept.Some? then Throw(AsRuntime(kept.value)) else Ok(()), [SetAutoCommit(true)] + [CloseHold])
  }

  /** `rollback()`: the connection's rollback inside `require`. */
  function Rollback(c: Conn): (r: Outcome<()>)
    ensures r.Ok? <==> c.rollback.Ok?
    ensures r.Throw? ==> r.exn == AsRuntime(c.rollback.exn) || !r.exn.IsException()
  {
    RequireCall(c.rollback)
  }

  /** How a transaction ended: its result, the connection calls in order,
      and how many times the unit of work ran. */
  datatype TxRun = TxRun(result: Outcome<()>, ops: seq<ConnOp>, attempts: nat)

  /** The body of the try-with-resources once the session is open: the
      work through `retry`; on a final failure, one rollback and the
      failure rethrown (a failing rollback's exception replaces it); then
      `close`, whose own failure is suppressed when the body already
      threw. */
  function RunOpened(tries: int, c: Conn, work: nat -> Outcome<()>): (r: TxRun)
    ensures |r.ops| >= 2 && r.ops[|r.ops| - 2..] == [SetAutoCommit(true), CloseHold]
  {
    var run := Retry(tries, work);
    var closed := Close(c);
    if run.result.Ok? then TxRun(RequireCall(closed.0), closed.1, run.calls)
    else
      var rb := Rollback(c);
      var thrown := if rb.Throw? then rb.exn else AsRuntime(run.result.exn);
      TxRun(RequireCall(Throw(thrown)), [RollbackOp] + closed.1, run.calls)
  }

  /** `runWokeTransaction(session, tx)` as written: when the session's
      constructor fails, the try-with-resources has no resource to close,
      so the reserved hold is never closed. */
  function RunTransactionAsWritten(tries: int, c: Conn, work: nat -> Outcome<()>): (r: TxRun)
    ensures |r.ops| > 0 && r.ops[0] == SetIsolation(ReadUncommitted)
  {
    var opening := Open(c);
    if opening.0.Throw? then TxRun(RequireCall(opening.0), opening.1, 0)
    else
      var r := RunOpened(tries, c, work);
      TxRun(r.result, opening.1 + r.ops, r.attempts)
  }

  /** A connection whose isolation level cannot be set: the transaction
      fails without the hold ever being closed. */
  lemma OpenFailureLeaksHold(tries: int, work: nat -> Outcome<()>)
    ensures var c := Conn(Throw(SqlFailure("isolation")), Ok(()), Ok(()), Ok(()));
      var r := RunTransactionAsWritten(tries, c, work);
      r.result.Throw? && CloseHold !in r.ops
  {
    var c := Conn(Throw(SqlFailure("isolation")), Ok(()), Ok(()), Ok(()));
    assert RunTransactionAsWritten(tries, c, work).ops == [SetIsolation(ReadUncommitted)];
  }

  /** `runWokeTransaction` with the hold closed on every path: a failed
      constructor closes the hold before its exception propagates. */
  function RunTransaction(tries: int, c: Conn, work: nat -> Outcome<()>): (r: TxRun)
    ensures |r.ops| > 0 && r.ops[0] == SetIsolation(ReadUncommitted)
    ensures r.ops[|r.ops| - 1] == CloseHold
  {
    var opening := Open(c);
    if opening.0.Throw? then TxRun(RequireCall(opening.0), opening.1 + [CloseHold], 0)
    else
      var r := RunOpened(tries, c, work);
      assert r.ops[|r.ops| - 1] == r.ops[|r.ops| - 2..][1];
      TxRun(r.result, opening.1 + r.ops, r.attempts)
  }

  /** The connection protocol of an opened transaction: isolation and
      auto-commit off first, then at most one rollback, then auto-commit
      back on and the hold closed. */
  predicate Bracketed(ops: seq<ConnOp>, rolledBack: bool) {
    ops == [SetIsolation(ReadUncommitted), SetAutoCommit(false)]
           + (if rolledBack then [RollbackOp] else [])
           + [SetAutoCommit(true), CloseHold]
  }

  /** The number of times `op` occurs. */
  function Occurrences(ops: seq<ConnOp>, op: ConnOp): nat {
    if |ops| == 0 then 0 else (if ops[0] == op then 1 else 0) + Occurrences(ops[1..], op)
  }

  lemma {:induction false} OccurrencesAppend(a: seq<ConnOp>, b: seq<ConnOp>, op: ConnOp)
    ensures Occurrences(a + b, op) == Occurrences(a, op) + Occurrences(b, op)
  {
    if |a| == 0 {
      assert a + b == b;
    } else {
      assert (a + b)[1..] == a[1..] + b;
      OccurrencesAppend(a[1..], b, op);
    }
  }

  /** The calls the opened session makes. */
  lemma RunOpenedOps(tries: int, c: Conn, work: nat -> Outcome<()>)
    ensures RunOpened(tries, c, work).ops
      == (if Retry(tries, work).result.Throw? then [RollbackOp] else []) + [SetAutoCommit(true), CloseHold]
    ensures RunOpened(tries, c, work).attempts == Retry(tries, work).calls
  {
  }

  /** The protocol holds one rollback when it says so, and one close. */
  lemma BracketedCounts(ops: seq<ConnOp>, rolledBack: bool)
    requires Bracketed(ops, rolledBack)
    ensures Occurrences(ops, RollbackOp) == (if rolledBack then 1 else 0)
    ensures Occurrences(ops, CloseHold) == 1
  {
    var a := [SetIsolation(ReadUncommitted), SetAutoCommit(false)];
    var m: seq<ConnOp> := if rolledBack then [RollbackOp] else [];
    var z := [SetAutoCommit(true), CloseHold];
    assert ops == a + (m + z);
    OccurrencesAppend(a, m + z, RollbackOp);
    OccurrencesAppend(m, z, RollbackOp);
    OccurrencesAppend(a, m + z, CloseHold);
    OccurrencesAppend(m, z, CloseHold);
  }

  /** Once the session is open the protocol is kept, and the rollback
      happens, exactly once, precisely when the work finally failed. */
  lemma TransactionBracketed(tries: int, c: Conn, work: nat -> Outcome<()>)
    requires c.isolation.Ok? && c.autoCommitOff.Ok?
    ensures Bracketed(RunTransaction(tries, c, work).ops, Retry(tries, work).result.Throw?)
    ensures Occurrences(RunTransaction(tries, c, work).ops, RollbackOp)
      == (if Retry(tries, work).result.Throw? then 1 else 0)
    ensures Occurrences(RunTransaction(tries, c, work).ops, CloseHold) == 1
    ensures RunTransaction(tries, c, work).attempts == Retry(tries, work).calls
  {
    var failed := Retry(tries, work).result.Throw?;
    var r := RunTransaction(tries, c, work);
    var a := [SetIsolation(ReadUncommitted), SetAutoCommit(false)];
    var m: seq<ConnOp> := if failed then [RollbackOp] else [];
    var z := [SetAutoCommit(true), CloseHold];
    RunOpenedOps(tries, c, work);
    assert r.ops == a + (m + z);
    Assoc(a, m, z);
    BracketedCounts(r.ops, failed);
  }

  lemma Assoc<T>(a: seq<T>, b: seq<T>, c: seq<T>)
    ensures a + b + c == a + (b + c)
  {
  }

  /** The outcome: success when the work succeeded within its tries and
      auto-commit could be restored; the work's last failure, made a
      runtime exception, when it failed and the rollback went through. */
  lemma TransactionResult(tries: int, c: Conn, work: nat -> Outcome<()>)
    requires c.isolation.Ok? && c.autoCommitOff.Ok?
    ensures Retry(tries, work).result.Ok? ==>
      (RunTransaction(tries, c, work).result.Ok? <==> c.autoCommitOn.Ok?)
    ensures Retry(tries, work).result.Throw? && c.rollback.Ok? ==>
      RunTransaction(tries, c, work).result == Throw(AsRuntime(Retry(tries, work).result.exn))
  {
    var run := Retry(tries, work);
    var r := RunOpened(tries, c, work);
    assert RunTransaction(tries, c, work).result == r.result;
    if run.result.Ok? {
      assert r.result == RequireCall(Close(c).0);
    } else if c.rollback.Ok? {
      assert r.result == RequireCall(Throw(AsRuntime(run.result.exn)));
    }
  }

  /** The correction only adds the missing close: whenever the session
      opened, both versions make the same calls and end the same way. */
  lemma CorrectionAgreesWhenOpened(tries: int, c: Conn, work: nat -> Outcome<()>)
    requires c.isolation.Ok? && c.autoCommitOff.Ok?
    ensures RunTransaction(tries, c, work) == RunTransactionAsWritten(tries, c, work)
  {
  }
}

=== FILE: uriutil.dfy ===
/** `UriUtil.shortUriDesc`: a short label for a URI made of the second
    last label of its host and the last segment of its path. The URI is
    given by what `getHost()` and `getPath()` return. */
module UriUtil {
  import opened JavaLang
  import opened JString

  /** The host part: everything from the last dot dropped, then
      everything up to and including the new last dot, if there is one. A
      host without a dot fails in `substring(0, -1)`. */
  function HostPart(h: string): (r: Outcome<string>)
    ensures r.Ok? <==> '.' in h
    ensures r.Throw? ==> r.exn == IndexOutOfBounds
    ensures r.Ok? ==> '.' !in r.value
  {
    match Substring(h, 0, LastIndexOfChar(h, '.'))
    case Throw(e) => Throw(e)
    case Ok(front) =>
      var p := LastIndexOfChar(front, '.');
      if p >= 0 then Ok(front[p + 1..]) else Ok(front)
  }

  /** The path from its last slash on; a path without one fails in
      `substring(-1)`. */
  function PathTail(pa: string): (r: Outcome<string>)
    ensures r.Ok? <==> '/' in pa
    ensures r.Throw? ==> r.exn == IndexOutOfBounds
    ensures r.Ok? ==> |r.value| > 0 && r.value[0] == '/' && '/' !in r.value[1..] && EndsWith(pa, r.value)
  {
    SubstringFrom(pa, LastIndexOfChar(pa, '/'))
  }

  /** `shortUriDesc(uri)`: the host part followed by the path's tail. A
      null host or path fails. */
  function ShortUriDesc(host: Option<string>, path: Option<string>): (r: Outcome<string>)
    ensures host.None? ==> r == Throw(NullPointer)
    ensures host.Some? && '.' !in host.value ==> r == Throw(IndexOutOfBounds)
    ensures host.Some? && '.' in host.value && path.None? ==> r == Throw(NullPointer)
    ensures host.Some? && '.' in host.value && path.Some? && '/' !in path.value ==> r == Throw(IndexOutOfBounds)
    ensures r.Ok? ==> r.value == HostPart(host.value).value + PathTail(path.value).value
  {
    match host
    case None => Throw(NullPointer)
    case Some(h) =>
      match HostPart(h)
      case Throw(e) => Throw(e)
      case Ok(part) =>
        match path
        case None => Throw(NullPointer)
        case Some(pa) =>
          match PathTail(pa)
          case Throw(e) => Throw(e)
          case Ok(tail) => Ok(part + tail)
  }

  /** The last `c` in a text is the one before a part without `c`. */
  lemma {:induction false} LastAfter(x: string, c: char, y: string)
    requires c !in y
    ensures LastIndexOfChar(x + [c] + y, c) == |x|
    decreases |y|
  {
    var s := x + [c] + y;
    if |y| == 0 {
      assert s[|s| - 1] == c;
    } else {
      var front := y[..|y| - 1];
      assert y == front + [y[|y| - 1]];
      assert y[|y| - 1] in y;
      assert s[..|s| - 1] == x + [c] + front;
      LastAfter(x, c, front);
    }
  }

  /** A host with at least two dots gives its second last label. */
  lemma HostOfLabels(front: string, part: string, tld: string)
    requires '.' !in part && '.' !in tld
    ensures HostPart(front + "." + part + "." + tld) == Ok(part)
  {
    var h := front + "." + part + "." + tld;
    var cut := front + "." + part;
    assert h == cut + ['.'] + tld;
    LastAfter(cut, '.', tld);
    assert h[..|cut|] == cut;
    assert cut == front + ['.'] + part;
    LastAfter(front, '.', part);
    assert cut[|front| + 1..] == part;
  }

  /** A host with a single dot gives the part before it. */
  lemma HostOfOneDot(part: string, tld: string)
    requires '.' !in part && '.' !in tld
    ensures HostPart(part + "." + tld) == Ok(part)
  {
    var h := part + "." + tld;
    assert h == part + ['.'] + tld;
    LastAfter(part, '.', tld);
    assert h[..|part|] == part;
  }

  /** A path's tail is its last segment with the slash in front. */
  lemma TailOfSegments(dir: string, seg: string)
    requires '/' !in seg
    ensures PathTail(dir + "/" + seg) == Ok("/" + seg)
  {
    var pa := dir + "/" + seg;
    assert pa == dir + ['/'] + seg;
    LastAfter(dir, '/', seg);
    assert pa[|dir|..] == "/" + seg;
  }

  /** A host with at least two dots and a path give the host's second
      last label and the path's last segment; a host with one dot gives
      the part before the dot. */
  lemma LabelAndSegment(front: string, part: string, tld: string, dir: string, seg: string)
    requires '.' !in part && '.' !in tld && '/' !in seg
    ensures ShortUriDesc(Some(front + "." + part + "." + tld), Some(dir + "/" + seg)) == Ok(part + "/" + seg)
    ensures ShortUriDesc(Some(part + "." + tld), Some(dir + "/" + seg)) == Ok(part + "/" + seg)
  {
    HostOfLabels(front, part, tld);
    HostOfOneDot(part, tld);
    TailOfSegments(dir, seg);
    Joined(front + "." + part + "." + tld, dir + "/" + seg, part, "/" + seg);
    Joined(part + "." + tld, dir + "/" + seg, part, "/" + seg);
    Assoc(part, "/", seg);
  }

  /** The description joins the two parts. */
  lemma Joined(h: string, pa: string, x: string, y: string)
    requires HostPart(h) == Ok(x) && PathTail(pa) == Ok(y)
    ensures ShortUriDesc(Some(h), Some(pa)) == Ok(x + y)
  {
  }

  /** `a.b.com` with the path `/x/y` is described as `b/y`. */
  lemma Example(host: string, path: string)
    requires host == "a.b.com" && path == "/x/y"
    ensures ShortUriDesc(Some(host), Some(path)) == Ok("b/y")
  {
    ExampleParts();
    LabelAndSegment("a", "b", "com", "/x", "y");
  }

  lemma ExampleParts()
    ensures "a" + "." + "b" + "." + "com" == "a.b.com"
    ensures "/x" + "/" + "y" == "/x/y"
    ensures "b" + "/" + "y" == "b/y"
  {
  }
}

=== FILE: wsse.dfy ===
/** `WsseRequest`: a SOAP 1.1 envelope (section 4 of the W3C SOAP 1.1
    note) whose header carries a WS-Security UsernameToken (section 3.1
    of the OASIS Web Services Security UsernameToken Profile 1.0) with a
    clear-text username and password. */
module Wsse {
  import opened JavaLang
  import opened JString

  /** The SOAP 1.1 envelope namespace. */
  const SoapEnvelope: string := "http://schemas.xmlsoap.org/soap/envelope/"

  /** The pieces the OASIS 2004/01 schema locations are made of. */
  const OasisWss200401: string := "http://docs.oasis-open.org/wss/2004/01/"
  const OasisSecurity: string := "oasis-200401-wss-wssecurity-"
  const Secext10Xsd: string := "secext-1.0.xsd"
  const Utility10Xsd: string := "utility-1.0.xsd"

  /** The `wsse` namespace: the WS-Security extension schema. */
  const WsseNamespace: string := OasisWss200401 + OasisSecurity + Secext10Xsd

  /** The `wsu` namespace: the WS-Security utility schema. */
  const WsuNamespace: string := OasisWss200401 + OasisSecurity + Utility10Xsd

  /** A reference as string concatenation and `%s` print it: null as
      `null`. */
  function Shown(s: Option<string>): (r: string)
    ensures s.None? ==> r == "null"
    ensures s.Some? ==> r == s.value
  {
    if s.Some? then s.value else "null"
  }

  /** The header up to the username. */
  function HeaderOpen(): string {
    "<soapenv:Header>" + "<wsse:Security xmlns:wsse=\"" + WsseNamespace + "\">"
    + "<wsse:UsernameToken xmlns:wsu=\"" + WsuNamespace + "\">" + "<wsse:Username>"
  }

  /** Between the username and the password. */
  const HeaderMiddle: string := "</wsse:Username>" + "<wsse:Password>"

  /** After the password. */
  const HeaderClose: string := "</wsse:Password>" + "</wsse:UsernameToken>" + "</wsse:Security>" + "</soapenv:Header>"

  /** `createWsseHeaderTemplate()`: the header with a `%s` for the
      username and one for the password. */
  function HeaderTemplate(): string {
    HeaderOpen() + "%s" + HeaderMiddle + "%s" + HeaderClose
  }

  /** Text in front of a formatting outcome. */
  function Prefixed(a: string, r: Outcome<string>): Outcome<string> {
    match r
    case Throw(e) => Throw(e)
    case Ok(t) => Ok(a + t)
  }

  /** `String.format` for templates whose only conversion is `%s`: each
      `%s` takes the next argument, extra arguments are ignored, a
      missing one fails. Any other `%` is outside the model and read as a
      failure; the header template has none. */
  function FormatS(t: string, args: seq<string>): Outcome<string>
    decreases |t|
  {
    if |t| == 0 then Ok("")
    else if t[0] == '%' then
      if |t| >= 2 && t[1] == 's' then
        if |args| == 0 then Throw(Runtime("MissingFormatArgumentException"))
        else Prefixed(args[0], FormatS(t[2..], args[1..]))
      else Throw(Runtime("UnknownFormatConversionException"))
    else Prefixed([t[0]], FormatS(t[1..], args))
  }

  /** Text without `%` is copied. */
  lemma {:induction false} FormatPlain(a: string, rest: string, args: seq<string>)
    requires '%' !in a
    ensures FormatS(a + rest, args) == Prefixed(a, FormatS(rest, args))
    decreases |a|
  {
    if |a| > 0 {
      var t := a + rest;
      assert a[0] in a;
      assert t[0] == a[0] && t[1..] == a[1..] + rest;
      FormatPlain(a[1..], rest, args);
      assert [a[0]] + a[1..] == a;
      if FormatS(rest, args).Ok? {
        assert [a[0]] + (a[1..] + FormatS(rest, args).value) == a + FormatS(rest, args).value;
      }
    } else {
      assert a + rest == rest;
      if FormatS(rest, args).Ok? {
        assert a + FormatS(rest, args).value == FormatS(rest, args).value;
      }
    }
  }

  /** A `%s` takes the first argument. */
  lemma FormatSlot(x: string, rest: string, args: seq<string>)
    ensures FormatS("%s" + rest, [x] + args) == Prefixed(x, FormatS(rest, args))
  {
    var t := "%s" + rest;
    assert t[0] == '%' && t[1] == 's' && t[2..] == rest;
    assert ([x] + args)[1..] == args;
  }

  lemma NoPercentInOpen()
    ensures '%' !in HeaderOpen()
  {
    NoPercentInNamespaces();
    NoPercentInTags();
  }

  lemma NoPercentInNamespaces()
    ensures '%' !in WsseNamespace && '%' !in WsuNamespace
  {
    assert '%' !in OasisWss200401 + OasisSecurity;
  }

  lemma NoPercentInTags()
    ensures '%' !in "<soapenv:Header>" + "<wsse:Security xmlns:wsse=\""
    ensures '%' !in "\">" + "<wsse:UsernameToken xmlns:wsu=\""
    ensures '%' !in "\">" + "<wsse:Username>"
  {
  }

  lemma NoPercentInRest()
    ensures '%' !in HeaderMiddle && '%' !in HeaderClose
    ensures |HeaderMiddle| > 0 && HeaderMiddle[0] == '<' && |HeaderClose| > 0 && HeaderClose[0] == '<'
  {
  }

  /** `wsseHeader(username, password)`: the template with the username and
      the password put in as they are, without XML escaping; a null one
      reads `null`. */
  function WsseHeader(username: Option<string>, password: Option<string>): (r: string)
    ensures r == HeaderOpen() + Shown(username) + HeaderMiddle + Shown(password) + HeaderClose
  {
    var u := Shown(username);
    var p := Shown(password);
    HeaderFormat(u, p);
    FormatS(HeaderTemplate(), [u, p]).value
  }

  /** The header template formatted with two arguments. */
  lemma HeaderFormat(u: string, p: string)
    ensures FormatS(HeaderTemplate(), [u, p]) == Ok(HeaderOpen() + u + HeaderMiddle + p + HeaderClose)
  {
    NoPercentInOpen();
    NoPercentInRest();
    FormatTwo(HeaderOpen(), HeaderMiddle, HeaderClose, u, p);
  }

  /** A template with two `%s` slots and no other `%`, formatted with two
      arguments, has the arguments in the slots. */
  lemma FormatTwo(o: string, m: string, c: string, u: string, p: string)
    requires '%' !in o && '%' !in m && '%' !in c
    ensures FormatS(o + "%s" + m + "%s" + c, [u, p]) == Ok(o + u + m + p + c)
  {
    var tail := m + "%s" + c;
    Assoc(o + "%s", m, "%s");
    Assoc(o + "%s", m + "%s", c);
    assert [u, p] == [u] + [p] && [p] == [p] + [];
    FormatOne(o, tail, u, [p]);
    FormatOne(m, c, p, []);
    assert c == c + "";
    FormatPlain(c, "", []);
    Assoc(o + u, m + p, c);
    Assoc(o + u, m, p);
  }

  /** Plain text, a slot, and the rest. */
  lemma FormatOne(o: string, rest: string, u: string, args: seq<string>)
    requires '%' !in o
    ensures FormatS(o + "%s" + rest, [u] + args) == Prefixed(o + u, FormatS(rest, args))
  {
    assert o + "%s" + rest == o + ("%s" + rest);
    FormatPlain(o, "%s" + rest, [u] + args);
    FormatSlot(u, rest, args);
    if FormatS(rest, args).Ok? {
      assert o + (u + FormatS(rest, args).value) == o + u + FormatS(rest, args).value;
    }
  }

  /** Two texts without `<`, each followed by something that starts with
      `<`, are told apart by where the `<` comes. */
  lemma SplitAtTag(a: string, b: string, x: string, y: string)
    requires '<' !in a && '<' !in b && |x| > 0 && x[0] == '<' && |y| > 0 && y[0] == '<'
    requires a + x == b + y
    ensures a == b && x == y
  {
    assert a == (a + x)[..|a|] && b == (b + y)[..|b|];
    assert x == (a + x)[|a|..] && y == (b + y)[|b|..];
  }

  /** Between fixed texts that start with `<`, values without `<` can be
      read back. */
  lemma SlotsDetermined(o: string, m: string, c: string, u1: string, p1: string, u2: string, p2: string)
    requires |m| > 0 && m[0] == '<' && |c| > 0 && c[0] == '<'
    requires '<' !in u1 && '<' !in p1 && '<' !in u2 && '<' !in p2
    requires o + u1 + m + p1 + c == o + u2 + m + p2 + c
    ensures u1 == u2 && p1 == p2
  {
    var h := o + u1 + m + p1 + c;
    assert h == o + (u1 + (m + p1 + c));
    assert o + u2 + m + p2 + c == o + (u2 + (m + p2 + c));
    assert u1 + (m + p1 + c) == h[|o|..] == u2 + (m + p2 + c);
    SplitAtTag(u1, u2, m + p1 + c, m + p2 + c);
    assert m + p1 + c == m + (p1 + c) && m + p2 + c == m + (p2 + c);
    assert p1 + c == (m + p1 + c)[|m|..] && p2 + c == (m + p2 + c)[|m|..];
    SplitAtTag(p1, p2, c, c);
  }

  /** The header gives back the username and password when neither holds
      a `<`. */
  lemma HeaderDeterminesCredentials(u1: string, p1: string, u2: string, p2: string)
    requires '<' !in u1 && '<' !in p1 && '<' !in u2 && '<' !in p2
    requires WsseHeader(Some(u1), Some(p1)) == WsseHeader(Some(u2), Some(p2))
    ensures u1 == u2 && p1 == p2
  {
    NoPercentInRest();
    SlotsDetermined(HeaderOpen(), HeaderMiddle, HeaderClose, u1, p1, u2, p2);
  }

  // ---------------------------------------------------------------------
  // The request
  // ---------------------------------------------------------------------

  /** A request: the caller's namespace prefix and URL, the credentials
      and the body XML (each null until set). */
  datatype Request = Request(namespace: Option<string>, namespaceUrl: Option<string>,
                             username: Option<string>, password: Option<string>, body: Option<string>)

  /** `new WsseRequest(namespace, namespaceUrl)`. */
  function NewRequest(namespace: Option<string>, namespaceUrl: Option<string>): (r: Request)
    ensures r.namespace == namespace && r.namespaceUrl == namespaceUrl
    ensures r.username.None? && r.password.None? && r.body.None?
  {
    Request(namespace, namespaceUrl, None, None, None)
  }

  /** `setUsername(value)`. */
  function SetUsername(r: Request, value: Option<string>): (q: Request)
    ensures q.username == value && q == r.(username := value)
  {
    r.(username := value)
  }

  /** `setPassword(value)`. */
  function SetPassword(r: Request, value: Option<string>): (q: Request)
    ensures q.password == value && q == r.(password := value)
  {
    r.(password := value)
  }

  /** `setBody(value)`, given the XML text the map converts to. */
  function SetBody(r: Request, xml: string): (q: Request)
    ensures q.body == Some(xml) && q == r.(body := Some(xml))
  {
    r.(body := Some(xml))
  }

  /** The envelope's opening tag: the SOAP namespace and the caller's
      prefix bound to the caller's URL. */
  function EnvelopeOpen(r: Request): string {
    "<soapenv:Envelope xmlns:soapenv=\"" + SoapEnvelope + "\" "
    + "xmlns:" + Shown(r.namespace) + "=\"" + Shown(r.namespaceUrl) + "\"" + ">"
  }

  /** `toXml()`: the envelope, then the header, then the body inside
      `soapenv:Body`, then the closing tag. */
  function ToXml(r: Request): (x: string)
    ensures StartsWith(x, EnvelopeOpen(r) + WsseHeader(r.username, r.password))
    ensures EndsWith(x, BodyElement(r.body))
    ensures |x| == |EnvelopeOpen(r)| + |WsseHeader(r.username, r.password)| + |BodyElement(r.body)|
  {
    var open := EnvelopeOpen(r);
    var header := WsseHeader(r.username, r.password);
    var close := BodyElement(r.body);
    Layout(open + header, close);
    open + header + close
  }

  /** The body element and the envelope's closing tag. */
  function BodyElement(body: Option<string>): string {
    "<soapenv:Body>" + Shown(body) + "</soapenv:Body>" + "</soapenv:Envelope>"
  }

  lemma Layout(head: string, close: string)
    ensures StartsWith(head + close, head) && EndsWith(head + close, close)
  {
    assert (head + close)[..|head|] == head;
  }

  /** The envelope carries the credentials as they are, right after its
      opening tag and the fixed start of the header. */
  lemma EnvelopeCredentials(r: Request)
    ensures StartsWith(ToXml(r), EnvelopeOpen(r) + HeaderOpen() + Shown(r.username) + HeaderMiddle + Shown(r.password))
  {
    var h := EnvelopeOpen(r) + HeaderOpen() + Shown(r.username) + HeaderMiddle + Shown(r.password);
    assert EnvelopeOpen(r) + WsseHeader(r.username, r.password) == h + HeaderClose by {
      var o := EnvelopeOpen(r);
      var k := HeaderOpen() + Shown(r.username) + HeaderMiddle + Shown(r.password);
      Assoc(o, k, HeaderClose);
      PrefixChain(o, HeaderOpen(), Shown(r.username), HeaderMiddle, Shown(r.password));
    }
    PrefixOfPrefix(ToXml(r), h, HeaderClose);
  }

  lemma PrefixChain(o: string, a: string, b: string, c: string, d: string)
    ensures o + (a + b + c + d) == o + a + b + c + d
  {
    Assoc(o, a + b + c, d);
    Assoc(o, a + b, c);
    Assoc(o, a, b);
  }

  lemma PrefixOfPrefix(x: string, h: string, t: string)
    requires StartsWith(x, h + t)
    ensures StartsWith(x, h)
  {
    assert x[..|h|] == (h + t)[..|h|];
  }

  /** A request whose credentials and body were never set renders them
      as `null`. */
  lemma UnsetRendersNull(ns: Option<string>, url: Option<string>)
    ensures var x := ToXml(NewRequest(ns, url));
      StartsWith(x, EnvelopeOpen(NewRequest(ns, url)) + HeaderOpen() + "null" + HeaderMiddle + "null")
      && EndsWith(x, BodyElement(None))
  {
    EnvelopeCredentials(NewRequest(ns, url));
  }
}
